=== FILE: README.md ===
# Guitar transcription engine, modelled in Dafny

This project models the core of a small guitar-transcription engine and proves
properties of that model. It does five things:

- **Note names and semitone values.** Names such as `C4` and `A#5` are turned
  into semitone numbers and back. Middle C is 0.
- **Fretboard positions.** Every pitch is listed at each (string, fret) where
  a six-string guitar in standard tuning can play it.
- **Chord shapes.** The notes of a chord are combined into candidate
  fingerings ("shapes"), and the easiest one is picked.
- **Hand simulation.** A four-finger hand is moved from shape to shape. Each
  move has a cost, and each position has a "strain".
- **Path and tablature.** The cheapest path through a song is searched for,
  and bars of tablature text are laid out two to a staff.

Besides the current code (`music.py`, `player.py`, `tab.py`), two older copies
are modelled as written:

- the older engine in `notes.py`, including its `Hand.move`;
- the scratch module `test_notes.py`.

Python exceptions become a `Result` naming the exception kind. This matters
because the callers catch some kinds and let others propagate.

| file | module | models |
|---|---|---|
| base.dfy | Base | `Option`, `Result`, the exception kinds, integer helpers |
| text.dfy | Text | `str(int)`, one-digit `int()`, ASCII case mapping, `join`, repetition |
| shapes.dfy | Shapes | the six-slot `Shape`: union, played count, span, `list_tuples` |
| search.dfy | Search | `itertools.product`, the first minimum, group-by-key dictionaries |
| pitches.dfy | Pitches | `Pitch`/`Note` of music.py: names, values, realisations, arithmetic |
| chords.dfy | Chords | `Chord` (set, sort, minimum duration, candidates, `shape`) and `Song.add` |
| chord_fixtures.dfy | ChordFixtures | the span-limit fixtures of the chord tests |
| hands.dfy | Hands | `Finger`, `Hand.move` (both generations), `Hand.shape`, `Hand.strain` |
| hand_steps.dfy | HandSteps | step lemmas that evaluate one `move`, `shape` or `strain` |
| hand_fixtures.dfy | HandFixtures | the open, barre and chord-change fixtures of the hand tests |
| guitarist.dfy | Guitarist | `Guitarist.play` and `Guitarist.read` |
| tablature.dfy | Tablature | `Bar`, `Staff`, `Tab` and their text |
| older_notes.dfy | OlderNotes | notes.py: uncapped frets, `get_low_fret`, duration codes, older `Chord` |
| scratch_notes.dfy | ScratchNotes | test_notes.py: scratch `Note`, `name_to_num`, `chord_to_num`, `num_to_fret` |

## Behaviour worth knowing

- **Unplayable chords.** For a song of two or more chords, `Guitarist.play`
  returns `None` when some chord has no candidate shape (player.py:203-219).
  For a one-chord song it returns the chord's `shape`, which raises
  AttributeError when there is no candidate (player.py:201-202,
  music.py:177-184). `read` skips a middle window whose play gives `None`,
  through its `TypeError` handler (player.py:190-191). A `None` from the
  opening passage or from the last window is not caught: `shape[0]`
  (player.py:185) or `shape[1:]` (player.py:193) raises TypeError.
- **Windows.** Each later passage of `read` is built as the previous head
  followed by the window's chords (player.py:188). The head is a Shape, and
  `Song.add` drops it because `Note(shape)` raises AttributeError
  (music.py:44, 204-206). So each window is searched on its own chords, and
  the previous head does not steer it.
- **Bar width.** A bar has a fixed 32 columns (tab.py:16). When a note's line
  has no space left, the `break` at tab.py:58-59 leaves the loop over notes.
  That note, and every note and placeholder after it, is not written.
- **Strain.** `Hand.strain` reads the fingers where `Hand.move` left them
  (player.py:44-67).

## Model

| member | source | states |
|---|---|---|
| Pitches.GetName | music.py:78-92 | The name is the natural letter when value mod 12 is a natural. Otherwise it is the letter a semitone below, followed by `#`. The octave is floor(value / 12) + 4, written in decimal. notes.py:60-74 and test_notes.py:34-47 are the same code. |
| Pitches.NameValueRoundTrip | music.py:94-108 | Reading back the name of `v` gives `v` exactly when -48 <= v <= 71. Outside that range the octave has more than one digit, and only the last character is read. |
| Pitches.LongValue | music.py:96-101 | A name longer than three characters with a digit last and a known letter first reads as (digit - 4) * 12 + letter. The middle characters are ignored. |
| Pitches.FromName | music.py:37-44 | `Pitch(str)` succeeds exactly when the name has at least two characters and reads to a value, and the pitch keeps the spelling. A shorter name raises IndexError (`name[-1]` or `name[-2]`). An unreadable name leaves the value None, so `get_shapes` raises TypeError. |
| Pitches.NewNote | music.py:121-126 | `Note(arg, d)` succeeds exactly when `Pitch(arg)` does, holds the duration `d`, and otherwise raises the same exception. |
| Pitches.FretsOn | music.py:110-118 | Under any tuning, the positions are exactly the (s, f) with f >= 0 (and f <= cap when there is a cap) and LOW_E + tuning[s] + f == value, in ascending string order. |
| Pitches.Realizations | music.py:110-118 | `get_shapes` lists exactly the single-note shapes (s, f) with 0 <= f <= 18 that sound the value in standard tuning, in ascending string order. |
| Pitches.RealizationFixtures | test_music.py:17-25 | E3 gives [(0,0)], A6 gives [(5,17)] and E6 gives [(4,17), (5,12)]. |
| Pitches.NameFixtures | test_music.py:5-15 | `Note(-8)` and `Note('E3')` are the same pitch, E3 of value -8. A6 is 33 and E6 is 28. |
| Pitches.MiddleC | music.py:10 | C4 is MIDDLE_C, value 0, in both directions. |
| Pitches.DropDFixture | music.py:11-12 | In drop-D tuning, low D (-10) is the open low string. Standard tuning cannot play it. |
| Pitches.Sub | music.py:61-67 | Pitch - int is the pitch that many semitones lower. Pitch - Pitch is the integer interval between them. |
| Pitches.ArithmeticShifts | music.py:55-67 | Adding `n` semitones and then subtracting `n` restores the value. (p + n) - p is the interval `n`. |
| Pitches.PitchOperands | music.py:55-65 | Adding a pitch to a pitch has no effect. Subtracting one gives the interval. |
| Pitches.NoteAdd | music.py:55-59 | Note + int is a new Note, shifted by that many semitones, with the default quarter duration (the duration is not carried). Note + Pitch is the note itself. |
| Pitches.NoteSub | music.py:61-67 | Note - int is a new Note, that many semitones lower, held a quarter. Note - Pitch is the interval. |
| Pitches.NoteShiftBack | music.py:55-67 | Shifting a note up and back down gives a Note equal, under `Note.__eq__`, to the original pitch held a quarter. |
| Pitches.NoteIntervals | music.py:55-67 | (n + k) - n is the interval k. n - m is the difference of their values. Adding a pitch leaves a note unchanged. |
| Pitches.NoteSubFixture | music.py:61-63 | `Note('E3', 1/2) - 1` is the Note D#3 of value -9, held a quarter. |
| Shapes.Union | music.py:157-159 | The union plays every string either part plays. Where both play a string, it keeps the higher fret (assumed rule). |
| Shapes.SpanAtMost | music.py:161 | span <= d holds exactly when every two stopped frets differ by at most d. |
| Shapes.ListTuplesRoundTrip | player.py:60 | Rebuilding a shape from its `list_tuples` gives the same shape. |
| Shapes.PlaceAllCount | music.py:161 | Placing k notes adds at most k played strings. It adds exactly k when no two notes share a string, and no note lands on a string already played. |
| Search.ProductMembers | music.py:156 | A tuple is in the product exactly when it takes its i-th element from the i-th list. |
| Search.PrefixEachOrder | music.py:156 | Product order: the first list varies slowest, as `itertools.product` does. |
| Search.ProductEmpty | player.py:205-206 | The product is empty exactly when some list is empty. |
| Search.GroupByPartition | notes.py:146-156 | Every key present has exactly the items of that key, in input order, and no other keys appear. |
| Chords.DedupFails | music.py:145 | Building `set(note_list)` raises AttributeError exactly when an int argument meets a Note of the same hash. In that case `Note.__eq__` reads `.value` of the int. Non-int numbers are not modelled as clashing (see Left out). |
| Chords.SmallHashes | music.py:131-132 | Below 2^61 - 1 in magnitude, an int and a Note have the same hash exactly when they are equal, or are -1 and -2 (a hash of -1 is reserved and becomes -2). |
| Chords.WideHashes | music.py:131-132 | Past that bound the hashes part: the int 2^61 - 1 hashes as 0. It clashes with the Note of value 0, and not with the Note of its own value. |
| Chords.SortStable | music.py:150 | `sort` keeps notes of equal value in their original relative order. |
| Chords.SortNotes | music.py:150 | The sorted notes are ascending by value and are a permutation of the input. |
| Chords.MinDuration | music.py:153 | `min` of no notes raises ValueError. Otherwise the result is the duration of some note and is <= every note's duration. |
| Chords.NewChord | music.py:138-162 | `Chord(args, d)` fails with ValueError exactly when there are no arguments, with AttributeError on a hash clash, and otherwise with the exception of the first argument that cannot become a Note. Otherwise the notes are sorted by value. Every argument is present as an equal note, and every note is built from some argument. The duration is the least note duration and is attained. The shapes are the candidates of the note values. |
| Chords.CandidatesExact | music.py:156-162 | A shape is a candidate exactly when it is the union of one realisation per note on pairwise distinct strings, and its span is <= 5. |
| Chords.OrderFree | music.py:145-150 | The candidate list depends only on the multiset of notes, whatever order the set yields them in. |
| ChordFixtures.CandidatesF3ASharp5 | test_music.py:70-71 | F3 with A#5 has exactly one candidate, `[1,_,_,_,_,6]`. |
| ChordFixtures.CandidatesF3F5 | test_music.py:72-74 | F3 with F5 has `[1,_,_,_,6,_]` and then `[1,_,_,_,_,1]`. |
| Chords.PreferredShape | music.py:173-184 | `Chord.shape` is the hand shape of the first candidate whose strain is minimal. It fails with AttributeError when there are no candidates, and with a candidate's error when one cannot be scored. |
| Chords.PreferredIsLoop | music.py:177-184 | That closed form equals the loop as written: start from None, catch AttributeError, and replace the best only on a strict `<`. |
| Chords.Add | music.py:199-206 | `Song.add` appends a Note as a one-note chord and a Chord unchanged. Any other argument is appended as a one-note chord when `Note(arg)` succeeds. The song is unchanged when that raises TypeError or AttributeError, and IndexError propagates. |
| Chords.NoteChordBuilt | music.py:200-201 | `Chord([note])` cannot fail. It is the one-note chord with the note's own duration. |
| Chords.NewSongOfNotes | music.py:190-194 | A song built from notes and chords holds one chord per item, in order. |
| Chords.AddAllSkips | music.py:204-206 | Items whose construction raises TypeError or AttributeError leave the song as it was. |
| Hands.NewFinger | player.py:126-131 | A finger is down exactly when it is given a string 0..5 and an int fret > 0, and then it sits there. |
| Hands.FingerMove | player.py:145-159 | Moving to fret 0 lifts the finger. A lifted finger is placed for free. A down finger costs the change in string plus the change in fret. |
| Hands.FingerFixtures | test_player.py:5-33 | These are the test fixtures over strings 0..5 and frets 0..11: fret 0 gives a lifted finger, and a move from (0,1) costs string + fret - 1. |
| Hands.FingerMoveTriangle | player.py:156-159 | Going directly never costs more than going through an intermediate position. |
| Hands.Move | player.py:69-120 | `move` raises ValueError exactly when `min` runs over no positive fret. In the current code that means a target with a non-open note but no fret above 0. In the older code it means any target without a fret above 0. |
| Hands.IndexTarget | player.py:85-86 | The index finger takes the lowest positive fret, and on that fret the lowest string. |
| Hands.MoveAllOpen | player.py:79-82 | An all-open target records the open strings and costs 0. Fingers and barre are untouched. |
| Hands.MoveIndex | player.py:84-90 | After a fretted move, the open strings are exactly the target's open notes, and the index finger sits on the index target. |
| Hands.MoveBarre | player.py:97-103 | The barre is set exactly when it was already set, or when other targets share the index fret and (in the current code) no open string lies above the index string. |
| Hands.MoveKeepsBarre | player.py:97-103 | `move` never clears a barre. A barre always rests on a pressed index finger. |
| Hands.MoveFrettedCost | player.py:89-118 | With fingers 2-4 lifted, the whole cost of a move is the index finger's own cost. |
| Hands.PlaceOne | player.py:106-114 | `place_finger` either leaves the finger as it was or puts it on a target note that is not yet done, at or above the previous fret. It never lowers the running fret. |
| Hands.HandShape | player.py:28-42 | `Hand.shape` raises TypeError exactly when barred with a lifted index finger. Otherwise a string sounds exactly when it is open, fingered, or above a barring index finger, and each sounding string has the fret that put it there. |
| Hands.SeatedShape | player.py:28-67 | A hand seated on a shape reproduces the shape's open strings and fingered notes, and its strain is >= 0. |
| Hands.NewHandSound | player.py:16-22 | `Hand(shape)` succeeds for every shape with frets >= 0, keeps the barre invariant, sounds the shape's open strings, and has strain >= 0. |
| Hands.SingleNoteHand | player.py:16-67 | A hand built on one note (s, f) has exactly that shape and strain max(0, f - 12), for every string 0..5 and fret >= 0 (test_player.py:97-101, 163-167). |
| Hands.Strain | player.py:44-67 | Strain raises TypeError exactly when barred with a lifted index finger, and is >= 0 without a barre. |
| HandSteps.StrainUnbarred | player.py:52-67 | Without a barre, strain is the sum of the adjacent-finger strains plus one per fret above 12 for each finger. |
| HandSteps.StrainBarred | player.py:52-67 | With a barre, strain also adds the number of shape notes on the index fret, less one. |
| HandFixtures.AllOpen | test_player.py:103-105 | The all-open hand has the all-open shape and strain 0, and moving it to all-open costs 0 (test_player.py:137-139, 159-161). |
| HandFixtures.OpenC | test_player.py:107-109 | `Hand(open_c)` has shape open_c and strain 1 (test_player.py:169-171). |
| HandFixtures.OpenA | test_player.py:111-113 | `Hand(open_a)` has shape open_a and strain 2 (test_player.py:173-175). |
| HandFixtures.OpenG | test_player.py:115-117 | `Hand(open_g)` has shape open_g and strain 5 (test_player.py:177-179). |
| HandFixtures.OpenE | test_player.py:119-121 | `Hand(open_e)` has shape open_e and strain 2 (test_player.py:181-183). |
| HandFixtures.OpenD | test_player.py:123-125 | `Hand(open_d)` has shape open_d and strain 1 (test_player.py:185-188). |
| HandFixtures.BarreA | test_player.py:127-129 | `Hand(barre_a)` has shape barre_a and strain 6 (test_player.py:198-200). |
| HandFixtures.BarreB | test_player.py:131-133 | `Hand(barre_b)` has shape barre_b and strain 6 (test_player.py:190-192). |
| HandFixtures.BarreF | test_player.py:194-196 | `Hand(barre_f)` has strain 6 and shape barre_f. |
| HandFixtures.ChangeBarreFToA | test_player.py:141-143 | Moving from barre F to barre A costs 4. |
| HandFixtures.ChangeBarreAToF | test_player.py:145-147 | Moving from barre A to barre F costs 4. |
| HandFixtures.ChangeOpenCToG | test_player.py:149-151 | Moving from open C to open G costs 11. |
| HandFixtures.ChangeOpenEToA | test_player.py:153-155 | Moving from open E to open A costs 8. |
| OlderNotes.OlderMoveNeedsFret | notes.py:216 | The older `move` raises ValueError on a target with no fretted note. It has no early return. |
| OlderNotes.OlderBarreIgnoresOpen | notes.py:229-232 | The older `move` barres even with an open string above the index. The current one does not. |
| Guitarist.WalkConcat | player.py:207-211 | Walking a path in two parts gives the same hand and the same summed score as walking it in one. |
| Guitarist.PlayOne | player.py:201-202 | A one-chord song plays the chord's preferred shape, and fails as that does. |
| Guitarist.PlayBest | player.py:203-219 | The path `play` returns takes one candidate per chord, scores no worse than any combination, and strictly beats every earlier combination. |
| Guitarist.PlayFails | player.py:206-211 | `play` raises exactly when some combination cannot be scored. |
| Guitarist.PlayNone | player.py:203-219 | `play` returns None exactly when some chord has no candidates. |
| Guitarist.EmptyPlay | player.py:203-219 | A song of no chords plays the empty path: the product of no lists has one empty combination. |
| Guitarist.ReadResolved | player.py:178-195 | When every window resolves, `read` succeeds. It gives one shape per chord, except a song of DELTA + 1 chords, which gives one fewer. Each shape fits its chord. |
| Guitarist.AnchorDropped | player.py:183-188 | The opening passage `Song(chords)` and a later passage `Song([previous head, *chords])` are both exactly `chords`: the leading Shape is dropped by `Song.add`. |
| Guitarist.ReadLong | player.py:186-195 | For a song longer than DELTA + 1: path[0] is the head of the opening passage, path[i] is the head of the window from chord i, and the tail comes from the last window. |
| Guitarist.ReadEmpty | player.py:183-185 | Reading an empty song raises IndexError at `shape[0]`. |
| Guitarist.ReadNoOpening | player.py:183-185 | A window of 0 chords leaves an empty opening passage, so `read` raises IndexError. |
| Tablature.NewBar | tab.py:31-32 | A fresh bar has six lines, each `|`, 32 spaces and `|`. |
| Tablature.NewBarText | tab.py:35-36 | A blank bar prints as six copies of its line, each followed by a newline (test_tab.py:11-13). |
| Tablature.PadSpec | tab.py:44-47 | Padding keeps the notes. It adds blank placeholders only, for strings 0..5 that no note is on, in ascending order, so every string is covered. |
| Tablature.LineIndex | tab.py:50 | A note on string s is written to line 5 - s. Strings 6..11 wrap to Python's negative indices. Any other string raises IndexError. |
| Tablature.FirstSpace | tab.py:53-59 | The copy stops at the first space, and there is none exactly when the line is full. |
| Tablature.EntryLayout | tab.py:61-71 | The new line keeps the old text before the first space. Then come the fret text, dashes up to floor(32 * duration) minus the text length (never past the closing bar), spaces, and a closing `|`. |
| Tablature.WriteStopsWhenFull | tab.py:54-59 | Once a note's line has no space, writing stops and nothing further changes. |
| Tablature.WriteBadString | tab.py:50 | A note on a string outside 0..11 raises IndexError. |
| Tablature.WholeNoteFills | tab.py:61-71 | A whole-note entry on a blank line fills it: no space remains, and the length is unchanged. |
| Tablature.AddNotesFresh | tab.py:39-73 | On a fresh bar, each note's line is its entry. Every other line gets a blank entry of the same width. |
| Tablature.StaffAdd | tab.py:90-96 | Adding a bar appends each bar line, without its opening `|`, to the staff's line. A line the staff lacks is appended whole. |
| Tablature.StaffOfWidth | tab.py:90-96 | After k >= 1 bars of full width, each of the six lines has 33k + 1 characters. |
| Tablature.NullStaffText | tab.py:85-87 | A staff of no lines prints as a lone newline (test_tab.py:15-16). |
| Tablature.BlankStaffText | test_tab.py:18-25 | k blank bars on one staff print as six lines of k `|` plus 32 dashes, closed by `|`. |
| Tablature.TabAdd | tab.py:109-113 | `Tab.add_bar` opens a new staff exactly when there is none or the last staff's first line has at least 67 characters. Otherwise it extends the last staff. Earlier staffs are unchanged. A last staff without lines raises IndexError. |
| Tablature.TabOfBarsLaid | tab.py:109-113 | Any sequence of full-width bars lays out two bars per staff, in order, with a lone last bar when the count is odd. |
| Tablature.TabOfBarsWidth | tab.py:90-113 | Each staff line of such a tab has 67 characters, or 34 for a lone last bar. |
| Tablature.BlankTabText | test_tab.py:27-38 | 2h or 2h + 1 blank bars print as h two-bar staffs, then one one-bar staff when the count is odd. |
| OlderNotes.Frets | notes.py:92-99 | The older `get_frets` lists every (s, f) with f >= 0 that sounds the value in standard tuning. There is no fret cap. |
| OlderNotes.CappedFrets | notes.py:92-99 | The capped realisations of the current code are exactly the older list, cut at fret 18. |
| OlderNotes.FretsFall | notes.py:56 | Along the list, frets strictly decrease as the string rises. |
| OlderNotes.LowFret | notes.py:54-58 | `get_low_fret` returns None exactly when no fret reaches the capo. Otherwise it returns the last listed position that does. |
| OlderNotes.LowFretLowest | notes.py:54-58 | That position has the smallest fret at or above the capo. |
| OlderNotes.Duration | notes.py:103 | The codes W, H, Q, E, S and T map to 1, 1/2, ..., 1/32. Any other code raises KeyError. |
| OlderNotes.DurationCodes | notes.py:103 | Each code is half the one before it. Q is a quarter and W is a whole note. |
| OlderNotes.MakeNote | notes.py:104-106 | `Note(arg, t=...)` succeeds exactly when the pitch builds and the code is known. It keeps the pitch and takes the code's duration. |
| OlderNotes.SetDuration | notes.py:108-113 | `set_duration` keeps the pitch and takes the code's duration. An unknown code raises KeyError. |
| OlderNotes.NoFallback | notes.py:108-113 | The quarter-note fallback is never reached, because the dictionary raises KeyError and only IndexError is caught. |
| OlderNotes.OrderCovers | notes.py:122 | Whatever order the set yields, it is empty exactly when the arguments are, and it can be built exactly when every argument can. |
| OlderNotes.ChordNotes | notes.py:122-126 | Each element in set order becomes its note: a Note as given, anything else through `Note(x)`. |
| OlderNotes.StringCount | notes.py:134 | The set of strings is as large as the list exactly when no two notes share a string. |
| OlderNotes.SortPos | notes.py:135 | `sorted(shape)` is ascending and a permutation of the combination. |
| OlderNotes.NewOldChord | notes.py:117-135 | The older `Chord` fails exactly when there are no arguments or one cannot be built. Otherwise each note comes from its argument, the duration is the least note duration and is attained, no arguments raise ValueError, and the shapes are the sorted distinct-string combinations. |
| OlderNotes.ShapesExact | notes.py:132-135 | Every distinct-string combination of realisations appears, sorted, among the shapes. |
| OlderNotes.ShapeForm | notes.py:132-135 | Every shape has one position per note, on strictly ascending strings, and permutes a combination of realisations. |
| OlderNotes.SpanFromFrets | notes.py:158-164 | A shape's span key is its fret sum minus (its size times its lowest fret), and it is >= 0. |
| OlderNotes.SpanSum | notes.py:158-169 | `span_sum` raises ValueError exactly when some shape is empty. |
| OlderNotes.SumsPartition | notes.py:146-169 | `fret_sum` and `span_sum` file each shape under exactly its own key, in order, and have no other keys. |
| OlderNotes.PreferredShape | notes.py:138-144 | The older `Chord.shape` is the first listed shape with the least span key. It raises ValueError when there are no shapes or one is empty. |
| OlderNotes.LeastKey | notes.py:142-144 | The least dictionary key is that shape's key. |
| ScratchNotes.ScratchValue | test_notes.py:50-64 | The scratch `get_value` raises IndexError exactly on the empty name. |
| ScratchNotes.ScratchAgrees | test_notes.py:27-29 | Reading the upper-cased name agrees with the main `get_value` on every name except a three-character flat. A flat reads as None here. |
| ScratchNotes.ScratchNameRoundTrip | test_notes.py:34-64 | The scratch round trip holds exactly for -48 <= v <= 71. |
| ScratchNotes.NewScratchNote | test_notes.py:20-31 | An int names itself by `get_name`, and a string keeps its spelling. An empty name raises IndexError. An unreadable name raises TypeError in `get_frets`. Any other argument raises AttributeError. |
| ScratchNotes.FlatNoteFails | test_notes.py:27-31 | `Note('Ab4')` raises, while the main reading gives 8. |
| ScratchNotes.ScratchNoteRoundTrip | test_notes.py:20-31 | `Note(get_name(v))` has value v exactly for -48 <= v <= 71. |
| ScratchNotes.ScratchFrets | test_notes.py:66-73 | The scratch `get_frets` lists, by string, the fret value - LOW_E + tuning[s], wherever value >= LOW_E + tuning[s]. |
| ScratchNotes.ScratchFretsShifted | test_notes.py:66-73 | Each scratch position lies 2 * tuning[s] frets above the true one, so it sounds the value only on string 0. |
| ScratchNotes.ScratchFretsMisplace | test_notes.py:71 | For middle C, the scratch list holds (1, 13), which sounds 10. The true position (1, 3) is missing. |
| ScratchNotes.NameToNum | test_notes.py:76-93 | `name_to_num` raises IndexError exactly on the empty name. It is None for a non-digit octave, an unknown letter, or an unknown accidental in a three-character name. Otherwise it is 12 * octave + letter + accidental. |
| ScratchNotes.NameToNumShift | test_notes.py:76-93 | On plainly cased names, `name_to_num` is `get_value` plus 48: there is no -4 octave offset. |
| ScratchNotes.MiddleC | test_notes.py:83 | `name_to_num('C4')` is 48. |
| ScratchNotes.ChordToNum | test_notes.py:96-104 | `chord_to_num` raises exactly when some name is empty, and keeps at most one value per name. |
| ScratchNotes.ChordToNumOne | test_notes.py:100-103 | A single name gives its value when valid, and nothing otherwise. |
| ScratchNotes.ChordToNumAppend | test_notes.py:96-104 | The values of a concatenation are the values of each part, in input order. |
| ScratchNotes.NumToFret | test_notes.py:107-117 | `num_to_fret` gives [] for a non-int. For an int it gives exactly the (s, f) with f >= 0 that sound the number, in ascending string order. |
| ScratchNotes.NumFretsAgree | test_notes.py:113-116 | The loop of `num_to_fret` computes the same list as the uncapped realisations of the main code. |

## Left out

- The Shape class body is not part of this model. The engine imports it, but its definition is absent. `Shapes` fixes the reading the engine relies on, with the three assumptions below.
- Shapes.Union: when two parts play the same string, the higher fret is kept. `Chord` rejects any colliding union through its count of played strings, so no chord result depends on this choice.
- Shapes.Span: span is max - min over the frets above 0, and 0 when there are none.
- Shapes.Place: a pair whose string lies outside 0..5 has no slot and is ignored.
- Hands.NewHand: `if initial:` on a Shape is read as "plays at least one string" (`Played == 0` is falsy), as the truthiness of its length would be.
- Chords.DedupFails: only an int argument is modelled as clashing with a Note of the same hash. A float or bool equal to a Note's value (`3.0` beside `Note(3)`) also reaches `Note.__eq__` and raises AttributeError while the set is built (music.py:128-132, 145). Every argument that is neither an int, a string nor a Note is one `OtherArg`, which is assumed to clash with nothing. Strings are assumed never to share a hash with a Note's value. `hash(str)` is randomised per process, so this is an assumption about the hash, not a fact of the program. Int and Note hashes are modelled as 64-bit CPython computes them (`Chords.IntHash`, `Chords.NoteHash`); other builds are not modelled.
- `set(...)` iteration order: Python leaves it open.
  - music.py: the set is taken in order of first occurrence, and Chords.OrderFree shows that the candidates do not depend on the order.
  - notes.py: the older `Chord` takes the order as a parameter, and only order-free facts are stated about it.
- Durations are Dafny reals, not IEEE floats. `int(32 * d)` is truncation toward zero (`Base.Trunc`), which is the floor for the non-negative durations used.
- Pitches.Add: an `Operand` is an int or a Pitch. Other right-hand operands (floats, strings) are not modelled.
- `Staff.bars` is not modelled: it keeps a list of Bar objects that nothing reads.
- `add_notes` appends placeholders to the caller's list in place. That mutation is not modelled; only the new lines are returned.
- Names are ASCII only. Python's `int()` also accepts non-ASCII decimal digits, and `str.upper()` is full Unicode and can change the length of a string. Neither is modelled; the five lines below say what that means per member.
- Pitches.GetValue: a non-ASCII digit as the octave is read as no digit.
- Pitches.ReadName: the same restriction applies to this shared reader.
- Pitches.FromName: a non-ASCII digit makes the name unreadable (TypeError) rather than a pitch.
- ScratchNotes.ScratchValue: the upper-casing is ASCII only, so `ß` stays one character.
- ScratchNotes.NameToNum: a non-ASCII digit as the octave is read as no digit.
- Chords.PreferredShape: the fixtures of test_music.py:45-67 are not evaluated. These are the open and barre chords and the four-note chords C7, Bdim, Dmaj7, E7, cVII_A and cVII_G. Each needs the strain of every candidate of a 4-6 note chord, which is beyond what the verifier evaluates in reasonable time. The contract states the selection rule for every chord instead.
- Pitches.NoteShiftBack: states equality as `Note.__eq__` defines it (value and duration), not equality of the spelled name.
- Not modelled:
  - music.py `get_low_fret` (music.py:72-76): it is outside the operations modelled here. The notes.py version is modelled.
  - The `__repr__` of Pitch and Chord, and Chord's `__eq__`/`__hash__`.
  - `print` diagnostics.
  - The no-op case "correction" in `Pitch.__init__`. Only its IndexError on short names is modelled.
- The following are outside the modelled core:
  - the capo, which is always 0 and never read;
  - `Guitarist.__init__` and its `Arrangement` wiring, whose class body is absent;
  - `chord_fingering` in test_notes.py, which has no body.
- Test modules are used as fixture sources. Not modelled:
  - the manual hand-shape tests of test_player.py:36-94, which build hands field by field;
  - the `expectedFailure` song tests of test_player.py:224-270, which describe behaviour the code does not have;
  - the tests of test_player.py:204-207 and 217-222, which go through `Guitarist.__init__` and the absent `Arrangement`;
  - the image-processing modules (detect*.py and their tests), which are OpenCV, file I/O and floating point.

## Findings

| source | as written | input that shows it | evidently intended | confidence | as-written member | corrected member |
|---|---|---|---|---|---|---|
| test_notes.py:71 | The fret is `value - LOW_E + tuning[s]`: the tuning offset is added. | Middle C (value 0): the A string is listed at fret 13, which sounds value 10. | `value - LOW_E - tuning[s]`, as `num_to_fret` (test_notes.py:115) and music.py:115 compute. | high (not executed) | ScratchNotes.ScratchFretsMisplace | ScratchNotes.NumToFret |
| test_notes.py:29 | The whole name is upper-cased before reading, so a flat `b` becomes `B`, misses the accidental table, and reads as None. | `Note('Ab4')` gets value None, and `get_frets` then raises TypeError. | Flats read a semitone below the natural, as music.py:99-101 does by upper-casing only the letter. | high (not executed) | ScratchNotes.FlatNoteFails | ScratchNotes.FlatsRead |

=== FILE: base.dfy ===
/** Failure-carrying wrappers and small integer helpers shared by every module.

    The transcription engine is written in a language with exceptions; each
    operation that can raise returns a `Result` naming the exception kind,
    because callers (`Song.add`, `Guitarist.read`) swallow some kinds and not
    others.
 */
module Base {

  datatype Option<+T> = None | Some(value: T)

  /** The exception kinds the engine raises or catches. */
  datatype PyError = IndexError | TypeError | ValueError | KeyError | AttributeError

  datatype Result<+T> = Success(value: T) | Failure(error: PyError) {

    predicate IsFailure() {
      Failure?
    }

    function PropagateFailure<U>(): Result<U>
      requires Failure?
    {
      Failure(error)
    }

    function Extract(): T
      requires Success?
    {
      value
    }
  }

  function Abs(x: int): nat {
    if x < 0 then -x else x
  }

  function Max(a: int, b: int): int {
    if a < b then b else a
  }

  function Min(a: int, b: int): int {
    if a < b then a else b
  }

  /** `int(x)` on a number: truncation toward zero. */
  function Trunc(x: real): int {
    if x >= 0.0 then x.Floor else -((-x).Floor)
  }
}

=== FILE: chord_fixtures.dfy ===
/** Worked examples of chord resolution: two-note chords whose candidate
    shapes are known. */
module ChordFixtures {
  import opened Base
  import opened Shapes
  import opened Search
  import opened Pitches
  import opened Chords

  /** Two notes on different strings: their union plays both, and its span
      is the fret distance when both are stopped. */
  lemma TwoNotes(p: Pos, q: Pos)
    requires 0 <= p.str < STRINGS && 0 <= q.str < STRINGS && p.str != q.str
    ensures UnionAll([Single(p), Single(q)]) == FromTuples([p, q])
    ensures Played(FromTuples([p, q])) == 2
    ensures Span(FromTuples([p, q])) == if p.fret > 0 && q.fret > 0 then Abs(p.fret - q.fret) else 0
  {
    PairUnion(p, q);
    PairPlayed(p, q);
    PairShape(p, q);
    SpanPair(FromTuples([p, q]), p, q);
  }

  lemma PairUnion(p: Pos, q: Pos)
    requires 0 <= p.str < STRINGS && 0 <= q.str < STRINGS
    ensures UnionAll([Single(p), Single(q)]) == FromTuples([p, q])
  {
    UnionSingles(Empty(), [p, q], [Single(p), Single(q)]);
  }

  lemma PairPlayed(p: Pos, q: Pos)
    requires 0 <= p.str < STRINGS && 0 <= q.str < STRINGS && p.str != q.str
    ensures Played(FromTuples([p, q])) == 2
  {
    PlayedCounts(FromTuples([p, q]), 0);
    EmptyPlayed(0);
    assert FreshOn(Empty(), [p, q]);
    PlaceAllCount(Empty(), [p, q]);
  }

  lemma SpanPair(s: Shape, p: Pos, q: Pos)
    requires 0 <= p.str < STRINGS && 0 <= q.str < STRINGS && p.str != q.str
    requires s[p.str] == Some(p.fret) && s[q.str] == Some(q.fret)
    requires forall k :: 0 <= k < STRINGS && k != p.str && k != q.str ==> s[k].None?
    ensures Span(s) == if p.fret > 0 && q.fret > 0 then Abs(p.fret - q.fret) else 0
  {
    var fs := Stopped(s);
    assert forall f :: f in fs <==> (f == p.fret && f > 0) || (f == q.fret && f > 0);
    if p.fret > 0 && q.fret > 0 {
      assert p.fret in fs && q.fret in fs;
    } else if p.fret > 0 || q.fret > 0 {
      assert forall f :: f in fs ==> f == (if p.fret > 0 then p.fret else q.fret);
      assert fs != [];
    }
  }

  /** The shape of two notes on different strings, slot by slot. */
  lemma PairShape(p: Pos, q: Pos)
    requires 0 <= p.str < STRINGS && 0 <= q.str < STRINGS && p.str != q.str
    ensures forall k :: 0 <= k < STRINGS ==>
      FromTuples([p, q])[k] == if k == p.str then Some(p.fret) else if k == q.str then Some(q.fret) else None
  {
    var ps := [p, q];
    assert ps[1..] == [q] && ps[1..][1..] == [];
    assert FromTuples(ps) == PlaceAll(Place(Empty(), p), [q]);
    assert PlaceAll(Place(Empty(), p), [q]) == PlaceAll(Place(Place(Empty(), p), q), []);
  }

  /** One step of the filter: the first combination is kept or dropped. */
  lemma KeepStep(combos: seq<seq<Shape>>, n: nat)
    requires |combos| > 0
    ensures KeepPlayable(combos, n) ==
      (if Played(UnionAll(combos[0])) == n && Span(UnionAll(combos[0])) <= MAX_SPAN then [UnionAll(combos[0])] else []) +
      KeepPlayable(combos[1..], n)
  {
  }

  /** Whether two notes on different strings fit within the span. */
  predicate PairFits(p: Pos, q: Pos) {
    p.fret > 0 && q.fret > 0 ==> Abs(p.fret - q.fret) <= MAX_SPAN
  }

  /** The shapes pairing `p` with each of `qs` that fit, in order. */
  function PairsKept(p: Pos, qs: seq<Pos>): seq<Shape> {
    if |qs| == 0 then []
    else (if PairFits(p, qs[0]) then [FromTuples([p, qs[0]])] else []) + PairsKept(p, qs[1..])
  }

  /** With one list of a single element, the product pairs it with each
      element of the other list in turn. */
  lemma ProductSingle<T(!new)>(x: T, b: seq<T>)
    ensures Product([[x], b]) == seq(|b|, j requires 0 <= j < |b| => [x, b[j]])
  {
    var lists := [[x], b];
    assert lists[1..] == [b] && [b][1..] == [];
    assert Product([b]) == PrefixEach(b, [[]]);
    if |b| > 0 {
      PrefixEachOrder(b, [[]], 0, 0);
      PrefixEachOrder([x], Product([b]), 0, 0);
      forall j | 0 <= j < |b| ensures Product(lists)[j] == [x, b[j]] {
        PrefixEachOrder(b, [[]], j, 0);
        PrefixEachOrder([x], Product([b]), 0, j);
      }
    } else {
      assert Product([b]) == [];
      assert Product(lists) == PrefixEach([x], []);
      assert PrefixEach([x], []) == [] + PrefixEach([], []);
    }
  }

  /** Filtering the pairs of `p` with each of `qs`. */
  lemma {:induction false} KeepPairs(p: Pos, qs: seq<Pos>)
    requires 0 <= p.str < STRINGS
    requires forall j :: 0 <= j < |qs| ==> 0 <= qs[j].str < STRINGS && qs[j].str != p.str
    ensures KeepPlayable(seq(|qs|, j requires 0 <= j < |qs| => [Single(p), Single(qs[j])]), 2) == PairsKept(p, qs)
    decreases |qs|
  {
    var combos := seq(|qs|, j requires 0 <= j < |qs| => [Single(p), Single(qs[j])]);
    if |qs| > 0 {
      var rest := seq(|qs| - 1, j requires 0 <= j < |qs| - 1 => [Single(p), Single(qs[1..][j])]);
      assert combos[1..] == rest;
      KeepPairs(p, qs[1..]);
      KeepStep(combos, 2);
      TwoNotes(p, qs[0]);
    }
  }

  /** A chord of two notes, the lower with a single realisation `p` on a
      string none of the upper note's realisations use: its candidates pair
      `p` with each realisation of the upper note, within the span. */
  lemma TwoNoteCandidates(low: int, high: int, p: Pos, qs: seq<Pos>)
    requires 0 <= p.str < STRINGS && Realizations(low) == [Single(p)]
    requires qs == FretsOn(high, STD_TUNING, Some(MAX_FRET)) && forall q :: q in qs ==> q.str != p.str
    ensures Candidates([low, high]) == PairsKept(p, qs)
  {
    var b := Realizations(high);
    RealizationsList(high);
    TwoLists(low, high);
    ProductSingle(Single(p), b);
    PairCombos(p, qs, b);
    KeepPairs(p, qs);
  }

  /** The realisations listed from the positions. */
  lemma RealizationsList(value: int)
    ensures Realizations(value) ==
      seq(|FretsOn(value, STD_TUNING, Some(MAX_FRET))|, i requires 0 <= i < |FretsOn(value, STD_TUNING, Some(MAX_FRET))| =>
        Single(FretsOn(value, STD_TUNING, Some(MAX_FRET))[i]))
  {
  }

  lemma TwoLists(low: int, high: int)
    ensures ShapeLists([low, high]) == [Realizations(low), Realizations(high)]
  {
    var ls := ShapeLists([low, high]);
    assert |ls| == 2 && ls[0] == Realizations(low) && ls[1] == Realizations(high);
  }

  lemma PairCombos(p: Pos, qs: seq<Pos>, b: seq<Shape>)
    requires 0 <= p.str < STRINGS && forall j :: 0 <= j < |qs| ==> 0 <= qs[j].str < STRINGS
    requires b == seq(|qs|, i requires 0 <= i < |qs| => Single(qs[i]))
    ensures seq(|b|, j requires 0 <= j < |b| => [Single(p), b[j]]) ==
      seq(|qs|, j requires 0 <= j < |qs| => [Single(p), Single(qs[j])])
  {
  }

  lemma FretsF3()
    ensures FretsOn(-7, STD_TUNING, Some(MAX_FRET)) == [Pos(0, 1)]
    ensures Realizations(-7) == [Single(Pos(0, 1))]
  {
    assert FretsFrom(-7, STD_TUNING, Some(MAX_FRET), 5) == [];
    assert FretsFrom(-7, STD_TUNING, Some(MAX_FRET), 4) == [];
    assert FretsFrom(-7, STD_TUNING, Some(MAX_FRET), 3) == [];
    assert FretsFrom(-7, STD_TUNING, Some(MAX_FRET), 2) == [];
    assert FretsFrom(-7, STD_TUNING, Some(MAX_FRET), 1) == [];
    assert FretsFrom(-7, STD_TUNING, Some(MAX_FRET), 0) == [Pos(0, 1)];
  }

  lemma FretsASharp5()
    ensures FretsOn(22, STD_TUNING, Some(MAX_FRET)) == [Pos(3, 15), Pos(4, 11), Pos(5, 6)]
  {
    assert FretsFrom(22, STD_TUNING, Some(MAX_FRET), 5) == [Pos(5, 6)];
    assert FretsFrom(22, STD_TUNING, Some(MAX_FRET), 4) == [Pos(4, 11), Pos(5, 6)];
    assert FretsFrom(22, STD_TUNING, Some(MAX_FRET), 3) == [Pos(3, 15), Pos(4, 11), Pos(5, 6)];
    assert FretsFrom(22, STD_TUNING, Some(MAX_FRET), 2) == [Pos(3, 15), Pos(4, 11), Pos(5, 6)];
    assert FretsFrom(22, STD_TUNING, Some(MAX_FRET), 1) == [Pos(3, 15), Pos(4, 11), Pos(5, 6)];
    assert FretsFrom(22, STD_TUNING, Some(MAX_FRET), 0) == [Pos(3, 15), Pos(4, 11), Pos(5, 6)];
  }

  lemma FretsF5()
    ensures FretsOn(17, STD_TUNING, Some(MAX_FRET)) == [Pos(2, 15), Pos(3, 10), Pos(4, 6), Pos(5, 1)]
  {
    assert FretsFrom(17, STD_TUNING, Some(MAX_FRET), 5) == [Pos(5, 1)];
    assert FretsFrom(17, STD_TUNING, Some(MAX_FRET), 4) == [Pos(4, 6), Pos(5, 1)];
    assert FretsFrom(17, STD_TUNING, Some(MAX_FRET), 3) == [Pos(3, 10), Pos(4, 6), Pos(5, 1)];
    assert FretsFrom(17, STD_TUNING, Some(MAX_FRET), 2) == [Pos(2, 15), Pos(3, 10), Pos(4, 6), Pos(5, 1)];
    assert FretsFrom(17, STD_TUNING, Some(MAX_FRET), 1) == [Pos(2, 15), Pos(3, 10), Pos(4, 6), Pos(5, 1)];
    assert FretsFrom(17, STD_TUNING, Some(MAX_FRET), 0) == [Pos(2, 15), Pos(3, 10), Pos(4, 6), Pos(5, 1)];
  }

  /** F3 with A#5: only the low string at fret 1 with the high string at
      fret 6 stays within the span. */
  lemma CandidatesF3ASharp5()
    ensures Candidates([-7, 22]) == [[Some(1), None, None, None, None, Some(6)]]
  {
    FretsF3();
    FretsASharp5();
    TwoNoteCandidates(-7, 22, Pos(0, 1), [Pos(3, 15), Pos(4, 11), Pos(5, 6)]);
    KeptF3ASharp5();
    ShapeF3ASharp5();
  }

  lemma KeptF3ASharp5()
    ensures PairsKept(Pos(0, 1), [Pos(3, 15), Pos(4, 11), Pos(5, 6)]) == [FromTuples([Pos(0, 1), Pos(5, 6)])]
  {
    var qs := [Pos(3, 15), Pos(4, 11), Pos(5, 6)];
    assert qs[1..] == [Pos(4, 11), Pos(5, 6)];
    assert qs[1..][1..] == [Pos(5, 6)];
    assert qs[1..][1..][1..] == [];
  }

  lemma ShapeF3ASharp5()
    ensures FromTuples([Pos(0, 1), Pos(5, 6)]) == [Some(1), None, None, None, None, Some(6)]
  {
    var s := FromTuples([Pos(0, 1), Pos(5, 6)]);
    PairShape(Pos(0, 1), Pos(5, 6));
    assert s[0] == Some(1) && s[1] == None && s[2] == None && s[3] == None && s[4] == None && s[5] == Some(6);
  }

  /** F3 with F5: fret 1 with the fifth string at fret 6, then with the
      high string at fret 1; the two higher positions are out of reach. */
  lemma CandidatesF3F5()
    ensures Candidates([-7, 17]) ==
      [[Some(1), None, None, None, Some(6), None], [Some(1), None, None, None, None, Some(1)]]
  {
    var p := Pos(0, 1);
    FretsF3();
    FretsF5();
    TwoNoteCandidates(-7, 17, p, [Pos(2, 15), Pos(3, 10), Pos(4, 6), Pos(5, 1)]);
    KeptF3F5();
    var a, b := FromTuples([p, Pos(4, 6)]), FromTuples([p, Pos(5, 1)]);
    assert Candidates([-7, 17]) == [a, b];
    ShapesF3F5();
  }

  lemma KeptF3F5()
    ensures PairsKept(Pos(0, 1), [Pos(2, 15), Pos(3, 10), Pos(4, 6), Pos(5, 1)]) ==
      [FromTuples([Pos(0, 1), Pos(4, 6)]), FromTuples([Pos(0, 1), Pos(5, 1)])]
  {
    var qs := [Pos(2, 15), Pos(3, 10), Pos(4, 6), Pos(5, 1)];
    assert qs[1..] == [Pos(3, 10), Pos(4, 6), Pos(5, 1)];
    assert qs[1..][1..] == [Pos(4, 6), Pos(5, 1)];
    assert qs[1..][1..][1..] == [Pos(5, 1)];
    assert qs[1..][1..][1..][1..] == [];
  }

  lemma ShapesF3F5()
    ensures FromTuples([Pos(0, 1), Pos(4, 6)]) == [Some(1), None, None, None, Some(6), None]
    ensures FromTuples([Pos(0, 1), Pos(5, 1)]) == [Some(1), None, None, None, None, Some(1)]
  {
    var s := FromTuples([Pos(0, 1), Pos(4, 6)]);
    var t := FromTuples([Pos(0, 1), Pos(5, 1)]);
    PairShape(Pos(0, 1), Pos(4, 6));
    PairShape(Pos(0, 1), Pos(5, 1));
    assert s[0] == Some(1) && s[1] == None && s[2] == None && s[3] == None && s[4] == Some(6) && s[5] == None;
    assert t[0] == Some(1) && t[1] == None && t[2] == None && t[3] == None && t[4] == None && t[5] == Some(1);
  }
}

=== FILE: chords.dfy ===
/** Chords and songs (music.py `Chord`, `Song`).

    A chord collects its constructor arguments into a set, builds a Note for
    every argument that is not one already, sorts the notes by value and
    takes the shortest duration as its own. Its candidate shapes are every
    way of fretting each note (one realisation per note, in
    `itertools.product` order) whose union sounds every note on its own
    string within a span of `MAX_SPAN` frets. The preferred shape is the
    shape of the hand with the least strain, the first one on ties.

    Set iteration order is not fixed by the language; this model takes the
    order of first occurrence, and proves that the candidate shapes do not
    depend on it.
 */
module Chords {

  import opened Base
  import opened Shapes
  import opened Search
  import opened Pitches
  import opened Hands

  /** A constructor argument: a raw pitch argument (int, string or anything
      else) or a Note built beforehand. */
  datatype Arg = Raw(a: PitchArg) | Given(n: Note)

  /** The modulus of CPython's numeric hash on 64-bit builds, 2^61 - 1. */
  const HASH_MODULUS: int := 0x1FFF_FFFF_FFFF_FFFF

  /** -1 is reserved as an error marker, so a hash of -1 becomes -2. */
  function Unreserved(h: int): int {
    if h == -1 then -2 else h
  }

  /** `hash(i)` of an int: its magnitude reduced modulo 2^61 - 1, with the
      sign kept. */
  function IntHash(i: int): int {
    Unreserved(if i >= 0 then i % HASH_MODULUS else -((-i) % HASH_MODULUS))
  }

  /** `hash(note)`: `__hash__` returns the value itself; a result that fits
      a 64-bit signed word is taken as it is, a wider one is hashed again
      as an int. */
  function NoteHash(v: int): int {
    if -0x8000_0000_0000_0000 <= v < 0x8000_0000_0000_0000 then Unreserved(v) else IntHash(v)
  }

  /** Below the modulus an int and a Note hash alike, so they clash exactly
      when they are equal or are -1 and -2. */
  lemma SmallHashes(i: int, v: int)
    requires -HASH_MODULUS < i < HASH_MODULUS && -HASH_MODULUS < v < HASH_MODULUS
    ensures IntHash(i) == NoteHash(v) <==> i == v || (i == -1 && v == -2) || (i == -2 && v == -1)
  {
  }

  /** Past the modulus the two hashes part: 2^61 - 1 hashes as 0, so it
      clashes with the Note of value 0 but not with the Note of its own
      value. */
  lemma WideHashes()
    ensures IntHash(HASH_MODULUS) == NoteHash(0) == 0
    ensures IntHash(HASH_MODULUS) != NoteHash(HASH_MODULUS)
    ensures IntHash(-1) == NoteHash(-2) == -2
  {
  }

  /** Comparing an int with a Note of the same hash reaches `Note.__eq__`,
      which reads `.value` of the int and raises AttributeError; ints and
      Notes of different hashes are never compared. Two
      assumptions stand in for hashes the model does not compute:
      `hash(str)` is randomised per process and is assumed never to equal
      a Note's value, and `OtherArg` (floats, bools and anything else) is
      assumed to clash with nothing, although a float or bool equal to a
      Note's value would. */
  predicate Clash(x: Arg, y: Arg) {
    match (x, y)
    case (Raw(IntArg(i)), Given(n)) => IntHash(i) == NoteHash(n.pitch.value)
    case (Given(n), Raw(IntArg(i))) => IntHash(i) == NoteHash(n.pitch.value)
    case _ => false
  }

  /** Set membership equality: equal ints, equal strings, or Notes of the same
      value and duration. */
  predicate Equal(x: Arg, y: Arg) {
    match (x, y)
    case (Raw(IntArg(i)), Raw(IntArg(j))) => i == j
    case (Raw(NameArg(s)), Raw(NameArg(t))) => s == t
    case (Given(m), Given(n)) => SameNote(m, n)
    case _ => false
  }

  /** `set(note_list)`, listed in order of first occurrence. */
  function Dedup(args: seq<Arg>): Result<seq<Arg>> {
    DedupOnto([], args)
  }

  function DedupOnto(kept: seq<Arg>, rest: seq<Arg>): (r: Result<seq<Arg>>)
    requires forall i, j :: 0 <= i < j < |kept| ==> !Equal(kept[i], kept[j])
    ensures r.Failure? ==> r.error == AttributeError
    ensures r.Success? ==> kept <= r.value
    ensures r.Success? ==> forall i, j :: 0 <= i < j < |r.value| ==> !Equal(r.value[i], r.value[j])
    ensures r.Success? ==> forall x :: x in r.value ==> x in kept || x in rest
    ensures r.Success? ==> forall x :: x in rest ==> exists y :: y in r.value && (y == x || Equal(y, x))
    decreases |rest|
  {
    if |rest| == 0 then Success(kept)
    else
      var x := rest[0];
      assert forall y :: y in rest ==> y == x || y in rest[1..];
      if exists i :: 0 <= i < |kept| && Clash(kept[i], x) then Failure(AttributeError)
      else if exists i :: 0 <= i < |kept| && Equal(kept[i], x) then DedupOnto(kept, rest[1..])
      else
        var r := DedupOnto(kept + [x], rest[1..]);
        assert r.Success? ==> (kept + [x])[|kept|] in r.value;
        r
  }

  /** Equality keeps the kind and the hash, so two equal arguments clash
      with the same things. */
  lemma EqualClash(x: Arg, y: Arg, z: Arg)
    requires Equal(x, y)
    ensures Clash(x, z) <==> Clash(y, z)
    ensures Clash(z, x) <==> Clash(z, y)
  {
  }

  /** Argument `j` of `rest` clashes with a kept argument or an earlier one of `rest`. */
  predicate ClashesBefore(kept: seq<Arg>, rest: seq<Arg>, j: int)
    requires 0 <= j < |rest|
  {
    (exists i :: 0 <= i < |kept| && Clash(kept[i], rest[j])) ||
    (exists i :: 0 <= i < j && Clash(rest[i], rest[j]))
  }

  predicate AnyClash(kept: seq<Arg>, rest: seq<Arg>) {
    exists j :: 0 <= j < |rest| && ClashesBefore(kept, rest, j)
  }

  /** Building the set raises exactly when some argument clashes with an
      earlier one. */
  lemma {:induction false} DedupFails(kept: seq<Arg>, rest: seq<Arg>)
    requires forall i, j :: 0 <= i < j < |kept| ==> !Equal(kept[i], kept[j])
    ensures DedupOnto(kept, rest).Failure? <==> AnyClash(kept, rest)
    decreases |rest|
  {
    if |rest| > 0 {
      var x := rest[0];
      var tail := rest[1..];
      if exists i :: 0 <= i < |kept| && Clash(kept[i], x) {
        assert ClashesBefore(kept, rest, 0);
      } else if exists i :: 0 <= i < |kept| && Equal(kept[i], x) {
        var e :| 0 <= e < |kept| && Equal(kept[e], x);
        DedupFails(kept, tail);
        SkipClash(kept, rest, e);
      } else {
        var kept' := kept + [x];
        DedupFails(kept', tail);
        KeepClash(kept, rest);
      }
    }
  }

  /** Dropping an argument equal to a kept one changes no clash. */
  lemma SkipClash(kept: seq<Arg>, rest: seq<Arg>, e: int)
    requires |rest| > 0 && 0 <= e < |kept| && Equal(kept[e], rest[0])
    requires !exists i :: 0 <= i < |kept| && Clash(kept[i], rest[0])
    ensures AnyClash(kept, rest[1..]) <==> AnyClash(kept, rest)
  {
    var tail := rest[1..];
    if AnyClash(kept, tail) {
      var j :| 0 <= j < |tail| && ClashesBefore(kept, tail, j);
      assert tail[j] == rest[j + 1];
      if exists i :: 0 <= i < j && Clash(tail[i], tail[j]) {
        var i :| 0 <= i < j && Clash(tail[i], tail[j]);
        assert Clash(rest[i + 1], rest[j + 1]);
      }
      assert ClashesBefore(kept, rest, j + 1);
    }
    if AnyClash(kept, rest) {
      var j :| 0 <= j < |rest| && ClashesBefore(kept, rest, j);
      assert j > 0;
      assert rest[j] == tail[j - 1];
      if exists i :: 0 <= i < j && Clash(rest[i], rest[j]) {
        var i :| 0 <= i < j && Clash(rest[i], rest[j]);
        if i == 0 {
          EqualClash(kept[e], rest[0], rest[j]);
        } else {
          assert Clash(tail[i - 1], tail[j - 1]);
        }
      }
      assert ClashesBefore(kept, tail, j - 1);
    }
  }

  /** Keeping a new argument turns its later clashes into clashes with the kept list. */
  lemma KeepClash(kept: seq<Arg>, rest: seq<Arg>)
    requires |rest| > 0
    requires !exists i :: 0 <= i < |kept| && Clash(kept[i], rest[0])
    ensures AnyClash(kept + [rest[0]], rest[1..]) <==> AnyClash(kept, rest)
  {
    var kept' := kept + [rest[0]];
    var tail := rest[1..];
    if AnyClash(kept', tail) {
      var j :| 0 <= j < |tail| && ClashesBefore(kept', tail, j);
      assert tail[j] == rest[j + 1];
      if exists i :: 0 <= i < |kept'| && Clash(kept'[i], tail[j]) {
        var i :| 0 <= i < |kept'| && Clash(kept'[i], tail[j]);
        if i == |kept| {
          assert Clash(rest[0], rest[j + 1]);
        } else {
          assert Clash(kept[i], rest[j + 1]);
        }
      } else {
        var i :| 0 <= i < j && Clash(tail[i], tail[j]);
        assert Clash(rest[i + 1], rest[j + 1]);
      }
      assert ClashesBefore(kept, rest, j + 1);
    }
    if AnyClash(kept, rest) {
      var j :| 0 <= j < |rest| && ClashesBefore(kept, rest, j);
      assert j > 0;
      assert rest[j] == tail[j - 1];
      if exists i :: 0 <= i < |kept| && Clash(kept[i], rest[j]) {
        var i :| 0 <= i < |kept| && Clash(kept[i], rest[j]);
        assert Clash(kept'[i], tail[j - 1]);
      } else {
        var i :| 0 <= i < j && Clash(rest[i], rest[j]);
        if i == 0 {
          assert Clash(kept'[|kept|], tail[j - 1]);
        } else {
          assert Clash(tail[i - 1], tail[j - 1]);
        }
      }
      assert ClashesBefore(kept', tail, j - 1);
    }
  }

  /** The Note for each set member: a Note as it is, anything else built with
      the chord's duration; the first construction that raises ends it. */
  function MakeNotes(args: seq<Arg>, duration: real): (r: Result<seq<Note>>)
    ensures r.Success? <==> forall i :: 0 <= i < |args| && args[i].Raw? ==> NewPitch(args[i].a).Success?
    ensures r.Success? ==> |r.value| == |args|
    ensures r.Success? ==> forall i :: 0 <= i < |args| ==>
      r.value[i] == (if args[i].Given? then args[i].n else NewNote(args[i].a, duration).value)
    ensures r.Failure? ==> exists i :: 0 <= i < |args| && args[i].Raw? && NewPitch(args[i].a) == Failure(r.error)
  {
    if |args| == 0 then Success([])
    else
      var first := MakeNote(args[0], duration);
      var rest := MakeNotes(args[1..], duration);
      assert forall i :: 1 <= i < |args| ==> args[i] == args[1..][i - 1];
      if first.Failure? then Failure(first.error)
      else if rest.Failure? then Failure(rest.error)
      else Success([first.value] + rest.value)
  }

  /** One entry of the list: a note is kept, anything else is built into one. */
  function MakeNote(arg: Arg, duration: real): (r: Result<Note>)
    ensures r.Success? <==> (arg.Raw? ==> NewPitch(arg.a).Success?)
    ensures r.Success? ==> r.value == (if arg.Given? then arg.n else NewNote(arg.a, duration).value)
  {
    match arg
    case Given(n) => Success(n)
    case Raw(a) => NewNote(a, duration)
  }

  /** The values of the notes, in order. */
  function Values(notes: seq<Note>): (vs: seq<int>)
    ensures |vs| == |notes| && forall i :: 0 <= i < |notes| ==> vs[i] == notes[i].pitch.value
  {
    seq(|notes|, i requires 0 <= i < |notes| => notes[i].pitch.value)
  }

  predicate SortedByValue(notes: seq<Note>) {
    forall i, j :: 0 <= i < j < |notes| ==> notes[i].pitch.value <= notes[j].pitch.value
  }

  /** The notes of value `v`, in order. */
  function WithValue(notes: seq<Note>, v: int): seq<Note> {
    if |notes| == 0 then []
    else (if notes[0].pitch.value == v then [notes[0]] else []) + WithValue(notes[1..], v)
  }

  /** `x` inserted before the first note not below it. */
  function Insert(x: Note, notes: seq<Note>): (r: seq<Note>)
    requires SortedByValue(notes)
    ensures SortedByValue(r)
    ensures multiset(r) == multiset(notes) + multiset{x}
    ensures multiset(Values(r)) == multiset(Values(notes)) + multiset{x.pitch.value}
  {
    if |notes| == 0 || x.pitch.value <= notes[0].pitch.value then
      InsertFront(x, notes);
      [x] + notes
    else
      var rest := Insert(x, notes[1..]);
      InsertLater(x, notes, rest);
      [notes[0]] + rest
  }

  lemma InsertFront(x: Note, notes: seq<Note>)
    requires SortedByValue(notes) && (|notes| == 0 || x.pitch.value <= notes[0].pitch.value)
    ensures SortedByValue([x] + notes)
    ensures multiset([x] + notes) == multiset(notes) + multiset{x}
    ensures multiset(Values([x] + notes)) == multiset(Values(notes)) + multiset{x.pitch.value}
  {
    ValuesCons(x, notes);
  }

  lemma InsertLater(x: Note, notes: seq<Note>, rest: seq<Note>)
    requires |notes| > 0 && SortedByValue(notes) && notes[0].pitch.value < x.pitch.value
    requires SortedByValue(rest) && multiset(rest) == multiset(notes[1..]) + multiset{x}
    requires multiset(Values(rest)) == multiset(Values(notes[1..])) + multiset{x.pitch.value}
    ensures SortedByValue([notes[0]] + rest)
    ensures multiset([notes[0]] + rest) == multiset(notes) + multiset{x}
    ensures multiset(Values([notes[0]] + rest)) == multiset(Values(notes)) + multiset{x.pitch.value}
  {
    assert notes == [notes[0]] + notes[1..];
    InsertHead(x, notes, rest);
    ValuesCons(notes[0], rest);
    ValuesCons(notes[0], notes[1..]);
  }

  lemma ValuesCons(h: Note, t: seq<Note>)
    ensures multiset(Values([h] + t)) == multiset{h.pitch.value} + multiset(Values(t))
  {
    assert ([h] + t)[1..] == t;
    assert Values([h] + t) == [h.pitch.value] + Values(t);
  }

  lemma InsertHead(x: Note, notes: seq<Note>, rest: seq<Note>)
    requires |notes| > 0 && SortedByValue(notes) && notes[0].pitch.value < x.pitch.value
    requires SortedByValue(rest) && multiset(rest) == multiset(notes[1..]) + multiset{x}
    ensures SortedByValue([notes[0]] + rest)
  {
    forall i | 0 <= i < |rest| ensures notes[0].pitch.value <= rest[i].pitch.value {
      assert rest[i] in multiset(rest);
      if rest[i] != x {
        assert rest[i] in multiset(notes[1..]);
        var k :| 0 <= k < |notes[1..]| && notes[1..][k] == rest[i];
        assert notes[k + 1] == rest[i];
      }
    }
  }

  /** `notes.sort()`: ordered by value, and stable. */
  function SortNotes(notes: seq<Note>): (r: seq<Note>)
    ensures SortedByValue(r)
    ensures multiset(r) == multiset(notes)
    ensures multiset(Values(r)) == multiset(Values(notes))
  {
    if |notes| == 0 then []
    else
      assert notes == [notes[0]] + notes[1..];
      ValuesCons(notes[0], notes[1..]);
      Insert(notes[0], SortNotes(notes[1..]))
  }

  /** Inserting keeps the notes of every value in their order, with the new
      one first among its equals. */
  lemma {:induction false} InsertStable(x: Note, notes: seq<Note>, v: int)
    requires SortedByValue(notes)
    ensures WithValue(Insert(x, notes), v) == (if x.pitch.value == v then [x] else []) + WithValue(notes, v)
    decreases |notes|
  {
    if |notes| == 0 || x.pitch.value <= notes[0].pitch.value {
      assert Insert(x, notes) == [x] + notes;
      assert ([x] + notes)[1..] == notes;
      assert WithValue([x] + notes, v) == (if x.pitch.value == v then [x] else []) + WithValue(notes, v);
    } else {
      InsertStable(x, notes[1..], v);
      InsertBehind(x, notes, v);
    }
  }

  lemma InsertBehind(x: Note, notes: seq<Note>, v: int)
    requires SortedByValue(notes) && |notes| > 0 && notes[0].pitch.value < x.pitch.value
    requires WithValue(Insert(x, notes[1..]), v) == (if x.pitch.value == v then [x] else []) + WithValue(notes[1..], v)
    ensures WithValue(Insert(x, notes), v) == (if x.pitch.value == v then [x] else []) + WithValue(notes, v)
  {
    var head := notes[0];
    var rest := Insert(x, notes[1..]);
    assert Insert(x, notes) == [head] + rest;
    WithValueCons(head, rest, v);
    WithValueCons(head, notes[1..], v);
    assert [head] + notes[1..] == notes;
    var tail := WithValue(notes[1..], v);
    if x.pitch.value == v {
      assert WithValue(Insert(x, notes), v) == [x] + tail;
      assert WithValue(notes, v) == tail;
    } else if head.pitch.value == v {
      assert WithValue(rest, v) == tail;
      assert WithValue(Insert(x, notes), v) == [head] + tail;
    } else {
      assert WithValue(rest, v) == tail;
      assert WithValue(Insert(x, notes), v) == tail;
    }
  }

  lemma WithValueCons(h: Note, t: seq<Note>, v: int)
    ensures WithValue([h] + t, v) == (if h.pitch.value == v then [h] else []) + WithValue(t, v)
  {
    assert ([h] + t)[1..] == t;
  }

  /** The sort is stable: among notes of one value the order is kept. */
  lemma {:induction false} SortStable(notes: seq<Note>, v: int)
    ensures WithValue(SortNotes(notes), v) == WithValue(notes, v)
    decreases |notes|
  {
    if |notes| > 0 {
      SortStable(notes[1..], v);
      InsertStable(notes[0], SortNotes(notes[1..]), v);
    }
  }

  /** Two sorted lists of the same values are the same list. */
  lemma {:induction false} SortedUnique(a: seq<int>, b: seq<int>)
    requires forall i, j :: 0 <= i < j < |a| ==> a[i] <= a[j]
    requires forall i, j :: 0 <= i < j < |b| ==> b[i] <= b[j]
    requires multiset(a) == multiset(b)
    ensures a == b
    decreases |a|
  {
    assert |a| == |multiset(a)| == |multiset(b)| == |b|;
    if |a| > 0 {
      SortedHeads(a, b);
      SortedTail(a);
      SortedTail(b);
      SameTails(a, b);
      SortedUnique(a[1..], b[1..]);
      assert a == [a[0]] + a[1..] && b == [b[0]] + b[1..];
    }
  }

  lemma SortedTail(a: seq<int>)
    requires |a| > 0 && forall i, j :: 0 <= i < j < |a| ==> a[i] <= a[j]
    ensures forall i, j :: 0 <= i < j < |a[1..]| ==> a[1..][i] <= a[1..][j]
  {
  }

  lemma SameTails(a: seq<int>, b: seq<int>)
    requires |a| > 0 && |b| > 0 && a[0] == b[0] && multiset(a) == multiset(b)
    ensures multiset(a[1..]) == multiset(b[1..])
  {
    assert a == [a[0]] + a[1..] && b == [b[0]] + b[1..];
    assert multiset(a[1..]) == multiset(a) - multiset{a[0]};
    assert multiset(b[1..]) == multiset(b) - multiset{b[0]};
  }

  lemma SortedHeads(a: seq<int>, b: seq<int>)
    requires |a| > 0 && |b| > 0
    requires forall i, j :: 0 <= i < j < |a| ==> a[i] <= a[j]
    requires forall i, j :: 0 <= i < j < |b| ==> b[i] <= b[j]
    requires multiset(a) == multiset(b)
    ensures a[0] == b[0]
  {
    assert a[0] in multiset(b) && b[0] in multiset(a);
    var i :| 0 <= i < |b| && b[i] == a[0];
    var j :| 0 <= j < |a| && a[j] == b[0];
    assert b[0] <= b[i] && a[0] <= a[j];
  }

  /** The chord's sorted values, hence its candidate shapes, depend only on
      which values its notes have and how often: not on the order in which
      the set yields them. */
  lemma OrderFree(a: seq<Note>, b: seq<Note>)
    requires multiset(a) == multiset(b)
    ensures Values(SortNotes(a)) == Values(SortNotes(b))
    ensures Candidates(Values(SortNotes(a))) == Candidates(Values(SortNotes(b)))
  {
    PermutedValues(a, b);
    SortedValues(SortNotes(a));
    SortedValues(SortNotes(b));
    SortedUnique(Values(SortNotes(a)), Values(SortNotes(b)));
  }

  /** Notes listed in another order have the same values, as often. */
  lemma {:induction false} PermutedValues(a: seq<Note>, b: seq<Note>)
    requires multiset(a) == multiset(b)
    ensures multiset(Values(a)) == multiset(Values(b))
    decreases |a|
  {
    if |a| == 0 {
      assert |b| == |multiset(b)|;
      assert Values(a) == [] == Values(b);
    } else {
      var j := MatchIndex(a, b);
      var a' := a[1..];
      var b' := b[..j] + b[j + 1..];
      PermutedTails(a, b, j);
      PermutedValues(a', b');
      RestoreValue(a, b, j);
    }
  }

  lemma RestoreValue(a: seq<Note>, b: seq<Note>, j: nat)
    requires |a| > 0 && j < |b| && b[j] == a[0]
    requires multiset(Values(a[1..])) == multiset(Values(b[..j] + b[j + 1..]))
    ensures multiset(Values(a)) == multiset(Values(b))
  {
    var v := a[0].pitch.value;
    var ma := multiset(Values(a[1..]));
    assert Values(a) == [v] + Values(a[1..]);
    assert multiset(Values(a)) == multiset{v} + ma;
    DropValue(b, j);
    assert multiset(Values(b)) == ma + multiset{v};
  }

  /** Where the first note of `a` sits in its permutation `b`. */
  ghost function MatchIndex(a: seq<Note>, b: seq<Note>): (j: nat)
    requires |a| > 0 && multiset(a) == multiset(b)
    ensures j < |b| && b[j] == a[0]
  {
    assert a[0] in multiset(a);
    var j :| 0 <= j < |b| && b[j] == a[0];
    j
  }

  lemma PermutedTails<T>(a: seq<T>, b: seq<T>, j: nat)
    requires |a| > 0 && multiset(a) == multiset(b) && j < |b| && b[j] == a[0]
    ensures multiset(a[1..]) == multiset(b[..j] + b[j + 1..])
  {
    var x := a[0];
    assert a == [x] + a[1..];
    assert b == b[..j] + [x] + b[j + 1..];
    var ma := multiset(a[1..]);
    var mb := multiset(b[..j] + b[j + 1..]);
    assert multiset(a) == multiset{x} + ma;
    assert multiset(b) == multiset{x} + mb;
    assert ma == mb by {
      forall y ensures ma[y] == mb[y] {
        assert multiset(a)[y] == multiset{x}[y] + ma[y];
        assert multiset(b)[y] == multiset{x}[y] + mb[y];
      }
    }
  }

  /** Taking one note out takes one of its value out. */
  lemma DropValue(xs: seq<Note>, j: nat)
    requires j < |xs|
    ensures multiset(Values(xs)) == multiset(Values(xs[..j] + xs[j + 1..])) + multiset{xs[j].pitch.value}
  {
    var a, b := xs[..j], xs[j + 1..];
    assert xs == (a + [xs[j]]) + b;
    ValuesAppend(a + [xs[j]], b);
    ValuesAppend(a, [xs[j]]);
    ValuesAppend(a, b);
    assert Values([xs[j]]) == [xs[j].pitch.value];
  }

  lemma ValuesAppend(a: seq<Note>, b: seq<Note>)
    ensures Values(a + b) == Values(a) + Values(b)
  {
    var l, r := Values(a + b), Values(a) + Values(b);
    forall i | 0 <= i < |l| ensures l[i] == r[i] {
      if i >= |a| {
        assert (a + b)[i] == b[i - |a|];
      }
    }
  }

  lemma SortedValues(notes: seq<Note>)
    requires SortedByValue(notes)
    ensures forall i, j :: 0 <= i < j < |notes| ==> Values(notes)[i] <= Values(notes)[j]
  {
  }

  /** `min(note.duration for note in notes)`; ValueError for no notes. */
  function MinDuration(notes: seq<Note>): (r: Result<real>)
    ensures r.Failure? <==> |notes| == 0
    ensures r.Failure? ==> r.error == ValueError
    ensures r.Success? ==> exists i :: 0 <= i < |notes| && notes[i].duration == r.value
    ensures r.Success? ==> forall i :: 0 <= i < |notes| ==> r.value <= notes[i].duration
  {
    if |notes| == 0 then Failure(ValueError)
    else if |notes| == 1 then Success(notes[0].duration)
    else
      var rest := MinDuration(notes[1..]).value;
      assert forall i :: 1 <= i < |notes| ==> notes[i] == notes[1..][i - 1];
      Success(if notes[0].duration <= rest then notes[0].duration else rest)
  }

  /** Whether a `(string, fret)` pair sounds `value` on the standard tuning
      within the fretboard. */
  predicate Realizes(p: Pos, value: int) {
    0 <= p.str < STRINGS && 0 <= p.fret <= MAX_FRET && LOW_E + STD_TUNING[p.str] + p.fret == value
  }

  /** One realisation per note, on pairwise distinct strings. */
  predicate Fingering(values: seq<int>, ps: seq<Pos>) {
    |ps| == |values| &&
    (forall i :: 0 <= i < |ps| ==> Realizes(ps[i], values[i])) &&
    (forall i, j :: 0 <= i < j < |ps| ==> ps[i].str != ps[j].str)
  }

  /** `[note.shapes for note in notes]` */
  function ShapeLists(values: seq<int>): (ls: seq<seq<Shape>>)
    ensures |ls| == |values| && forall i :: 0 <= i < |values| ==> ls[i] == Realizations(values[i])
  {
    seq(|values|, i requires 0 <= i < |values| => Realizations(values[i]))
  }

  /** The combinations whose union plays one string per note within the span. */
  function KeepPlayable(combos: seq<seq<Shape>>, n: nat): (r: seq<Shape>)
    ensures forall s :: s in r <==>
      exists c :: c in combos && s == UnionAll(c) && Played(s) == n && Span(s) <= MAX_SPAN
  {
    if |combos| == 0 then []
    else
      var s := UnionAll(combos[0]);
      assert forall c :: c in combos <==> c == combos[0] || c in combos[1..];
      (if Played(s) == n && Span(s) <= MAX_SPAN then [s] else []) + KeepPlayable(combos[1..], n)
  }

  /** The candidate shapes of a chord of these (sorted) values. */
  function Candidates(values: seq<int>): seq<Shape> {
    KeepPlayable(Product(ShapeLists(values)), |values|)
  }

  /** The candidate shapes are exactly the unions of a fingering (one
      realisation per note, on pairwise distinct strings) within the span. */
  lemma CandidatesExact(values: seq<int>, s: Shape)
    ensures s in Candidates(values) <==>
      (exists ps :: Fingering(values, ps) && s == FromTuples(ps)) && Span(s) <= MAX_SPAN
  {
    if s in Candidates(values) {
      CandidateSound(values, s);
    }
    if exists ps :: Fingering(values, ps) && s == FromTuples(ps) {
      var ps :| Fingering(values, ps) && s == FromTuples(ps);
      if Span(s) <= MAX_SPAN {
        FingeringCandidate(values, ps);
      }
    }
  }

  lemma CandidateSound(values: seq<int>, s: Shape)
    requires s in Candidates(values)
    ensures exists ps :: Fingering(values, ps) && s == FromTuples(ps)
  {
    var lists := ShapeLists(values);
    var c :| c in Product(lists) && s == UnionAll(c) && Played(s) == |values| && Span(s) <= MAX_SPAN;
    ProductMembers(lists, c);
    var ps := Picks(values, c);
    CandidateFingering(values, c, ps, s);
  }

  /** The notes a combination of single-note realisations plays. */
  ghost function Picks(values: seq<int>, c: seq<Shape>): (ps: seq<Pos>)
    requires |c| == |values| && forall i :: 0 <= i < |c| ==> c[i] in ShapeLists(values)[i]
    ensures |ps| == |c| && forall i :: 0 <= i < |ps| ==> Realizes(ps[i], values[i]) && c[i] == Single(ps[i])
  {
    var lists := ShapeLists(values);
    assert forall i :: 0 <= i < |c| ==> lists[i] == Realizations(values[i]);
    seq(|c|, i requires 0 <= i < |c| => PickPos(c[i], values[i]))
  }

  /** The note a single-note realisation plays. */
  ghost function PickPos(shape: Shape, value: int): (p: Pos)
    requires shape in Realizations(value)
    ensures Realizes(p, value) && shape == Single(p)
  {
    var k, f :| 0 <= k < STRINGS && 0 <= f <= MAX_FRET && LOW_E + STD_TUNING[k] + f == value &&
      shape == Single(Pos(k, f));
    Pos(k, f)
  }

  lemma CandidateFingering(values: seq<int>, c: seq<Shape>, ps: seq<Pos>, s: Shape)
    requires |c| == |values| && |ps| == |c|
    requires forall i :: 0 <= i < |ps| ==> Realizes(ps[i], values[i]) && c[i] == Single(ps[i])
    requires s == UnionAll(c) && Played(s) == |values|
    ensures Fingering(values, ps) && s == FromTuples(ps)
  {
    UnionSingles(Empty(), ps, c);
    PlayedCounts(s, 0);
    EmptyPlayed(0);
    PlaceAllCount(Empty(), ps);
  }

  lemma FingeringCandidate(values: seq<int>, ps: seq<Pos>)
    requires Fingering(values, ps) && Span(FromTuples(ps)) <= MAX_SPAN
    ensures FromTuples(ps) in Candidates(values)
  {
    var c := SinglesOf(ps);
    SinglesRealize(values, ps, c);
    var s := FromTuples(ps);
    UnionSingles(Empty(), ps, c);
    assert UnionAll(c) == s;
    PlayedCounts(s, 0);
    EmptyPlayed(0);
    PlaceAllCount(Empty(), ps);
    assert Played(s) == |values|;
  }

  function SinglesOf(ps: seq<Pos>): (c: seq<Shape>)
    requires forall i :: 0 <= i < |ps| ==> 0 <= ps[i].str < STRINGS
    ensures |c| == |ps| && forall i :: 0 <= i < |ps| ==> c[i] == Single(ps[i])
  {
    seq(|ps|, i requires 0 <= i < |ps| => Single(ps[i]))
  }

  lemma SinglesRealize(values: seq<int>, ps: seq<Pos>, c: seq<Shape>)
    requires Fingering(values, ps)
    requires |c| == |ps| && forall i :: 0 <= i < |ps| ==> c[i] == Single(ps[i])
    ensures c in Product(ShapeLists(values))
  {
    var lists := ShapeLists(values);
    forall i | 0 <= i < |c| ensures c[i] in lists[i] {
      assert c[i] == Single(Pos(ps[i].str, ps[i].fret));
    }
    ProductMembers(lists, c);
  }

  /** A Chord: the sorted notes, the shortest duration and the candidate shapes. */
  datatype Chord = Chord(notes: seq<Note>, duration: real, shapes: seq<Shape>)

  /** `Chord(note_list, duration)`: the set of the arguments, each built into
      a Note, sorted by value; the duration is the shortest of theirs. It
      raises AttributeError when an int meets a Note of the same hash in the
      set, ValueError (from `min`) when there is no note, and whatever
      building a Note raises. */
  function NewChord(args: seq<Arg>, duration: real): (r: Result<Chord>)
    ensures r.Success? <==>
      |args| > 0 && !AnyClash([], args) && forall i :: 0 <= i < |args| && args[i].Raw? ==> NewPitch(args[i].a).Success?
    ensures |args| == 0 ==> r == Failure(ValueError)
    ensures AnyClash([], args) ==> r == Failure(AttributeError)
    ensures r.Failure? && |args| > 0 && !AnyClash([], args) ==>
      exists i :: 0 <= i < |args| && args[i].Raw? && NewPitch(args[i].a) == Failure(r.error)
    ensures r.Success? ==> SortedByValue(r.value.notes)
    ensures r.Success? ==> Covers(args, duration, r.value.notes)
    ensures r.Success? ==> BuiltFrom(args, duration, r.value.notes)
    ensures r.Success? ==> Timed(r.value)
    ensures r.Success? ==> r.value.shapes == Candidates(Values(r.value.notes))
  {
    ChordOutcome(args, duration);
    ChordTiming(args, duration);
    ChordHoldsArgs(args, duration);
    ChordNotesFromArgs(args, duration);
    BuildChord(args, duration)
  }

  function BuildChord(args: seq<Arg>, duration: real): Result<Chord> {
    var uniq :- Dedup(args);
    var notes :- MakeNotes(uniq, duration);
    var sorted := SortNotes(notes);
    var dur :- MinDuration(sorted);
    Success(Chord(sorted, dur, Candidates(Values(sorted))))
  }

  /** When building the chord raises, and what. */
  lemma ChordOutcome(args: seq<Arg>, duration: real)
    ensures BuildChord(args, duration).Success? <==>
      |args| > 0 && !AnyClash([], args) && forall i :: 0 <= i < |args| && args[i].Raw? ==> NewPitch(args[i].a).Success?
    ensures |args| == 0 ==> BuildChord(args, duration) == Failure(ValueError)
    ensures AnyClash([], args) ==> BuildChord(args, duration) == Failure(AttributeError)
    ensures BuildChord(args, duration).Failure? && |args| > 0 && !AnyClash([], args) ==>
      exists i :: 0 <= i < |args| && args[i].Raw? && NewPitch(args[i].a) == Failure(BuildChord(args, duration).error)
  {
    DedupFails([], args);
    if !AnyClash([], args) {
      var uniq := Dedup(args).value;
      SetFacts(args, uniq, duration);
    }
  }

  /** Each argument, built into a note, has an equal among `notes`. */
  predicate Covers(args: seq<Arg>, duration: real, notes: seq<Note>) {
    forall x :: x in args ==>
      MakeNote(x, duration).Success? && exists n :: n in notes && SameNote(n, MakeNote(x, duration).value)
  }

  /** Each of `notes` is an argument built into a note. */
  predicate BuiltFrom(args: seq<Arg>, duration: real, notes: seq<Note>) {
    forall n :: n in notes ==> exists x :: x in args && MakeNote(x, duration) == Success(n)
  }

  /** The chord has notes and lasts as long as the shortest of them. */
  predicate Timed(c: Chord) {
    |c.notes| > 0 &&
    (forall i :: 0 <= i < |c.notes| ==> c.duration <= c.notes[i].duration) &&
    (exists i :: 0 <= i < |c.notes| && c.notes[i].duration == c.duration)
  }

  /** A built chord is sorted, lasts as long as its shortest note, and
      carries the candidate shapes of its values. */
  lemma ChordTiming(args: seq<Arg>, duration: real)
    ensures BuildChord(args, duration).Success? ==>
      var c := BuildChord(args, duration).value;
      SortedByValue(c.notes) && Timed(c) && c.shapes == Candidates(Values(c.notes))
  {
  }

  /** Every argument has its note in a built chord. */
  lemma ChordHoldsArgs(args: seq<Arg>, duration: real)
    ensures BuildChord(args, duration).Success? ==> Covers(args, duration, BuildChord(args, duration).value.notes)
  {
    if BuildChord(args, duration).Success? {
      var uniq := Dedup(args).value;
      var sorted := SortNotes(MakeNotes(uniq, duration).value);
      SortedMembers(args, uniq, duration, sorted);
    }
  }

  /** Every note of a built chord is built from an argument. */
  lemma ChordNotesFromArgs(args: seq<Arg>, duration: real)
    ensures BuildChord(args, duration).Success? ==> BuiltFrom(args, duration, BuildChord(args, duration).value.notes)
  {
    if BuildChord(args, duration).Success? {
      var uniq := Dedup(args).value;
      var sorted := SortNotes(MakeNotes(uniq, duration).value);
      SortedMembers(args, uniq, duration, sorted);
    }
  }

  /** What the set of the arguments keeps: nothing exactly when there are no
      arguments; an argument that cannot be built has a kept equal that cannot
      be built either; and each note built from the set stands for an argument. */
  lemma SetFacts(args: seq<Arg>, uniq: seq<Arg>, duration: real)
    requires Dedup(args) == Success(uniq)
    ensures |uniq| == 0 <==> |args| == 0
    ensures MakeNotes(uniq, duration).Success? <==>
      forall i :: 0 <= i < |args| && args[i].Raw? ==> NewPitch(args[i].a).Success?
    ensures MakeNotes(uniq, duration).Failure? ==>
      exists i :: 0 <= i < |args| && args[i].Raw? && NewPitch(args[i].a) == Failure(MakeNotes(uniq, duration).error)
    ensures MakeNotes(uniq, duration).Success? ==> forall x :: x in args ==>
      MakeNote(x, duration).Success? && exists n :: n in MakeNotes(uniq, duration).value && SameNote(n, MakeNote(x, duration).value)
    ensures MakeNotes(uniq, duration).Success? ==> forall n :: n in MakeNotes(uniq, duration).value ==>
      exists x :: x in args && MakeNote(x, duration) == Success(n)
  {
    if |args| > 0 {
      assert args[0] in args;
    }
    RawKept(args, uniq);
    SetBuilds(args, uniq, duration);
    if MakeNotes(uniq, duration).Success? {
      SetNotes(args, uniq, duration);
    }
  }

  /** The sorted notes stand for the arguments as the built ones do. */
  lemma SortedMembers(args: seq<Arg>, uniq: seq<Arg>, duration: real, sorted: seq<Note>)
    requires Dedup(args) == Success(uniq) && MakeNotes(uniq, duration).Success?
    requires multiset(sorted) == multiset(MakeNotes(uniq, duration).value)
    ensures forall x :: x in args ==>
      MakeNote(x, duration).Success? && exists n :: n in sorted && SameNote(n, MakeNote(x, duration).value)
    ensures forall n :: n in sorted ==> exists x :: x in args && MakeNote(x, duration) == Success(n)
  {
    var made := MakeNotes(uniq, duration).value;
    SetNotes(args, uniq, duration);
    assert forall n :: n in sorted <==> n in made by {
      assert forall n :: n in sorted <==> n in multiset(sorted);
      assert forall n :: n in made <==> n in multiset(made);
    }
  }

  /** A raw argument is kept as it is: only an identical raw argument equals it. */
  lemma RawKept(args: seq<Arg>, uniq: seq<Arg>)
    requires Dedup(args) == Success(uniq)
    ensures forall x :: x in args && x.Raw? ==> x in uniq
    ensures forall y :: y in uniq ==> y in args
  {
    forall x | x in args && x.Raw?
      ensures x in uniq
    {
      var y :| y in uniq && (y == x || Equal(y, x));
    }
  }

  lemma SetBuilds(args: seq<Arg>, uniq: seq<Arg>, duration: real)
    requires forall x :: x in args && x.Raw? ==> x in uniq
    requires forall y :: y in uniq ==> y in args
    ensures MakeNotes(uniq, duration).Success? <==>
      forall i :: 0 <= i < |args| && args[i].Raw? ==> NewPitch(args[i].a).Success?
    ensures MakeNotes(uniq, duration).Failure? ==>
      exists i :: 0 <= i < |args| && args[i].Raw? && NewPitch(args[i].a) == Failure(MakeNotes(uniq, duration).error)
  {
    var made := MakeNotes(uniq, duration);
    if made.Success? {
      forall i | 0 <= i < |args| && args[i].Raw?
        ensures NewPitch(args[i].a).Success?
      {
        assert args[i] in args;
        var j :| 0 <= j < |uniq| && uniq[j] == args[i];
      }
    } else {
      var j :| 0 <= j < |uniq| && uniq[j].Raw? && NewPitch(uniq[j].a) == Failure(made.error);
      assert uniq[j] in uniq;
      var k :| 0 <= k < |args| && args[k] == uniq[j];
    }
  }

  lemma SetNotes(args: seq<Arg>, uniq: seq<Arg>, duration: real)
    requires Dedup(args) == Success(uniq) && MakeNotes(uniq, duration).Success?
    ensures forall x :: x in args ==>
      MakeNote(x, duration).Success? && exists n :: n in MakeNotes(uniq, duration).value && SameNote(n, MakeNote(x, duration).value)
    ensures forall n :: n in MakeNotes(uniq, duration).value ==> exists x :: x in args && MakeNote(x, duration) == Success(n)
  {
    forall x | x in args
      ensures MakeNote(x, duration).Success?
      ensures exists n :: n in MakeNotes(uniq, duration).value && SameNote(n, MakeNote(x, duration).value)
    {
      KeptNote(args, uniq, duration, x);
    }
    forall n | n in MakeNotes(uniq, duration).value
      ensures exists x :: x in args && MakeNote(x, duration) == Success(n)
    {
      NoteOfKept(args, uniq, duration, n);
    }
  }

  /** An argument's note has an equal built from the set. */
  lemma KeptNote(args: seq<Arg>, uniq: seq<Arg>, duration: real, x: Arg)
    requires Dedup(args) == Success(uniq) && MakeNotes(uniq, duration).Success? && x in args
    ensures MakeNote(x, duration).Success?
    ensures exists n :: n in MakeNotes(uniq, duration).value && SameNote(n, MakeNote(x, duration).value)
  {
    var made := MakeNotes(uniq, duration).value;
    var y :| y in uniq && (y == x || Equal(y, x));
    var j :| 0 <= j < |uniq| && uniq[j] == y;
    assert made[j] in made;
  }

  /** A note built from the set is built from an argument. */
  lemma NoteOfKept(args: seq<Arg>, uniq: seq<Arg>, duration: real, n: Note)
    requires Dedup(args) == Success(uniq) && MakeNotes(uniq, duration).Success?
    requires n in MakeNotes(uniq, duration).value
    ensures exists x :: x in args && MakeNote(x, duration) == Success(n)
  {
    var made := MakeNotes(uniq, duration).value;
    var j :| 0 <= j < |made| && made[j] == n;
    assert uniq[j] in uniq;
  }


  /** `Hand(shape).strain`: what either the construction or the strain raises
      is raised. */
  function Score(s: Shape): Result<int> {
    var h :- NewHand(s);
    Strain(h)
  }

  /** The values of a list of results, in order; the first failure ends the
      scan and is the answer. */
  function Collect<T>(rs: seq<Result<T>>): (r: Result<seq<T>>)
    ensures r.Success? <==> forall i :: 0 <= i < |rs| ==> rs[i].Success?
    ensures r.Success? ==> |r.value| == |rs| && forall i :: 0 <= i < |rs| ==> rs[i] == Success(r.value[i])
    ensures r.Failure? ==>
      exists i :: 0 <= i < |rs| && rs[i] == Failure(r.error) && forall j :: 0 <= j < i ==> rs[j].Success?
  {
    if |rs| == 0 then Success([])
    else
      var tail := rs[1..];
      assert forall i :: 1 <= i < |rs| ==> rs[i] == tail[i - 1];
      var first :- rs[0];
      var rest := Collect(tail);
      if rest.Failure? then
        var k :| 0 <= k < |tail| && tail[k] == Failure(rest.error) && forall j :: 0 <= j < k ==> tail[j].Success?;
        assert rs[k + 1] == tail[k];
        Failure(rest.error)
      else Success([first] + rest.value)
  }

  /** The scores `Hand(shape).strain` for each shape in turn; the first
      construction or strain that raises ends the scan. */
  function Strains(shapes: seq<Shape>): (r: Result<seq<int>>)
    ensures r.Success? <==> forall i :: 0 <= i < |shapes| ==> Score(shapes[i]).Success?
    ensures r.Success? ==> |r.value| == |shapes| && forall i :: 0 <= i < |shapes| ==> Score(shapes[i]) == Success(r.value[i])
    ensures r.Failure? ==>
      exists i :: 0 <= i < |shapes| && Score(shapes[i]) == Failure(r.error) && forall j :: 0 <= j < i ==> Score(shapes[j]).Success?
  {
    Collect(Scores(shapes))
  }

  function Scores(shapes: seq<Shape>): (rs: seq<Result<int>>)
    ensures |rs| == |shapes| && forall i :: 0 <= i < |shapes| ==> rs[i] == Score(shapes[i])
  {
    if |shapes| == 0 then [] else [Score(shapes[0])] + Scores(shapes[1..])
  }

  /** `Chord.shape`: the shape of the hand with the least strain over the
      candidate shapes, the first on ties; AttributeError when there is no
      candidate (`best` stays None). */
  function PreferredShape(shapes: seq<Shape>): (r: Result<Shape>)
    ensures r.Failure? <==> |shapes| == 0 || Strains(shapes).Failure?
    ensures |shapes| == 0 ==> r == Failure(AttributeError)
    ensures Strains(shapes).Failure? ==> r == Failure(Strains(shapes).error)
    ensures r.Success? ==> exists k :: LeastStrain(shapes, k) && r == HandShape(NewHand(shapes[k]).value)
  {
    var strains :- Strains(shapes);
    if |strains| == 0 then Failure(AttributeError)
    else
      var k := FirstMinIndex(strains);
      assert LeastStrain(shapes, k);
      HandShape(NewHand(shapes[k]).value)
  }

  /** Shape `k` scores, every shape scores, and `k` is the first with the
      least score. */
  predicate LeastStrain(shapes: seq<Shape>, k: int) {
    0 <= k < |shapes| &&
    (forall j :: 0 <= j < |shapes| ==> Score(shapes[j]).Success?) &&
    (forall j :: 0 <= j < |shapes| ==> Score(shapes[k]).value <= Score(shapes[j]).value) &&
    (forall j :: 0 <= j < k ==> Score(shapes[k]).value < Score(shapes[j]).value)
  }

  function ChordShape(c: Chord): Result<Shape> {
    PreferredShape(c.shapes)
  }

  /** One turn of the loop of `Chord.shape`: build the hand, then read its
      strain; what either raises is raised. */
  function Attempt(s: Shape): (r: Result<(Hand, int)>)
    ensures r.Failure? <==> Score(s).Failure?
    ensures r.Failure? ==> r.error == Score(s).error
    ensures r.Success? ==> r.value.1 == Score(s).value && r.value.0 == NewHand(s).value
  {
    var h :- NewHand(s);
    var st :- Strain(h);
    Success((h, st))
  }

  /** The loop of `Chord.shape` over the attempts in turn: keep the hand when
      there is no best yet or it is strictly easier; the first attempt that
      raises ends the loop. */
  function ScanMin<H>(xs: seq<Result<(H, int)>>, i: nat, best: Option<(H, int)>): Result<Option<H>>
    requires i <= |xs|
    decreases |xs| - i
  {
    if i == |xs| then Success(if best.None? then None else Some(best.value.0))
    else
      var x :- xs[i];
      var next := if best.None? || x.1 < best.value.1 then Some(x) else best;
      ScanMin(xs, i + 1, next)
  }

  /** `best.shape` after the loop, None having no `shape`. */
  function LoopShape(shapes: seq<Shape>): Result<Shape> {
    var attempts := seq(|shapes|, j requires 0 <= j < |shapes| => Attempt(shapes[j]));
    var best :- ScanMin(attempts, 0, None);
    if best.None? then Failure(AttributeError) else HandShape(best.value)
  }

  /** The scores of the attempts, in order. */
  function ScoresOf<H>(xs: seq<Result<(H, int)>>): (rs: seq<Result<int>>)
    ensures |rs| == |xs|
  {
    seq(|xs|, j requires 0 <= j < |xs| => if xs[j].Failure? then Failure(xs[j].error) else Success(xs[j].value.1))
  }

  /** The least-strain choice is exactly what the loop of `Chord.shape` ends with. */
  lemma PreferredIsLoop(shapes: seq<Shape>)
    ensures PreferredShape(shapes) == LoopShape(shapes)
  {
    var attempts := seq(|shapes|, j requires 0 <= j < |shapes| => Attempt(shapes[j]));
    AttemptScores(shapes, attempts);
    ScanMinCollect(attempts);
    if |shapes| > 0 && Strains(shapes).Success? {
      var k := FirstMinIndex(Strains(shapes).value);
      assert attempts[k].value.0 == NewHand(shapes[k]).value;
    }
  }

  /** The attempts score the shapes. */
  lemma AttemptScores(shapes: seq<Shape>, attempts: seq<Result<(Hand, int)>>)
    requires |attempts| == |shapes| && forall j :: 0 <= j < |shapes| ==> attempts[j] == Attempt(shapes[j])
    ensures Strains(shapes) == Collect(ScoresOf(attempts))
  {
    assert Scores(shapes) == ScoresOf(attempts);
  }

  /** The loop run from the start ends with the first failure, with nothing
      when there are no attempts, and otherwise with the first least. */
  lemma ScanMinCollect<H>(xs: seq<Result<(H, int)>>)
    ensures Collect(ScoresOf(xs)).Failure? ==> ScanMin(xs, 0, None) == Failure(Collect(ScoresOf(xs)).error)
    ensures |xs| == 0 ==> ScanMin(xs, 0, None) == Success(None)
    ensures |xs| > 0 && Collect(ScoresOf(xs)).Success? ==>
      ScanMin(xs, 0, None) == Success(Some(xs[FirstMinIndex(Collect(ScoresOf(xs)).value)].value.0))
  {
    if |xs| > 0 {
      var rs := ScoresOf(xs);
      if xs[0].Failure? {
        CollectFirstFailure(rs, 0);
      } else {
        ScanInvariant(xs, 1, 0);
      }
    }
  }

  /** The first result that failed decides the failure of `Collect`. */
  lemma CollectFirstFailure<T>(rs: seq<Result<T>>, i: nat)
    requires i < |rs| && rs[i].Failure?
    requires forall j :: 0 <= j < i ==> rs[j].Success?
    ensures Collect(rs) == Failure(rs[i].error)
  {
    var r := Collect(rs);
    var e :| 0 <= e < |rs| && rs[e] == Failure(r.error) && forall j :: 0 <= j < e ==> rs[j].Success?;
    assert e == i;
  }

  /** After attempt `i - 1` the loop holds attempt `b`, the first with the
      least score so far; it ends with the first least of them all, or with
      the first failure. */
  lemma {:induction false} ScanInvariant<H>(xs: seq<Result<(H, int)>>, i: nat, b: nat)
    requires b < i <= |xs|
    requires forall j :: 0 <= j < i ==> xs[j].Success?
    requires forall j :: 0 <= j < i ==> xs[b].value.1 <= xs[j].value.1
    requires forall j :: 0 <= j < b ==> xs[b].value.1 < xs[j].value.1
    ensures Collect(ScoresOf(xs)).Failure? ==> ScanMin(xs, i, Some(xs[b].value)) == Failure(Collect(ScoresOf(xs)).error)
    ensures Collect(ScoresOf(xs)).Success? ==>
      ScanMin(xs, i, Some(xs[b].value)) == Success(Some(xs[FirstMinIndex(Collect(ScoresOf(xs)).value)].value.0))
    decreases |xs| - i
  {
    var rs := ScoresOf(xs);
    if i == |xs| {
      if Collect(rs).Success? {
        FirstMinUnique(Collect(rs).value, b);
      }
    } else if xs[i].Failure? {
      CollectFirstFailure(rs, i);
    } else if xs[i].value.1 < xs[b].value.1 {
      ScanInvariant(xs, i + 1, i);
    } else {
      ScanInvariant(xs, i + 1, b);
    }
  }

  /** What `Song.add` is given: a Note, a Chord, or anything else. */
  datatype Item = NoteItem(n: Note) | ChordItem(c: Chord) | RawItem(a: PitchArg)

  /** `Song.add`: a Note becomes a one-note chord, a chord is kept, anything
      else is tried as `Note(obj)` and dropped when that raises TypeError or
      AttributeError; any other error goes through. */
  function Add(song: seq<Chord>, item: Item): (r: Result<seq<Chord>>)
    ensures item.NoteItem? ==>
      NewChord([Given(item.n)], QUARTER).Success? && r == Success(song + [NewChord([Given(item.n)], QUARTER).value])
    ensures item.ChordItem? ==> r == Success(song + [item.c])
    ensures item.RawItem? && NewNote(item.a, QUARTER).Success? ==>
      var n := NewNote(item.a, QUARTER).value;
      NewChord([Given(n)], QUARTER).Success? && r == Success(song + [NewChord([Given(n)], QUARTER).value])
    ensures item.RawItem? && NewNote(item.a, QUARTER).Failure? ==>
      if NewNote(item.a, QUARTER).error in {TypeError, AttributeError} then r == Success(song)
      else r == Failure(NewNote(item.a, QUARTER).error)
  {
    match item
    case NoteItem(n) =>
      NoteChordBuilt(n, QUARTER);
      Success(song + [NoteChord(n)])
    case ChordItem(c) => Success(song + [c])
    case RawItem(a) =>
      match NewNote(a, QUARTER)
      case Success(n) =>
        NoteChordBuilt(n, QUARTER);
        Success(song + [NoteChord(n)])
      case Failure(e) => if e == TypeError || e == AttributeError then Success(song) else Failure(e)
  }

  /** The one-note chord `Chord([note])`. */
  function NoteChord(n: Note): Chord {
    Chord([n], n.duration, Candidates([n.pitch.value]))
  }

  /** `Chord([note])` cannot fail, and it is the one-note chord whatever
      default duration is passed along. */
  lemma NoteChordBuilt(n: Note, duration: real)
    ensures NewChord([Given(n)], duration) == Success(NoteChord(n))
  {
    DedupOne(n);
    MakeOne(n, duration);
    SortOne(n);
  }

  lemma DedupOne(n: Note)
    ensures Dedup([Given(n)]) == Success([Given(n)])
  {
    assert [Given(n)][1..] == [] && [] + [Given(n)] == [Given(n)];
    assert DedupOnto([Given(n)], []) == Success([Given(n)]);
  }

  lemma MakeOne(n: Note, duration: real)
    ensures MakeNotes([Given(n)], duration) == Success([n])
  {
    var made := MakeNotes([Given(n)], duration);
    assert made.Success? && |made.value| == 1 && made.value[0] == n;
    assert made.value == [n];
  }

  lemma SortOne(n: Note)
    ensures SortNotes([n]) == [n] && Values([n]) == [n.pitch.value]
    ensures MinDuration([n]) == Success(n.duration)
  {
    assert [n][1..] == [];
  }

  /** `Song(notes)`: every item added in turn. */
  function NewSong(items: seq<Item>): Result<seq<Chord>> {
    AddAll([], items)
  }

  function AddAll(song: seq<Chord>, items: seq<Item>): Result<seq<Chord>>
    decreases |items|
  {
    if |items| == 0 then Success(song)
    else
      var next :- Add(song, items[0]);
      AddAll(next, items[1..])
  }

  /** The chord a Note or a Chord becomes in a song. */
  function ItemChord(item: Item): Chord
    requires !item.RawItem?
  {
    if item.NoteItem? then NoteChord(item.n) else item.c
  }

  /** The chords a list of Notes and Chords becomes: one per item, in order. */
  function SongOf(items: seq<Item>): (r: seq<Chord>)
    requires forall i :: 0 <= i < |items| ==> !items[i].RawItem?
    ensures |r| == |items|
    decreases |items|
  {
    if |items| == 0 then [] else [ItemChord(items[0])] + SongOf(items[1..])
  }

  /** A song of Notes and Chords holds one chord per item, in order: a Note
      as its one-note chord, a Chord as it is. */
  lemma NewSongOfNotes(items: seq<Item>)
    requires forall i :: 0 <= i < |items| ==> !items[i].RawItem?
    ensures NewSong(items) == Success(SongOf(items))
    ensures forall i :: 0 <= i < |items| ==> SongOf(items)[i] == ItemChord(items[i])
  {
    AddAllNotes([], items);
    assert [] + SongOf(items) == SongOf(items);
    SongOfAt(items);
  }

  lemma {:induction false} SongOfAt(items: seq<Item>)
    requires forall i :: 0 <= i < |items| ==> !items[i].RawItem?
    ensures forall i :: 0 <= i < |items| ==> SongOf(items)[i] == ItemChord(items[i])
    decreases |items|
  {
    if |items| > 0 {
      SongOfAt(items[1..]);
      assert forall i :: 1 <= i < |items| ==> items[i] == items[1..][i - 1];
    }
  }

  lemma {:induction false} AddAllNotes(song: seq<Chord>, items: seq<Item>)
    requires forall i :: 0 <= i < |items| ==> !items[i].RawItem?
    ensures AddAll(song, items) == Success(song + SongOf(items))
    decreases |items|
  {
    if |items| == 0 {
      assert song + SongOf(items) == song;
    } else {
      var next := song + [ItemChord(items[0])];
      AddItem(song, items[0]);
      assert AddAll(song, items) == AddAll(next, items[1..]);
      AddAllNotes(next, items[1..]);
      assert next + SongOf(items[1..]) == song + SongOf(items);
    }
  }

  lemma AddItem(song: seq<Chord>, item: Item)
    requires !item.RawItem?
    ensures Add(song, item) == Success(song + [ItemChord(item)])
  {
    if item.NoteItem? {
      NoteChordBuilt(item.n, QUARTER);
    }
  }

  /** Items that do not make a Note are skipped: a song of such items alone is
      empty. */
  lemma {:induction false} AddAllSkips(song: seq<Chord>, items: seq<Item>)
    requires forall i :: 0 <= i < |items| ==>
      items[i].RawItem? && NewNote(items[i].a, QUARTER).Failure? && NewNote(items[i].a, QUARTER).error in {TypeError, AttributeError}
    ensures AddAll(song, items) == Success(song)
    decreases |items|
  {
    if |items| > 0 {
      assert Add(song, items[0]) == Success(song);
      AddAllSkips(song, items[1..]);
    }
  }
}

=== FILE: guitarist.dfy ===
/** The Guitarist's path search: `play` scores every combination of
    candidate shapes with a fresh hand and keeps the earliest cheapest one;
    `read` runs `play` over overlapping windows of a song and stitches the
    results together.
 */
module Guitarist {

  import opened Base
  import opened Shapes
  import opened Search
  import opened Hands
  import opened Chords
  import Pitches

  /** A hand walking through a path of shapes: each step costs the move to
      the shape plus the strain of the hand that results. Gives the final
      hand and the total; the first move or strain that raises ends it. */
  function Walk(h: Hand, path: seq<Shape>): Result<(Hand, int)>
    decreases |path|
  {
    if |path| == 0 then Success((h, 0))
    else
      var moved :- Move(h, ListTuples(path[0]), Current);
      var strain :- Strain(moved.0);
      var rest :- Walk(moved.0, path[1..]);
      Success((rest.0, moved.1 + strain + rest.1))
  }

  /** Walking a path in two pieces: the second piece starts from the hand the
      first one left, and the totals add up; the whole walk succeeds exactly
      when both pieces do. */
  lemma {:induction false} WalkConcat(h: Hand, a: seq<Shape>, b: seq<Shape>)
    ensures Walk(h, a + b).Success? <==> Walk(h, a).Success? && Walk(Walk(h, a).value.0, b).Success?
    ensures Walk(h, a + b).Success? ==>
      Walk(h, a + b).value.0 == Walk(Walk(h, a).value.0, b).value.0 &&
      Walk(h, a + b).value.1 == Walk(h, a).value.1 + Walk(Walk(h, a).value.0, b).value.1
    decreases |a|
  {
    if |a| == 0 {
      assert a + b == b;
    } else {
      assert (a + b)[0] == a[0] && (a + b)[1..] == a[1..] + b;
      var moved := Move(h, ListTuples(a[0]), Current);
      if moved.Success? && Strain(moved.value.0).Success? {
        WalkConcat(moved.value.0, a[1..], b);
      }
    }
  }

  /** The score of a path: the total of a walk from a fresh hand. */
  function Score(path: seq<Shape>): Result<int> {
    var walked :- Walk(Fresh(), path);
    Success(walked.1)
  }

  /** The scores of the paths in turn; the first one that raises ends the scan. */
  function Scores(paths: seq<seq<Shape>>): (r: Result<seq<int>>)
    ensures r.Success? ==> |r.value| == |paths|
    ensures r.Success? ==> forall i :: 0 <= i < |paths| ==> Score(paths[i]) == Success(r.value[i])
    ensures r.Success? <==> forall i :: 0 <= i < |paths| ==> Score(paths[i]).Success?
  {
    if |paths| == 0 then Success([])
    else
      var first :- Score(paths[0]);
      var rest :- Scores(paths[1..]);
      assert forall i :: 1 <= i < |paths| ==> paths[i] == paths[1..][i - 1];
      Success([first] + rest)
  }

  /** The candidate lists of the chords, in song order. */
  function ShapesOf(song: seq<Chord>): (ls: seq<seq<Shape>>)
    ensures |ls| == |song| && forall i :: 0 <= i < |song| ==> ls[i] == song[i].shapes
  {
    seq(|song|, i requires 0 <= i < |song| => song[i].shapes)
  }

  /** `Guitarist.play(song)`: a one-chord song gives that chord's preferred
      shape; otherwise the earliest combination of minimal score, or None
      when there is no combination. */
  function Play(song: seq<Chord>): Result<Option<seq<Shape>>> {
    if |song| == 1 then
      var s :- ChordShape(song[0]);
      Success(Some([s]))
    else
      var combos := Product(ShapesOf(song));
      var scores :- Scores(combos);
      if |scores| == 0 then Success(None) else Success(Some(combos[FirstMinIndex(scores)]))
  }

  /** A one-chord song plays the chord's preferred shape, and fails as that does. */
  lemma PlayOne(c: Chord)
    ensures Play([c]).Success? <==> ChordShape(c).Success?
    ensures Play([c]).Success? ==> Play([c]).value == Some([ChordShape(c).value])
    ensures Play([c]).Failure? ==> Play([c]).error == ChordShape(c).error
  {
  }

  /** Play fails exactly when some combination cannot be scored. */
  lemma PlayFails(song: seq<Chord>)
    requires |song| != 1
    ensures Play(song).Failure? <==> exists c :: c in Product(ShapesOf(song)) && Score(c).Failure?
  {
    var combos := Product(ShapesOf(song));
    if exists c :: c in combos && Score(c).Failure? {
      var c :| c in combos && Score(c).Failure?;
      var i :| 0 <= i < |combos| && combos[i] == c;
    }
  }

  /** Play finds nothing exactly when some chord has no candidate shape. */
  lemma PlayNone(song: seq<Chord>)
    requires |song| != 1 && Play(song).Success?
    ensures Play(song).value.None? <==> exists i :: 0 <= i < |song| && |song[i].shapes| == 0
  {
    var ls := ShapesOf(song);
    ProductEmpty(ls);
    if exists i :: 0 <= i < |song| && |song[i].shapes| == 0 {
      var i :| 0 <= i < |song| && |song[i].shapes| == 0;
      assert |ls[i]| == 0;
    }
  }

  /** What play chooses: one candidate per chord, in song order, whose score
      no combination beats and every earlier combination exceeds. */
  lemma PlayBest(song: seq<Chord>, path: seq<Shape>)
    requires |song| != 1 && Play(song) == Success(Some(path))
    ensures |path| == |song| && forall i :: 0 <= i < |song| ==> path[i] in song[i].shapes
    ensures Score(path).Success?
    ensures forall c :: c in Product(ShapesOf(song)) ==> Score(c).Success? && Score(path).value <= Score(c).value
    ensures exists k ::
              0 <= k < |Product(ShapesOf(song))| && Product(ShapesOf(song))[k] == path &&
              forall j :: 0 <= j < k ==> Score(path).value < Score(Product(ShapesOf(song))[j]).value
  {
    var combos := Product(ShapesOf(song));
    var scores := Scores(combos).value;
    var k := FirstMinIndex(scores);
    assert path == combos[k];
    ProductMembers(ShapesOf(song), path);
    FirstMinBest(combos, scores, k);
  }

  /** The combination at the first minimal score beats no later one and
      undercuts every earlier one. */
  lemma FirstMinBest(combos: seq<seq<Shape>>, scores: seq<int>, k: nat)
    requires |scores| == |combos| && k < |combos|
    requires forall i :: 0 <= i < |combos| ==> Score(combos[i]) == Success(scores[i])
    requires forall j :: 0 <= j < |scores| ==> scores[k] <= scores[j]
    requires forall j :: 0 <= j < k ==> scores[k] < scores[j]
    ensures Score(combos[k]).Success?
    ensures forall c :: c in combos ==> Score(c).Success? && Score(combos[k]).value <= Score(c).value
    ensures forall j :: 0 <= j < k ==> Score(combos[k]).value < Score(combos[j]).value
  {
    forall c | c in combos ensures Score(c).Success? && Score(combos[k]).value <= Score(c).value {
      var j :| 0 <= j < |combos| && combos[j] == c;
      assert scores[k] <= scores[j];
    }
  }

  /** The head of a played window: None raises TypeError, an empty path IndexError. */
  function Head(played: Option<seq<Shape>>): (r: Result<Shape>)
    ensures r.Success? <==> played.Some? && |played.value| > 0
    ensures r.Success? ==> r.value == played.value[0]
  {
    match played
    case None => Failure(TypeError)
    case Some(p) => if |p| == 0 then Failure(IndexError) else Success(p[0])
  }

  /** `shape[1:]` of a played window: None raises TypeError. */
  function Tail(played: Option<seq<Shape>>): (r: Result<seq<Shape>>)
    ensures r.Success? <==> played.Some?
    ensures r.Success? && |played.value| > 0 ==> [played.value[0]] + r.value == played.value
    ensures r.Success? && |played.value| == 0 ==> r.value == []
  {
    match played
    case None => Failure(TypeError)
    case Some(p) => if |p| == 0 then Success([]) else Success(p[1..])
  }

  /** A window of `delta + 1` chords starting at chord `i`. */
  function Window(song: seq<Chord>, delta: nat, i: nat): (w: seq<Chord>)
    requires i + delta < |song|
    ensures |w| == delta + 1 && forall k :: 0 <= k <= delta ==> w[k] == song[i + k]
  {
    song[i..i + delta + 1]
  }

  /** The items `Song.add` receives for a list of chords. */
  function ChordItems(w: seq<Chord>): (items: seq<Item>)
    ensures |items| == |w| && forall i :: 0 <= i < |w| ==> items[i] == ChordItem(w[i])
  {
    seq(|w|, i requires 0 <= i < |w| => ChordItem(w[i]))
  }

  /** The passages `read` builds are the chords it is given. The opening
      passage is `Song(chords)`. A later passage is `Song([path[-1], *chords])`,
      which leads with the previous head: a Shape, which is neither an int,
      a string nor a Note. `Note(shape)` sets no value, so `get_shapes`
      raises AttributeError, and `Song.add` drops the item. The previous
      head therefore does not take part in the window's search. */
  lemma {:induction false} AnchorDropped(w: seq<Chord>)
    ensures NewSong(ChordItems(w)) == Success(w)
    ensures NewSong([RawItem(Pitches.OtherArg)] + ChordItems(w)) == Success(w)
  {
    var items := ChordItems(w);
    NewSongOfNotes(items);
    SongOfChords(items, w);
    var anchored := [RawItem(Pitches.OtherArg)] + items;
    assert Add([], anchored[0]) == Success([]);
    assert anchored[1..] == items;
  }

  lemma {:induction false} SongOfChords(items: seq<Item>, w: seq<Chord>)
    requires |items| == |w| && forall i :: 0 <= i < |w| ==> items[i] == ChordItem(w[i])
    ensures SongOf(items) == w
    decreases |w|
  {
    if |w| > 0 {
      SongOfChords(items[1..], w[1..]);
    }
  }

  /** What `read` calls to play a window. */
  type Player = seq<Chord> -> Result<Option<seq<Shape>>>

  /** Whether playing these chords gives a path. */
  predicate Gives(play: Player, song: seq<Chord>) {
    play(song).Success? && play(song).value.Some?
  }

  /** The loop of `read` from window `i` on: each window is played, its head
      appended, and a window with no result skipped; also gives the last
      window's result, which supplies the tail. Each window is played on its
      `delta + 1` chords alone: the previous head that leads the passage is
      dropped when the song is built (`AnchorDropped`). */
  function Windows(play: Player, song: seq<Chord>, delta: nat, i: nat, path: seq<Shape>, last: Option<seq<Shape>>)
    : Result<(seq<Shape>, Option<seq<Shape>>)>
    decreases |song| - i
  {
    if i + delta >= |song| then Success((path, last))
    else
      var played :- play(Window(song, delta, i));
      match played
      case None => Windows(play, song, delta, i + 1, path, None)
      case Some(p) =>
        if |p| == 0 then Failure(IndexError) else Windows(play, song, delta, i + 1, path + [p[0]], played)
  }

  /** The steps of `read` around a given way of playing a window: the head of
      the opening window of `delta` chords, then the head of each later window
      of `delta + 1` chords, then the rest of the last window played. */
  function ReadWith(play: Player, song: seq<Chord>, delta: nat): Result<seq<Shape>> {
    var first :- play(song[..Min(delta, |song|)]);
    var head :- Head(first);
    var walked :- Windows(play, song, delta, 1, [head], first);
    var tail :- Tail(walked.1);
    Success(walked.0 + tail)
  }

  /** `Guitarist.read(song, DELTA)` */
  function Read(song: seq<Chord>, delta: nat): Result<seq<Shape>> {
    ReadWith(Play, song, delta)
  }

  /** The window size `read` uses by default. */
  const DELTA := 3

  /** A shape stands for a chord when it is one of its candidates or the
      chord's preferred shape. */
  predicate Fits(c: Chord, s: Shape) {
    s in c.shapes || ChordShape(c) == Success(s)
  }

  /** A path play returns has one shape per chord, each fitting its chord. */
  lemma PlayAligned(song: seq<Chord>)
    requires Gives(Play, song)
    ensures |Play(song).value.value| == |song|
    ensures forall i :: 0 <= i < |song| ==> Fits(song[i], Play(song).value.value[i])
  {
    if |song| != 1 {
      PlayBest(song, Play(song).value.value);
    }
  }

  /** Every path the player gives has one shape per chord. */
  ghost predicate Sized(play: Player) {
    forall w :: Gives(play, w) ==> |play(w).value.value| == |w|
  }

  /** Every path the player gives has one fitting shape per chord. */
  ghost predicate Aligned(play: Player) {
    Sized(play) &&
    forall w :: Gives(play, w) ==> forall i :: 0 <= i < |w| && i < |play(w).value.value| ==> Fits(w[i], play(w).value.value[i])
  }

  lemma PlayIsAligned()
    ensures Aligned(Play)
  {
    forall w | Gives(Play, w)
      ensures |Play(w).value.value| == |w| &&
        forall i :: 0 <= i < |w| && i < |Play(w).value.value| ==> Fits(w[i], Play(w).value.value[i])
    {
      PlayAligned(w);
    }
  }

  /** Every window `read` plays gives a path. */
  predicate ResolvesWith(play: Player, song: seq<Chord>, delta: nat) {
    Gives(play, song[..Min(delta, |song|)]) &&
    forall i :: 1 <= i && i + delta < |song| ==> Gives(play, Window(song, delta, i))
  }

  predicate Resolves(song: seq<Chord>, delta: nat) {
    ResolvesWith(Play, song, delta)
  }

  /** From window `i` on, when every window resolves, the loop appends the
      head of each window in turn. */
  lemma {:induction false} WindowsResolved(play: Player, song: seq<Chord>, delta: nat, i: nat, path: seq<Shape>,
                                           last: Option<seq<Shape>>)
    requires Sized(play) && 1 <= i && |path| == i && i <= |song|
    requires forall j :: i <= j && j + delta < |song| ==> Gives(play, Window(song, delta, j))
    ensures Windows(play, song, delta, i, path, last).Success?
    ensures var out := Windows(play, song, delta, i, path, last).value.0;
      |out| == Max(i, |song| - delta) && out[..i] == path &&
      forall j :: i <= j < |out| ==> out[j] == play(Window(song, delta, j)).value.value[0]
    decreases |song| - i
  {
    if i + delta < |song| {
      var w := Window(song, delta, i);
      var p := play(w).value.value;
      var next := path + [p[0]];
      WindowsResolved(play, song, delta, i + 1, next, Some(p));
      var out := Windows(play, song, delta, i + 1, next, Some(p)).value.0;
      assert Windows(play, song, delta, i, path, last) == Windows(play, song, delta, i + 1, next, Some(p)) by {
        assert Gives(play, w);
      }
      assert out[..i] == path by {
        assert out[..i] == next[..i];
      }
      assert out[i] == next[i] == p[0];
    }
  }

  /** When every window from `i` on resolves, the last window the loop plays
      starts at `|song| - delta - 1`; with no window left it is `last`. */
  lemma {:induction false} WindowsLast(play: Player, song: seq<Chord>, delta: nat, i: nat, path: seq<Shape>,
                                       last: Option<seq<Shape>>)
    requires Sized(play) && 1 <= i
    requires forall j :: i <= j && j + delta < |song| ==> Gives(play, Window(song, delta, j))
    requires Windows(play, song, delta, i, path, last).Success?
    ensures Windows(play, song, delta, i, path, last).value.1 ==
      if i + delta < |song| then play(Window(song, delta, |song| - delta - 1)).value else last
    decreases |song| - i
  {
    if i + delta < |song| {
      var w := Window(song, delta, i);
      var p := play(w).value.value;
      assert Windows(play, song, delta, i, path, last) == Windows(play, song, delta, i + 1, path + [p[0]], Some(p)) by {
        assert Gives(play, w);
      }
      WindowsLast(play, song, delta, i + 1, path + [p[0]], Some(p));
    }
  }

  /** Shapes that head the windows starting at their own chords fit those chords. */
  lemma HeadsFit(play: Player, song: seq<Chord>, delta: nat, out: seq<Shape>)
    requires Aligned(play) && 1 <= |out| && |out| + delta <= |song|
    requires Fits(song[0], out[0])
    requires forall j :: 1 <= j < |out| ==> Gives(play, Window(song, delta, j))
    requires forall j :: 1 <= j < |out| ==> out[j] == play(Window(song, delta, j)).value.value[0]
    ensures forall k :: 0 <= k < |out| ==> Fits(song[k], out[k])
  {
    forall k | 1 <= k < |out| ensures Fits(song[k], out[k]) {
      var w := Window(song, delta, k);
      assert Gives(play, w) && w[0] == song[k];
    }
  }

  /** When every window resolves, `read` gives one shape per chord, each
      fitting its chord, except that a song of exactly `delta + 1` chords
      loses its last one; the first shape heads the opening window and each
      later one up to chord `|song| - delta - 1` heads its own window. */
  lemma ReadResolvedWith(play: Player, song: seq<Chord>, delta: nat)
    requires Aligned(play) && 1 <= delta && |song| >= 1 && ResolvesWith(play, song, delta)
    ensures ReadWith(play, song, delta).Success?
    ensures |ReadWith(play, song, delta).value| == if |song| == delta + 1 then |song| - 1 else |song|
    ensures forall k :: 0 <= k < |ReadWith(play, song, delta).value| ==> Fits(song[k], ReadWith(play, song, delta).value[k])
    ensures ReadWith(play, song, delta).value[0] == play(song[..Min(delta, |song|)]).value.value[0]
    ensures forall i :: 1 <= i && i + delta < |song| ==>
      ReadWith(play, song, delta).value[i] == play(Window(song, delta, i)).value.value[0]
  {
    var opening := song[..Min(delta, |song|)];
    assert Gives(play, opening);
    if 1 + delta < |song| {
      ReadLong(play, song, delta);
    } else {
      ReadShort(play, song, delta, play(opening).value.value);
    }
  }

  /** A song longer than `delta + 1`: the opening head, the head of every
      later window and the rest of the last window, one fitting shape per chord. */
  lemma ReadLong(play: Player, song: seq<Chord>, delta: nat)
    requires Aligned(play) && 1 <= delta && 1 + delta < |song| && ResolvesWith(play, song, delta)
    ensures ReadWith(play, song, delta).Success?
    ensures |ReadWith(play, song, delta).value| == |song|
    ensures forall k :: 0 <= k < |song| ==> Fits(song[k], ReadWith(play, song, delta).value[k])
    ensures ReadWith(play, song, delta).value[0] == play(song[..delta]).value.value[0]
    ensures forall i :: 1 <= i && i + delta < |song| ==>
      ReadWith(play, song, delta).value[i] == play(Window(song, delta, i)).value.value[0]
  {
    var opening := song[..delta];
    assert Min(delta, |song|) == delta;
    assert Gives(play, opening);
    var p := play(opening).value.value;
    assert Fits(song[0], p[0]) by {
      assert opening[0] == song[0];
    }
    WindowsResolved(play, song, delta, 1, [p[0]], Some(p));
    WindowsLast(play, song, delta, 1, [p[0]], Some(p));
    var out := Windows(play, song, delta, 1, [p[0]], Some(p)).value.0;
    assert out[0] == p[0] by {
      assert out[..1] == [p[0]];
    }
    assert |out| + delta == |song|;
    HeadsFit(play, song, delta, out);
    var last := Window(song, delta, |song| - delta - 1);
    assert Gives(play, last);
    var q := play(last).value.value;
    assert forall k :: 0 <= k < |q| ==> Fits(song[|song| - delta - 1 + k], q[k]) by {
      assert forall k :: 0 <= k < |q| ==> last[k] == song[|song| - delta - 1 + k];
    }
    ReadStitched(play, song, delta, out, q);
  }

  /** `read` with the engine's own `play`. */
  lemma ReadResolved(song: seq<Chord>, delta: nat)
    requires 1 <= delta && |song| >= 1 && Resolves(song, delta)
    ensures Read(song, delta).Success?
    ensures |Read(song, delta).value| == if |song| == delta + 1 then |song| - 1 else |song|
    ensures forall k :: 0 <= k < |Read(song, delta).value| ==> Fits(song[k], Read(song, delta).value[k])
  {
    PlayIsAligned();
    ReadResolvedWith(Play, song, delta);
  }

  /** A song no longer than `delta + 1`: the opening window is the whole
      path, its head and then its tail. */
  lemma ReadShort(play: Player, song: seq<Chord>, delta: nat, p: seq<Shape>)
    requires 1 <= delta && 1 <= |song| <= delta + 1
    requires play(song[..Min(delta, |song|)]) == Success(Some(p))
    requires |p| == Min(delta, |song|) && forall i :: 0 <= i < |p| ==> Fits(song[i], p[i])
    ensures ReadWith(play, song, delta) == Success(p)
    ensures |p| == if |song| == delta + 1 then |song| - 1 else |song|
  {
    assert Windows(play, song, delta, 1, [p[0]], Some(p)) == Success(([p[0]], Some(p)));
    assert [p[0]] + p[1..] == p;
  }

  /** A song longer than `delta + 1`: heads of the opening and later windows,
      then the rest of the last window, one fitting shape per chord. */
  lemma ReadStitched(play: Player, song: seq<Chord>, delta: nat, out: seq<Shape>, q: seq<Shape>)
    requires 1 <= delta && 1 + delta < |song| && Gives(play, song[..delta])
    requires |play(song[..delta]).value.value| > 0
    requires var p := play(song[..delta]).value.value;
      Windows(play, song, delta, 1, [p[0]], Some(p)) == Success((out, Some(q)))
    requires |q| == delta + 1 && forall i :: 0 <= i < |q| ==> Fits(song[|song| - delta - 1 + i], q[i])
    requires |out| == |song| - delta && forall k :: 0 <= k < |out| ==> Fits(song[k], out[k])
    ensures ReadWith(play, song, delta) == Success(out + q[1..])
    ensures |out + q[1..]| == |song| && forall k :: 0 <= k < |song| ==> Fits(song[k], (out + q[1..])[k])
  {
    assert Min(delta, |song|) == delta;
    var p := play(song[..delta]).value.value;
    assert Head(Some(p)) == Success(p[0]);
    assert Tail(Some(q)) == Success(q[1..]);
    StitchFits(song, delta, out, q);
  }

  /** The heads of the windows followed by the rest of the last window give
      one fitting shape per chord. */
  lemma StitchFits(song: seq<Chord>, delta: nat, out: seq<Shape>, q: seq<Shape>)
    requires 1 <= delta && 1 + delta < |song|
    requires |q| == delta + 1 && forall i :: 0 <= i < |q| ==> Fits(song[|song| - delta - 1 + i], q[i])
    requires |out| == |song| - delta && forall k :: 0 <= k < |out| ==> Fits(song[k], out[k])
    ensures |out + q[1..]| == |song| && forall k :: 0 <= k < |song| ==> Fits(song[k], (out + q[1..])[k])
  {
    var path := out + q[1..];
    forall k | 0 <= k < |song| ensures Fits(song[k], path[k]) {
      if k >= |out| {
        assert path[k] == q[k - |out| + 1];
      }
    }
  }

  /** An empty song plays the one empty combination at score 0. */
  lemma EmptyPlay()
    ensures Play([]) == Success(Some([]))
  {
    var none: seq<seq<Shape>> := [[]];
    assert Product(ShapesOf([])) == none;
    assert none[1..] == [];
    assert Score(none[0]) == Success(0);
    assert Scores(none[1..]) == Success([]);
    assert Scores(none) == Success([0] + []);
  }

  /** `read` of an empty song raises IndexError: the opening window plays
      to an empty path, whose head does not exist. */
  lemma ReadEmpty(delta: nat)
    ensures Read([], delta) == Failure(IndexError)
  {
    var empty: seq<Chord> := [];
    assert empty[..Min(delta, 0)] == [];
    EmptyPlay();
  }

  /** With a window of no chords the opening play has no head, so `read`
      raises IndexError on any song. */
  lemma ReadNoOpening(song: seq<Chord>)
    ensures Read(song, 0) == Failure(IndexError)
  {
    assert song[..Min(0, |song|)] == [];
    EmptyPlay();
  }
}

=== FILE: hand_fixtures.dfy ===
/** Worked examples of `Hand` on the chord shapes of test_player.py: the hand
    built on each open and barre chord, the shape it plays back, its strain,
    and the cost of moving between chords. `Hand(initial)` is a fresh hand
    moved to `initial`. */
module HandFixtures {
  import opened Base
  import opened Shapes
  import opened Hands
  import opened HandSteps

  const OPEN_C: seq<Pos> := [Pos(0, 0), Pos(1, 3), Pos(2, 2), Pos(3, 0), Pos(4, 1), Pos(5, 0)]
  const OPEN_C_SHAPE: Shape := [Some(0), Some(3), Some(2), Some(0), Some(1), Some(0)]
  const OPEN_C_HAND := Hand([Down(4, 1), Down(2, 2), Down(1, 3), Lifted], false, [0, 3, 5])
  const OPEN_C_DONE := {Pos(0, 0), Pos(3, 0), Pos(4, 1), Pos(5, 0)}

  const OPEN_A: seq<Pos> := [Pos(0, 0), Pos(1, 0), Pos(2, 2), Pos(3, 2), Pos(4, 2), Pos(5, 0)]
  const OPEN_A_SHAPE: Shape := [Some(0), Some(0), Some(2), Some(2), Some(2), Some(0)]
  const OPEN_A_HAND := Hand([Down(2, 2), Down(3, 2), Down(4, 2), Lifted], false, [0, 1, 5])
  const OPEN_A_DONE := {Pos(0, 0), Pos(1, 0), Pos(2, 2), Pos(5, 0)}

  const OPEN_G: seq<Pos> := [Pos(0, 3), Pos(1, 2), Pos(2, 0), Pos(3, 0), Pos(4, 0), Pos(5, 3)]
  const OPEN_G_SHAPE: Shape := [Some(3), Some(2), Some(0), Some(0), Some(0), Some(3)]
  const OPEN_G_HAND := Hand([Down(1, 2), Down(0, 3), Down(5, 3), Lifted], false, [2, 3, 4])
  const OPEN_G_DONE := {Pos(1, 2), Pos(2, 0), Pos(3, 0), Pos(4, 0)}

  const OPEN_E: seq<Pos> := [Pos(0, 0), Pos(1, 2), Pos(2, 2), Pos(3, 1), Pos(4, 0), Pos(5, 0)]
  const OPEN_E_SHAPE: Shape := [Some(0), Some(2), Some(2), Some(1), Some(0), Some(0)]
  const OPEN_E_HAND := Hand([Down(3, 1), Down(1, 2), Down(2, 2), Lifted], false, [0, 4, 5])
  const OPEN_E_DONE := {Pos(0, 0), Pos(3, 1), Pos(4, 0), Pos(5, 0)}

  const OPEN_D: seq<Pos> := [Pos(1, 0), Pos(2, 0), Pos(3, 2), Pos(4, 3), Pos(5, 2)]
  const OPEN_D_SHAPE: Shape := [None, Some(0), Some(0), Some(2), Some(3), Some(2)]
  const OPEN_D_HAND := Hand([Down(3, 2), Down(4, 3), Lifted, Lifted], true, [1, 2])
  const OPEN_D_DONE := {Pos(1, 0), Pos(2, 0), Pos(3, 2), Pos(5, 2)}

  const BARRE_B: seq<Pos> := [Pos(0, 2), Pos(1, 2), Pos(2, 4), Pos(3, 4), Pos(4, 4), Pos(5, 2)]
  const BARRE_B_SHAPE: Shape := [Some(2), Some(2), Some(4), Some(4), Some(4), Some(2)]
  const BARRE_B_HAND := Hand([Down(0, 2), Down(2, 4), Down(3, 4), Down(4, 4)], true, [])
  const BARRE_B_DONE := {Pos(0, 2), Pos(1, 2), Pos(5, 2)}

  const BARRE_F: seq<Pos> := [Pos(0, 1), Pos(1, 3), Pos(2, 3), Pos(3, 2), Pos(4, 1), Pos(5, 1)]
  const BARRE_F_SHAPE: Shape := [Some(1), Some(3), Some(3), Some(2), Some(1), Some(1)]
  const BARRE_F_HAND := Hand([Down(0, 1), Down(3, 2), Down(1, 3), Down(2, 3)], true, [])
  const BARRE_F_DONE := {Pos(0, 1), Pos(4, 1), Pos(5, 1)}

  const BARRE_A: seq<Pos> := [Pos(0, 5), Pos(1, 7), Pos(2, 7), Pos(3, 6), Pos(4, 5), Pos(5, 5)]
  const BARRE_A_SHAPE: Shape := [Some(5), Some(7), Some(7), Some(6), Some(5), Some(5)]
  const BARRE_A_HAND := Hand([Down(0, 5), Down(3, 6), Down(1, 7), Down(2, 7)], true, [])
  const BARRE_A_DONE := {Pos(0, 5), Pos(4, 5), Pos(5, 5)}

  const ALL_OPEN: seq<Pos> := [Pos(0, 0), Pos(1, 0), Pos(2, 0), Pos(3, 0), Pos(4, 0), Pos(5, 0)]
  const ALL_OPEN_SHAPE: Shape := [Some(0), Some(0), Some(0), Some(0), Some(0), Some(0)]
  const ALL_OPEN_HAND := Hand([Lifted, Lifted, Lifted, Lifted], false, [0, 1, 2, 3, 4, 5])

  /** An all-open target returns before any finger moves. */
  lemma AllOpenMove(h: Hand)
    ensures Move(h, ALL_OPEN, Current) == Success((h.(openStrings := OpenStrings(ALL_OPEN)), 0))
  {
    OpenOnly(h, ALL_OPEN, 0);
  }

  lemma AllOpenFresh()
    ensures Move(Fresh(), ALL_OPEN, Current) == Success((ALL_OPEN_HAND, 0))
  {
    AllOpenMove(Fresh());
    AllOpenStrings();
    assert Fresh().fingers == ALL_OPEN_HAND.fingers;
  }

  lemma AllOpenStrain()
    ensures Strain(ALL_OPEN_HAND) == Success(0)
  {
    StrainUnbarred(ALL_OPEN_HAND);
  }

  lemma AllOpenShape()
    ensures FromTuples(ALL_OPEN) == ALL_OPEN_SHAPE
  {
  }

  /** Moving the all-open hand to `all_open` again leaves it as it is. */
  lemma AllOpenNull()
    ensures Move(ALL_OPEN_HAND, ALL_OPEN, Current) == Success((ALL_OPEN_HAND, 0))
  {
    AllOpenMove(ALL_OPEN_HAND);
    AllOpenStrings();
  }

  lemma AllOpenStrings()
    ensures OpenStrings(ALL_OPEN) == [0, 1, 2, 3, 4, 5]
  {
    OpenStringsAre(ALL_OPEN, [0, 1, 2, 3, 4, 5]);
  }

  lemma AllOpenPlays()
    ensures HandShape(ALL_OPEN_HAND) == Success(ALL_OPEN_SHAPE)
  {
    PlaysSlots(ALL_OPEN_HAND, ALL_OPEN_SHAPE);
  }

  /** `Hand(all_open)` plays every string open with no strain, and moving it
      to `all_open` again costs nothing. */
  lemma AllOpen()
    ensures Move(Fresh(), ALL_OPEN, Current) == Success((ALL_OPEN_HAND, 0))
    ensures HandShape(ALL_OPEN_HAND) == Success(FromTuples(ALL_OPEN))
    ensures Strain(ALL_OPEN_HAND) == Success(0)
    ensures Move(ALL_OPEN_HAND, ALL_OPEN, Current) == Success((ALL_OPEN_HAND, 0))
  {
    AllOpenFresh();
    AllOpenNull();
    AllOpenPlays();
    AllOpenStrain();
    AllOpenShape();
  }

  /** `Hand(open_c)` plays `open_c` back, with a strain of 1. */
  lemma OpenC()
    ensures Move(Fresh(), OPEN_C, Current) == Success((OPEN_C_HAND, 0))
    ensures HandShape(OPEN_C_HAND) == Success(FromTuples(OPEN_C))
    ensures Strain(OPEN_C_HAND) == Success(1)
  {
    OpenCHandIs();
    OpenCMove(OPEN_C_HAND);
    OpenCPlays();
    OpenCStrain();
    OpenCShape();
  }

  /** `Hand(open_a)` plays `open_a` back, with a strain of 2. */
  lemma OpenA()
    ensures Move(Fresh(), OPEN_A, Current) == Success((OPEN_A_HAND, 0))
    ensures HandShape(OPEN_A_HAND) == Success(FromTuples(OPEN_A))
    ensures Strain(OPEN_A_HAND) == Success(2)
  {
    OpenAHandIs();
    OpenAMove(OPEN_A_HAND);
    OpenAPlays();
    OpenAStrain();
    OpenAShape();
  }

  /** `Hand(open_g)` plays `open_g` back, with a strain of 5. */
  lemma OpenG()
    ensures Move(Fresh(), OPEN_G, Current) == Success((OPEN_G_HAND, 0))
    ensures HandShape(OPEN_G_HAND) == Success(FromTuples(OPEN_G))
    ensures Strain(OPEN_G_HAND) == Success(5)
  {
    OpenGHandIs();
    OpenGMove(OPEN_G_HAND);
    OpenGPlays();
    OpenGStrain();
    OpenGShape();
  }

  /** `Hand(open_e)` plays `open_e` back, with a strain of 2. */
  lemma OpenE()
    ensures Move(Fresh(), OPEN_E, Current) == Success((OPEN_E_HAND, 0))
    ensures HandShape(OPEN_E_HAND) == Success(FromTuples(OPEN_E))
    ensures Strain(OPEN_E_HAND) == Success(2)
  {
    OpenEHandIs();
    OpenEMove(OPEN_E_HAND);
    OpenEPlays();
    OpenEStrain();
    OpenEShape();
  }

  /** `Hand(open_d)` plays `open_d` back, with a strain of 1. */
  lemma OpenD()
    ensures Move(Fresh(), OPEN_D, Current) == Success((OPEN_D_HAND, 0))
    ensures HandShape(OPEN_D_HAND) == Success(FromTuples(OPEN_D))
    ensures Strain(OPEN_D_HAND) == Success(1)
  {
    OpenDHandIs();
    OpenDMove(OPEN_D_HAND);
    OpenDPlays();
    OpenDStrain();
    OpenDShape();
  }

  /** `Hand(barre_b)` plays `barre_b` back, with a strain of 6. */
  lemma BarreB()
    ensures Move(Fresh(), BARRE_B, Current) == Success((BARRE_B_HAND, 0))
    ensures HandShape(BARRE_B_HAND) == Success(FromTuples(BARRE_B))
    ensures Strain(BARRE_B_HAND) == Success(6)
  {
    BarreBHandIs();
    BarreBMove(BARRE_B_HAND);
    BarreBPlays();
    BarreBStrain();
    BarreBShape();
  }

  /** `Hand(barre_f)` plays `barre_f` back, with a strain of 6. */
  lemma BarreF()
    ensures Move(Fresh(), BARRE_F, Current) == Success((BARRE_F_HAND, 0))
    ensures HandShape(BARRE_F_HAND) == Success(FromTuples(BARRE_F))
    ensures Strain(BARRE_F_HAND) == Success(6)
  {
    BarreFHandIs();
    BarreFMove(BARRE_F_HAND);
    BarreFPlays();
    BarreFStrain();
    BarreFShape();
  }

  /** `Hand(barre_a)` plays `barre_a` back, with a strain of 6. */
  lemma BarreA()
    ensures Move(Fresh(), BARRE_A, Current) == Success((BARRE_A_HAND, 0))
    ensures HandShape(BARRE_A_HAND) == Success(FromTuples(BARRE_A))
    ensures Strain(BARRE_A_HAND) == Success(6)
  {
    BarreAHandIs();
    BarreAMove(BARRE_A_HAND);
    BarreAPlays();
    BarreAStrain();
    BarreAShape();
  }

  /** `Hand(barre_f).move(barre_a)` costs 4. */
  lemma ChangeBarreFToA()
    ensures Move(Fresh(), BARRE_F, Current).Success?
    ensures Move(Move(Fresh(), BARRE_F, Current).value.0, BARRE_A, Current) == Success((BARRE_A_HAND, 4))
  {
    BarreF();
    BarreAHandIs();
    BarreFToASlid(BARRE_F_HAND);
    BarreFToAMove(BARRE_F_HAND, BARRE_A_HAND);
  }

  /** `Hand(barre_a).move(barre_f)` costs 4. */
  lemma ChangeBarreAToF()
    ensures Move(Fresh(), BARRE_A, Current).Success?
    ensures Move(Move(Fresh(), BARRE_A, Current).value.0, BARRE_F, Current) == Success((BARRE_F_HAND, 4))
  {
    BarreA();
    BarreFHandIs();
    BarreAToFSlid(BARRE_A_HAND);
    BarreAToFMove(BARRE_A_HAND, BARRE_F_HAND);
  }

  /** `Hand(open_c).move(open_g)` costs 11. */
  lemma ChangeOpenCToG()
    ensures Move(Fresh(), OPEN_C, Current).Success?
    ensures Move(Move(Fresh(), OPEN_C, Current).value.0, OPEN_G, Current) == Success((OPEN_G_HAND, 11))
  {
    OpenC();
    OpenGHandIs();
    OpenCToGSlid(OPEN_C_HAND);
    OpenCToGMove(OPEN_C_HAND, OPEN_G_HAND);
  }

  /** `Hand(open_e).move(open_a)` costs 8. */
  lemma ChangeOpenEToA()
    ensures Move(Fresh(), OPEN_E, Current).Success?
    ensures Move(Move(Fresh(), OPEN_E, Current).value.0, OPEN_A, Current) == Success((OPEN_A_HAND, 8))
  {
    OpenE();
    OpenAHandIs();
    OpenEToASlid(OPEN_E_HAND);
    OpenEToAMove(OPEN_E_HAND, OPEN_A_HAND);
  }

  /** From `Hand(barre_f)`, `move(barre_a)`: the index finger moves from Pos(0, 1) to Pos(0, 5) and the other fingers slide by 4. */
  lemma BarreFToASlid(h: Hand)
    requires h == BARRE_F_HAND
    ensures SlideChain(h, Pos(0, 5), Down(3, 6), Down(1, 7), Down(2, 7), 4)
  {
    assert h.fingers[0] == Down(0, 1) && h.fingers[1] == Down(3, 2) && h.fingers[2] == Down(1, 3) && h.fingers[3] == Down(2, 3);
    assert SlideBy(h, 5) == 4;
  }

  lemma BarreFToAPlaced1()
    ensures PlaceOne(Down(3, 6), BARRE_A, BARRE_A_DONE, 5) == Placement(Down(3, 6), 0, BARRE_A_DONE + {Pos(3, 6)}, 6)
  {
    PlaceAt(Down(3, 6), BARRE_A, BARRE_A_DONE, 5, Pos(3, 6));
  }

  lemma BarreFToAPlaced2()
    ensures PlaceOne(Down(1, 7), BARRE_A, BARRE_A_DONE + {Pos(3, 6)}, 6) == Placement(Down(1, 7), 0, BARRE_A_DONE + {Pos(3, 6)} + {Pos(1, 7)}, 7)
  {
    PlaceAt(Down(1, 7), BARRE_A, BARRE_A_DONE + {Pos(3, 6)}, 6, Pos(1, 7));
  }

  lemma BarreFToAPlaced3()
    ensures PlaceOne(Down(2, 7), BARRE_A, BARRE_A_DONE + {Pos(3, 6)} + {Pos(1, 7)}, 7) == Placement(Down(2, 7), 0, BARRE_A_DONE + {Pos(3, 6)} + {Pos(1, 7)} + {Pos(2, 7)}, 7)
  {
    PlaceAt(Down(2, 7), BARRE_A, BARRE_A_DONE + {Pos(3, 6)} + {Pos(1, 7)}, 7, Pos(2, 7));
  }

  lemma BarreFToAPlaces()
    ensures PlaceChain(BARRE_A, Pos(0, 5), true, BARRE_A_DONE, Down(3, 6), Down(1, 7), Down(2, 7),
      Placement(Down(3, 6), 0, BARRE_A_DONE + {Pos(3, 6)}, 6),
      Placement(Down(1, 7), 0, BARRE_A_DONE + {Pos(3, 6)} + {Pos(1, 7)}, 7),
      Placement(Down(2, 7), 0, BARRE_A_DONE + {Pos(3, 6)} + {Pos(1, 7)} + {Pos(2, 7)}, 7))
  {
    BarreAIndex();
    BarreABarre();
    BarreADone();
    BarreFToAPlaced1();
    BarreFToAPlaced2();
    BarreFToAPlaced3();
  }

  lemma BarreFToAMove(h: Hand, m: Hand)
    requires SlideChain(h, Pos(0, 5), Down(3, 6), Down(1, 7), Down(2, 7), 4) && h.barre
    requires m.fingers[0] == Down(0, 5) && m.fingers[1] == Down(3, 6) && m.fingers[2] == Down(1, 7) && m.fingers[3] == Down(2, 7)
    requires m.barre && m.openStrings == OpenFrom(BARRE_A, 0)
    ensures Move(h, BARRE_A, Current) == Success((m, 4))
  {
    BarreFToAPlaces();
    ChangeSteps(h, BARRE_A, Pos(0, 5), true, BARRE_A_DONE, Down(3, 6), Down(1, 7), Down(2, 7), 4,
      Placement(Down(3, 6), 0, BARRE_A_DONE + {Pos(3, 6)}, 6),
      Placement(Down(1, 7), 0, BARRE_A_DONE + {Pos(3, 6)} + {Pos(1, 7)}, 7),
      Placement(Down(2, 7), 0, BARRE_A_DONE + {Pos(3, 6)} + {Pos(1, 7)} + {Pos(2, 7)}, 7),
      m, 4);
  }

  /** From `Hand(barre_a)`, `move(barre_f)`: the index finger moves from Pos(0, 5) to Pos(0, 1) and the other fingers slide by -4. */
  lemma BarreAToFSlid(h: Hand)
    requires h == BARRE_A_HAND
    ensures SlideChain(h, Pos(0, 1), Down(3, 2), Down(1, 3), Down(2, 3), 4)
  {
    assert h.fingers[0] == Down(0, 5) && h.fingers[1] == Down(3, 6) && h.fingers[2] == Down(1, 7) && h.fingers[3] == Down(2, 7);
    assert SlideBy(h, 1) == -4;
  }

  lemma BarreAToFPlaced1()
    ensures PlaceOne(Down(3, 2), BARRE_F, BARRE_F_DONE, 1) == Placement(Down(3, 2), 0, BARRE_F_DONE + {Pos(3, 2)}, 2)
  {
    PlaceAt(Down(3, 2), BARRE_F, BARRE_F_DONE, 1, Pos(3, 2));
  }

  lemma BarreAToFPlaced2()
    ensures PlaceOne(Down(1, 3), BARRE_F, BARRE_F_DONE + {Pos(3, 2)}, 2) == Placement(Down(1, 3), 0, BARRE_F_DONE + {Pos(3, 2)} + {Pos(1, 3)}, 3)
  {
    PlaceAt(Down(1, 3), BARRE_F, BARRE_F_DONE + {Pos(3, 2)}, 2, Pos(1, 3));
  }

  lemma BarreAToFPlaced3()
    ensures PlaceOne(Down(2, 3), BARRE_F, BARRE_F_DONE + {Pos(3, 2)} + {Pos(1, 3)}, 3) == Placement(Down(2, 3), 0, BARRE_F_DONE + {Pos(3, 2)} + {Pos(1, 3)} + {Pos(2, 3)}, 3)
  {
    PlaceAt(Down(2, 3), BARRE_F, BARRE_F_DONE + {Pos(3, 2)} + {Pos(1, 3)}, 3, Pos(2, 3));
  }

  lemma BarreAToFPlaces()
    ensures PlaceChain(BARRE_F, Pos(0, 1), true, BARRE_F_DONE, Down(3, 2), Down(1, 3), Down(2, 3),
      Placement(Down(3, 2), 0, BARRE_F_DONE + {Pos(3, 2)}, 2),
      Placement(Down(1, 3), 0, BARRE_F_DONE + {Pos(3, 2)} + {Pos(1, 3)}, 3),
      Placement(Down(2, 3), 0, BARRE_F_DONE + {Pos(3, 2)} + {Pos(1, 3)} + {Pos(2, 3)}, 3))
  {
    BarreFIndex();
    BarreFBarre();
    BarreFDone();
    BarreAToFPlaced1();
    BarreAToFPlaced2();
    BarreAToFPlaced3();
  }

  lemma BarreAToFMove(h: Hand, m: Hand)
    requires SlideChain(h, Pos(0, 1), Down(3, 2), Down(1, 3), Down(2, 3), 4) && h.barre
    requires m.fingers[0] == Down(0, 1) && m.fingers[1] == Down(3, 2) && m.fingers[2] == Down(1, 3) && m.fingers[3] == Down(2, 3)
    requires m.barre && m.openStrings == OpenFrom(BARRE_F, 0)
    ensures Move(h, BARRE_F, Current) == Success((m, 4))
  {
    BarreAToFPlaces();
    ChangeSteps(h, BARRE_F, Pos(0, 1), true, BARRE_F_DONE, Down(3, 2), Down(1, 3), Down(2, 3), 4,
      Placement(Down(3, 2), 0, BARRE_F_DONE + {Pos(3, 2)}, 2),
      Placement(Down(1, 3), 0, BARRE_F_DONE + {Pos(3, 2)} + {Pos(1, 3)}, 3),
      Placement(Down(2, 3), 0, BARRE_F_DONE + {Pos(3, 2)} + {Pos(1, 3)} + {Pos(2, 3)}, 3),
      m, 4);
  }

  /** From `Hand(open_c)`, `move(open_g)`: the index finger moves from Pos(4, 1) to Pos(1, 2) and the other fingers slide by 1. */
  lemma OpenCToGSlid(h: Hand)
    requires h == OPEN_C_HAND
    ensures SlideChain(h, Pos(1, 2), Down(2, 3), Down(1, 4), Lifted, 4)
  {
    assert h.fingers[0] == Down(4, 1) && h.fingers[1] == Down(2, 2) && h.fingers[2] == Down(1, 3) && h.fingers[3] == Lifted;
    assert SlideBy(h, 2) == 1;
  }

  lemma OpenCToGPlaced1()
    ensures PlaceOne(Down(2, 3), OPEN_G, OPEN_G_DONE, 2) == Placement(Down(0, 3), 2, OPEN_G_DONE + {Pos(0, 3)}, 3)
  {
    PlaceAt(Down(2, 3), OPEN_G, OPEN_G_DONE, 2, Pos(0, 3));
  }

  lemma OpenCToGPlaced2()
    ensures PlaceOne(Down(1, 4), OPEN_G, OPEN_G_DONE + {Pos(0, 3)}, 3) == Placement(Down(5, 3), 5, OPEN_G_DONE + {Pos(0, 3)} + {Pos(5, 3)}, 3)
  {
    PlaceAt(Down(1, 4), OPEN_G, OPEN_G_DONE + {Pos(0, 3)}, 3, Pos(5, 3));
  }

  lemma OpenCToGPlaced3()
    ensures PlaceOne(Lifted, OPEN_G, OPEN_G_DONE + {Pos(0, 3)} + {Pos(5, 3)}, 3) == Placement(Lifted, 0, OPEN_G_DONE + {Pos(0, 3)} + {Pos(5, 3)}, 3)
  {
    PlaceNothing(Lifted, OPEN_G, OPEN_G_DONE + {Pos(0, 3)} + {Pos(5, 3)}, 3);
  }

  lemma OpenCToGPlaces()
    ensures PlaceChain(OPEN_G, Pos(1, 2), false, OPEN_G_DONE, Down(2, 3), Down(1, 4), Lifted,
      Placement(Down(0, 3), 2, OPEN_G_DONE + {Pos(0, 3)}, 3),
      Placement(Down(5, 3), 5, OPEN_G_DONE + {Pos(0, 3)} + {Pos(5, 3)}, 3),
      Placement(Lifted, 0, OPEN_G_DONE + {Pos(0, 3)} + {Pos(5, 3)}, 3))
  {
    OpenGIndex();
    OpenGBarre();
    OpenGDone();
    OpenCToGPlaced1();
    OpenCToGPlaced2();
    OpenCToGPlaced3();
  }

  lemma OpenCToGMove(h: Hand, m: Hand)
    requires SlideChain(h, Pos(1, 2), Down(2, 3), Down(1, 4), Lifted, 4) && !h.barre
    requires m.fingers[0] == Down(1, 2) && m.fingers[1] == Down(0, 3) && m.fingers[2] == Down(5, 3) && m.fingers[3] == Lifted
    requires !m.barre && m.openStrings == OpenFrom(OPEN_G, 0)
    ensures Move(h, OPEN_G, Current) == Success((m, 11))
  {
    OpenCToGPlaces();
    ChangeSteps(h, OPEN_G, Pos(1, 2), false, OPEN_G_DONE, Down(2, 3), Down(1, 4), Lifted, 4,
      Placement(Down(0, 3), 2, OPEN_G_DONE + {Pos(0, 3)}, 3),
      Placement(Down(5, 3), 5, OPEN_G_DONE + {Pos(0, 3)} + {Pos(5, 3)}, 3),
      Placement(Lifted, 0, OPEN_G_DONE + {Pos(0, 3)} + {Pos(5, 3)}, 3),
      m, 11);
  }

  /** From `Hand(open_e)`, `move(open_a)`: the index finger moves from Pos(3, 1) to Pos(2, 2) and the other fingers slide by 1. */
  lemma OpenEToASlid(h: Hand)
    requires h == OPEN_E_HAND
    ensures SlideChain(h, Pos(2, 2), Down(1, 3), Down(2, 3), Lifted, 2)
  {
    assert h.fingers[0] == Down(3, 1) && h.fingers[1] == Down(1, 2) && h.fingers[2] == Down(2, 2) && h.fingers[3] == Lifted;
    assert SlideBy(h, 2) == 1;
  }

  lemma OpenEToAPlaced1()
    ensures PlaceOne(Down(1, 3), OPEN_A, OPEN_A_DONE, 2) == Placement(Down(3, 2), 3, OPEN_A_DONE + {Pos(3, 2)}, 2)
  {
    PlaceAt(Down(1, 3), OPEN_A, OPEN_A_DONE, 2, Pos(3, 2));
  }

  lemma OpenEToAPlaced2()
    ensures PlaceOne(Down(2, 3), OPEN_A, OPEN_A_DONE + {Pos(3, 2)}, 2) == Placement(Down(4, 2), 3, OPEN_A_DONE + {Pos(3, 2)} + {Pos(4, 2)}, 2)
  {
    PlaceAt(Down(2, 3), OPEN_A, OPEN_A_DONE + {Pos(3, 2)}, 2, Pos(4, 2));
  }

  lemma OpenEToAPlaced3()
    ensures PlaceOne(Lifted, OPEN_A, OPEN_A_DONE + {Pos(3, 2)} + {Pos(4, 2)}, 2) == Placement(Lifted, 0, OPEN_A_DONE + {Pos(3, 2)} + {Pos(4, 2)}, 2)
  {
    PlaceNothing(Lifted, OPEN_A, OPEN_A_DONE + {Pos(3, 2)} + {Pos(4, 2)}, 2);
  }

  lemma OpenEToAPlaces()
    ensures PlaceChain(OPEN_A, Pos(2, 2), false, OPEN_A_DONE, Down(1, 3), Down(2, 3), Lifted,
      Placement(Down(3, 2), 3, OPEN_A_DONE + {Pos(3, 2)}, 2),
      Placement(Down(4, 2), 3, OPEN_A_DONE + {Pos(3, 2)} + {Pos(4, 2)}, 2),
      Placement(Lifted, 0, OPEN_A_DONE + {Pos(3, 2)} + {Pos(4, 2)}, 2))
  {
    OpenAIndex();
    OpenABarre();
    OpenADone();
    OpenEToAPlaced1();
    OpenEToAPlaced2();
    OpenEToAPlaced3();
  }

  lemma OpenEToAMove(h: Hand, m: Hand)
    requires SlideChain(h, Pos(2, 2), Down(1, 3), Down(2, 3), Lifted, 2) && !h.barre
    requires m.fingers[0] == Down(2, 2) && m.fingers[1] == Down(3, 2) && m.fingers[2] == Down(4, 2) && m.fingers[3] == Lifted
    requires !m.barre && m.openStrings == OpenFrom(OPEN_A, 0)
    ensures Move(h, OPEN_A, Current) == Success((m, 8))
  {
    OpenEToAPlaces();
    ChangeSteps(h, OPEN_A, Pos(2, 2), false, OPEN_A_DONE, Down(1, 3), Down(2, 3), Lifted, 2,
      Placement(Down(3, 2), 3, OPEN_A_DONE + {Pos(3, 2)}, 2),
      Placement(Down(4, 2), 3, OPEN_A_DONE + {Pos(3, 2)} + {Pos(4, 2)}, 2),
      Placement(Lifted, 0, OPEN_A_DONE + {Pos(3, 2)} + {Pos(4, 2)}, 2),
      m, 8);
  }

  /** `Hand(open_c)`, step by step. */
  lemma OpenCIndex()
    ensures Fretted(OPEN_C) && IndexTarget(OPEN_C) == Pos(4, 1)
  {
    IndexIs(OPEN_C, Pos(4, 1));
  }

  lemma OpenCBarre()
    ensures !Barres(OPEN_C, Pos(4, 1), Current)
  {
    BlockedAt(OPEN_C, Pos(4, 1), 5);
  }

  lemma OpenCDone()
    ensures DoneAfterBarre(OPEN_C, Pos(4, 1), false) == OPEN_C_DONE
  {
    DoneIs(OPEN_C, Pos(4, 1), false, OPEN_C_DONE);
  }

  lemma OpenCPlaced1()
    ensures PlaceOne(Lifted, OPEN_C, OPEN_C_DONE, 1) == Placement(Down(2, 2), 0, OPEN_C_DONE + {Pos(2, 2)}, 2)
  {
    PlaceAt(Lifted, OPEN_C, OPEN_C_DONE, 1, Pos(2, 2));
  }

  lemma OpenCPlaced2()
    ensures PlaceOne(Lifted, OPEN_C, OPEN_C_DONE + {Pos(2, 2)}, 2) == Placement(Down(1, 3), 0, OPEN_C_DONE + {Pos(2, 2)} + {Pos(1, 3)}, 3)
  {
    PlaceAt(Lifted, OPEN_C, OPEN_C_DONE + {Pos(2, 2)}, 2, Pos(1, 3));
  }

  lemma OpenCPlaced3()
    ensures PlaceOne(Lifted, OPEN_C, OPEN_C_DONE + {Pos(2, 2)} + {Pos(1, 3)}, 3) == Placement(Lifted, 0, OPEN_C_DONE + {Pos(2, 2)} + {Pos(1, 3)}, 3)
  {
    PlaceNothing(Lifted, OPEN_C, OPEN_C_DONE + {Pos(2, 2)} + {Pos(1, 3)}, 3);
  }

  lemma OpenCPlaces()
    ensures PlaceChain(OPEN_C, Pos(4, 1), false, OPEN_C_DONE, Lifted, Lifted, Lifted,
      Placement(Down(2, 2), 0, OPEN_C_DONE + {Pos(2, 2)}, 2),
      Placement(Down(1, 3), 0, OPEN_C_DONE + {Pos(2, 2)} + {Pos(1, 3)}, 3),
      Placement(Lifted, 0, OPEN_C_DONE + {Pos(2, 2)} + {Pos(1, 3)}, 3))
  {
    OpenCIndex();
    OpenCBarre();
    OpenCDone();
    OpenCPlaced1();
    OpenCPlaced2();
    OpenCPlaced3();
  }

  lemma OpenCMove(m: Hand)
    requires m.fingers[0] == Down(4, 1) && m.fingers[1] == Down(2, 2) && m.fingers[2] == Down(1, 3) && m.fingers[3] == Lifted
    requires !m.barre && m.openStrings == OpenFrom(OPEN_C, 0)
    ensures Move(Fresh(), OPEN_C, Current) == Success((m, 0))
  {
    FreshSlid(Pos(4, 1));
    OpenCPlaces();
    ChangeSteps(Fresh(), OPEN_C, Pos(4, 1), false, OPEN_C_DONE, Lifted, Lifted, Lifted, 0,
      Placement(Down(2, 2), 0, OPEN_C_DONE + {Pos(2, 2)}, 2),
      Placement(Down(1, 3), 0, OPEN_C_DONE + {Pos(2, 2)} + {Pos(1, 3)}, 3),
      Placement(Lifted, 0, OPEN_C_DONE + {Pos(2, 2)} + {Pos(1, 3)}, 3),
      m, 0);
  }

  lemma OpenCOpen()
    ensures OpenFrom(OPEN_C, 0) == OPEN_C_HAND.openStrings
  {
  }

  lemma OpenCHandIs()
    ensures OPEN_C_HAND.fingers[0] == Down(4, 1) && OPEN_C_HAND.fingers[1] == Down(2, 2) && OPEN_C_HAND.fingers[2] == Down(1, 3) && OPEN_C_HAND.fingers[3] == Lifted
    ensures !OPEN_C_HAND.barre && OPEN_C_HAND.openStrings == OpenFrom(OPEN_C, 0)
  {
    OpenCOpen();
  }

  lemma OpenCPlays()
    ensures HandShape(OPEN_C_HAND) == Success(OPEN_C_SHAPE)
  {
    PlaysSlots(OPEN_C_HAND, OPEN_C_SHAPE);
  }

  lemma OpenCStrain()
    ensures Strain(OPEN_C_HAND) == Success(1)
  {
    StrainUnbarred(OPEN_C_HAND);
  }

  lemma OpenCShape()
    ensures FromTuples(OPEN_C) == OPEN_C_SHAPE
  {
  }

  /** `Hand(open_a)`, step by step. */
  lemma OpenAIndex()
    ensures Fretted(OPEN_A) && IndexTarget(OPEN_A) == Pos(2, 2)
  {
    IndexIs(OPEN_A, Pos(2, 2));
  }

  lemma OpenABarre()
    ensures !Barres(OPEN_A, Pos(2, 2), Current)
  {
    BlockedAt(OPEN_A, Pos(2, 2), 5);
  }

  lemma OpenADone()
    ensures DoneAfterBarre(OPEN_A, Pos(2, 2), false) == OPEN_A_DONE
  {
    DoneIs(OPEN_A, Pos(2, 2), false, OPEN_A_DONE);
  }

  lemma OpenAPlaced1()
    ensures PlaceOne(Lifted, OPEN_A, OPEN_A_DONE, 2) == Placement(Down(3, 2), 0, OPEN_A_DONE + {Pos(3, 2)}, 2)
  {
    PlaceAt(Lifted, OPEN_A, OPEN_A_DONE, 2, Pos(3, 2));
  }

  lemma OpenAPlaced2()
    ensures PlaceOne(Lifted, OPEN_A, OPEN_A_DONE + {Pos(3, 2)}, 2) == Placement(Down(4, 2), 0, OPEN_A_DONE + {Pos(3, 2)} + {Pos(4, 2)}, 2)
  {
    PlaceAt(Lifted, OPEN_A, OPEN_A_DONE + {Pos(3, 2)}, 2, Pos(4, 2));
  }

  lemma OpenAPlaced3()
    ensures PlaceOne(Lifted, OPEN_A, OPEN_A_DONE + {Pos(3, 2)} + {Pos(4, 2)}, 2) == Placement(Lifted, 0, OPEN_A_DONE + {Pos(3, 2)} + {Pos(4, 2)}, 2)
  {
    PlaceNothing(Lifted, OPEN_A, OPEN_A_DONE + {Pos(3, 2)} + {Pos(4, 2)}, 2);
  }

  lemma OpenAPlaces()
    ensures PlaceChain(OPEN_A, Pos(2, 2), false, OPEN_A_DONE, Lifted, Lifted, Lifted,
      Placement(Down(3, 2), 0, OPEN_A_DONE + {Pos(3, 2)}, 2),
      Placement(Down(4, 2), 0, OPEN_A_DONE + {Pos(3, 2)} + {Pos(4, 2)}, 2),
      Placement(Lifted, 0, OPEN_A_DONE + {Pos(3, 2)} + {Pos(4, 2)}, 2))
  {
    OpenAIndex();
    OpenABarre();
    OpenADone();
    OpenAPlaced1();
    OpenAPlaced2();
    OpenAPlaced3();
  }

  lemma OpenAMove(m: Hand)
    requires m.fingers[0] == Down(2, 2) && m.fingers[1] == Down(3, 2) && m.fingers[2] == Down(4, 2) && m.fingers[3] == Lifted
    requires !m.barre && m.openStrings == OpenFrom(OPEN_A, 0)
    ensures Move(Fresh(), OPEN_A, Current) == Success((m, 0))
  {
    FreshSlid(Pos(2, 2));
    OpenAPlaces();
    ChangeSteps(Fresh(), OPEN_A, Pos(2, 2), false, OPEN_A_DONE, Lifted, Lifted, Lifted, 0,
      Placement(Down(3, 2), 0, OPEN_A_DONE + {Pos(3, 2)}, 2),
      Placement(Down(4, 2), 0, OPEN_A_DONE + {Pos(3, 2)} + {Pos(4, 2)}, 2),
      Placement(Lifted, 0, OPEN_A_DONE + {Pos(3, 2)} + {Pos(4, 2)}, 2),
      m, 0);
  }

  lemma OpenAOpen()
    ensures OpenFrom(OPEN_A, 0) == OPEN_A_HAND.openStrings
  {
  }

  lemma OpenAHandIs()
    ensures OPEN_A_HAND.fingers[0] == Down(2, 2) && OPEN_A_HAND.fingers[1] == Down(3, 2) && OPEN_A_HAND.fingers[2] == Down(4, 2) && OPEN_A_HAND.fingers[3] == Lifted
    ensures !OPEN_A_HAND.barre && OPEN_A_HAND.openStrings == OpenFrom(OPEN_A, 0)
  {
    OpenAOpen();
  }

  lemma OpenAPlays()
    ensures HandShape(OPEN_A_HAND) == Success(OPEN_A_SHAPE)
  {
    PlaysSlots(OPEN_A_HAND, OPEN_A_SHAPE);
  }

  lemma OpenAStrain()
    ensures Strain(OPEN_A_HAND) == Success(2)
  {
    StrainUnbarred(OPEN_A_HAND);
  }

  lemma OpenAShape()
    ensures FromTuples(OPEN_A) == OPEN_A_SHAPE
  {
  }

  /** `Hand(open_g)`, step by step. */
  lemma OpenGIndex()
    ensures Fretted(OPEN_G) && IndexTarget(OPEN_G) == Pos(1, 2)
  {
    IndexIs(OPEN_G, Pos(1, 2));
  }

  lemma OpenGBarre()
    ensures !Barres(OPEN_G, Pos(1, 2), Current)
  {
    BlockedAt(OPEN_G, Pos(1, 2), 2);
  }

  lemma OpenGDone()
    ensures DoneAfterBarre(OPEN_G, Pos(1, 2), false) == OPEN_G_DONE
  {
    DoneIs(OPEN_G, Pos(1, 2), false, OPEN_G_DONE);
  }

  lemma OpenGPlaced1()
    ensures PlaceOne(Lifted, OPEN_G, OPEN_G_DONE, 2) == Placement(Down(0, 3), 0, OPEN_G_DONE + {Pos(0, 3)}, 3)
  {
    PlaceAt(Lifted, OPEN_G, OPEN_G_DONE, 2, Pos(0, 3));
  }

  lemma OpenGPlaced2()
    ensures PlaceOne(Lifted, OPEN_G, OPEN_G_DONE + {Pos(0, 3)}, 3) == Placement(Down(5, 3), 0, OPEN_G_DONE + {Pos(0, 3)} + {Pos(5, 3)}, 3)
  {
    PlaceAt(Lifted, OPEN_G, OPEN_G_DONE + {Pos(0, 3)}, 3, Pos(5, 3));
  }

  lemma OpenGPlaced3()
    ensures PlaceOne(Lifted, OPEN_G, OPEN_G_DONE + {Pos(0, 3)} + {Pos(5, 3)}, 3) == Placement(Lifted, 0, OPEN_G_DONE + {Pos(0, 3)} + {Pos(5, 3)}, 3)
  {
    PlaceNothing(Lifted, OPEN_G, OPEN_G_DONE + {Pos(0, 3)} + {Pos(5, 3)}, 3);
  }

  lemma OpenGPlaces()
    ensures PlaceChain(OPEN_G, Pos(1, 2), false, OPEN_G_DONE, Lifted, Lifted, Lifted,
      Placement(Down(0, 3), 0, OPEN_G_DONE + {Pos(0, 3)}, 3),
      Placement(Down(5, 3), 0, OPEN_G_DONE + {Pos(0, 3)} + {Pos(5, 3)}, 3),
      Placement(Lifted, 0, OPEN_G_DONE + {Pos(0, 3)} + {Pos(5, 3)}, 3))
  {
    OpenGIndex();
    OpenGBarre();
    OpenGDone();
    OpenGPlaced1();
    OpenGPlaced2();
    OpenGPlaced3();
  }

  lemma OpenGMove(m: Hand)
    requires m.fingers[0] == Down(1, 2) && m.fingers[1] == Down(0, 3) && m.fingers[2] == Down(5, 3) && m.fingers[3] == Lifted
    requires !m.barre && m.openStrings == OpenFrom(OPEN_G, 0)
    ensures Move(Fresh(), OPEN_G, Current) == Success((m, 0))
  {
    FreshSlid(Pos(1, 2));
    OpenGPlaces();
    ChangeSteps(Fresh(), OPEN_G, Pos(1, 2), false, OPEN_G_DONE, Lifted, Lifted, Lifted, 0,
      Placement(Down(0, 3), 0, OPEN_G_DONE + {Pos(0, 3)}, 3),
      Placement(Down(5, 3), 0, OPEN_G_DONE + {Pos(0, 3)} + {Pos(5, 3)}, 3),
      Placement(Lifted, 0, OPEN_G_DONE + {Pos(0, 3)} + {Pos(5, 3)}, 3),
      m, 0);
  }

  lemma OpenGOpen()
    ensures OpenFrom(OPEN_G, 0) == OPEN_G_HAND.openStrings
  {
  }

  lemma OpenGHandIs()
    ensures OPEN_G_HAND.fingers[0] == Down(1, 2) && OPEN_G_HAND.fingers[1] == Down(0, 3) && OPEN_G_HAND.fingers[2] == Down(5, 3) && OPEN_G_HAND.fingers[3] == Lifted
    ensures !OPEN_G_HAND.barre && OPEN_G_HAND.openStrings == OpenFrom(OPEN_G, 0)
  {
    OpenGOpen();
  }

  lemma OpenGPlays()
    ensures HandShape(OPEN_G_HAND) == Success(OPEN_G_SHAPE)
  {
    PlaysSlots(OPEN_G_HAND, OPEN_G_SHAPE);
  }

  lemma OpenGStrain()
    ensures Strain(OPEN_G_HAND) == Success(5)
  {
    StrainUnbarred(OPEN_G_HAND);
  }

  lemma OpenGShape()
    ensures FromTuples(OPEN_G) == OPEN_G_SHAPE
  {
  }

  /** `Hand(open_e)`, step by step. */
  lemma OpenEIndex()
    ensures Fretted(OPEN_E) && IndexTarget(OPEN_E) == Pos(3, 1)
  {
    IndexIs(OPEN_E, Pos(3, 1));
  }

  lemma OpenEBarre()
    ensures !Barres(OPEN_E, Pos(3, 1), Current)
  {
    BlockedAt(OPEN_E, Pos(3, 1), 4);
  }

  lemma OpenEDone()
    ensures DoneAfterBarre(OPEN_E, Pos(3, 1), false) == OPEN_E_DONE
  {
    DoneIs(OPEN_E, Pos(3, 1), false, OPEN_E_DONE);
  }

  lemma OpenEPlaced1()
    ensures PlaceOne(Lifted, OPEN_E, OPEN_E_DONE, 1) == Placement(Down(1, 2), 0, OPEN_E_DONE + {Pos(1, 2)}, 2)
  {
    PlaceAt(Lifted, OPEN_E, OPEN_E_DONE, 1, Pos(1, 2));
  }

  lemma OpenEPlaced2()
    ensures PlaceOne(Lifted, OPEN_E, OPEN_E_DONE + {Pos(1, 2)}, 2) == Placement(Down(2, 2), 0, OPEN_E_DONE + {Pos(1, 2)} + {Pos(2, 2)}, 2)
  {
    PlaceAt(Lifted, OPEN_E, OPEN_E_DONE + {Pos(1, 2)}, 2, Pos(2, 2));
  }

  lemma OpenEPlaced3()
    ensures PlaceOne(Lifted, OPEN_E, OPEN_E_DONE + {Pos(1, 2)} + {Pos(2, 2)}, 2) == Placement(Lifted, 0, OPEN_E_DONE + {Pos(1, 2)} + {Pos(2, 2)}, 2)
  {
    PlaceNothing(Lifted, OPEN_E, OPEN_E_DONE + {Pos(1, 2)} + {Pos(2, 2)}, 2);
  }

  lemma OpenEPlaces()
    ensures PlaceChain(OPEN_E, Pos(3, 1), false, OPEN_E_DONE, Lifted, Lifted, Lifted,
      Placement(Down(1, 2), 0, OPEN_E_DONE + {Pos(1, 2)}, 2),
      Placement(Down(2, 2), 0, OPEN_E_DONE + {Pos(1, 2)} + {Pos(2, 2)}, 2),
      Placement(Lifted, 0, OPEN_E_DONE + {Pos(1, 2)} + {Pos(2, 2)}, 2))
  {
    OpenEIndex();
    OpenEBarre();
    OpenEDone();
    OpenEPlaced1();
    OpenEPlaced2();
    OpenEPlaced3();
  }

  lemma OpenEMove(m: Hand)
    requires m.fingers[0] == Down(3, 1) && m.fingers[1] == Down(1, 2) && m.fingers[2] == Down(2, 2) && m.fingers[3] == Lifted
    requires !m.barre && m.openStrings == OpenFrom(OPEN_E, 0)
    ensures Move(Fresh(), OPEN_E, Current) == Success((m, 0))
  {
    FreshSlid(Pos(3, 1));
    OpenEPlaces();
    ChangeSteps(Fresh(), OPEN_E, Pos(3, 1), false, OPEN_E_DONE, Lifted, Lifted, Lifted, 0,
      Placement(Down(1, 2), 0, OPEN_E_DONE + {Pos(1, 2)}, 2),
      Placement(Down(2, 2), 0, OPEN_E_DONE + {Pos(1, 2)} + {Pos(2, 2)}, 2),
      Placement(Lifted, 0, OPEN_E_DONE + {Pos(1, 2)} + {Pos(2, 2)}, 2),
      m, 0);
  }

  lemma OpenEOpen()
    ensures OpenFrom(OPEN_E, 0) == OPEN_E_HAND.openStrings
  {
  }

  lemma OpenEHandIs()
    ensures OPEN_E_HAND.fingers[0] == Down(3, 1) && OPEN_E_HAND.fingers[1] == Down(1, 2) && OPEN_E_HAND.fingers[2] == Down(2, 2) && OPEN_E_HAND.fingers[3] == Lifted
    ensures !OPEN_E_HAND.barre && OPEN_E_HAND.openStrings == OpenFrom(OPEN_E, 0)
  {
    OpenEOpen();
  }

  lemma OpenEPlays()
    ensures HandShape(OPEN_E_HAND) == Success(OPEN_E_SHAPE)
  {
    PlaysSlots(OPEN_E_HAND, OPEN_E_SHAPE);
  }

  lemma OpenEStrain()
    ensures Strain(OPEN_E_HAND) == Success(2)
  {
    StrainUnbarred(OPEN_E_HAND);
  }

  lemma OpenEShape()
    ensures FromTuples(OPEN_E) == OPEN_E_SHAPE
  {
  }

  /** `Hand(open_d)`, step by step. */
  lemma OpenDIndex()
    ensures Fretted(OPEN_D) && IndexTarget(OPEN_D) == Pos(3, 2)
  {
    IndexIs(OPEN_D, Pos(3, 2));
  }

  lemma OpenDBarre()
    ensures Barres(OPEN_D, Pos(3, 2), Current)
  {
    BarresAt(OPEN_D, Pos(3, 2), Current, Pos(5, 2));
  }

  lemma OpenDDone()
    ensures DoneAfterBarre(OPEN_D, Pos(3, 2), true) == OPEN_D_DONE
  {
    DoneIs(OPEN_D, Pos(3, 2), true, OPEN_D_DONE);
  }

  lemma OpenDPlaced1()
    ensures PlaceOne(Lifted, OPEN_D, OPEN_D_DONE, 2) == Placement(Down(4, 3), 0, OPEN_D_DONE + {Pos(4, 3)}, 3)
  {
    PlaceAt(Lifted, OPEN_D, OPEN_D_DONE, 2, Pos(4, 3));
  }

  lemma OpenDPlaced2()
    ensures PlaceOne(Lifted, OPEN_D, OPEN_D_DONE + {Pos(4, 3)}, 3) == Placement(Lifted, 0, OPEN_D_DONE + {Pos(4, 3)}, 3)
  {
    PlaceNothing(Lifted, OPEN_D, OPEN_D_DONE + {Pos(4, 3)}, 3);
  }

  lemma OpenDPlaced3()
    ensures PlaceOne(Lifted, OPEN_D, OPEN_D_DONE + {Pos(4, 3)}, 3) == Placement(Lifted, 0, OPEN_D_DONE + {Pos(4, 3)}, 3)
  {
    PlaceNothing(Lifted, OPEN_D, OPEN_D_DONE + {Pos(4, 3)}, 3);
  }

  lemma OpenDPlaces()
    ensures PlaceChain(OPEN_D, Pos(3, 2), true, OPEN_D_DONE, Lifted, Lifted, Lifted,
      Placement(Down(4, 3), 0, OPEN_D_DONE + {Pos(4, 3)}, 3),
      Placement(Lifted, 0, OPEN_D_DONE + {Pos(4, 3)}, 3),
      Placement(Lifted, 0, OPEN_D_DONE + {Pos(4, 3)}, 3))
  {
    OpenDIndex();
    OpenDBarre();
    OpenDDone();
    OpenDPlaced1();
    OpenDPlaced2();
    OpenDPlaced3();
  }

  lemma OpenDMove(m: Hand)
    requires m.fingers[0] == Down(3, 2) && m.fingers[1] == Down(4, 3) && m.fingers[2] == Lifted && m.fingers[3] == Lifted
    requires m.barre && m.openStrings == OpenFrom(OPEN_D, 0)
    ensures Move(Fresh(), OPEN_D, Current) == Success((m, 0))
  {
    FreshSlid(Pos(3, 2));
    OpenDPlaces();
    ChangeSteps(Fresh(), OPEN_D, Pos(3, 2), true, OPEN_D_DONE, Lifted, Lifted, Lifted, 0,
      Placement(Down(4, 3), 0, OPEN_D_DONE + {Pos(4, 3)}, 3),
      Placement(Lifted, 0, OPEN_D_DONE + {Pos(4, 3)}, 3),
      Placement(Lifted, 0, OPEN_D_DONE + {Pos(4, 3)}, 3),
      m, 0);
  }

  lemma OpenDOpen()
    ensures OpenFrom(OPEN_D, 0) == OPEN_D_HAND.openStrings
  {
  }

  lemma OpenDHandIs()
    ensures OPEN_D_HAND.fingers[0] == Down(3, 2) && OPEN_D_HAND.fingers[1] == Down(4, 3) && OPEN_D_HAND.fingers[2] == Lifted && OPEN_D_HAND.fingers[3] == Lifted
    ensures OPEN_D_HAND.barre && OPEN_D_HAND.openStrings == OpenFrom(OPEN_D, 0)
  {
    OpenDOpen();
  }

  lemma OpenDPlays()
    ensures HandShape(OPEN_D_HAND) == Success(OPEN_D_SHAPE)
  {
    PlaysSlots(OPEN_D_HAND, OPEN_D_SHAPE);
  }

  lemma OpenDStrain()
    ensures Strain(OPEN_D_HAND) == Success(1)
  {
    OpenDPlays();
    StrainBarred(OPEN_D_HAND, OPEN_D_SHAPE);
  }

  lemma OpenDShape()
    ensures FromTuples(OPEN_D) == OPEN_D_SHAPE
  {
  }

  /** `Hand(barre_b)`, step by step. */
  lemma BarreBIndex()
    ensures Fretted(BARRE_B) && IndexTarget(BARRE_B) == Pos(0, 2)
  {
    IndexIs(BARRE_B, Pos(0, 2));
  }

  lemma BarreBBarre()
    ensures Barres(BARRE_B, Pos(0, 2), Current)
  {
    BarresAt(BARRE_B, Pos(0, 2), Current, Pos(1, 2));
  }

  lemma BarreBDone()
    ensures DoneAfterBarre(BARRE_B, Pos(0, 2), true) == BARRE_B_DONE
  {
    DoneIs(BARRE_B, Pos(0, 2), true, BARRE_B_DONE);
  }

  lemma BarreBPlaced1()
    ensures PlaceOne(Lifted, BARRE_B, BARRE_B_DONE, 2) == Placement(Down(2, 4), 0, BARRE_B_DONE + {Pos(2, 4)}, 4)
  {
    PlaceAt(Lifted, BARRE_B, BARRE_B_DONE, 2, Pos(2, 4));
  }

  lemma BarreBPlaced2()
    ensures PlaceOne(Lifted, BARRE_B, BARRE_B_DONE + {Pos(2, 4)}, 4) == Placement(Down(3, 4), 0, BARRE_B_DONE + {Pos(2, 4)} + {Pos(3, 4)}, 4)
  {
    PlaceAt(Lifted, BARRE_B, BARRE_B_DONE + {Pos(2, 4)}, 4, Pos(3, 4));
  }

  lemma BarreBPlaced3()
    ensures PlaceOne(Lifted, BARRE_B, BARRE_B_DONE + {Pos(2, 4)} + {Pos(3, 4)}, 4) == Placement(Down(4, 4), 0, BARRE_B_DONE + {Pos(2, 4)} + {Pos(3, 4)} + {Pos(4, 4)}, 4)
  {
    PlaceAt(Lifted, BARRE_B, BARRE_B_DONE + {Pos(2, 4)} + {Pos(3, 4)}, 4, Pos(4, 4));
  }

  lemma BarreBPlaces()
    ensures PlaceChain(BARRE_B, Pos(0, 2), true, BARRE_B_DONE, Lifted, Lifted, Lifted,
      Placement(Down(2, 4), 0, BARRE_B_DONE + {Pos(2, 4)}, 4),
      Placement(Down(3, 4), 0, BARRE_B_DONE + {Pos(2, 4)} + {Pos(3, 4)}, 4),
      Placement(Down(4, 4), 0, BARRE_B_DONE + {Pos(2, 4)} + {Pos(3, 4)} + {Pos(4, 4)}, 4))
  {
    BarreBIndex();
    BarreBBarre();
    BarreBDone();
    BarreBPlaced1();
    BarreBPlaced2();
    BarreBPlaced3();
  }

  lemma BarreBMove(m: Hand)
    requires m.fingers[0] == Down(0, 2) && m.fingers[1] == Down(2, 4) && m.fingers[2] == Down(3, 4) && m.fingers[3] == Down(4, 4)
    requires m.barre && m.openStrings == OpenFrom(BARRE_B, 0)
    ensures Move(Fresh(), BARRE_B, Current) == Success((m, 0))
  {
    FreshSlid(Pos(0, 2));
    BarreBPlaces();
    ChangeSteps(Fresh(), BARRE_B, Pos(0, 2), true, BARRE_B_DONE, Lifted, Lifted, Lifted, 0,
      Placement(Down(2, 4), 0, BARRE_B_DONE + {Pos(2, 4)}, 4),
      Placement(Down(3, 4), 0, BARRE_B_DONE + {Pos(2, 4)} + {Pos(3, 4)}, 4),
      Placement(Down(4, 4), 0, BARRE_B_DONE + {Pos(2, 4)} + {Pos(3, 4)} + {Pos(4, 4)}, 4),
      m, 0);
  }

  lemma BarreBOpen()
    ensures OpenFrom(BARRE_B, 0) == BARRE_B_HAND.openStrings
  {
  }

  lemma BarreBHandIs()
    ensures BARRE_B_HAND.fingers[0] == Down(0, 2) && BARRE_B_HAND.fingers[1] == Down(2, 4) && BARRE_B_HAND.fingers[2] == Down(3, 4) && BARRE_B_HAND.fingers[3] == Down(4, 4)
    ensures BARRE_B_HAND.barre && BARRE_B_HAND.openStrings == OpenFrom(BARRE_B, 0)
  {
    BarreBOpen();
  }

  lemma BarreBPlays()
    ensures HandShape(BARRE_B_HAND) == Success(BARRE_B_SHAPE)
  {
    PlaysSlots(BARRE_B_HAND, BARRE_B_SHAPE);
  }

  lemma BarreBStrain()
    ensures Strain(BARRE_B_HAND) == Success(6)
  {
    BarreBPlays();
    StrainBarred(BARRE_B_HAND, BARRE_B_SHAPE);
  }

  lemma BarreBShape()
    ensures FromTuples(BARRE_B) == BARRE_B_SHAPE
  {
  }

  /** `Hand(barre_f)`, step by step. */
  lemma BarreFIndex()
    ensures Fretted(BARRE_F) && IndexTarget(BARRE_F) == Pos(0, 1)
  {
    IndexIs(BARRE_F, Pos(0, 1));
  }

  lemma BarreFBarre()
    ensures Barres(BARRE_F, Pos(0, 1), Current)
  {
    BarresAt(BARRE_F, Pos(0, 1), Current, Pos(4, 1));
  }

  lemma BarreFDone()
    ensures DoneAfterBarre(BARRE_F, Pos(0, 1), true) == BARRE_F_DONE
  {
    DoneIs(BARRE_F, Pos(0, 1), true, BARRE_F_DONE);
  }

  lemma BarreFPlaced1()
    ensures PlaceOne(Lifted, BARRE_F, BARRE_F_DONE, 1) == Placement(Down(3, 2), 0, BARRE_F_DONE + {Pos(3, 2)}, 2)
  {
    PlaceAt(Lifted, BARRE_F, BARRE_F_DONE, 1, Pos(3, 2));
  }

  lemma BarreFPlaced2()
    ensures PlaceOne(Lifted, BARRE_F, BARRE_F_DONE + {Pos(3, 2)}, 2) == Placement(Down(1, 3), 0, BARRE_F_DONE + {Pos(3, 2)} + {Pos(1, 3)}, 3)
  {
    PlaceAt(Lifted, BARRE_F, BARRE_F_DONE + {Pos(3, 2)}, 2, Pos(1, 3));
  }

  lemma BarreFPlaced3()
    ensures PlaceOne(Lifted, BARRE_F, BARRE_F_DONE + {Pos(3, 2)} + {Pos(1, 3)}, 3) == Placement(Down(2, 3), 0, BARRE_F_DONE + {Pos(3, 2)} + {Pos(1, 3)} + {Pos(2, 3)}, 3)
  {
    PlaceAt(Lifted, BARRE_F, BARRE_F_DONE + {Pos(3, 2)} + {Pos(1, 3)}, 3, Pos(2, 3));
  }

  lemma BarreFPlaces()
    ensures PlaceChain(BARRE_F, Pos(0, 1), true, BARRE_F_DONE, Lifted, Lifted, Lifted,
      Placement(Down(3, 2), 0, BARRE_F_DONE + {Pos(3, 2)}, 2),
      Placement(Down(1, 3), 0, BARRE_F_DONE + {Pos(3, 2)} + {Pos(1, 3)}, 3),
      Placement(Down(2, 3), 0, BARRE_F_DONE + {Pos(3, 2)} + {Pos(1, 3)} + {Pos(2, 3)}, 3))
  {
    BarreFIndex();
    BarreFBarre();
    BarreFDone();
    BarreFPlaced1();
    BarreFPlaced2();
    BarreFPlaced3();
  }

  lemma BarreFMove(m: Hand)
    requires m.fingers[0] == Down(0, 1) && m.fingers[1] == Down(3, 2) && m.fingers[2] == Down(1, 3) && m.fingers[3] == Down(2, 3)
    requires m.barre && m.openStrings == OpenFrom(BARRE_F, 0)
    ensures Move(Fresh(), BARRE_F, Current) == Success((m, 0))
  {
    FreshSlid(Pos(0, 1));
    BarreFPlaces();
    ChangeSteps(Fresh(), BARRE_F, Pos(0, 1), true, BARRE_F_DONE, Lifted, Lifted, Lifted, 0,
      Placement(Down(3, 2), 0, BARRE_F_DONE + {Pos(3, 2)}, 2),
      Placement(Down(1, 3), 0, BARRE_F_DONE + {Pos(3, 2)} + {Pos(1, 3)}, 3),
      Placement(Down(2, 3), 0, BARRE_F_DONE + {Pos(3, 2)} + {Pos(1, 3)} + {Pos(2, 3)}, 3),
      m, 0);
  }

  lemma BarreFOpen()
    ensures OpenFrom(BARRE_F, 0) == BARRE_F_HAND.openStrings
  {
  }

  lemma BarreFHandIs()
    ensures BARRE_F_HAND.fingers[0] == Down(0, 1) && BARRE_F_HAND.fingers[1] == Down(3, 2) && BARRE_F_HAND.fingers[2] == Down(1, 3) && BARRE_F_HAND.fingers[3] == Down(2, 3)
    ensures BARRE_F_HAND.barre && BARRE_F_HAND.openStrings == OpenFrom(BARRE_F, 0)
  {
    BarreFOpen();
  }

  lemma BarreFPlays()
    ensures HandShape(BARRE_F_HAND) == Success(BARRE_F_SHAPE)
  {
    PlaysSlots(BARRE_F_HAND, BARRE_F_SHAPE);
  }

  lemma BarreFStrain()
    ensures Strain(BARRE_F_HAND) == Success(6)
  {
    BarreFPlays();
    StrainBarred(BARRE_F_HAND, BARRE_F_SHAPE);
  }

  lemma BarreFShape()
    ensures FromTuples(BARRE_F) == BARRE_F_SHAPE
  {
  }

  /** `Hand(barre_a)`, step by step. */
  lemma BarreAIndex()
    ensures Fretted(BARRE_A) && IndexTarget(BARRE_A) == Pos(0, 5)
  {
    IndexIs(BARRE_A, Pos(0, 5));
  }

  lemma BarreABarre()
    ensures Barres(BARRE_A, Pos(0, 5), Current)
  {
    BarresAt(BARRE_A, Pos(0, 5), Current, Pos(4, 5));
  }

  lemma BarreADone()
    ensures DoneAfterBarre(BARRE_A, Pos(0, 5), true) == BARRE_A_DONE
  {
    DoneIs(BARRE_A, Pos(0, 5), true, BARRE_A_DONE);
  }

  lemma BarreAPlaced1()
    ensures PlaceOne(Lifted, BARRE_A, BARRE_A_DONE, 5) == Placement(Down(3, 6), 0, BARRE_A_DONE + {Pos(3, 6)}, 6)
  {
    PlaceAt(Lifted, BARRE_A, BARRE_A_DONE, 5, Pos(3, 6));
  }

  lemma BarreAPlaced2()
    ensures PlaceOne(Lifted, BARRE_A, BARRE_A_DONE + {Pos(3, 6)}, 6) == Placement(Down(1, 7), 0, BARRE_A_DONE + {Pos(3, 6)} + {Pos(1, 7)}, 7)
  {
    PlaceAt(Lifted, BARRE_A, BARRE_A_DONE + {Pos(3, 6)}, 6, Pos(1, 7));
  }

  lemma BarreAPlaced3()
    ensures PlaceOne(Lifted, BARRE_A, BARRE_A_DONE + {Pos(3, 6)} + {Pos(1, 7)}, 7) == Placement(Down(2, 7), 0, BARRE_A_DONE + {Pos(3, 6)} + {Pos(1, 7)} + {Pos(2, 7)}, 7)
  {
    PlaceAt(Lifted, BARRE_A, BARRE_A_DONE + {Pos(3, 6)} + {Pos(1, 7)}, 7, Pos(2, 7));
  }

  lemma BarreAPlaces()
    ensures PlaceChain(BARRE_A, Pos(0, 5), true, BARRE_A_DONE, Lifted, Lifted, Lifted,
      Placement(Down(3, 6), 0, BARRE_A_DONE + {Pos(3, 6)}, 6),
      Placement(Down(1, 7), 0, BARRE_A_DONE + {Pos(3, 6)} + {Pos(1, 7)}, 7),
      Placement(Down(2, 7), 0, BARRE_A_DONE + {Pos(3, 6)} + {Pos(1, 7)} + {Pos(2, 7)}, 7))
  {
    BarreAIndex();
    BarreABarre();
    BarreADone();
    BarreAPlaced1();
    BarreAPlaced2();
    BarreAPlaced3();
  }

  lemma BarreAMove(m: Hand)
    requires m.fingers[0] == Down(0, 5) && m.fingers[1] == Down(3, 6) && m.fingers[2] == Down(1, 7) && m.fingers[3] == Down(2, 7)
    requires m.barre && m.openStrings == OpenFrom(BARRE_A, 0)
    ensures Move(Fresh(), BARRE_A, Current) == Success((m, 0))
  {
    FreshSlid(Pos(0, 5));
    BarreAPlaces();
    ChangeSteps(Fresh(), BARRE_A, Pos(0, 5), true, BARRE_A_DONE, Lifted, Lifted, Lifted, 0,
      Placement(Down(3, 6), 0, BARRE_A_DONE + {Pos(3, 6)}, 6),
      Placement(Down(1, 7), 0, BARRE_A_DONE + {Pos(3, 6)} + {Pos(1, 7)}, 7),
      Placement(Down(2, 7), 0, BARRE_A_DONE + {Pos(3, 6)} + {Pos(1, 7)} + {Pos(2, 7)}, 7),
      m, 0);
  }

  lemma BarreAOpen()
    ensures OpenFrom(BARRE_A, 0) == BARRE_A_HAND.openStrings
  {
  }

  lemma BarreAHandIs()
    ensures BARRE_A_HAND.fingers[0] == Down(0, 5) && BARRE_A_HAND.fingers[1] == Down(3, 6) && BARRE_A_HAND.fingers[2] == Down(1, 7) && BARRE_A_HAND.fingers[3] == Down(2, 7)
    ensures BARRE_A_HAND.barre && BARRE_A_HAND.openStrings == OpenFrom(BARRE_A, 0)
  {
    BarreAOpen();
  }

  lemma BarreAPlays()
    ensures HandShape(BARRE_A_HAND) == Success(BARRE_A_SHAPE)
  {
    PlaysSlots(BARRE_A_HAND, BARRE_A_SHAPE);
  }

  lemma BarreAStrain()
    ensures Strain(BARRE_A_HAND) == Success(6)
  {
    BarreAPlays();
    StrainBarred(BARRE_A_HAND, BARRE_A_SHAPE);
  }

  lemma BarreAShape()
    ensures FromTuples(BARRE_A) == BARRE_A_SHAPE
  {
  }
}

=== FILE: hand_steps.dfy ===
/** Steps for evaluating `Hand.move`, `Hand.shape` and `Hand.strain` on
    concrete chords: each step of `move` (index note, barre, the notes done,
    the placement of each further finger) is stated on its own, so that a
    worked example is a chain of small facts. */
module HandSteps {
  import opened Base
  import opened Shapes
  import opened Hands

  /** The index note is the lowest-string note at the lowest fret above 0. */
  lemma IndexIs(t: seq<Pos>, p: Pos)
    requires p in t && p.fret > 0
    requires forall q :: q in t && q.fret > 0 ==> p.fret <= q.fret
    requires forall q :: q in t && q.fret == p.fret ==> p.str <= q.str
    ensures Fretted(t) && IndexTarget(t) == p
  {
  }

  /** No note of `t` from position `j` on, outside `done` and at or above
      `prev`, comes before `p` in fret-then-string order. */
  predicate FirstFrom(p: Pos, t: seq<Pos>, done: set<Pos>, prev: int, j: nat)
    decreases |t| - j
  {
    j >= |t| ||
    ((t[j] in done || t[j].fret < prev || p.fret < t[j].fret || (p.fret == t[j].fret && p.str <= t[j].str)) &&
     FirstFrom(p, t, done, prev, j + 1))
  }

  lemma {:induction false} FirstFromAll(p: Pos, t: seq<Pos>, done: set<Pos>, prev: int, j: nat)
    requires FirstFrom(p, t, done, prev, j)
    ensures forall i :: j <= i < |t| && t[i] !in done && t[i].fret >= prev ==>
      p.fret < t[i].fret || (p.fret == t[i].fret && p.str <= t[i].str)
    decreases |t| - j
  {
    if j < |t| {
      FirstFromAll(p, t, done, prev, j + 1);
    }
  }

  /** No note of `t` from position `j` on is outside `done` at or above `prev`. */
  predicate NoneFrom(t: seq<Pos>, done: set<Pos>, prev: int, j: nat)
    decreases |t| - j
  {
    j >= |t| || ((t[j] in done || t[j].fret < prev) && NoneFrom(t, done, prev, j + 1))
  }

  lemma {:induction false} NoneFromAll(t: seq<Pos>, done: set<Pos>, prev: int, j: nat)
    requires NoneFrom(t, done, prev, j)
    ensures forall i :: j <= i < |t| ==> t[i] in done || t[i].fret < prev
    decreases |t| - j
  {
    if j < |t| {
      NoneFromAll(t, done, prev, j + 1);
    }
  }

  /** `place_finger` takes the lowest-string note at the lowest fret, not
      below `prev`, among the notes not yet done. */
  lemma PlaceAt(f: Finger, t: seq<Pos>, done: set<Pos>, prev: int, p: Pos)
    requires prev >= 1 && p in t && p !in done && p.fret >= prev
    requires FirstFrom(p, t, done, prev, 0)
    ensures PlaceOne(f, t, done, prev) == Placement(FingerMove(f, p).0, FingerMove(f, p).1, done + {p}, p.fret)
  {
    FirstFromAll(p, t, done, prev, 0);
    assert MinFretAbove(t, done, prev) == Some(p.fret);
    assert p in Remaining(t, done, p.fret);
  }

  /** With no note left at or above `prev`, `place_finger` changes nothing. */
  lemma PlaceNothing(f: Finger, t: seq<Pos>, done: set<Pos>, prev: int)
    requires prev >= 1 && NoneFrom(t, done, prev, 0)
    ensures PlaceOne(f, t, done, prev) == Placement(f, 0, done, prev)
  {
    NoneFromAll(t, done, prev, 0);
  }

  /** `Hand.move` on a target with notes above the nut, step by step: the
      index note `i`, whether it barres, the notes then done, and the three
      placements of fingers 2-4 after the slide. */
  lemma MoveSteps(h: Hand, t: seq<Pos>, gen: Generation, i: Pos, bar: bool, d: set<Pos>,
                  p1: Placement, p2: Placement, p3: Placement, moved: Hand, cost: nat)
    requires Fretted(t) && IndexTarget(t) == i
    requires Barres(t, i, gen) == bar && DoneAfterBarre(t, i, bar) == d
    requires PlaceOne(Slide(h.fingers[1], SlideBy(h, i.fret)), t, d, i.fret) == p1
    requires p1.prev >= 1 && PlaceOne(Slide(h.fingers[2], SlideBy(h, i.fret)), t, p1.done, p1.prev) == p2
    requires p2.prev >= 1 && PlaceOne(Slide(h.fingers[3], SlideBy(h, i.fret)), t, p2.done, p2.prev) == p3
    requires moved.fingers[0] == Down(i.str, i.fret) && moved.fingers[1] == p1.finger
    requires moved.fingers[2] == p2.finger && moved.fingers[3] == p3.finger
    requires moved.barre == (h.barre || bar) && moved.openStrings == OpenFrom(t, 0)
    requires cost == FingerMove(h.fingers[0], i).1 + p1.cost + p2.cost + p3.cost
    ensures Move(h, t, gen) == Success((moved, cost))
  {
    OpenStringsAre(t, moved.openStrings);
    MoveIsFretted(h, t, gen);
    FrettedSteps(h, t, gen, i, bar, d, p1, p2, p3);
    var r := MoveFretted(h, t, gen);
    FingersAre(moved.fingers, Down(i.str, i.fret), p1.finger, p2.finger, p3.finger);
    assert r.0.fingers == moved.fingers;
    assert r.0.barre == moved.barre;
    assert r.0.openStrings == moved.openStrings;
    assert r.0 == moved;
    assert r.1 == cost;
  }

  /** Four fingers are determined by the finger on each of them. */
  lemma FingersAre(fs: Fingers, f0: Finger, f1: Finger, f2: Finger, f3: Finger)
    requires fs[0] == f0 && fs[1] == f1 && fs[2] == f2 && fs[3] == f3
    ensures fs == FourFingers(f0, f1, f2, f3)
  {
  }

  /** How the hand's own fingers go into a `move` to index position `i`: the
      slid fingers `s1`-`s3` and the cost `c0` of moving the index finger. */
  predicate SlideChain(h: Hand, i: Pos, s1: Finger, s2: Finger, s3: Finger, c0: nat) {
    Slide(h.fingers[1], SlideBy(h, i.fret)) == s1 && Slide(h.fingers[2], SlideBy(h, i.fret)) == s2 &&
    Slide(h.fingers[3], SlideBy(h, i.fret)) == s3 && FingerMove(h.fingers[0], i).1 == c0
  }

  /** How the target goes into the same `move`: its index position, whether it
      barres, the notes done once the barre is in place, and the placements
      of the slid fingers. */
  predicate PlaceChain(t: seq<Pos>, i: Pos, bar: bool, d: set<Pos>, s1: Finger, s2: Finger, s3: Finger,
                       p1: Placement, p2: Placement, p3: Placement)
  {
    Fretted(t) && IndexTarget(t) == i &&
    Barres(t, i, Current) == bar && DoneAfterBarre(t, i, bar) == d &&
    i.fret >= 1 && PlaceOne(s1, t, d, i.fret) == p1 &&
    p1.prev >= 1 && PlaceOne(s2, t, p1.done, p1.prev) == p2 &&
    p2.prev >= 1 && PlaceOne(s3, t, p2.done, p2.prev) == p3
  }

  /** `MoveSteps` with the hand's part and the target's part worked out apart. */
  lemma ChangeSteps(h: Hand, t: seq<Pos>, i: Pos, bar: bool, d: set<Pos>, s1: Finger, s2: Finger, s3: Finger,
                    c0: nat, p1: Placement, p2: Placement, p3: Placement, moved: Hand, cost: nat)
    requires SlideChain(h, i, s1, s2, s3, c0) && PlaceChain(t, i, bar, d, s1, s2, s3, p1, p2, p3)
    requires moved.fingers[0] == Down(i.str, i.fret) && moved.fingers[1] == p1.finger
    requires moved.fingers[2] == p2.finger && moved.fingers[3] == p3.finger
    requires moved.barre == (h.barre || bar) && moved.openStrings == OpenFrom(t, 0)
    requires cost == c0 + p1.cost + p2.cost + p3.cost
    ensures Move(h, t, Current) == Success((moved, cost))
  {
    MoveSteps(h, t, Current, i, bar, d, p1, p2, p3, moved, cost);
  }

  /** A fresh hand slides nothing and places its index finger for free. */
  lemma FreshSlid(i: Pos)
    ensures SlideChain(Fresh(), i, Lifted, Lifted, Lifted, 0)
  {
  }

  lemma FrettedSteps(h: Hand, t: seq<Pos>, gen: Generation, i: Pos, bar: bool, d: set<Pos>,
                     p1: Placement, p2: Placement, p3: Placement)
    requires Fretted(t) && IndexTarget(t) == i
    requires Barres(t, i, gen) == bar && DoneAfterBarre(t, i, bar) == d
    requires PlaceOne(Slide(h.fingers[1], SlideBy(h, i.fret)), t, d, i.fret) == p1
    requires p1.prev >= 1 && PlaceOne(Slide(h.fingers[2], SlideBy(h, i.fret)), t, p1.done, p1.prev) == p2
    requires p2.prev >= 1 && PlaceOne(Slide(h.fingers[3], SlideBy(h, i.fret)), t, p2.done, p2.prev) == p3
    ensures MoveFretted(h, t, gen).0.fingers == FourFingers(Down(i.str, i.fret), p1.finger, p2.finger, p3.finger)
    ensures MoveFretted(h, t, gen).0.barre == (h.barre || bar)
    ensures MoveFretted(h, t, gen).1 == FingerMove(h.fingers[0], i).1 + p1.cost + p2.cost + p3.cost
  {
    assert RestPlaced(h, t, gen) == (p1, p2, p3);
    assert FourFingers(Down(i.str, i.fret), p1.finger, p2.finger, p3.finger) ==
      [Down(i.str, i.fret), p1.finger, p2.finger, p3.finger];
    var r := MoveFretted(h, t, gen);
    assert r.0.fingers == FourFingers(Down(i.str, i.fret), p1.finger, p2.finger, p3.finger);
    assert r.0.barre == (h.barre || bar);
    assert r.1 == FingerMove(h.fingers[0], i).1 + p1.cost + p2.cost + p3.cost;
  }

  /** What `Hand.shape` plays on string `k`. */
  function Slot(h: Hand, k: int): Option<int> {
    if h.barre && h.fingers[0].Down? && h.fingers[0].str < k && Pressed(h, k).None? then Some(h.fingers[0].fret) else Pressed(h, k)
  }

  /** The shape of a hand, string by string. */
  lemma PlaysSlots(h: Hand, s: Shape)
    requires !(h.barre && h.fingers[0].Lifted?)
    requires Slot(h, 0) == s[0] && Slot(h, 1) == s[1] && Slot(h, 2) == s[2]
    requires Slot(h, 3) == s[3] && Slot(h, 4) == s[4] && Slot(h, 5) == s[5]
    ensures HandShape(h) == Success(s)
  {
    assert HandShape(h) == Success(Sounding(h));
    SoundingSlots(h, s);
  }

  lemma SoundingSlots(h: Hand, s: Shape)
    requires !(h.barre && h.fingers[0].Lifted?)
    requires Slot(h, 0) == s[0] && Slot(h, 1) == s[1] && Slot(h, 2) == s[2]
    requires Slot(h, 3) == s[3] && Slot(h, 4) == s[4] && Slot(h, 5) == s[5]
    ensures Sounding(h) == s
  {
    var r := Sounding(h);
    assert forall k :: 0 <= k < STRINGS ==> r[k] == Slot(h, k);
    assert r[0] == s[0] && r[1] == s[1] && r[2] == s[2] && r[3] == s[3] && r[4] == s[4] && r[5] == s[5];
    assert r == s;
  }

  /** Without a barre the strain is the finger-pair strains plus the strain
      above the twelfth fret. */
  lemma StrainUnbarred(h: Hand)
    requires !h.barre
    ensures Strain(h) == Success(
      PairStrain(h.fingers[0], h.fingers[1]) + PairStrain(h.fingers[1], h.fingers[2]) +
      PairStrain(h.fingers[2], h.fingers[3]) +
      HighStrain(h.fingers[0]) + HighStrain(h.fingers[1]) + HighStrain(h.fingers[2]) + HighStrain(h.fingers[3]))
  {
  }

  /** With a barre the strain also counts every played string at the index
      fret but one. */
  lemma StrainBarred(h: Hand, s: Shape)
    requires h.barre && h.fingers[0].Down? && HandShape(h) == Success(s)
    ensures Strain(h) == Success(
      PairStrain(h.fingers[0], h.fingers[1]) + PairStrain(h.fingers[1], h.fingers[2]) +
      PairStrain(h.fingers[2], h.fingers[3]) + (CountAt(s, h.fingers[0].fret) - 1) +
      HighStrain(h.fingers[0]) + HighStrain(h.fingers[1]) + HighStrain(h.fingers[2]) + HighStrain(h.fingers[3]))
  {
  }

  /** The open strings of `t` from position `j` on. */
  function OpenFrom(t: seq<Pos>, j: nat): seq<int>
    requires j <= |t|
    decreases |t| - j
  {
    if j == |t| then []
    else (if t[j].fret == 0 then [t[j].str] else []) + OpenFrom(t, j + 1)
  }

  lemma {:induction false} OpenFromIs(t: seq<Pos>, j: nat)
    requires j <= |t|
    ensures OpenFrom(t, j) == OpenStrings(t[j..])
    decreases |t| - j
  {
    if j < |t| {
      OpenFromIs(t, j + 1);
      assert t[j..][1..] == t[j + 1..];
    }
  }

  lemma OpenStringsAre(t: seq<Pos>, r: seq<int>)
    requires OpenFrom(t, 0) == r
    ensures OpenStrings(t) == r
  {
    OpenFromIs(t, 0);
    assert t[0..] == t;
  }

  /** A note of the target is done before fingers 2-4 are placed exactly when
      it is the index note, an open note, or barred at the index fret. */
  lemma DoneAt(t: seq<Pos>, i: Pos, bar: bool, p: Pos)
    requires p in t
    ensures p in DoneAfterBarre(t, i, bar) <==> p == i || p.fret == 0 || (bar && p.fret == i.fret)
  {
  }

  /** Whether `d` holds exactly the notes of `t`, from position `j` on, that
      are done before fingers 2-4 are placed. */
  predicate DoneFrom(t: seq<Pos>, i: Pos, bar: bool, d: set<Pos>, j: nat)
    decreases |t| - j
  {
    j >= |t| ||
    ((t[j] in d <==> t[j] == i || t[j].fret == 0 || (bar && t[j].fret == i.fret)) && DoneFrom(t, i, bar, d, j + 1))
  }

  lemma {:induction false} DoneFromAll(t: seq<Pos>, i: Pos, bar: bool, d: set<Pos>, j: nat)
    requires DoneFrom(t, i, bar, d, j)
    ensures forall k :: j <= k < |t| ==> (t[k] in d <==> t[k] == i || t[k].fret == 0 || (bar && t[k].fret == i.fret))
    decreases |t| - j
  {
    if j < |t| {
      DoneFromAll(t, i, bar, d, j + 1);
    }
  }

  /** The notes done before fingers 2-4 are placed, as a set of the target's notes. */
  lemma DoneIs(t: seq<Pos>, i: Pos, bar: bool, d: set<Pos>)
    requires i in t && DoneFrom(t, i, bar, d, 0)
    requires forall q :: q in d ==> q in t
    ensures DoneAfterBarre(t, i, bar) == d
  {
    DoneFromAll(t, i, bar, d, 0);
    forall q
      ensures q in DoneAfterBarre(t, i, bar) <==> q in d
    {
      if q in t {
        DoneAt(t, i, bar, q);
        var k :| 0 <= k < |t| && t[k] == q;
      }
    }
  }

  /** No note of `t` from position `j` on is an open note above string `s`. */
  predicate NoOpenAbove(t: seq<Pos>, s: int, j: nat)
    decreases |t| - j
  {
    j >= |t| || (!(t[j].fret == 0 && t[j].str > s) && NoOpenAbove(t, s, j + 1))
  }

  lemma {:induction false} NoOpenAboveAll(t: seq<Pos>, s: int, j: nat)
    requires NoOpenAbove(t, s, j)
    ensures forall k :: j <= k < |t| ==> !(t[k].fret == 0 && t[k].str > s)
    decreases |t| - j
  {
    if j < |t| {
      NoOpenAboveAll(t, s, j + 1);
    }
  }

  /** The index finger barres when another note shares its fret and no open
      note lies above it. */
  lemma BarresAt(t: seq<Pos>, i: Pos, gen: Generation, q: Pos)
    requires i in t && i.fret > 0 && q in t && q.fret == i.fret && q != i
    requires NoOpenAbove(t, i.str, 0)
    ensures Barres(t, i, gen)
  {
    NoOpenAboveAll(t, i.str, 0);
  }

  /** An open note above the index note keeps the current `move` from barring. */
  lemma BlockedAt(t: seq<Pos>, i: Pos, k: int)
    requires i in t && i.fret > 0 && Pos(k, 0) in t && k > i.str
    ensures !Barres(t, i, Current)
  {
  }

  /** Every note of `t` from position `j` on is open. */
  predicate OpenFromOn(t: seq<Pos>, j: nat)
    decreases |t| - j
  {
    j >= |t| || (t[j].fret == 0 && OpenFromOn(t, j + 1))
  }

  /** On an all-open target the current `move` only records the open strings. */
  lemma {:induction false} OpenOnly(h: Hand, t: seq<Pos>, j: nat)
    requires j <= |t| && OpenFromOn(t, j)
    ensures forall k :: j <= k < |t| ==> t[k].fret == 0
    ensures j == 0 ==> Move(h, t, Current) == Success((h.(openStrings := OpenStrings(t)), 0))
    decreases |t| - j
  {
    if j < |t| {
      OpenOnly(h, t, j + 1);
    }
  }
}

=== FILE: hands.dfy ===
/** Hand ergonomics (player.py `Finger`, `Hand`; the older copy of
    `Hand.move` in notes.py).

    A hand has four fingers (index first), a barre flag and the list of
    strings currently played open. `Move` threads a hand to a target shape
    and returns the new hand with the difficulty of the transition;
    `HandShape` reads the shape the hand is playing and `Strain` scores it.
 */
module Hands {

  import opened Base
  import opened Shapes

  /** A finger is either off the fretboard or pressing a `(string, fret)`. */
  datatype Finger = Lifted | Down(str: int, fret: int)

  /** `Finger(string, fret)`: pressed only for a string 0..5 and an int fret
      above 0; `None` stands for an argument that is absent or not an int. */
  function NewFinger(str: Option<int>, fret: Option<int>): (f: Finger)
    ensures f.Down? <==> str.Some? && 0 <= str.value < STRINGS && fret.Some? && fret.value > 0
    ensures f.Down? ==> f == Down(str.value, fret.value)
  {
    if str.Some? && 0 <= str.value < STRINGS && fret.Some? && fret.value > 0 then
      Down(str.value, fret.value)
    else Lifted
  }

  /** The Manhattan distance between two pressed fingers; 0 when either is lifted. */
  function Distance(a: Finger, b: Finger): nat {
    if a.Down? && b.Down? then Abs(a.str - b.str) + Abs(a.fret - b.fret) else 0
  }

  /** `Finger.move(to)`: fret 0 lifts the finger, any other fret presses it
      at `to`; the cost is the distance travelled by a finger that was and
      stays on the fretboard, and nothing otherwise. */
  function FingerMove(f: Finger, to: Pos): (r: (Finger, nat))
    ensures r.0.Lifted? <==> to.fret == 0
    ensures r.0.Down? ==> r.0 == Down(to.str, to.fret)
    ensures r.1 == Distance(f, r.0)
  {
    if to.fret == 0 then (Lifted, 0)
    else if f.Lifted? then (Down(to.str, to.fret), 0)
    else (Down(to.str, to.fret), Abs(to.str - f.str) + Abs(to.fret - f.fret))
  }

  /** Some note of the target is pressed above the nut. */
  predicate Fretted(target: seq<Pos>) {
    exists p :: p in target && p.fret > 0
  }

  /** Four fingers, the index finger first. */
  type Fingers = fs: seq<Finger> | |fs| == 4 witness [Lifted, Lifted, Lifted, Lifted]

  /** `capo` is always 0 and never read, so it is not carried. `openStrings`
      keeps the strings of the open notes in the order of the target. */
  datatype Hand = Hand(fingers: Fingers, barre: bool, openStrings: seq<int>)

  /** `Hand()` */
  function Fresh(): Hand {
    Hand([Lifted, Lifted, Lifted, Lifted], false, [])
  }

  /** A barre always rests on a pressed index finger. */
  predicate Wf(h: Hand) {
    h.barre ==> h.fingers[0].Down?
  }

  /** Which `Hand.move` runs: player.py's, or the older one of notes.py, which
      neither returns early on an all-open target nor checks for open strings
      above the index finger before barring. */
  datatype Generation = Current | Older

  /** `[note[0] for note in target if note[1] == 0]` */
  function OpenStrings(target: seq<Pos>): (r: seq<int>)
    ensures forall k :: k in r <==> Pos(k, 0) in target
  {
    if |target| == 0 then []
    else
      assert forall q :: q in target <==> q == target[0] || q in target[1..];
      (if target[0].fret == 0 then [target[0].str] else []) + OpenStrings(target[1..])
  }

  /** `[p for p in target - done if p.fret == fret]` */
  function Remaining(target: seq<Pos>, done: set<Pos>, fret: int): (r: seq<Pos>)
    ensures forall p :: p in r <==> p in target && p !in done && p.fret == fret
  {
    if |target| == 0 then []
    else
      assert forall q :: q in target <==> q == target[0] || q in target[1..];
      (if target[0] !in done && target[0].fret == fret then [target[0]] else []) + Remaining(target[1..], done, fret)
  }

  /** The tuple order: by string, then by fret. */
  predicate PosLe(p: Pos, q: Pos) {
    p.str < q.str || (p.str == q.str && p.fret <= q.fret)
  }

  /** `sorted(ps)[0]` */
  function Lowest(ps: seq<Pos>): (p: Pos)
    requires |ps| > 0
    ensures p in ps
    ensures forall q :: q in ps ==> PosLe(p, q)
  {
    if |ps| == 1 then ps[0]
    else
      var rest := Lowest(ps[1..]);
      assert forall q :: q in ps ==> q == ps[0] || q in ps[1..];
      if PosLe(ps[0], rest) then ps[0] else rest
  }

  /** `min(p.fret for p in target - done if p.fret >= lo)`, or None where
      Python's `min` raises ValueError on nothing. */
  function MinFretAbove(target: seq<Pos>, done: set<Pos>, lo: int): (r: Option<int>)
    ensures r.None? <==> forall p :: p in target && p !in done ==> p.fret < lo
    ensures r.Some? ==> r.value >= lo && exists p :: p in target && p !in done && p.fret == r.value
    ensures r.Some? ==> forall p :: p in target && p !in done && p.fret >= lo ==> r.value <= p.fret
  {
    if |target| == 0 then None
    else
      var rest := MinFretAbove(target[1..], done, lo);
      assert forall q :: q in target <==> q == target[0] || q in target[1..];
      if target[0] in done || target[0].fret < lo then rest
      else if rest.None? || target[0].fret <= rest.value then Some(target[0].fret)
      else rest
  }

  /** The pair a pressed finger occupies. */
  function PosOf(f: Finger): Pos
    requires f.Down?
  {
    Pos(f.str, f.fret)
  }

  /** The free slide of a non-index finger: a pressed finger moves along its
      string by `slide` frets (lifting if it reaches fret 0); a lifted one
      stays lifted. */
  function Slide(f: Finger, slide: int): Finger {
    if f.Lifted? then Lifted else FingerMove(f, Pos(f.str, f.fret + slide)).0
  }

  /** What `place_finger` leaves behind: the finger, the cost of its move,
      the notes done so far and the fret the next finger starts from. */
  datatype Placement = Placement(finger: Finger, cost: nat, done: set<Pos>, prev: int)

  /** `place_finger(finger, prev)`: the finger takes the lowest-string note
      at the lowest fret, not below `prev`, of the notes not yet done; with
      no such note nothing changes. */
  function PlaceOne(f: Finger, target: seq<Pos>, done: set<Pos>, prev: int): (r: Placement)
    requires prev >= 1
    ensures done <= r.done && r.prev >= prev
    ensures r.finger == f || (r.finger.Down? && PosOf(r.finger) in target && PosOf(r.finger) !in done &&
      PosOf(r.finger) in r.done && r.finger.fret >= prev)
    ensures f.Lifted? ==> r.cost == 0
  {
    match MinFretAbove(target, done, prev)
    case None => Placement(f, 0, done, prev)
    case Some(fret) =>
      var p :| p in target && p !in done && p.fret == fret;
      assert p in Remaining(target, done, fret);
      var pos := Lowest(Remaining(target, done, fret));
      var m := FingerMove(f, pos);
      Placement(m.0, m.1, done + {pos}, fret)
  }

  /** `Hand.move(target)`: the new hand and the difficulty of reaching it.
      Open notes are free. The index finger takes the lowest-string note of
      the lowest fret above 0, and the other pressed fingers slide with it
      for free. The index finger barres the other notes at its fret unless,
      in the current version, an open note lies on a higher string. Fingers
      2-4 then take the remaining notes in ascending fret order, each at the
      cost of its own move. ValueError when there is no fret above 0 (the
      current version first returns 0 for a target of open notes only). */
  function Move(h: Hand, target: seq<Pos>, gen: Generation): (r: Result<(Hand, nat)>)
    ensures gen == Current ==>
      (r.Failure? <==> (exists p :: p in target && p.fret != 0) && forall p :: p in target ==> p.fret <= 0)
    ensures gen == Older ==> (r.Failure? <==> forall p :: p in target ==> p.fret <= 0)
    ensures r.Failure? ==> r.error == ValueError
  {
    if gen == Current && forall p :: p in target ==> p.fret == 0 then
      Success((h.(openStrings := OpenStrings(target)), 0))
    else
      match MinFretAbove(target, {}, 1)
      case None => Failure(ValueError)
      case Some(iFret) => Success(MoveFretted(h, target, gen))
  }

  /** How far the hand slides: from the index finger's fret to the new
      index fret, or the whole new fret when the index finger was lifted. */
  function SlideBy(h: Hand, iFret: int): int {
    if h.fingers[0].Lifted? then iFret else iFret - h.fingers[0].fret
  }

  /** The open notes and the index note: what `move` has done before barring. */
  function DoneBeforeBarre(target: seq<Pos>, i: Pos): set<Pos> {
    (set q | q in target && q.fret == 0) + {i}
  }

  /** Whether the index finger barres: some other note shares its fret and,
      in the current version, no open note lies on a higher string. */
  function Barres(target: seq<Pos>, i: Pos, gen: Generation): (b: bool)
    requires i in target && i.fret > 0
    ensures b <==>
      (exists q :: q in target && q.fret == i.fret && q != i) &&
      !(gen == Current && exists k :: k > i.str && Pos(k, 0) in target)
  {
    var done := DoneBeforeBarre(target, i);
    var barred := Remaining(target, done, i.fret);
    var blocked := gen == Current && exists q :: q in done && q.fret < i.fret && q.str > i.str;
    BarresWitnesses(target, i, done, barred);
    |barred| > 0 && !blocked
  }

  /** What `move` has done once the barre, if any, is in place. */
  function DoneAfterBarre(target: seq<Pos>, i: Pos, bar: bool): (d: set<Pos>)
    ensures i in d
  {
    var done := DoneBeforeBarre(target, i);
    if bar then done + set q | q in Remaining(target, done, i.fret) else done
  }

  lemma BarresWitnesses(target: seq<Pos>, i: Pos, done: set<Pos>, barred: seq<Pos>)
    requires i.fret > 0 && done == DoneBeforeBarre(target, i)
    requires barred == Remaining(target, done, i.fret)
    ensures |barred| > 0 <==> exists q :: q in target && q.fret == i.fret && q != i
    ensures (exists q :: q in done && q.fret < i.fret && q.str > i.str) <==> exists k :: k > i.str && Pos(k, 0) in target
  {
    if |barred| > 0 {
      assert barred[0] in barred;
    }
    if exists q :: q in target && q.fret == i.fret && q != i {
      var q :| q in target && q.fret == i.fret && q != i;
      assert q in barred;
    }
    if exists k :: k > i.str && Pos(k, 0) in target {
      var k :| k > i.str && Pos(k, 0) in target;
      assert Pos(k, 0) in done;
    }
  }

  /** `place_finger` for fingers 2-4 in turn, from the notes done so far and
      the index fret. */
  function PlaceRest(s1: Finger, s2: Finger, s3: Finger, target: seq<Pos>, done: set<Pos>, prev: int)
    : (r: (Placement, Placement, Placement))
    requires prev >= 1
    ensures PlacedOrKept(s1, r.0.finger, target, done, prev)
    ensures PlacedOrKept(s2, r.1.finger, target, done, prev)
    ensures PlacedOrKept(s3, r.2.finger, target, done, prev)
    ensures Apart(s1, r.0.finger, s2, r.1.finger) && Apart(s1, r.0.finger, s3, r.2.finger) &&
      Apart(s2, r.1.finger, s3, r.2.finger)
    ensures s1.Lifted? && s2.Lifted? && s3.Lifted? ==> r.0.cost + r.1.cost + r.2.cost == 0
  {
    var p1 := PlaceOne(s1, target, done, prev);
    var p2 := PlaceOne(s2, target, p1.done, p1.prev);
    var p3 := PlaceOne(s3, target, p2.done, p2.prev);
    (p1, p2, p3)
  }

  /** A finger either keeps its state or is pressed on a note of the target
      not among `done`, at or above fret `prev`. */
  predicate PlacedOrKept(before: Finger, after: Finger, target: seq<Pos>, done: set<Pos>, prev: int) {
    after == before || (after.Down? && PosOf(after) in target && PosOf(after) !in done && after.fret >= prev)
  }

  /** Two fingers that both moved did not land on the same note. */
  predicate Apart(a0: Finger, a: Finger, b0: Finger, b: Finger) {
    a != a0 && b != b0 ==> a != b
  }

  /** `Hand.move` past the point where the index fret exists: the index
      finger, the free slide, the barre, then `place_finger` for fingers 2-4. */
  function MoveFretted(h: Hand, target: seq<Pos>, gen: Generation): (r: (Hand, nat))
    requires Fretted(target)
    ensures var i := IndexTarget(target);
      r.0.openStrings == OpenStrings(target) &&
      r.0.barre == (h.barre || Barres(target, i, gen)) &&
      r.0.fingers[0] == Down(i.str, i.fret)
  {
    var i := IndexTarget(target);
    var ps := RestPlaced(h, target, gen);
    (Hand(FourFingers(Down(i.str, i.fret), ps.0.finger, ps.1.finger, ps.2.finger), h.barre || Barres(target, i, gen), OpenStrings(target)),
     FingerMove(h.fingers[0], i).1 + ps.0.cost + ps.1.cost + ps.2.cost)
  }

  /** The index finger and fingers 2-4, in that order. */
  function FourFingers(f0: Finger, f1: Finger, f2: Finger, f3: Finger): (fs: Fingers)
    ensures fs[0] == f0 && fs[1] == f1 && fs[2] == f2 && fs[3] == f3
  {
    [f0, f1, f2, f3]
  }

  /** Fingers 2-4 of `Hand.move`: each slides with the index finger, then
      `place_finger` runs on it with the notes done once the barre is in place. */
  function RestPlaced(h: Hand, target: seq<Pos>, gen: Generation): (Placement, Placement, Placement)
    requires Fretted(target)
  {
    var i := IndexTarget(target);
    var sl := SlideBy(h, i.fret);
    PlaceRest(Slide(h.fingers[1], sl), Slide(h.fingers[2], sl), Slide(h.fingers[3], sl),
      target, DoneAfterBarre(target, i, Barres(target, i, gen)), i.fret)
  }

  /** Each of fingers 2-4 keeps the state it slid to, or is pressed on a note
      of the target other than the index note, at or above the index fret. */
  lemma MoveFrettedPlaced(h: Hand, target: seq<Pos>, gen: Generation)
    requires Fretted(target)
    ensures var r := MoveFretted(h, target, gen); var i := IndexTarget(target); var sl := SlideBy(h, i.fret);
      PlacedOrKept(Slide(h.fingers[1], sl), r.0.fingers[1], target, {i}, i.fret) &&
      PlacedOrKept(Slide(h.fingers[2], sl), r.0.fingers[2], target, {i}, i.fret) &&
      PlacedOrKept(Slide(h.fingers[3], sl), r.0.fingers[3], target, {i}, i.fret)
  {
    var i := IndexTarget(target);
    var sl := SlideBy(h, i.fret);
    var d := DoneAfterBarre(target, i, Barres(target, i, gen));
    var ps := RestPlaced(h, target, gen);
    var r := MoveFretted(h, target, gen);
    assert r.0.fingers[1] == ps.0.finger && r.0.fingers[2] == ps.1.finger && r.0.fingers[3] == ps.2.finger;
    PlacedOutside(Slide(h.fingers[1], sl), ps.0.finger, target, d, {i}, i.fret);
    PlacedOutside(Slide(h.fingers[2], sl), ps.1.finger, target, d, {i}, i.fret);
    PlacedOutside(Slide(h.fingers[3], sl), ps.2.finger, target, d, {i}, i.fret);
  }

  /** A finger placed outside a set of notes is outside any smaller one. */
  lemma PlacedOutside(before: Finger, after: Finger, target: seq<Pos>, done: set<Pos>, fewer: set<Pos>, prev: int)
    requires fewer <= done && PlacedOrKept(before, after, target, done, prev)
    ensures PlacedOrKept(before, after, target, fewer, prev)
  {
  }

  /** Two of fingers 2-4 that moved never land on the same note. */
  lemma MoveFrettedApart(h: Hand, target: seq<Pos>, gen: Generation)
    requires Fretted(target)
    ensures var r := MoveFretted(h, target, gen); var sl := SlideBy(h, IndexTarget(target).fret);
      Apart(Slide(h.fingers[1], sl), r.0.fingers[1], Slide(h.fingers[2], sl), r.0.fingers[2]) &&
      Apart(Slide(h.fingers[1], sl), r.0.fingers[1], Slide(h.fingers[3], sl), r.0.fingers[3]) &&
      Apart(Slide(h.fingers[2], sl), r.0.fingers[2], Slide(h.fingers[3], sl), r.0.fingers[3])
  {
    var ps := RestPlaced(h, target, gen);
    var r := MoveFretted(h, target, gen);
    assert r.0.fingers[1] == ps.0.finger && r.0.fingers[2] == ps.1.finger && r.0.fingers[3] == ps.2.finger;
  }

  /** With fingers 2-4 lifted, only the index finger's own move costs anything. */
  lemma MoveFrettedCost(h: Hand, target: seq<Pos>, gen: Generation)
    requires Fretted(target)
    requires h.fingers[1].Lifted? && h.fingers[2].Lifted? && h.fingers[3].Lifted?
    ensures MoveFretted(h, target, gen).1 == FingerMove(h.fingers[0], IndexTarget(target)).1
  {
    var ps := RestPlaced(h, target, gen);
    assert ps.0.cost + ps.1.cost + ps.2.cost == 0;
  }

  /** The index fret and note `Move` picks: the lowest-string note among the
      notes at the lowest fret above 0. */
  function IndexTarget(target: seq<Pos>): (p: Pos)
    requires Fretted(target)
    ensures p in target && p.fret > 0
    ensures forall q :: q in target && q.fret > 0 ==> p.fret <= q.fret
    ensures forall q :: q in target && q.fret == p.fret ==> p.str <= q.str
  {
    var iFret := MinFretAbove(target, {}, 1).value;
    var p :| p in target && p.fret == iFret;
    assert p in Remaining(target, {}, iFret);
    Lowest(Remaining(target, {}, iFret))
  }

  /** `Hand(initial)`: a fresh hand moved to the initial shape, if it plays anything. */
  function NewHand(initial: Shape): Result<Hand> {
    if Played(initial) == 0 then Success(Fresh())
    else
      var moved :- Move(Fresh(), ListTuples(initial), Current);
      Success(moved.0)
  }

  /** The fret a finger contributes to string `k`. */
  function On(f: Finger, k: int): Option<int> {
    if f.Down? && f.str == k then Some(f.fret) else None
  }

  /** What string `k` sounds from the open strings and the pressed fingers alone. */
  function Pressed(h: Hand, k: int): Option<int> {
    var open: Option<int> := if k in h.openStrings then Some(0) else None;
    Merge(Merge(Merge(Merge(open, On(h.fingers[0], k)), On(h.fingers[1], k)), On(h.fingers[2], k)), On(h.fingers[3], k))
  }

  /** Some pressed finger is on string `k`. */
  predicate Fingered(h: Hand, k: int) {
    exists j :: 0 <= j < 4 && On(h.fingers[j], k).Some?
  }

  /** What the open strings and the pressed fingers play on one string: nothing
      exactly when the string is neither open nor fingered; at least the fret
      of every finger on it; and otherwise either the open fret 0 or the fret
      of a finger on it. */
  lemma PressedMeaning(h: Hand)
    ensures forall k :: 0 <= k < STRINGS ==> (Pressed(h, k).None? <==> k !in h.openStrings && !Fingered(h, k))
    ensures forall k, j :: 0 <= k < STRINGS && 0 <= j < 4 && On(h.fingers[j], k).Some? ==>
      Pressed(h, k).Some? && On(h.fingers[j], k).value <= Pressed(h, k).value
    ensures forall k :: 0 <= k < STRINGS && Pressed(h, k).Some? ==>
      (k in h.openStrings && Pressed(h, k) == Some(0)) || exists j :: 0 <= j < 4 && On(h.fingers[j], k) == Pressed(h, k)
  {
    forall k | 0 <= k < STRINGS
      ensures Pressed(h, k).None? <==> k !in h.openStrings && !Fingered(h, k)
      ensures forall j :: 0 <= j < 4 && On(h.fingers[j], k).Some? ==> Pressed(h, k).Some? && On(h.fingers[j], k).value <= Pressed(h, k).value
      ensures Pressed(h, k).Some? ==>
        (k in h.openStrings && Pressed(h, k) == Some(0)) || exists j :: 0 <= j < 4 && On(h.fingers[j], k) == Pressed(h, k)
    {
      var fs := h.fingers;
      var open: Option<int> := if k in h.openStrings then Some(0) else None;
      var m0 := Merge(open, On(fs[0], k));
      var m1 := Merge(m0, On(fs[1], k));
      var m2 := Merge(m1, On(fs[2], k));
      var m3 := Merge(m2, On(fs[3], k));
      assert Pressed(h, k) == m3;
      if Fingered(h, k) {
        var j :| 0 <= j < 4 && On(h.fingers[j], k).Some?;
      }
    }
  }

  /** `Hand.shape`: the open strings at fret 0, every pressed finger, and, with
      a barre, every higher string not yet played at the index fret; where an
      open string and fingers meet, the highest fret is kept. With a barre and
      a lifted index finger the string arithmetic raises TypeError. */
  function HandShape(h: Hand): (r: Result<Shape>)
    ensures r.Failure? <==> h.barre && h.fingers[0].Lifted?
    ensures r.Failure? ==> r.error == TypeError
    ensures r.Success? ==> forall k :: 0 <= k < STRINGS ==>
      (r.value[k].Some? <==> k in h.openStrings || Fingered(h, k) || (h.barre && h.fingers[0].str < k))
    ensures r.Success? ==> forall k, j :: 0 <= k < STRINGS && 0 <= j < 4 && On(h.fingers[j], k).Some? ==>
      r.value[k].Some? && On(h.fingers[j], k).value <= r.value[k].value
    ensures r.Success? ==> forall k :: 0 <= k < STRINGS && r.value[k].Some? ==>
      (k in h.openStrings && r.value[k] == Some(0)) ||
      (exists j :: 0 <= j < 4 && On(h.fingers[j], k) == r.value[k]) ||
      (h.barre && k !in h.openStrings && !Fingered(h, k) && h.fingers[0].str < k && r.value[k] == Some(h.fingers[0].fret))
  {
    if h.barre && h.fingers[0].Lifted? then Failure(TypeError)
    else
      PressedMeaning(h);
      Success(Sounding(h))
  }

  /** The frets `Hand.shape` collects, string by string. */
  function Sounding(h: Hand): Shape
    requires !(h.barre && h.fingers[0].Lifted?)
  {
    seq(STRINGS, k requires 0 <= k < STRINGS =>
      if h.barre && h.fingers[0].str < k && Pressed(h, k).None? then Some(h.fingers[0].fret) else Pressed(h, k))
  }

  /** The shape strain between neighbouring fingers: distance from the fret
      one above the previous finger, plus any string skipped between them. */
  function PairStrain(a: Finger, b: Finger): nat {
    if a.Down? && b.Down? then Abs(b.fret - (a.fret + 1)) + Max(Abs(b.str - a.str) - 1, 0) else 0
  }

  /** One strain per fret above the twelfth. */
  function HighStrain(f: Finger): nat {
    if f.Down? && f.fret > 12 then f.fret - 12 else 0
  }

  /** The number of played strings at `fret`. */
  function CountAt(s: Shape, fret: int): (n: nat)
    ensures n <= STRINGS
    ensures (exists k :: 0 <= k < STRINGS && s[k] == Some(fret)) ==> n >= 1
  {
    CountFrom(s, fret, 0)
  }

  function CountFrom(s: Shape, fret: int, k: nat): (n: nat)
    requires k <= STRINGS
    ensures n <= STRINGS - k
    ensures (exists j :: k <= j < STRINGS && s[j] == Some(fret)) ==> n >= 1
    decreases STRINGS - k
  {
    if k == STRINGS then 0
    else (if s[k] == Some(fret) then 1 else 0) + CountFrom(s, fret, k + 1)
  }

  /** `Hand.strain`: the finger-pair strains, one per extra string under a
      barre, and the strain of every pressed finger above the twelfth fret. */
  function Strain(h: Hand): (r: Result<int>)
    ensures r.Failure? <==> h.barre && h.fingers[0].Lifted?
    ensures r.Success? && !h.barre ==> r.value >= 0
  {
    var shape :- HandShape(h);
    var fs := h.fingers;
    var pairs := PairStrain(fs[0], fs[1]) + PairStrain(fs[1], fs[2]) + PairStrain(fs[2], fs[3]);
    var barre := if h.barre then CountAt(shape, fs[0].fret) - 1 else 0;
    var high := HighStrain(fs[0]) + HighStrain(fs[1]) + HighStrain(fs[2]) + HighStrain(fs[3]);
    Success(pairs + barre + high)
  }

  // ---------------------------------------------------------------------
  // Properties

  /** The fixtures of `Finger`: the bare finger is lifted, a fret of 0 gives
      a lifted finger, and moving a finger from (0, 1) lifts it for free at
      fret 0 and otherwise presses it at a cost of s + f - 1. */
  lemma FingerFixtures(s: int, f: int)
    requires 0 <= s < STRINGS && 0 <= f < 12
    ensures NewFinger(None, None) == Lifted
    ensures NewFinger(Some(s), Some(f)) == if f == 0 then Lifted else Down(s, f)
    ensures FingerMove(Down(0, 1), Pos(s, f)).0 == if f == 0 then Lifted else Down(s, f)
    ensures FingerMove(Down(0, 1), Pos(s, f)).1 == if f == 0 then 0 else s + f - 1
  {
  }

  /** Going through an intermediate fretted position never costs less than
      going straight there. */
  lemma FingerMoveTriangle(f: Finger, p: Pos, q: Pos)
    requires p.fret != 0 && q.fret != 0
    ensures FingerMove(f, q).1 <= FingerMove(f, p).1 + FingerMove(FingerMove(f, p).0, q).1
  {
  }

  /** An all-open target costs nothing and only records the open strings. */
  lemma MoveAllOpen(h: Hand, target: seq<Pos>)
    requires forall p :: p in target ==> p.fret == 0
    ensures Move(h, target, Current) == Success((Hand(h.fingers, h.barre, OpenStrings(target)), 0))
  {
  }

  /** Where there is a fret above 0 the move succeeds, records the open
      strings, and presses the index finger on the lowest-string note of the
      lowest such fret. */
  lemma MoveIndex(h: Hand, target: seq<Pos>, gen: Generation)
    requires Fretted(target)
    ensures Move(h, target, gen).Success?
    ensures forall k :: k in Move(h, target, gen).value.0.openStrings <==> Pos(k, 0) in target
    ensures Move(h, target, gen).value.0.fingers[0] == Down(IndexTarget(target).str, IndexTarget(target).fret)
  {
    assert Move(h, target, gen) == Success(MoveFretted(h, target, gen));
  }

  /** Where there is a fret above 0, `Move` is the fretted move. */
  lemma MoveIsFretted(h: Hand, target: seq<Pos>, gen: Generation)
    requires Fretted(target)
    ensures Move(h, target, gen) == Success(MoveFretted(h, target, gen))
  {
  }

  /** The barre rule: afterwards the hand barres exactly when it already did,
      or another note shares the index fret and (in the current version) no
      open note lies on a higher string than the index finger's. */
  lemma MoveBarre(h: Hand, target: seq<Pos>, gen: Generation)
    requires Fretted(target)
    ensures Move(h, target, gen).Success?
    ensures var i := IndexTarget(target);
      Move(h, target, gen).value.0.barre <==>
        h.barre ||
        ((exists q :: q in target && q.fret == i.fret && q != i) &&
         !(gen == Current && exists k :: k > i.str && Pos(k, 0) in target))
  {
    assert Move(h, target, gen) == Success(MoveFretted(h, target, gen));
  }

  /** `move` never clears a barre, and keeps a barre on a pressed index finger. */
  lemma MoveKeepsBarre(h: Hand, target: seq<Pos>, gen: Generation)
    ensures Move(h, target, gen).Success? && h.barre ==> Move(h, target, gen).value.0.barre
    ensures Move(h, target, gen).Success? && Wf(h) ==> Wf(Move(h, target, gen).value.0)
  {
    if Fretted(target) {
      assert Move(h, target, gen) == Success(MoveFretted(h, target, gen));
      }
  }

  /** A hand sitting on a shape: every pressed finger is on a fretted note of
      the shape, no two on one string, the index finger is pressed, and the
      open strings are exactly the shape's open notes. */
  ghost predicate Seated(h: Hand, s: Shape) {
    h.fingers[0].Down? &&
    (forall j :: 0 <= j < 4 && h.fingers[j].Down? ==>
      0 <= h.fingers[j].str < STRINGS && h.fingers[j].fret > 0 && s[h.fingers[j].str] == Some(h.fingers[j].fret)) &&
    (forall i, j :: 0 <= i < j < 4 && h.fingers[i].Down? && h.fingers[j].Down? ==> h.fingers[i].str != h.fingers[j].str) &&
    (forall k :: k in h.openStrings <==> 0 <= k < STRINGS && s[k] == Some(0))
  }

  /** A fresh hand moved onto a shape with at least one fret above 0 sits on
      it, and the move costs nothing (placing a lifted finger is free). */
  lemma FreshMoveSeated(s: Shape, gen: Generation)
    requires exists p :: p in ListTuples(s) && p.fret > 0
    ensures Move(Fresh(), ListTuples(s), gen).Success?
    ensures Move(Fresh(), ListTuples(s), gen).value.1 == 0
    ensures Seated(Move(Fresh(), ListTuples(s), gen).value.0, s)
  {
    var target := ListTuples(s);
    var r := MoveFretted(Fresh(), target, gen);
    FreshMoveFingers(target, gen);
    SeatedOnTuples(r.0, s);
    MoveIsFretted(Fresh(), target, gen);
  }

  /** A hand whose index finger is pressed, whose pressed fingers sit on
      distinct fretted notes of a shape's pair list, and whose open strings
      are that list's open notes, is seated on the shape. */
  lemma SeatedOnTuples(h: Hand, s: Shape)
    requires h.fingers[0].Down?
    requires forall j :: 0 <= j < 4 && h.fingers[j].Down? ==> PosOf(h.fingers[j]) in ListTuples(s) && h.fingers[j].fret > 0
    requires forall a, b :: 0 <= a < b < 4 && h.fingers[a].Down? && h.fingers[b].Down? ==> h.fingers[a] != h.fingers[b]
    requires h.openStrings == OpenStrings(ListTuples(s))
    ensures Seated(h, s)
  {
    var fs := h.fingers;
    forall j | 0 <= j < 4 && fs[j].Down?
      ensures 0 <= fs[j].str < STRINGS && s[fs[j].str] == Some(fs[j].fret)
    {
      ListTuplesExact(s, PosOf(fs[j]));
    }
    forall k ensures k in h.openStrings <==> 0 <= k < STRINGS && s[k] == Some(0) {
      ListTuplesExact(s, Pos(k, 0));
    }
  }

  /** From a fresh hand every pressed finger lands on its own fretted note of
      the target, and the move is free. */
  lemma FreshMoveFingers(target: seq<Pos>, gen: Generation)
    requires Fretted(target)
    ensures var fs := MoveFretted(Fresh(), target, gen).0.fingers;
      forall j :: 0 <= j < 4 && fs[j].Down? ==> PosOf(fs[j]) in target && fs[j].fret > 0
    ensures var fs := MoveFretted(Fresh(), target, gen).0.fingers;
      forall a, b :: 0 <= a < b < 4 && fs[a].Down? && fs[b].Down? ==> fs[a] != fs[b]
    ensures MoveFretted(Fresh(), target, gen).1 == 0
  {
    var i := IndexTarget(target);
    MoveFrettedPlaced(Fresh(), target, gen);
    MoveFrettedApart(Fresh(), target, gen);
    MoveFrettedCost(Fresh(), target, gen);
    assert Slide(Lifted, SlideBy(Fresh(), i.fret)) == Lifted;
    PlacedFingers(MoveFretted(Fresh(), target, gen).0.fingers, i, target);
  }

  /** Fingers 2-4 that were lifted and either stayed so or were placed apart
      on notes other than the index note, beside an index finger on a
      fretted note, occupy distinct fretted notes of the target. */
  lemma PlacedFingers(fs: Fingers, i: Pos, target: seq<Pos>)
    requires i in target && i.fret > 0 && fs[0] == Down(i.str, i.fret)
    requires PlacedOrKept(Lifted, fs[1], target, {i}, i.fret) &&
      PlacedOrKept(Lifted, fs[2], target, {i}, i.fret) &&
      PlacedOrKept(Lifted, fs[3], target, {i}, i.fret)
    requires Apart(Lifted, fs[1], Lifted, fs[2]) && Apart(Lifted, fs[1], Lifted, fs[3]) &&
      Apart(Lifted, fs[2], Lifted, fs[3])
    ensures forall j :: 0 <= j < 4 && fs[j].Down? ==> PosOf(fs[j]) in target && fs[j].fret > 0
    ensures forall a, b :: 0 <= a < b < 4 && fs[a].Down? && fs[b].Down? ==> fs[a] != fs[b]
  {
    forall a, b | 0 <= a < b < 4 && fs[a].Down? && fs[b].Down? ensures fs[a] != fs[b] {
      if a == 0 {
        assert PosOf(fs[b]) != i;
      }
    }
  }

  /** A seated hand plays each open string and each fingered string as the
      shape does, and its strain is never negative. */
  lemma SeatedShape(h: Hand, s: Shape)
    requires Seated(h, s)
    ensures HandShape(h).Success?
    ensures forall k :: 0 <= k < STRINGS && s[k] == Some(0) ==> HandShape(h).value[k] == Some(0)
    ensures forall j :: 0 <= j < 4 && h.fingers[j].Down? ==> HandShape(h).value[h.fingers[j].str] == s[h.fingers[j].str]
    ensures Strain(h).Success? && Strain(h).value >= 0
  {
    var fs := h.fingers;
    forall k | 0 <= k < STRINGS && s[k] == Some(0)
      ensures Pressed(h, k) == Some(0)
    {
      assert On(fs[0], k) == None && On(fs[1], k) == None && On(fs[2], k) == None && On(fs[3], k) == None;
    }
    forall j | 0 <= j < 4 && fs[j].Down?
      ensures Pressed(h, fs[j].str) == s[fs[j].str]
    {
      var k := fs[j].str;
      assert k !in h.openStrings;
      forall i | 0 <= i < 4 && i != j ensures On(fs[i], k) == None {
        if fs[i].Down? {
          if i < j { assert fs[i].str != fs[j].str; } else { assert fs[j].str != fs[i].str; }
        }
      }
      assert On(fs[j], k) == s[k];
    }
    var shape := HandShape(h).value;
    assert shape[fs[0].str] == Some(fs[0].fret);
  }

  /** `Hand(initial)` for a shape with no negative fret: it succeeds, keeps the
      barre on the index finger, plays every open note of the shape, and its
      strain is not negative. */
  lemma NewHandSound(s: Shape)
    requires forall k :: 0 <= k < STRINGS && s[k].Some? ==> s[k].value >= 0
    ensures NewHand(s).Success? && Wf(NewHand(s).value)
    ensures HandShape(NewHand(s).value).Success?
    ensures forall k :: 0 <= k < STRINGS && s[k] == Some(0) ==> HandShape(NewHand(s).value).value[k] == Some(0)
    ensures Strain(NewHand(s).value).Success? && Strain(NewHand(s).value).value >= 0
  {
    var target := ListTuples(s);
    if Played(s) == 0 {
      forall k | 0 <= k < STRINGS ensures s[k].None? {
        if s[k].Some? {
          ListTuplesExact(s, Pos(k, s[k].value));
        }
      }
    } else if Fretted(target) {
      FreshMoveSeated(s, Current);
      SeatedShape(NewHand(s).value, s);
    } else {
      OpenHandSound(s);
    }
  }

  /** A shape whose played notes are all open: the hand only records the
      open strings, and plays each of them. */
  lemma OpenHandSound(s: Shape)
    requires Played(s) > 0 && !Fretted(ListTuples(s))
    requires forall k :: 0 <= k < STRINGS && s[k].Some? ==> s[k].value >= 0
    ensures NewHand(s) == Success(Hand(Fresh().fingers, false, OpenStrings(ListTuples(s))))
    ensures forall k :: 0 <= k < STRINGS && s[k] == Some(0) ==> Pressed(NewHand(s).value, k) == Some(0)
  {
    var target := ListTuples(s);
    forall p | p in target ensures p.fret == 0 {
      ListTuplesExact(s, p);
    }
    forall k | 0 <= k < STRINGS && s[k] == Some(0) ensures Pos(k, 0) in target {
      ListTuplesExact(s, Pos(k, 0));
    }
  }

  /** `Hand([(s, f)])` plays exactly that note, with strain max(0, f - 12). */
  lemma SingleNoteHand(p: Pos)
    requires 0 <= p.str < STRINGS && p.fret >= 0
    ensures NewHand(Single(p)).Success?
    ensures HandShape(NewHand(Single(p)).value) == Success(Single(p))
    ensures Strain(NewHand(Single(p)).value) == Success(Max(0, p.fret - 12))
  {
    ListTuplesSingle(p);
    assert Played(Single(p)) == 1;
    if p.fret == 0 {
      var target := [p];
      assert forall q :: q in target ==> q.fret == 0;
      assert OpenStrings(target) == [p.str];
      assert NewHand(Single(p)) == Success(Hand(Fresh().fingers, false, [p.str]));
    } else {
      SingleFretted(p);
    }
    LoneNote(NewHand(Single(p)).value, p);
  }

  /** One fretted note is taken by the index finger alone, without a barre. */
  lemma SingleFretted(p: Pos)
    requires 0 <= p.str < STRINGS && p.fret > 0 && ListTuples(Single(p)) == [p]
    ensures NewHand(Single(p)) == Success(Hand([Down(p.str, p.fret), Lifted, Lifted, Lifted], false, []))
  {
    var target := [p];
    assert p in target;
    MoveIsFretted(Fresh(), target, Current);
    assert IndexTarget(target) == p;
    MoveFrettedPlaced(Fresh(), target, Current);
    assert Slide(Lifted, SlideBy(Fresh(), p.fret)) == Lifted;
    var h := MoveFretted(Fresh(), target, Current).0;
    var fs := h.fingers;
    assert fs[0] == Down(p.str, p.fret) && fs[1] == Lifted && fs[2] == Lifted && fs[3] == Lifted;
    assert fs == [Down(p.str, p.fret), Lifted, Lifted, Lifted];
    assert !Barres(target, p, Current);
    assert OpenStrings(target) == [];
  }

  /** A hand playing one note, either open or under the index finger alone. */
  lemma LoneNote(h: Hand, p: Pos)
    requires 0 <= p.str < STRINGS && p.fret >= 0
    requires h == (if p.fret == 0 then Hand(Fresh().fingers, false, [p.str])
      else Hand([Down(p.str, p.fret), Lifted, Lifted, Lifted], false, []))
    ensures HandShape(h) == Success(Single(p))
    ensures Strain(h) == Success(Max(0, p.fret - 12))
  {
    forall k | 0 <= k < STRINGS ensures Pressed(h, k) == Single(p)[k] {
    }
    assert HandShape(h).value == Single(p);
  }
}

=== FILE: older_notes.dfy ===
/** The older pitch and chord code (notes.py).

    Its pitches name and parse exactly as the current ones do, but list their
    realisations without a fret cap; its notes take their length from a
    one-letter code; and its chords keep every fingering that puts the notes
    on different strings, preferring the one whose frets sit closest to its
    lowest fret. Its `Hand.move` is `Hands.Move` with the `Older` generation.
 */
module OlderNotes {

  import opened Base
  import opened Shapes
  import opened Search
  import opened Pitches
  import opened Hands
  import Chords

  // ---------------------------------------------------------------------
  // Pitches

  /** `get_frets()`: every `(string, fret)` that sounds `value` on the
      standard tuning, with no upper fret limit, ascending by string. */
  function Frets(value: int): (ps: seq<Pos>)
    ensures forall p :: p in ps <==>
      0 <= p.str < STRINGS && 0 <= p.fret && LOW_E + STD_TUNING[p.str] + p.fret == value
    ensures forall i, j :: 0 <= i < j < |ps| ==> ps[i].str < ps[j].str
  {
    FretsOn(value, STD_TUNING, None)
  }

  /** The realisations whose fret is at most `cap`, in order. */
  function AtMost(ps: seq<Pos>, cap: int): (r: seq<Pos>)
    ensures forall p :: p in r <==> p in ps && p.fret <= cap
  {
    if |ps| == 0 then []
    else
      assert forall q :: q in ps <==> q == ps[0] || q in ps[1..];
      (if ps[0].fret <= cap then [ps[0]] else []) + AtMost(ps[1..], cap)
  }

  lemma AtMostCons(p: Pos, ps: seq<Pos>, cap: int)
    ensures AtMost([p] + ps, cap) == (if p.fret <= cap then [p] else []) + AtMost(ps, cap)
  {
    assert ([p] + ps)[1..] == ps;
  }

  lemma {:induction false} CappedFrom(value: int, tuning: seq<int>, cap: int, k: nat)
    requires k <= |tuning|
    ensures FretsFrom(value, tuning, Some(cap), k) == AtMost(FretsFrom(value, tuning, None, k), cap)
    decreases |tuning| - k
  {
    if k < |tuning| {
      CappedFrom(value, tuning, cap, k + 1);
      CappedStep(value, tuning, cap, k);
    }
  }

  lemma CappedStep(value: int, tuning: seq<int>, cap: int, k: nat)
    requires k < |tuning|
    requires FretsFrom(value, tuning, Some(cap), k + 1) == AtMost(FretsFrom(value, tuning, None, k + 1), cap)
    ensures FretsFrom(value, tuning, Some(cap), k) == AtMost(FretsFrom(value, tuning, None, k), cap)
  {
    var rest := FretsFrom(value, tuning, None, k + 1);
    var capped := FretsFrom(value, tuning, Some(cap), k + 1);
    var fret := value - LOW_E - tuning[k];
    if 0 <= fret {
      assert FretsFrom(value, tuning, None, k) == [Pos(k, fret)] + rest;
      assert FretsFrom(value, tuning, Some(cap), k) == (if fret <= cap then [Pos(k, fret)] else []) + capped;
      AtMostCons(Pos(k, fret), rest, cap);
    } else {
      assert FretsFrom(value, tuning, None, k) == rest;
      assert FretsFrom(value, tuning, Some(cap), k) == capped;
    }
  }

  /** The current pitches' realisations are the older ones cut off at
      `MAX_FRET`, in the same order. */
  lemma CappedFrets(value: int)
    ensures FretsOn(value, STD_TUNING, Some(MAX_FRET)) == AtMost(Frets(value), MAX_FRET)
  {
    CappedFrom(value, STD_TUNING, MAX_FRET, 0);
  }

  /** The standard tuning rises from string to string. */
  lemma TuningRises(a: int, b: int)
    requires 0 <= a < b < STRINGS
    ensures STD_TUNING[a] < STD_TUNING[b]
  {
  }

  /** Higher strings need lower frets: the realisations' frets fall strictly
      as the strings rise. */
  lemma FretsFall(value: int, i: int, j: int)
    requires 0 <= i < j < |Frets(value)|
    ensures Frets(value)[i].fret > Frets(value)[j].fret
  {
    var ps := Frets(value);
    assert ps[i] in ps && ps[j] in ps;
    TuningRises(ps[i].str, ps[j].str);
  }

  /** `get_low_fret(capo)`: scanning the realisations from the last one
      back, the first whose fret is at least `capo`; None when there is
      none. */
  function LowFret(frets: seq<Pos>, capo: int): (r: Option<Pos>)
    ensures r.None? <==> forall p :: p in frets ==> p.fret < capo
    ensures r.Some? ==> exists i :: 0 <= i < |frets| && frets[i] == r.value && LastReached(frets, capo, i)
    decreases |frets|
  {
    if |frets| == 0 then None
    else
      var last := frets[|frets| - 1];
      var front := frets[..|frets| - 1];
      assert forall q :: q in frets <==> q == last || q in front;
      if last.fret >= capo then Some(last)
      else
        LastReachedFront(frets, capo);
        LowFret(front, capo)
  }

  /** A last element below the capo keeps the front's last reached position. */
  lemma LastReachedFront(frets: seq<Pos>, capo: int)
    requires |frets| > 0 && frets[|frets| - 1].fret < capo
    ensures forall i :: 0 <= i < |frets| - 1 && LastReached(frets[..|frets| - 1], capo, i) ==>
      frets[..|frets| - 1][i] == frets[i] && LastReached(frets, capo, i)
  {
  }

  /** Position `i` holds the last fret at or above `capo`. */
  predicate LastReached(frets: seq<Pos>, capo: int, i: int)
    requires 0 <= i < |frets|
  {
    frets[i].fret >= capo && forall j :: i < j < |frets| ==> frets[j].fret < capo
  }

  /** Because the frets fall as the strings rise, the scan from the highest
      string finds the realisation with the smallest fret at or above the
      capo, and no other realisation has that fret. */
  lemma LowFretLowest(value: int, capo: int)
    ensures var r := LowFret(Frets(value), capo);
      r.Some? ==> (r.value in Frets(value) && r.value.fret >= capo &&
        forall p :: p in Frets(value) && p.fret >= capo && p != r.value ==> r.value.fret < p.fret)
  {
    var ps := Frets(value);
    var r := LowFret(ps, capo);
    if r.Some? {
      var i :| 0 <= i < |ps| && ps[i] == r.value && LastReached(ps, capo, i);
      forall p | p in ps && p.fret >= capo && p != r.value
        ensures r.value.fret < p.fret
      {
        var j :| 0 <= j < |ps| && ps[j] == p;
        assert j != i;
        FretsFall(value, j, i);
      }
    }
  }

  // ---------------------------------------------------------------------
  // Notes

  /** The duration codes, longest first: whole, half, quarter, eighth,
      sixteenth and thirty-second notes. */
  const CODES: seq<string> := ["W", "H", "Q", "E", "S", "T"]

  /** `1 / 2^k` */
  function HalfPower(k: nat): (r: real)
    ensures 0.0 < r <= 1.0
  {
    if k == 0 then 1.0 else HalfPower(k - 1) / 2.0
  }

  lemma HalfPowers()
    ensures HalfPower(0) == 1.0 && HalfPower(1) == 0.5 && HalfPower(2) == 0.25
    ensures HalfPower(3) == 0.125 && HalfPower(4) == 0.0625 && HalfPower(5) == 0.03125
  {
    assert HalfPower(1) == 0.5;
    assert HalfPower(2) == 0.25;
    assert HalfPower(3) == 0.125;
    assert HalfPower(4) == 0.0625;
  }

  /** `Note.durations[t]`: the fraction of a whole note a code stands for;
      KeyError for any other key. */
  function Duration(t: string): (r: Result<real>)
    ensures r.Success? <==> t in CODES
    ensures r.Failure? ==> r.error == KeyError
    ensures forall k :: 0 <= k < |CODES| && CODES[k] == t ==> r == Success(HalfPower(k))
  {
    HalfPowers();
    if t == "W" then Success(1.0)
    else if t == "H" then Success(0.5)
    else if t == "Q" then Success(0.25)
    else if t == "E" then Success(0.125)
    else if t == "S" then Success(0.0625)
    else if t == "T" then Success(0.03125)
    else Failure(KeyError)
  }

  /** `Note(arg, t=t)`: the pitch is built first, so its error wins; then an
      unknown code raises KeyError. */
  function MakeNote(arg: PitchArg, t: string): (r: Result<Note>)
    ensures r.Success? <==> NewPitch(arg).Success? && t in CODES
    ensures NewPitch(arg).Failure? ==> r.Failure? && r.error == NewPitch(arg).error
    ensures NewPitch(arg).Success? && t !in CODES ==> r.Failure? && r.error == KeyError
    ensures r.Success? ==> r.value.pitch == NewPitch(arg).value && Success(r.value.duration) == Duration(t)
  {
    var p :- NewPitch(arg);
    var d :- Duration(t);
    Success(Note(p, d))
  }

  /** `note.set_duration(t)`: only IndexError is caught, so an unknown code
      raises KeyError instead of falling back to a quarter note. */
  function SetDuration(n: Note, t: string): (r: Result<Note>)
    ensures r.Success? <==> t in CODES
    ensures r.Failure? ==> r.error == KeyError
    ensures r.Success? ==> r.value.pitch == n.pitch && Success(r.value.duration) == Duration(t)
  {
    var d :- Duration(t);
    Success(n.(duration := d))
  }

  /** Each code is half as long as the one before it, from a whole note down
      to a thirty-second; `Q` is the default quarter note. */
  lemma DurationCodes(k: nat)
    requires 0 < k < |CODES|
    ensures Duration(CODES[k]).Success? && Duration(CODES[k - 1]).Success?
    ensures Duration(CODES[k]).value * 2.0 == Duration(CODES[k - 1]).value
    ensures Duration("Q") == Success(QUARTER) && Duration("W") == Success(1.0)
  {
    assert CODES[k] in CODES && CODES[k - 1] in CODES;
  }

  /** An unknown code never falls back to the quarter note. */
  lemma NoFallback(n: Note, t: string)
    requires t !in CODES
    ensures SetDuration(n, t) == Failure(KeyError)
    ensures MakeNote(IntArg(0), t) == Failure(KeyError)
  {
  }

  // ---------------------------------------------------------------------
  // Chords

  /** An argument of `Chord(note_list)`: a ready Note object, which a set
      tells apart from every other object (`id` stands for its identity), or
      anything `Note(...)` accepts. */
  datatype ChordArg = Given(n: Note, id: nat) | Raw(a: PitchArg)

  /** An order in which `set(note_list)` may yield its elements: every
      distinct argument exactly once. Python leaves the order open. */
  predicate IterationOrder(order: seq<ChordArg>, args: seq<ChordArg>) {
    (forall i, j :: 0 <= i < j < |order| ==> order[i] != order[j]) &&
    (forall x :: x in order ==> x in args) &&
    (forall x :: x in args ==> x in order)
  }

  /** An iteration order is empty exactly when the arguments are, and every
      element can become a note exactly when every argument can. */
  lemma OrderCovers(order: seq<ChordArg>, args: seq<ChordArg>)
    requires IterationOrder(order, args)
    ensures |order| == 0 <==> |args| == 0
    ensures (forall i :: 0 <= i < |order| ==> Buildable(order[i])) <==> forall x :: x in args ==> Buildable(x)
  {
    if |args| > 0 {
      assert args[0] in order;
    }
    if |order| > 0 {
      assert order[0] in args;
    }
    if forall i :: 0 <= i < |order| ==> Buildable(order[i]) {
      forall x | x in args ensures Buildable(x) {
        var i :| 0 <= i < |order| && order[i] == x;
      }
    }
  }

  /** The chord's notes, one per argument in iteration order: a Note is kept
      as it is, anything else becomes a quarter note. The first argument that
      cannot become a note ends the loop with its error. */
  function ChordNotes(order: seq<ChordArg>): (r: Result<seq<Note>>)
    ensures r.Success? <==> forall i :: 0 <= i < |order| ==> Buildable(order[i])
    ensures r.Success? ==> (|r.value| == |order| &&
      forall i :: 0 <= i < |order| ==> Built(order[i], r.value[i]))
  {
    if |order| == 0 then Success([])
    else
      var first :- (match order[0] case Given(n, _) => Success(n) case Raw(a) => MakeNote(a, "Q"));
      var rest :- ChordNotes(order[1..]);
      assert forall i :: 1 <= i < |order| ==> order[i] == order[1..][i - 1];
      Success([first] + rest)
  }

  predicate Buildable(x: ChordArg) {
    x.Given? || MakeNote(x.a, "Q").Success?
  }

  /** `n` is the note made from `x`. */
  predicate Built(x: ChordArg, n: Note) {
    match x
    case Given(m, _) => n == m
    case Raw(a) => MakeNote(a, "Q") == Success(n)
  }

  /** A combination plays each of its notes on a string of its own. */
  predicate OwnStrings(ps: seq<Pos>) {
    forall i, j :: 0 <= i < j < |ps| ==> ps[i].str != ps[j].str
  }

  /** The strings a combination uses. */
  function StringSet(ps: seq<Pos>): set<int> {
    set i | 0 <= i < |ps| :: ps[i].str
  }

  /** `len({i[0] for i in shape}) == len([i[0] for i in shape])` holds
      exactly when no two notes share a string. */
  lemma {:induction false} StringCount(ps: seq<Pos>)
    ensures |StringSet(ps)| <= |ps|
    ensures |StringSet(ps)| == |ps| <==> OwnStrings(ps)
    decreases |ps|
  {
    if |ps| > 0 {
      var rest := ps[1..];
      StringCount(rest);
      assert StringSet(ps) == {ps[0].str} + StringSet(rest) by {
        forall k | k in StringSet(ps) ensures k in {ps[0].str} + StringSet(rest) {
          var i :| 0 <= i < |ps| && ps[i].str == k;
          if i > 0 {
            assert rest[i - 1].str == k;
          }
        }
        forall k | k in StringSet(rest) ensures k in StringSet(ps) {
          var i :| 0 <= i < |rest| && rest[i].str == k;
          assert ps[i + 1].str == k;
        }
      }
      if ps[0].str in StringSet(rest) {
        var i :| 0 <= i < |rest| && rest[i].str == ps[0].str;
        assert ps[i + 1].str == ps[0].str;
        assert !OwnStrings(ps);
      } else {
        assert OwnStrings(ps) <==> OwnStrings(rest) by {
          if OwnStrings(rest) {
            forall i, j | 0 <= i < j < |ps| ensures ps[i].str != ps[j].str {
              if i == 0 {
                assert ps[j].str == rest[j - 1].str;
                assert ps[j].str in StringSet(rest);
              } else {
                assert ps[i] == rest[i - 1] && ps[j] == rest[j - 1];
              }
            }
          }
          if OwnStrings(ps) {
            forall i, j | 0 <= i < j < |rest| ensures rest[i].str != rest[j].str {
              assert rest[i] == ps[i + 1] && rest[j] == ps[j + 1];
            }
          }
        }
      }
    }
  }

  /** Sorted in the tuple order: by string, then by fret. */
  predicate SortedPos(ps: seq<Pos>) {
    forall i, j :: 0 <= i < j < |ps| ==> PosLe(ps[i], ps[j])
  }

  /** `p` inserted before the first element not below it. */
  function InsertPos(p: Pos, ps: seq<Pos>): (r: seq<Pos>)
    requires SortedPos(ps)
    ensures SortedPos(r)
    ensures multiset(r) == multiset(ps) + multiset{p}
  {
    if |ps| == 0 || PosLe(p, ps[0]) then [p] + ps
    else
      var rest := InsertPos(p, ps[1..]);
      assert ps == [ps[0]] + ps[1..];
      InsertedAfter(p, ps, rest);
      [ps[0]] + rest
  }

  lemma InsertedAfter(p: Pos, ps: seq<Pos>, rest: seq<Pos>)
    requires |ps| > 0 && SortedPos(ps) && !PosLe(p, ps[0])
    requires SortedPos(rest) && multiset(rest) == multiset(ps[1..]) + multiset{p}
    ensures SortedPos([ps[0]] + rest)
  {
    forall i | 0 <= i < |rest| ensures PosLe(ps[0], rest[i]) {
      assert rest[i] in multiset(rest);
      if rest[i] != p {
        assert rest[i] in multiset(ps[1..]);
        var k :| 0 <= k < |ps[1..]| && ps[1..][k] == rest[i];
        assert ps[k + 1] == rest[i];
      }
    }
  }

  /** `sorted(shape)` */
  function SortPos(ps: seq<Pos>): (r: seq<Pos>)
    ensures SortedPos(r)
    ensures multiset(r) == multiset(ps)
  {
    if |ps| == 0 then []
    else
      assert ps == [ps[0]] + ps[1..];
      InsertPos(ps[0], SortPos(ps[1..]))
  }

  /** `[note.frets for note in notes]` */
  function FretLists(notes: seq<Note>): (ls: seq<seq<Pos>>)
    ensures |ls| == |notes| && forall i :: 0 <= i < |notes| ==> ls[i] == Frets(notes[i].pitch.value)
  {
    seq(|notes|, i requires 0 <= i < |notes| => Frets(notes[i].pitch.value))
  }

  /** The combinations that put no two notes on one string, each sorted. */
  function KeepDistinct(combos: seq<seq<Pos>>): (r: seq<seq<Pos>>)
    ensures forall ps :: ps in r <==> exists c :: c in combos && OwnStrings(c) && ps == SortPos(c)
  {
    if |combos| == 0 then []
    else
      var c := combos[0];
      StringCount(c);
      assert forall x :: x in combos <==> x == c || x in combos[1..];
      (if |StringSet(c)| == |c| then [SortPos(c)] else []) + KeepDistinct(combos[1..])
  }

  /** `Chord.shapes` */
  function ChordShapes(notes: seq<Note>): seq<seq<Pos>> {
    KeepDistinct(Product(FretLists(notes)))
  }

  /** A chord of the older code. */
  datatype OldChord = OldChord(notes: seq<Note>, duration: real, shapes: seq<seq<Pos>>)

  /** `Chord(note_list)` with `set(note_list)` yielding `order`: the notes,
      the shortest note's duration (ValueError for no notes), and the
      fingerings. */
  function NewOldChord(order: seq<ChordArg>, args: seq<ChordArg>): (r: Result<OldChord>)
    requires IterationOrder(order, args)
    ensures r.Success? <==> |args| > 0 && forall x :: x in args ==> Buildable(x)
    ensures |args| == 0 ==> r == Failure(ValueError)
    ensures r.Success? ==> (|r.value.notes| == |order| &&
      (forall i :: 0 <= i < |order| ==> Built(order[i], r.value.notes[i])) &&
      (forall i :: 0 <= i < |order| ==> r.value.duration <= r.value.notes[i].duration) &&
      (exists i :: 0 <= i < |order| && r.value.duration == r.value.notes[i].duration) &&
      r.value.shapes == ChordShapes(r.value.notes))
  {
    OrderCovers(order, args);
    var notes :- ChordNotes(order);
    var d :- Chords.MinDuration(notes);
    Success(OldChord(notes, d, ChordShapes(notes)))
  }

  /** Every shape plays one realisation of each note, no two on one string,
      listed by string; and every such choice of realisations is a shape. */
  lemma ShapesExact(notes: seq<Note>, c: seq<Pos>)
    requires |c| == |notes| && OwnStrings(c)
    requires forall i :: 0 <= i < |c| ==> c[i] in Frets(notes[i].pitch.value)
    ensures SortPos(c) in ChordShapes(notes)
  {
    var lists := FretLists(notes);
    assert c in Product(lists) by {
      assert forall i :: 0 <= i < |c| ==> c[i] in lists[i];
      ProductMembers(lists, c);
    }
    KeptDistinct(Product(lists), c);
  }

  lemma KeptDistinct(combos: seq<seq<Pos>>, c: seq<Pos>)
    requires c in combos && OwnStrings(c)
    ensures SortPos(c) in KeepDistinct(combos)
  {
  }

  /** Every shape is a sorted choice of one realisation per note on
      pairwise-distinct strings, so the strings rise strictly. */
  lemma ShapeForm(notes: seq<Note>, ps: seq<Pos>)
    requires ps in ChordShapes(notes)
    ensures |ps| == |notes| && forall i, j :: 0 <= i < j < |ps| ==> ps[i].str < ps[j].str
    ensures exists c :: (|c| == |notes| && OwnStrings(c) && multiset(ps) == multiset(c) &&
      forall i :: 0 <= i < |c| ==> c[i] in Frets(notes[i].pitch.value))
  {
    var ls := FretLists(notes);
    var c :| c in Product(ls) && OwnStrings(c) && ps == SortPos(c);
    ProductMembers(ls, c);
    assert forall i :: 0 <= i < |c| ==> c[i] in Frets(notes[i].pitch.value) by {
      assert forall i :: 0 <= i < |c| ==> c[i] in ls[i];
    }
    assert |ps| == |c| by {
      assert |multiset(ps)| == |multiset(c)|;
    }
    SortedDistinct(c, ps);
  }

  /** A sorted rearrangement of a combination on distinct strings has
      strictly rising strings. */
  lemma SortedDistinct(c: seq<Pos>, ps: seq<Pos>)
    requires OwnStrings(c) && SortedPos(ps) && multiset(ps) == multiset(c)
    ensures forall i, j :: 0 <= i < j < |ps| ==> ps[i].str < ps[j].str
  {
    PermutedOwnStrings(c, ps);
  }

  /** Rearranging a combination keeps its notes on distinct strings: both use
      the same strings, as many as they have notes. */
  lemma PermutedOwnStrings(c: seq<Pos>, ps: seq<Pos>)
    requires OwnStrings(c) && multiset(ps) == multiset(c)
    ensures OwnStrings(ps)
  {
    assert |ps| == |c| by {
      assert |multiset(ps)| == |multiset(c)|;
    }
    assert StringSet(ps) == StringSet(c) by {
      forall k | k in StringSet(ps) ensures k in StringSet(c) {
        var i :| 0 <= i < |ps| && ps[i].str == k;
        assert ps[i] in multiset(c);
        var a :| 0 <= a < |c| && c[a] == ps[i];
      }
      forall k | k in StringSet(c) ensures k in StringSet(ps) {
        var a :| 0 <= a < |c| && c[a].str == k;
        assert c[a] in multiset(ps);
        var i :| 0 <= i < |ps| && ps[i] == c[a];
      }
    }
    StringCount(c);
    StringCount(ps);
  }

  // ---------------------------------------------------------------------
  // Sums and the preferred shape

  /** `sum(i[1] for i in shape)` */
  function FretKey(ps: seq<Pos>): int {
    if |ps| == 0 then 0 else ps[0].fret + FretKey(ps[1..])
  }

  /** `sum(i[1] - capo for i in shape)` */
  function Above(ps: seq<Pos>, capo: int): int {
    if |ps| == 0 then 0 else (ps[0].fret - capo) + Above(ps[1..], capo)
  }

  /** The frets of a combination, in order. */
  function FretsOf(ps: seq<Pos>): (fs: seq<int>)
    ensures |fs| == |ps| && forall i :: 0 <= i < |ps| ==> fs[i] == ps[i].fret
  {
    seq(|ps|, i requires 0 <= i < |ps| => ps[i].fret)
  }

  /** The `span_sum` key of a shape: how far its frets reach above its lowest
      one, in total. (An empty shape has none; `span_sum` raises on it.) */
  function SpanKey(ps: seq<Pos>): int {
    if |ps| == 0 then 0 else Above(ps, SeqMin(FretsOf(ps)))
  }

  lemma {:induction false} AboveSum(ps: seq<Pos>, capo: int)
    ensures Above(ps, capo) == FretKey(ps) - |ps| * capo
    decreases |ps|
  {
    if |ps| > 0 {
      AboveSum(ps[1..], capo);
      assert |ps| * capo == capo + (|ps| - 1) * capo;
    }
  }

  lemma {:induction false} AboveFloor(ps: seq<Pos>, capo: int)
    requires forall i :: 0 <= i < |ps| ==> capo <= ps[i].fret
    ensures Above(ps, capo) >= 0
    decreases |ps|
  {
    if |ps| > 0 {
      assert forall i :: 1 <= i < |ps| ==> ps[1..][i - 1] == ps[i];
      AboveFloor(ps[1..], capo);
    }
  }

  /** The two keys agree up to the lowest fret: the span key is the fret key
      less one lowest fret per note, and is never negative. */
  lemma SpanFromFrets(ps: seq<Pos>)
    requires |ps| > 0
    ensures SpanKey(ps) == FretKey(ps) - |ps| * SeqMin(FretsOf(ps))
    ensures SpanKey(ps) >= 0
  {
    var m := SeqMin(FretsOf(ps));
    AboveSum(ps, m);
    assert forall i :: 0 <= i < |ps| ==> FretsOf(ps)[i] in FretsOf(ps);
    AboveFloor(ps, m);
  }

  /** `fret_sum()`: the shapes grouped by their fret total. */
  function FretSum(shapes: seq<seq<Pos>>): map<int, seq<seq<Pos>>> {
    GroupBy(shapes, FretKey)
  }

  /** `span_sum()`: the shapes grouped by their span key; ValueError when a
      shape is empty, since `min` of no frets raises. */
  function SpanSum(shapes: seq<seq<Pos>>): (r: Result<map<int, seq<seq<Pos>>>>)
    ensures r.Failure? <==> exists i :: 0 <= i < |shapes| && |shapes[i]| == 0
    ensures r.Failure? ==> r.error == ValueError
  {
    if exists i :: 0 <= i < |shapes| && |shapes[i]| == 0 then Failure(ValueError)
    else Success(GroupBy(shapes, SpanKey))
  }

  /** Both groupings partition the shapes: a key is present exactly when some
      shape has it, and lists exactly the shapes with that key, in order. */
  lemma SumsPartition(shapes: seq<seq<Pos>>, k: int)
    ensures k in FretSum(shapes) <==> exists i :: 0 <= i < |shapes| && FretKey(shapes[i]) == k
    ensures k in FretSum(shapes) ==> FretSum(shapes)[k] == Having(shapes, FretKey, k)
    ensures SpanSum(shapes).Success? ==>
      (k in SpanSum(shapes).value <==> exists i :: 0 <= i < |shapes| && SpanKey(shapes[i]) == k)
    ensures SpanSum(shapes).Success? && k in SpanSum(shapes).value ==>
      SpanSum(shapes).value[k] == Having(shapes, SpanKey, k)
  {
    GroupByPartition(shapes, FretKey, k);
    GroupByPartition(shapes, SpanKey, k);
  }

  /** Each shape is listed under its own key, and under no other. */
  lemma SumsListEach(shapes: seq<seq<Pos>>, i: int, k: int)
    requires 0 <= i < |shapes|
    ensures shapes[i] in Having(shapes, FretKey, k) <==> FretKey(shapes[i]) == k
    ensures shapes[i] in Having(shapes, SpanKey, k) <==> SpanKey(shapes[i]) == k
  {
    HavingMember(shapes, FretKey, k, i);
    HavingMember(shapes, SpanKey, k, i);
  }

  lemma {:induction false} HavingMember<T>(xs: seq<T>, key: T -> int, k: int, i: int)
    requires 0 <= i < |xs|
    ensures xs[i] in Having(xs, key, k) <==> key(xs[i]) == k
    decreases |xs|
  {
    if xs[i] in Having(xs, key, k) {
      HavingOnly(xs, key, k, xs[i]);
    }
    if key(xs[i]) == k && i > 0 {
      HavingMember(xs[1..], key, k, i - 1);
      assert xs[1..][i - 1] == xs[i];
    }
  }

  lemma HavingOnly<T>(xs: seq<T>, key: T -> int, k: int, x: T)
    requires x in Having(xs, key, k)
    ensures key(x) == k
  {
    var r := Having(xs, key, k);
    var j :| 0 <= j < |r| && r[j] == x;
  }

  /** The first element with key `k` heads its group. */
  lemma {:induction false} HavingHead<T>(xs: seq<T>, key: T -> int, k: int, i: int)
    requires 0 <= i < |xs| && key(xs[i]) == k
    requires forall j :: 0 <= j < i ==> key(xs[j]) != k
    ensures |Having(xs, key, k)| > 0 && Having(xs, key, k)[0] == xs[i]
    decreases |xs|
  {
    if i > 0 {
      assert forall j :: 0 <= j < i - 1 ==> xs[1..][j] == xs[j + 1];
      HavingHead(xs[1..], key, k, i - 1);
    }
  }

  /** The span keys of the shapes, in order. */
  function SpanKeys(shapes: seq<seq<Pos>>): (ks: seq<int>)
    ensures |ks| == |shapes| && forall i :: 0 <= i < |shapes| ==> ks[i] == SpanKey(shapes[i])
  {
    seq(|shapes|, i requires 0 <= i < |shapes| => SpanKey(shapes[i]))
  }

  /** `shapes[i]` is the first shape of least span key. */
  predicate FirstLeast(shapes: seq<seq<Pos>>, i: int) {
    0 <= i < |shapes| &&
    (forall j :: 0 <= j < |shapes| ==> SpanKey(shapes[i]) <= SpanKey(shapes[j])) &&
    (forall j :: 0 <= j < i ==> SpanKey(shapes[i]) < SpanKey(shapes[j]))
  }

  /** `Chord.shape`: `sums[min(sums.keys())][0]` over `span_sum()`. The least
      key of the dictionary is found as the least key of the shapes, which
      is the same number; ValueError when there are no shapes or a shape is
      empty. */
  function PreferredShape(shapes: seq<seq<Pos>>): (r: Result<seq<Pos>>)
    ensures r.Failure? <==> |shapes| == 0 || exists i :: 0 <= i < |shapes| && |shapes[i]| == 0
    ensures r.Failure? ==> r.error == ValueError
    ensures r.Success? ==> exists i :: FirstLeast(shapes, i) && shapes[i] == r.value
  {
    var sums :- SpanSum(shapes);
    if |shapes| == 0 then
      assert sums == map[];
      Failure(ValueError)
    else
      var keys := SpanKeys(shapes);
      var i := FirstMinIndex(keys);
      var lowest := keys[i];
      GroupByPartition(shapes, SpanKey, lowest);
      HavingHead(shapes, SpanKey, lowest, i);
      assert FirstLeast(shapes, i);
      Success(sums[lowest][0])
  }

  /** The least span key of the shapes is the least key of `span_sum()`, so
      picking it from the shapes in order picks what `min(sums.keys())`
      picks, whatever order the dictionary lists its keys in. */
  lemma LeastKey(shapes: seq<seq<Pos>>, i: int)
    requires SpanSum(shapes).Success? && FirstLeast(shapes, i)
    ensures SpanKey(shapes[i]) in SpanSum(shapes).value
    ensures forall k :: k in SpanSum(shapes).value ==> SpanKey(shapes[i]) <= k
  {
    SumsPartition(shapes, SpanKey(shapes[i]));
    forall k | k in SpanSum(shapes).value ensures SpanKey(shapes[i]) <= k {
      SumsPartition(shapes, k);
    }
  }

  // ---------------------------------------------------------------------
  // The older hand

  /** The older `Hand.move` has no early return for open notes: a target
      with no fret above 0 makes `min` raise ValueError. */
  lemma OlderMoveNeedsFret(h: Hand, target: seq<Pos>)
    requires forall p :: p in target ==> p.fret == 0
    ensures Move(h, target, Older) == Failure(ValueError)
  {
  }

  /** The older `Hand.move` barres without looking for open strings: the
      notes A2 and D3 at fret 2 with the G string open barre in the older
      version and not in the current one. */
  lemma OlderBarreIgnoresOpen()
    ensures Move(Fresh(), [Pos(1, 2), Pos(2, 2), Pos(3, 0)], Older).value.0.barre
    ensures !Move(Fresh(), [Pos(1, 2), Pos(2, 2), Pos(3, 0)], Current).value.0.barre
  {
    var target := [Pos(1, 2), Pos(2, 2), Pos(3, 0)];
    assert Pos(1, 2) in target && Pos(2, 2) in target && Pos(3, 0) in target;
    assert IndexTarget(target) == Pos(1, 2);
    MoveBarre(Fresh(), target, Older);
    MoveBarre(Fresh(), target, Current);
  }
}

=== FILE: pitches.dfy ===
/** Pitches and notes (music.py `Pitch`, `Note`).

    A pitch is an integer number of semitones above middle C (C4 = 0). Its
    name is a letter, an optional accidental and an octave digit; the
    conversion reads only the last character as the octave, so names round
    trip only for octaves 0..9.
 */
module Pitches {

  import opened Base
  import opened Text
  import opened Shapes

  const LOW_E := -8
  /** The value of middle C, C4. */
  const MIDDLE_C := 0
  /** Semitones of each open string above the low E string (EADGBE). */
  const STD_TUNING: seq<int> := [0, 5, 10, 15, 19, 24]
  const DROP_D_TUNING: seq<int> := [-2, 5, 10, 15, 19, 24]
  const MAX_FRET := 18
  const MAX_SPAN := 5

  const VALUE: map<char, int> := map['C' := 0, 'D' := 2, 'E' := 4, 'F' := 5, 'G' := 7, 'A' := 9, 'B' := 11]
  const NAME: map<int, char> := map[0 := 'C', 2 := 'D', 4 := 'E', 5 := 'F', 7 := 'G', 9 := 'A', 11 := 'B']
  const ACCIDENTAL: map<char, int> := map['b' := -1, '#' := 1]

  /** A pitch keeps the name it was built from; equality is by value only. */
  datatype Pitch = Pitch(name: string, value: int)

  /** `get_name`: the natural letter when the value is on one, otherwise the
      letter a semitone below with `#`; then the octave `value // 12 + 4`. */
  function GetName(value: int): (r: string)
    ensures |r| >= 2 && r[0] in VALUE
    ensures VALUE[r[0]] == value % 12 ==> r == [r[0]] + IntToString(value / 12 + 4)
    ensures VALUE[r[0]] != value % 12 ==>
      VALUE[r[0]] == value % 12 - 1 && r == [r[0], '#'] + IntToString(value / 12 + 4)
  {
    var pc := value % 12;
    var octave := IntToString(value / 12 + 4);
    NameLetter(pc);
    if pc in NAME then [NAME[pc]] + octave else [NAME[pc - 1], '#'] + octave
  }

  /** Every pitch class is named by a letter, or by the letter a semitone
      below it with a sharp. */
  lemma NameLetter(pc: int)
    requires 0 <= pc < 12
    ensures pc in NAME ==> NAME[pc] in VALUE && VALUE[NAME[pc]] == pc
    ensures pc !in NAME ==> pc - 1 in NAME && NAME[pc - 1] in VALUE && VALUE[NAME[pc - 1]] == pc - 1
  {
  }

  /** The name parser shared by every copy of `get_value`: the last character
      is the octave digit (offset by `octaveOffset`), the first is the letter
      and, in a three-character name only, the middle one is the accidental.
      `fold` applies `.upper()` to the letter and `.lower()` to the accidental.
      An empty name raises IndexError; an unreadable one gives None. */
  function ReadName(name: string, fold: bool, octaveOffset: int): (r: Result<Option<int>>)
    ensures r.Failure? <==> |name| == 0
    ensures r.Failure? ==> r.error == IndexError
  {
    if |name| == 0 then Failure(IndexError)
    else
      var last := name[|name| - 1];
      var letter := if fold then ToUpper(name[0]) else name[0];
      var accidental := if |name| == 3 then (if fold then ToLower(name[1]) else name[1]) else '#';
      if !IsDigit(last) || letter !in VALUE then Success(None)
      else if |name| == 3 && accidental !in ACCIDENTAL then Success(None)
      else
        var shift := if |name| == 3 then ACCIDENTAL[accidental] else 0;
        Success(Some((DigitValue(last) + octaveOffset) * 12 + VALUE[letter] + shift))
  }

  /** `get_value` */
  function GetValue(name: string): Result<Option<int>> {
    ReadName(name, true, -4)
  }

  /** `Pitch(int)` */
  function FromValue(value: int): (p: Pitch)
    ensures p.value == value
  {
    Pitch(GetName(value), value)
  }

  /** `Pitch(str)`: the value is parsed; the no-op case "correction" then
      indexes `name[-2]` (IndexError for a one-character name) and
      `get_shapes` compares a None value with an int (TypeError). */
  function FromName(name: string): (r: Result<Pitch>)
    ensures r.Success? <==> |name| >= 2 && GetValue(name).Success? && GetValue(name).value.Some?
    ensures r.Success? ==> r.value == Pitch(name, GetValue(name).value.value)
    ensures r.Failure? && |name| < 2 ==> r.error == IndexError
    ensures r.Failure? && |name| >= 2 ==> r.error == TypeError
  {
    var value :- GetValue(name);
    if |name| < 2 then Failure(IndexError)
    else if value.None? then Failure(TypeError)
    else Success(Pitch(name, value.value))
  }

  /** The constructor argument of `Pitch` and `Note`: an int, a string, or
      anything else (which leaves `value` unset, so `get_shapes` raises
      AttributeError). */
  datatype PitchArg = IntArg(v: int) | NameArg(s: string) | OtherArg

  function NewPitch(arg: PitchArg): Result<Pitch> {
    match arg
    case IntArg(v) => Success(FromValue(v))
    case NameArg(s) => FromName(s)
    case OtherArg => Failure(AttributeError)
  }

  /** Every `(string, fret)` that sounds `value` under `tuning`: fret
      `value - LOW_E - tuning[string]` when it is not negative and, if a cap
      is given, not above it; ascending by string. */
  function FretsOn(value: int, tuning: seq<int>, cap: Option<int>): (ps: seq<Pos>)
    ensures forall p :: p in ps <==>
      0 <= p.str < |tuning| && 0 <= p.fret && (cap.Some? ==> p.fret <= cap.value) &&
      LOW_E + tuning[p.str] + p.fret == value
    ensures forall i, j :: 0 <= i < j < |ps| ==> ps[i].str < ps[j].str
  {
    FretsFromSpec(value, tuning, cap, 0);
    FretsFrom(value, tuning, cap, 0)
  }

  /** The realisations on strings `k` onwards. */
  function FretsFrom(value: int, tuning: seq<int>, cap: Option<int>, k: nat): seq<Pos>
    requires k <= |tuning|
    decreases |tuning| - k
  {
    if k == |tuning| then []
    else
      var fret := value - LOW_E - tuning[k];
      (if 0 <= fret && (cap.None? || fret <= cap.value) then [Pos(k, fret)] else []) +
      FretsFrom(value, tuning, cap, k + 1)
  }

  lemma {:induction false} FretsFromSpec(value: int, tuning: seq<int>, cap: Option<int>, k: nat)
    requires k <= |tuning|
    ensures forall p :: p in FretsFrom(value, tuning, cap, k) <==>
      k <= p.str < |tuning| && 0 <= p.fret && (cap.Some? ==> p.fret <= cap.value) &&
      LOW_E + tuning[p.str] + p.fret == value
    ensures forall i, j :: 0 <= i < j < |FretsFrom(value, tuning, cap, k)| ==>
      FretsFrom(value, tuning, cap, k)[i].str < FretsFrom(value, tuning, cap, k)[j].str
    decreases |tuning| - k
  {
    if k < |tuning| {
      FretsFromSpec(value, tuning, cap, k + 1);
      var rest := FretsFrom(value, tuning, cap, k + 1);
      assert forall i :: 0 <= i < |rest| ==> rest[i] in rest;
    }
  }

  /** `get_shapes()`: one single-note Shape per realisation on the standard
      tuning with at most `MAX_FRET` frets, ascending by string. */
  function Realizations(value: int): (shapes: seq<Shape>)
    ensures forall s :: s in shapes <==>
      exists k, f :: 0 <= k < STRINGS && 0 <= f <= MAX_FRET && LOW_E + STD_TUNING[k] + f == value &&
        s == Single(Pos(k, f))
    ensures exists ps: seq<Pos> :: SinglesAscending(shapes, ps)
  {
    var ps := FretsOn(value, STD_TUNING, Some(MAX_FRET));
    var shapes := seq(|ps|, i requires 0 <= i < |ps| => Single(ps[i]));
    SinglesSound(value, ps, shapes);
    SinglesComplete(value, ps, shapes);
    assert SinglesAscending(shapes, ps);
    shapes
  }

  /** `shapes` are the single-note shapes of `ps`, whose strings ascend. */
  predicate SinglesAscending(shapes: seq<Shape>, ps: seq<Pos>) {
    |ps| == |shapes| &&
    (forall i :: 0 <= i < |ps| ==> 0 <= ps[i].str < STRINGS && 0 <= ps[i].fret && shapes[i] == Single(ps[i])) &&
    (forall i, j :: 0 <= i < j < |ps| ==> ps[i].str < ps[j].str)
  }

  lemma SinglesSound(value: int, ps: seq<Pos>, shapes: seq<Shape>)
    requires ps == FretsOn(value, STD_TUNING, Some(MAX_FRET))
    requires |shapes| == |ps| && forall i :: 0 <= i < |ps| ==> shapes[i] == Single(ps[i])
    ensures forall s :: s in shapes ==>
      (exists k, f :: 0 <= k < STRINGS && 0 <= f <= MAX_FRET && LOW_E + STD_TUNING[k] + f == value &&
        s == Single(Pos(k, f)))
  {
    forall s | s in shapes
      ensures exists k, f :: 0 <= k < STRINGS && 0 <= f <= MAX_FRET && LOW_E + STD_TUNING[k] + f == value && s == Single(Pos(k, f))
    {
      var i :| 0 <= i < |ps| && shapes[i] == s;
      assert ps[i] in ps;
    }
  }

  lemma SinglesComplete(value: int, ps: seq<Pos>, shapes: seq<Shape>)
    requires ps == FretsOn(value, STD_TUNING, Some(MAX_FRET))
    requires |shapes| == |ps| && forall i :: 0 <= i < |ps| ==> shapes[i] == Single(ps[i])
    ensures forall k, f :: 0 <= k < STRINGS && 0 <= f <= MAX_FRET && LOW_E + STD_TUNING[k] + f == value ==>
      Single(Pos(k, f)) in shapes
  {
    forall k, f | 0 <= k < STRINGS && 0 <= f <= MAX_FRET && LOW_E + STD_TUNING[k] + f == value
      ensures Single(Pos(k, f)) in shapes {
      assert exists i :: 0 <= i < |ps| && ps[i] == Pos(k, f) by {
        assert Pos(k, f) in ps;
      }
      var i :| 0 <= i < |ps| && ps[i] == Pos(k, f);
      assert shapes[i] == Single(Pos(k, f));
    }
  }

  /** The right-hand side of `+` and `-`: an int, or another pitch. */
  datatype Operand = Semitones(n: int) | OtherPitch(p: Pitch)

  /** `Pitch + x`: an int shifts the pitch; anything else has no effect. */
  function Add(p: Pitch, x: Operand): Pitch {
    match x
    case Semitones(n) => FromValue(p.value + n)
    case OtherPitch(_) => p
  }

  /** What `x - y` yields: a rebuilt pitch or note, or an interval in semitones. */
  datatype Difference<T> = Shifted(shifted: T) | Interval(n: int)

  /** `Pitch - x`: an int rebuilds the pitch that many semitones lower;
      another pitch makes the int subtraction raise TypeError, which is
      answered with the interval between the two values. */
  function Sub(p: Pitch, x: Operand): (r: Difference<Pitch>)
    ensures x.Semitones? ==> r.Shifted? && r.shifted.value == p.value - x.n
    ensures x.OtherPitch? ==> r == Interval(p.value - x.p.value)
  {
    match x
    case Semitones(n) => Shifted(FromValue(p.value - n))
    case OtherPitch(q) => Interval(p.value - q.value)
  }

  /** The default note length, a quarter note. */
  const QUARTER: real := 0.25

  /** A Note is a pitch held for a fraction of a whole note. */
  datatype Note = Note(pitch: Pitch, duration: real)

  /** Note equality: same value and same duration. */
  predicate SameNote(a: Note, b: Note) {
    a.pitch.value == b.pitch.value && a.duration == b.duration
  }

  /** `Note(arg, duration)` */
  function NewNote(arg: PitchArg, duration: real): (r: Result<Note>)
    ensures r.Success? <==> NewPitch(arg).Success?
    ensures r.Success? ==> r.value.duration == duration
    ensures r.Failure? ==> r.error == NewPitch(arg).error
  {
    var p :- NewPitch(arg);
    Success(Note(p, duration))
  }

  /** `Note + x` rebuilds through `self.__class__`, so a shifted note gets the
      default quarter-note duration, whatever the duration it had. */
  function NoteAdd(n: Note, x: Operand): (r: Note)
    ensures x.Semitones? ==> r.pitch.value == n.pitch.value + x.n && r.duration == QUARTER
    ensures x.OtherPitch? ==> r == n
  {
    match x
    case Semitones(k) => Note(FromValue(n.pitch.value + k), QUARTER)
    case OtherPitch(_) => n
  }

  /** `Note - x`: an int rebuilds a quarter note that many semitones lower;
      another pitch or note gives the interval between the two values. */
  function NoteSub(n: Note, x: Operand): (r: Difference<Note>)
    ensures x.Semitones? ==> r.Shifted? && r.shifted.pitch.value == n.pitch.value - x.n && r.shifted.duration == QUARTER
    ensures x.OtherPitch? ==> r == Interval(n.pitch.value - x.p.value)
  {
    match x
    case Semitones(k) => Shifted(Note(FromValue(n.pitch.value - k), QUARTER))
    case OtherPitch(q) => Interval(n.pitch.value - q.value)
  }

  // ---------------------------------------------------------------------
  // Properties

  lemma {:induction false} OctaveDigit(o: int)
    requires 0 <= o < 10
    ensures IntToString(o) == [DigitChar(o)]
  {
  }

  /** Reading a name back recovers the value exactly for values -48..71
      (octaves 0..9): a longer octave text is either misread as an accidental
      (three characters) or only its last digit is read. */
  lemma NameValueRoundTrip(v: int)
    ensures GetValue(GetName(v)) == Success(Some(v)) <==> -48 <= v <= 71
  {
    if -48 <= v <= 71 {
      RoundTripInRange(v);
    } else {
      RoundTripOutOfRange(v);
    }
  }

  lemma RoundTripInRange(v: int)
    requires -48 <= v <= 71
    ensures GetValue(GetName(v)) == Success(Some(v))
  {
    var name := GetName(v);
    var octave := v / 12 + 4;
    var pc := v % 12;
    assert v == (v / 12) * 12 + pc;
    OctaveDigit(octave);
    if pc in NAME {
      assert name == [NAME[pc], DigitChar(octave)];
    } else {
      assert name == [NAME[pc - 1], '#', DigitChar(octave)];
    }
  }

  lemma RoundTripOutOfRange(v: int)
    requires v < -48 || 71 < v
    ensures GetValue(GetName(v)) != Success(Some(v))
  {
    if v % 12 in NAME {
      NaturalOutOfRange(v);
    } else {
      SharpOutOfRange(v);
    }
  }

  /** A natural name with a two-character octave is read as a letter, an
      accidental and a digit, and the accidental is not one; with a longer
      octave only the last digit is read, which is not the octave. */
  lemma NaturalOutOfRange(v: int)
    requires v < -48 || 71 < v
    requires v % 12 in NAME
    ensures GetValue(GetName(v)) != Success(Some(v))
  {
    var text := IntToString(v / 12 + 4);
    assert GetName(v) == [NAME[v % 12]] + text;
    if |text| == 2 {
      NaturalShortOctave(v);
    } else {
      NaturalLongOctave(v);
    }
  }

  lemma NaturalShortOctave(v: int)
    requires v % 12 in NAME && |IntToString(v / 12 + 4)| == 2
    ensures GetValue(GetName(v)) == Success(None)
  {
    var text := IntToString(v / 12 + 4);
    var name := GetName(v);
    assert name == [NAME[v % 12]] + text;
    assert name[1] == text[0] && name[2] == text[1];
  }

  lemma NaturalLongOctave(v: int)
    requires v < -48 || 71 < v
    requires v % 12 in NAME && |IntToString(v / 12 + 4)| > 2
    ensures GetValue(GetName(v)) != Success(Some(v))
  {
    var octave := v / 12 + 4;
    var text := IntToString(octave);
    var name := GetName(v);
    assert name == [NAME[v % 12]] + text;
    var d := DigitValue(text[|text| - 1]);
    assert name[|name| - 1] == text[|text| - 1];
    NameLetter(v % 12);
    LongValue(name);
    assert v == (octave - 4) * 12 + v % 12;
  }

  /** A name longer than three characters reads as its letter in the octave
      of its last digit: the middle characters are ignored. */
  lemma LongValue(name: string)
    requires |name| > 3 && IsDigit(name[|name| - 1]) && ToUpper(name[0]) in VALUE
    ensures GetValue(name) == Success(Some((DigitValue(name[|name| - 1]) - 4) * 12 + VALUE[ToUpper(name[0])]))
  {
  }

  /** A sharp name with a longer octave is read without its accidental,
      a value one below modulo 12. */
  lemma SharpOutOfRange(v: int)
    requires v < -48 || 71 < v
    requires v % 12 !in NAME
    ensures GetValue(GetName(v)) != Success(Some(v))
  {
    var octave := v / 12 + 4;
    var text := IntToString(octave);
    var name := GetName(v);
    assert name == [NAME[v % 12 - 1], '#'] + text;
    var d := DigitValue(text[|text| - 1]);
    assert name[|name| - 1] == text[|text| - 1];
    assert |name| > 3;
    NameLetter(v % 12);
    LongValue(name);
    assert (d - 4) * 12 + v % 12 - 1 - v == 12 * (d - octave) - 1;
  }

  /** Shifting a pitch up and back down by an int gives the pitch its value
      names, and the shifted pitch is `n` semitones from the original. */
  lemma ArithmeticShifts(p: Pitch, n: int)
    ensures Sub(Add(p, Semitones(n)), Semitones(n)) == Shifted(FromValue(p.value))
    ensures Sub(Add(p, Semitones(n)), OtherPitch(p)) == Interval(n)
  {
  }

  /** With another pitch on the right, `-` gives the interval between the
      two and `+` leaves the pitch as it was. */
  lemma PitchOperands(p: Pitch, q: Pitch)
    ensures Sub(p, OtherPitch(q)) == Interval(p.value - q.value)
    ensures Add(p, OtherPitch(q)) == p
  {
  }

  /** A note shifted up and back down equals (by value and duration) the
      quarter note of its pitch, whatever its own duration was. */
  lemma NoteShiftBack(n: Note, k: int)
    ensures NoteSub(NoteAdd(n, Semitones(k)), Semitones(k)).Shifted?
    ensures SameNote(NoteSub(NoteAdd(n, Semitones(k)), Semitones(k)).shifted, Note(n.pitch, QUARTER))
  {
  }

  /** A shifted note is `k` semitones from the original, whatever their
      durations; one note less another is their interval, and adding a note
      leaves the note as it was. */
  lemma NoteIntervals(n: Note, m: Note, k: int)
    ensures NoteSub(NoteAdd(n, Semitones(k)), OtherPitch(n.pitch)) == Interval(k)
    ensures NoteSub(n, OtherPitch(m.pitch)) == Interval(n.pitch.value - m.pitch.value)
    ensures NoteAdd(n, OtherPitch(m.pitch)) == n
  {
  }

  /** A half note E3 less one semitone is a quarter note D#3. */
  lemma NoteSubFixture()
    ensures NoteSub(Note(Pitch("E3", -8), 0.5), Semitones(1)) == Shifted(Note(Pitch("D#3", -9), QUARTER))
  {
    assert GetName(-9) == "D#3";
  }

  /** E3 has only the open low string; A6 and E6 are cut at `MAX_FRET`. */
  lemma NameFixtures()
    ensures FromName("E3") == Success(Pitch("E3", -8))
    ensures FromName("A6") == Success(Pitch("A6", 33))
    ensures FromName("E6") == Success(Pitch("E6", 28))
    ensures GetName(-8) == "E3"
  {
  }

  /** Middle C is C4. */
  lemma MiddleC()
    ensures FromName("C4") == Success(Pitch("C4", MIDDLE_C)) && GetName(MIDDLE_C) == "C4"
  {
  }

  lemma RealizationFixtures()
    ensures Realizations(-8) == [Single(Pos(0, 0))]
    ensures Realizations(33) == [Single(Pos(5, 17))]
    ensures Realizations(28) == [Single(Pos(4, 17)), Single(Pos(5, 12))]
  {
    FretsLowE();
    FretsA6();
    FretsE6();
  }

  /** `get_shapes(DROP_D_TUNING)`: the low D (D2) sounds only on the lowered
      open low string, where the standard tuning cannot play it. */
  lemma DropDFixture()
    ensures FretsOn(-10, DROP_D_TUNING, Some(MAX_FRET)) == [Pos(0, 0)]
    ensures FretsOn(-10, STD_TUNING, Some(MAX_FRET)) == []
  {
    assert FretsFrom(-10, DROP_D_TUNING, Some(MAX_FRET), 1) == [];
    assert FretsFrom(-10, STD_TUNING, Some(MAX_FRET), 0) == [];
  }

  lemma FretsLowE()
    ensures FretsOn(-8, STD_TUNING, Some(MAX_FRET)) == [Pos(0, 0)]
    ensures Realizations(-8) == [Single(Pos(0, 0))]
  {
    assert FretsFrom(-8, STD_TUNING, Some(MAX_FRET), 1) == [];
  }

  lemma FretsA6()
    ensures FretsOn(33, STD_TUNING, Some(MAX_FRET)) == [Pos(5, 17)]
    ensures Realizations(33) == [Single(Pos(5, 17))]
  {
    assert FretsFrom(33, STD_TUNING, Some(MAX_FRET), 5) == [Pos(5, 17)];
    assert FretsFrom(33, STD_TUNING, Some(MAX_FRET), 4) == [Pos(5, 17)];
    assert FretsFrom(33, STD_TUNING, Some(MAX_FRET), 3) == [Pos(5, 17)];
    assert FretsFrom(33, STD_TUNING, Some(MAX_FRET), 2) == [Pos(5, 17)];
    assert FretsFrom(33, STD_TUNING, Some(MAX_FRET), 1) == [Pos(5, 17)];
  }

  lemma FretsE6()
    ensures FretsOn(28, STD_TUNING, Some(MAX_FRET)) == [Pos(4, 17), Pos(5, 12)]
    ensures Realizations(28) == [Single(Pos(4, 17)), Single(Pos(5, 12))]
  {
    assert FretsFrom(28, STD_TUNING, Some(MAX_FRET), 5) == [Pos(5, 12)];
    assert FretsFrom(28, STD_TUNING, Some(MAX_FRET), 4) == [Pos(4, 17), Pos(5, 12)];
    assert FretsFrom(28, STD_TUNING, Some(MAX_FRET), 2) == [Pos(4, 17), Pos(5, 12)];
  }
}

=== FILE: scratch_notes.dfy ===
/** The scratch note helpers kept beside the main classes: a second `Note`
    class that upper-cases names before reading them and computes its frets
    with the string's tuning offset added instead of subtracted, and the
    free functions `name_to_num`, `chord_to_num` and `num_to_fret`.
    `chord_fingering` has an empty body and is not modelled.
 */
module ScratchNotes {

  import opened Base
  import opened Text
  import opened Shapes
  import opened Pitches
  import OlderNotes

  // ---------------------------------------------------------------------
  // Reading names

  /** The scratch `get_value`, always applied to `name.upper()`: the letter
      and accidental are looked up exactly as they stand in the upper-cased
      name, so a flat `b` has become `B`, which is not an accidental. */
  function ScratchValue(name: string): (r: Result<Option<int>>)
    ensures r.Failure? <==> |name| == 0
    ensures r.Failure? ==> r.error == IndexError
  {
    ReadName(UpperAll(name), false, -4)
  }

  /** A three-character name with a known letter (in either case), a flat
      sign written `b` or `B`, and an octave digit. */
  predicate FlatName(name: string) {
    |name| == 3 && (name[1] == 'b' || name[1] == 'B') && ToUpper(name[0]) in VALUE && IsDigit(name[2])
  }

  /** The scratch reading agrees with the main `get_value` on every name
      except the flat ones, which it rejects while the main reading places
      them a semitone below the natural. */
  lemma ScratchAgrees(name: string)
    ensures ScratchValue(name) == GetValue(name) <==> !FlatName(name)
    ensures FlatName(name) ==> (ScratchValue(name) == Success(None) &&
      GetValue(name) == Success(Some((DigitValue(name[2]) - 4) * 12 + VALUE[ToUpper(name[0])] - 1)))
  {
    if |name| > 0 {
      var up := UpperAll(name);
      var last := name[|name| - 1];
      assert up[|up| - 1] == ToUpper(last);
      assert IsDigit(ToUpper(last)) <==> IsDigit(last);
      assert up[0] == ToUpper(name[0]);
      if |name| == 3 {
        assert up[1] == ToUpper(name[1]);
        assert ToUpper(name[1]) in ACCIDENTAL <==> name[1] == '#';
        assert ToLower(name[1]) in ACCIDENTAL <==> name[1] == 'b' || name[1] == 'B' || name[1] == '#';
      }
    }
  }

  /** The reading the docstring promises (`Ab4` is one of its examples):
      a flat name is one semitone below the same letter and octave. */
  lemma FlatsRead(name: string)
    requires FlatName(name)
    ensures GetValue(name).Success? && GetValue(name).value.Some?
    ensures GetValue([name[0], name[2]]) == Success(Some(GetValue(name).value.value + 1))
  {
    ScratchAgrees(name);
  }

  /** Names printed by `get_name` use only capital letters, `#`, digits and
      a minus sign, so upper-casing them changes nothing that is read: the
      scratch reading inverts `get_name` exactly where the main one does. */
  lemma ScratchNameRoundTrip(v: int)
    ensures ScratchValue(GetName(v)) == Success(Some(v)) <==> -48 <= v <= 71
  {
    var name := GetName(v);
    assert !FlatName(name) by {
      if |name| == 3 {
        assert name[1] == '#' || name[1] == '-' || IsDigit(name[1]);
      }
    }
    ScratchAgrees(name);
    NameValueRoundTrip(v);
  }

  // ---------------------------------------------------------------------
  // Frets of the scratch note

  /** The scratch `get_frets` from string `k` on, as written: a string is
      listed when `value >= LOW_E + tuning[k]`, with fret
      `value - LOW_E + tuning[k]`. */
  function ScratchFretsFrom(value: int, tuning: seq<int>, k: nat): (ps: seq<Pos>)
    requires k <= |tuning|
    ensures forall p :: p in ps <==>
      k <= p.str < |tuning| && LOW_E + tuning[p.str] <= value && p.fret == value - LOW_E + tuning[p.str]
    ensures forall i :: 0 <= i < |ps| ==> k <= ps[i].str
    ensures forall i, j :: 0 <= i < j < |ps| ==> ps[i].str < ps[j].str
    decreases |tuning| - k
  {
    if k == |tuning| then []
    else
      var rest := ScratchFretsFrom(value, tuning, k + 1);
      if value >= LOW_E + tuning[k] then [Pos(k, value - LOW_E + tuning[k])] + rest else rest
  }

  function ScratchFrets(value: int): (ps: seq<Pos>)
    ensures forall p :: p in ps <==>
      0 <= p.str < STRINGS && LOW_E + STD_TUNING[p.str] <= value && p.fret == value - LOW_E + STD_TUNING[p.str]
  {
    ScratchFretsFrom(value, STD_TUNING, 0)
  }

  /** The scratch frets are the true ones moved up the neck by twice the
      string's offset: the same strings are chosen, but only the low E
      string (offset 0) gets a fret that sounds the note. */
  lemma ScratchFretsShifted(value: int, p: Pos)
    ensures p in ScratchFrets(value) <==>
      0 <= p.str < STRINGS && Pos(p.str, p.fret - 2 * STD_TUNING[p.str]) in OlderNotes.Frets(value)
    ensures p in ScratchFrets(value) ==> (LOW_E + STD_TUNING[p.str] + p.fret == value <==> p.str == 0)
  {
    ShiftedOn(value, STD_TUNING, p);
    assert forall s :: 0 <= s < STRINGS ==> (STD_TUNING[s] == 0 <==> s == 0);
  }

  /** The shift for any tuning: the scratch fret minus twice the string's
      offset is the fret that sounds the value. */
  lemma ShiftedOn(value: int, tuning: seq<int>, p: Pos)
    ensures p in ScratchFretsFrom(value, tuning, 0) <==>
      0 <= p.str < |tuning| && Pos(p.str, p.fret - 2 * tuning[p.str]) in FretsOn(value, tuning, None)
  {
  }

  /** Middle C (value 0) is listed at fret 13 of the A string, which sounds
      a pitch ten semitones higher; fret 3 is the one that sounds it. */
  lemma ScratchFretsMisplace()
    ensures Pos(1, 13) in ScratchFrets(0) && LOW_E + STD_TUNING[1] + 13 == 10
    ensures Pos(1, 13) !in NumToFret(IntNum(0), STD_TUNING)
    ensures Pos(1, 3) in NumToFret(IntNum(0), STD_TUNING) && Pos(1, 3) !in ScratchFrets(0)
  {
  }

  // ---------------------------------------------------------------------
  // The scratch note

  datatype ScratchNote = ScratchNote(name: string, value: int, frets: seq<Pos>)

  /** `Note(pitch)`: an int is named by `get_name`; a string keeps its
      spelling and is read upper-cased (IndexError when empty, and a name
      that does not read leaves `value` None, so the comparison in
      `get_frets` raises TypeError); any other argument sets no `value`
      and `get_frets` raises AttributeError. */
  function NewScratchNote(arg: PitchArg): (r: Result<ScratchNote>)
    ensures r.Success? <==>
      arg.IntArg? || (arg.NameArg? && ScratchValue(arg.s).Success? && ScratchValue(arg.s).value.Some?)
    ensures r.Success? ==> r.value.frets == ScratchFrets(r.value.value)
    ensures r.Success? && arg.IntArg? ==> r.value.value == arg.v && r.value.name == GetName(arg.v)
    ensures r.Success? && arg.NameArg? ==> r.value.name == arg.s
    ensures arg.NameArg? && |arg.s| == 0 ==> r == Failure(IndexError)
    ensures r.Failure? && arg.NameArg? && |arg.s| > 0 ==> r.error == TypeError
    ensures arg.OtherArg? ==> r == Failure(AttributeError)
  {
    match arg
    case IntArg(v) => Success(ScratchNote(GetName(v), v, ScratchFrets(v)))
    case NameArg(s) =>
      var value :- ScratchValue(s);
      if value.None? then Failure(TypeError)
      else Success(ScratchNote(s, value.value, ScratchFrets(value.value)))
    case OtherArg => Failure(AttributeError)
  }

  /** The docstring's own example `Ab4` cannot be built: its flat is read
      as `B`, while the main reading gives value 8. */
  lemma FlatNoteFails()
    ensures NewScratchNote(NameArg("Ab4")) == Failure(TypeError)
    ensures GetValue("Ab4") == Success(Some(8))
  {
    ScratchAgrees("Ab4");
  }

  /** A note built from an int and rebuilt from its name has the same value
      exactly on the range where `get_name` prints one octave digit. */
  lemma ScratchNoteRoundTrip(v: int)
    ensures (NewScratchNote(NameArg(GetName(v))).Success? &&
      NewScratchNote(NameArg(GetName(v))).value.value == v) <==> -48 <= v <= 71
  {
    ScratchNameRoundTrip(v);
  }

  // ---------------------------------------------------------------------
  // name_to_num, chord_to_num, num_to_fret

  /** `name_to_num`: the name is read as written (no case folding), with
      octave 0 at value 0, so C4 is 48; an empty name raises IndexError. */
  function NameToNum(name: string): (r: Result<Option<int>>)
    ensures r.Failure? <==> |name| == 0
    ensures r.Failure? ==> r.error == IndexError
    ensures r.Success? ==> (r.value.None? <==>
      !IsDigit(name[|name| - 1]) || name[0] !in VALUE || (|name| == 3 && name[1] !in ACCIDENTAL))
    ensures r.Success? && r.value.Some? ==>
      r.value.value == DigitValue(name[|name| - 1]) * 12 + VALUE[name[0]] +
        (if |name| == 3 then ACCIDENTAL[name[1]] else 0)
  {
    ReadName(name, false, 0)
  }

  /** Upper-case letter, and no upper-case accidental: the spelling that
      `get_name` prints and the one `name_to_num` expects. */
  predicate PlainCase(name: string) {
    |name| > 0 && !('a' <= name[0] <= 'z') && (|name| == 3 ==> !('A' <= name[1] <= 'Z'))
  }

  /** On plainly cased names `name_to_num` is `get_value` moved up four
      octaves. */
  lemma NameToNumShift(name: string)
    requires PlainCase(name)
    ensures NameToNum(name).Success? && GetValue(name).Success?
    ensures NameToNum(name).value.Some? <==> GetValue(name).value.Some?
    ensures NameToNum(name).value.Some? ==> NameToNum(name).value.value == GetValue(name).value.value + 48
  {
    assert ToUpper(name[0]) == name[0];
    if |name| == 3 {
      assert ToLower(name[1]) == name[1];
    }
  }

  /** Middle C: `name_to_num("C4")` is 48. */
  lemma MiddleC()
    ensures NameToNum("C4") == Success(Some(48))
  {
  }

  /** `chord_to_num`: the values of the names that read, in order; the
      first empty name raises IndexError. */
  function ChordToNum(names: seq<string>): (r: Result<seq<int>>)
    ensures r.Failure? <==> exists i :: 0 <= i < |names| && |names[i]| == 0
    ensures r.Failure? ==> r.error == IndexError
    ensures r.Success? ==> |r.value| <= |names|
  {
    if |names| == 0 then Success([])
    else
      var num :- NameToNum(names[0]);
      var rest :- ChordToNum(names[1..]);
      assert forall i :: 1 <= i < |names| ==> names[i] == names[1..][i - 1];
      Success((if num.Some? then [num.value] else []) + rest)
  }

  /** One name contributes its value when it reads and nothing otherwise. */
  lemma ChordToNumOne(name: string)
    requires |name| > 0
    ensures ChordToNum([name]).Success?
    ensures NameToNum(name).value.Some? ==> ChordToNum([name]).value == [NameToNum(name).value.value]
    ensures NameToNum(name).value.None? ==> ChordToNum([name]).value == []
  {
    assert [name][1..] == [];
  }

  /** Reading a chord distributes over concatenation: the names are read
      independently and their values kept in input order. */
  lemma {:induction false} ChordToNumAppend(a: seq<string>, b: seq<string>)
    ensures ChordToNum(a + b).Success? <==> ChordToNum(a).Success? && ChordToNum(b).Success?
    ensures ChordToNum(a + b).Success? ==>
      ChordToNum(a + b).value == ChordToNum(a).value + ChordToNum(b).value
  {
    if |a| == 0 {
      assert a + b == b;
    } else {
      assert (a + b)[0] == a[0];
      assert (a + b)[1..] == a[1..] + b;
      ChordToNumAppend(a[1..], b);
    }
  }

  /** The argument of `num_to_fret`: an int, or anything else. */
  datatype NumArg = IntNum(n: int) | OtherNum

  /** The loop of `num_to_fret` from string `k` on: a string is listed when
      `number >= LOW_E + tuning[k]`, at fret `number - (LOW_E + tuning[k])`. */
  function NumFretsFrom(number: int, tuning: seq<int>, k: nat): seq<Pos>
    requires k <= |tuning|
    decreases |tuning| - k
  {
    if k == |tuning| then []
    else
      var rest := NumFretsFrom(number, tuning, k + 1);
      if number >= LOW_E + tuning[k] then [Pos(k, number - (LOW_E + tuning[k]))] + rest else rest
  }

  /** The loop lists the same positions as the main class's fret search
      with no fret cap. */
  lemma {:induction false} NumFretsAgree(number: int, tuning: seq<int>, k: nat)
    requires k <= |tuning|
    ensures NumFretsFrom(number, tuning, k) == FretsFrom(number, tuning, None, k)
    decreases |tuning| - k
  {
    if k < |tuning| {
      NumFretsAgree(number, tuning, k + 1);
    }
  }

  /** `num_to_fret(number, tuning)`: every string and fret that sounds an
      int `number` under `tuning`, ascending by string; nothing for a
      non-int argument. */
  function NumToFret(number: NumArg, tuning: seq<int>): (ps: seq<Pos>)
    ensures number.OtherNum? ==> ps == []
    ensures number.IntNum? ==> forall p :: p in ps <==>
      0 <= p.str < |tuning| && 0 <= p.fret && LOW_E + tuning[p.str] + p.fret == number.n
    ensures forall i, j :: 0 <= i < j < |ps| ==> ps[i].str < ps[j].str
  {
    if number.OtherNum? then []
    else
      NumFretsAgree(number.n, tuning, 0);
      FretsFromSpec(number.n, tuning, None, 0);
      NumFretsFrom(number.n, tuning, 0)
  }
}

=== FILE: search.dfy ===
/** The generic search building blocks the engine uses: `itertools.product`
    in its iteration order, the "keep the first strictly smaller score" scan,
    and grouping a list into a dictionary of lists by an integer key.
 */
module Search {

  /** `itertools.product(*lists)`: every way of choosing one element per list,
      the first list varying slowest. */
  function Product<T(!new)>(lists: seq<seq<T>>): seq<seq<T>>
    decreases |lists|
  {
    if |lists| == 0 then [[]] else PrefixEach(lists[0], Product(lists[1..]))
  }

  /** For each `x` of `xs` in turn, every tail of `rest` with `x` in front. */
  function PrefixEach<T(!new)>(xs: seq<T>, rest: seq<seq<T>>): (r: seq<seq<T>>)
    ensures forall p :: p in r <==> exists i, j :: 0 <= i < |xs| && 0 <= j < |rest| && p == [xs[i]] + rest[j]
    decreases |xs|
  {
    if |xs| == 0 then []
    else
      var head := seq(|rest|, j requires 0 <= j < |rest| => [xs[0]] + rest[j]);
      var tail := PrefixEach(xs[1..], rest);
      assert forall p :: p in tail <==> exists i, j :: 1 <= i < |xs| && 0 <= j < |rest| && p == [xs[i]] + rest[j] by {
        forall p | p in tail ensures exists i, j :: 1 <= i < |xs| && 0 <= j < |rest| && p == [xs[i]] + rest[j] {
          var i, j :| 0 <= i < |xs[1..]| && 0 <= j < |rest| && p == [xs[1..][i]] + rest[j];
          assert p == [xs[i + 1]] + rest[j];
        }
        forall p | exists i, j :: 1 <= i < |xs| && 0 <= j < |rest| && p == [xs[i]] + rest[j] ensures p in tail {
          var i, j :| 1 <= i < |xs| && 0 <= j < |rest| && p == [xs[i]] + rest[j];
          assert p == [xs[1..][i - 1]] + rest[j];
        }
      }
      assert forall p :: p in head <==> exists j :: 0 <= j < |rest| && p == [xs[0]] + rest[j] by {
        forall p | p in head ensures exists j :: 0 <= j < |rest| && p == [xs[0]] + rest[j] {
          var j :| 0 <= j < |head| && head[j] == p;
        }
        forall p | exists j :: 0 <= j < |rest| && p == [xs[0]] + rest[j] ensures p in head {
          var j :| 0 <= j < |rest| && p == [xs[0]] + rest[j];
          assert head[j] == p;
        }
      }
      var r := head + tail;
      assert forall p :: p in r <==> p in head || p in tail;
      r
  }

  /** A combination is produced exactly when it picks one element from each list. */
  lemma ProductMembers<T(!new)>(lists: seq<seq<T>>, p: seq<T>)
    ensures p in Product(lists) <==> |p| == |lists| && forall i :: 0 <= i < |p| ==> p[i] in lists[i]
  {
    if p in Product(lists) {
      ProductSound(lists, p);
    }
    if |p| == |lists| && forall i :: 0 <= i < |p| ==> p[i] in lists[i] {
      ProductComplete(lists, p);
    }
  }

  lemma {:induction false} ProductSound<T(!new)>(lists: seq<seq<T>>, p: seq<T>)
    requires p in Product(lists)
    ensures |p| == |lists| && forall i :: 0 <= i < |p| ==> p[i] in lists[i]
    decreases |lists|
  {
    if |lists| > 0 {
      var rest := Product(lists[1..]);
      var i, j :| 0 <= i < |lists[0]| && 0 <= j < |rest| && p == [lists[0][i]] + rest[j];
      ProductSound(lists[1..], rest[j]);
      forall k | 0 <= k < |p| ensures p[k] in lists[k] {
        if k > 0 {
          assert p[k] == rest[j][k - 1];
        }
      }
    }
  }

  lemma {:induction false} ProductComplete<T(!new)>(lists: seq<seq<T>>, p: seq<T>)
    requires |p| == |lists| && forall i :: 0 <= i < |p| ==> p[i] in lists[i]
    ensures p in Product(lists)
    decreases |lists|
  {
    if |lists| > 0 {
      var rest := Product(lists[1..]);
      var tail := p[1..];
      forall k | 0 <= k < |tail| ensures tail[k] in lists[1..][k] {
        assert tail[k] == p[k + 1];
      }
      ProductComplete(lists[1..], tail);
      var j :| 0 <= j < |rest| && rest[j] == tail;
      var i :| 0 <= i < |lists[0]| && lists[0][i] == p[0];
      assert p == [lists[0][i]] + rest[j];
    }
  }

  /** Product order: the choices for `xs[i]` come as one block, in the order of `rest`. */
  lemma {:induction false} PrefixEachOrder<T(!new)>(xs: seq<T>, rest: seq<seq<T>>, i: nat, j: nat)
    requires i < |xs| && j < |rest|
    ensures |PrefixEach(xs, rest)| == |xs| * |rest|
    ensures i * |rest| + j < |PrefixEach(xs, rest)|
    ensures PrefixEach(xs, rest)[i * |rest| + j] == [xs[i]] + rest[j]
    decreases |xs|, 1
  {
    PrefixEachLength(xs, rest);
    BlockBound(i, |xs|, |rest|, j);
    if i == 0 {
      PrefixEachSplit(xs, rest);
    } else {
      PrefixEachLater(xs, rest, i, j);
    }
  }

  lemma {:induction false} PrefixEachLater<T(!new)>(xs: seq<T>, rest: seq<seq<T>>, i: nat, j: nat)
    requires 0 < i < |xs| && j < |rest|
    ensures |rest| + ((i - 1) * |rest| + j) < |PrefixEach(xs, rest)|
    ensures PrefixEach(xs, rest)[|rest| + ((i - 1) * |rest| + j)] == [xs[i]] + rest[j]
    ensures i * |rest| + j == |rest| + ((i - 1) * |rest| + j)
    decreases |xs|, 0
  {
    var k := (i - 1) * |rest| + j;
    PrefixEachOrder(xs[1..], rest, i - 1, j);
    assert xs[1..][i - 1] == xs[i];
    BlockShift(xs, rest, k, [xs[i]] + rest[j]);
    BlockIndex(i - 1, |rest|, j);
  }

  /** Position `k` of the later elements' product is position `|rest| + k`
      of the whole. */
  lemma BlockShift<T(!new)>(xs: seq<T>, rest: seq<seq<T>>, k: nat, p: seq<T>)
    requires |xs| > 0 && k < |PrefixEach(xs[1..], rest)| && PrefixEach(xs[1..], rest)[k] == p
    ensures |rest| + k < |PrefixEach(xs, rest)| && PrefixEach(xs, rest)[|rest| + k] == p
  {
    PrefixEachSplit(xs, rest);
  }

  /** There are `|rest|` combinations per element of `xs`. */
  lemma {:induction false} PrefixEachLength<T(!new)>(xs: seq<T>, rest: seq<seq<T>>)
    ensures |PrefixEach(xs, rest)| == |xs| * |rest|
    decreases |xs|
  {
    if |xs| > 0 {
      PrefixEachSplit(xs, rest);
      PrefixEachLength(xs[1..], rest);
      BlockIndex(|xs| - 1, |rest|, 0);
    }
  }

  /** Position `j` of block `i` lies inside `a` blocks when `i < a`. */
  lemma BlockBound(i: nat, a: nat, n: nat, j: nat)
    requires i < a && j < n
    ensures i * n + j < a * n
  {
    assert (i + 1) * n == i * n + n;
    assert (i + 1) * n <= a * n;
  }

  /** The first element's block, then the rest of the product. */
  lemma PrefixEachSplit<T(!new)>(xs: seq<T>, rest: seq<seq<T>>)
    requires |xs| > 0
    ensures |PrefixEach(xs, rest)| == |rest| + |PrefixEach(xs[1..], rest)|
    ensures forall j :: 0 <= j < |rest| ==> PrefixEach(xs, rest)[j] == [xs[0]] + rest[j]
    ensures forall k :: 0 <= k < |PrefixEach(xs[1..], rest)| ==>
      PrefixEach(xs, rest)[|rest| + k] == PrefixEach(xs[1..], rest)[k]
  {
  }

  /** Position `j` of block `a + 1` is position `j` of block `a`, one block on. */
  lemma BlockIndex(a: nat, n: nat, j: nat)
    ensures (a + 1) * n + j == n + (a * n + j)
  {
  }

  /** The product is empty exactly when one of the lists is empty. */
  lemma ProductEmpty<T(!new)>(lists: seq<seq<T>>)
    ensures |Product(lists)| == 0 <==> exists i :: 0 <= i < |lists| && |lists[i]| == 0
  {
    if exists i :: 0 <= i < |lists| && |lists[i]| == 0 {
      var i :| 0 <= i < |lists| && |lists[i]| == 0;
      if |Product(lists)| > 0 {
        var p := Product(lists)[0];
        ProductMembers(lists, p);
        assert false;
      }
    } else {
      var p := seq(|lists|, i requires 0 <= i < |lists| => lists[i][0]);
      ProductMembers(lists, p);
    }
  }

  /** The scan `best = None; for s: if s < best (or best is None): best = s`:
      the index of the first minimal score. */
  function FirstMinIndex(xs: seq<int>): (k: nat)
    requires |xs| > 0
    ensures k < |xs|
    ensures forall j :: 0 <= j < |xs| ==> xs[k] <= xs[j]
    ensures forall j :: 0 <= j < k ==> xs[k] < xs[j]
  {
    FirstMinFrom(xs, 1, 0)
  }

  /** The first minimal score is the only index that is minimal and strictly
      below every earlier score. */
  lemma FirstMinUnique(xs: seq<int>, b: nat)
    requires b < |xs|
    requires forall j :: 0 <= j < |xs| ==> xs[b] <= xs[j]
    requires forall j :: 0 <= j < b ==> xs[b] < xs[j]
    ensures FirstMinIndex(xs) == b
  {
  }

  function FirstMinFrom(xs: seq<int>, i: nat, best: nat): (k: nat)
    requires best < i <= |xs|
    requires forall j :: 0 <= j < i ==> xs[best] <= xs[j]
    requires forall j :: 0 <= j < best ==> xs[best] < xs[j]
    ensures k < |xs|
    ensures forall j :: 0 <= j < |xs| ==> xs[k] <= xs[j]
    ensures forall j :: 0 <= j < k ==> xs[k] < xs[j]
    decreases |xs| - i
  {
    if i == |xs| then best
    else if xs[i] < xs[best] then FirstMinFrom(xs, i + 1, i)
    else FirstMinFrom(xs, i + 1, best)
  }

  /** The elements of `xs` whose key is `k`, in order. */
  function Having<T>(xs: seq<T>, key: T -> int, k: int): (r: seq<T>)
    ensures forall i :: 0 <= i < |r| ==> key(r[i]) == k
    ensures |r| <= |xs|
  {
    if |xs| == 0 then []
    else if key(xs[0]) == k then [xs[0]] + Having(xs[1..], key, k)
    else Having(xs[1..], key, k)
  }

  /** `result = {}; for x in xs: result.setdefault(key(x), []).append(x)` */
  function GroupBy<T>(xs: seq<T>, key: T -> int): map<int, seq<T>>
  {
    GroupOnto(map[], xs, key)
  }

  function GroupOnto<T>(m: map<int, seq<T>>, xs: seq<T>, key: T -> int): map<int, seq<T>>
    decreases |xs|
  {
    if |xs| == 0 then m
    else
      var k := key(xs[0]);
      GroupOnto(m[k := (if k in m then m[k] else []) + [xs[0]]], xs[1..], key)
  }

  lemma {:induction false} GroupOntoSpec<T>(m: map<int, seq<T>>, xs: seq<T>, key: T -> int, k: int)
    ensures k in GroupOnto(m, xs, key) <==> k in m || exists i :: 0 <= i < |xs| && key(xs[i]) == k
    ensures k in GroupOnto(m, xs, key) ==>
      GroupOnto(m, xs, key)[k] == (if k in m then m[k] else []) + Having(xs, key, k)
    decreases |xs|
  {
    if |xs| > 0 {
      var k0 := key(xs[0]);
      var m' := m[k0 := (if k0 in m then m[k0] else []) + [xs[0]]];
      GroupOntoSpec(m', xs[1..], key, k);
      if exists i :: 0 <= i < |xs| && key(xs[i]) == k {
        var i :| 0 <= i < |xs| && key(xs[i]) == k;
        if i > 0 {
          assert key(xs[1..][i - 1]) == k;
        }
      }
      if exists i :: 0 <= i < |xs[1..]| && key(xs[1..][i]) == k {
        var i :| 0 <= i < |xs[1..]| && key(xs[1..][i]) == k;
        assert key(xs[i + 1]) == k;
      }
    }
  }

  /** Grouping partitions the list: a key is present exactly when some element
      has it, and it maps to precisely those elements, in their original order.
      So every element is listed under its own key and under no other. */
  lemma GroupByPartition<T>(xs: seq<T>, key: T -> int, k: int)
    ensures k in GroupBy(xs, key) <==> exists i :: 0 <= i < |xs| && key(xs[i]) == k
    ensures k in GroupBy(xs, key) ==> GroupBy(xs, key)[k] == Having(xs, key, k)
  {
    GroupOntoSpec(map[], xs, key, k);
  }
}

=== FILE: shapes.dfy ===
/** A Shape: one slot per string (string 0 is the lowest), each either
    unplayed or holding a fret number (0 = open string).

    The Shape class itself is not part of this model (it is imported by the
    engine but its body is absent); this module fixes the reading the engine
    relies on: `Shape((s, f))` is a single-note shape, `+` is a per-string
    union, `len` counts the played strings, `span` measures the stopped frets
    and `list_tuples` lists `(string, fret)` pairs by ascending string.
    Assumptions: when two parts both play a string the higher fret wins; a
    span is max - min over frets above 0 (0 when none); a pair whose string
    lies outside 0..5 has no slot and is ignored.
 */
module Shapes {

  import opened Base

  const STRINGS := 6

  type Shape = s: seq<Option<int>> | |s| == STRINGS witness [None, None, None, None, None, None]

  /** A `(string, fret)` pair; `str` is the string number, 0 the lowest. */
  datatype Pos = Pos(str: int, fret: int)

  function Empty(): (s: Shape)
    ensures forall k :: 0 <= k < STRINGS ==> s[k].None?
  {
    [None, None, None, None, None, None]
  }

  /** The slot that results when two parts play the same string. */
  function Merge(a: Option<int>, b: Option<int>): (r: Option<int>)
    ensures r.None? <==> a.None? && b.None?
    ensures a.None? ==> r == b
    ensures b.None? ==> r == a
    ensures r == a || r == b
    ensures a.Some? ==> a.value <= r.value
    ensures b.Some? ==> b.value <= r.value
  {
    match (a, b)
    case (None, _) => b
    case (_, None) => a
    case (Some(x), Some(y)) => Some(Max(x, y))
  }

  /** `a + b` */
  function Union(a: Shape, b: Shape): (r: Shape)
    ensures forall k :: 0 <= k < STRINGS ==> r[k] == Merge(a[k], b[k])
  {
    seq(STRINGS, k requires 0 <= k < STRINGS => Merge(a[k], b[k]))
  }

  /** Adds one `(string, fret)` pair to a shape. */
  function Place(s: Shape, p: Pos): (r: Shape)
    ensures forall k :: 0 <= k < STRINGS && k != p.str ==> r[k] == s[k]
    ensures 0 <= p.str < STRINGS ==> r[p.str] == Merge(s[p.str], Some(p.fret))
  {
    if 0 <= p.str < STRINGS then s[p.str := Merge(s[p.str], Some(p.fret))] else s
  }

  /** `Shape((string, fret))` */
  function Single(p: Pos): (s: Shape)
    requires 0 <= p.str < STRINGS
    ensures s[p.str] == Some(p.fret)
    ensures forall k :: 0 <= k < STRINGS && k != p.str ==> s[k].None?
  {
    Place(Empty(), p)
  }

  /** `Shape()` followed by `+=` of every part, left to right. */
  function UnionAll(parts: seq<Shape>): Shape
  {
    UnionOnto(Empty(), parts)
  }

  function UnionOnto(acc: Shape, parts: seq<Shape>): Shape
    decreases |parts|
  {
    if |parts| == 0 then acc else UnionOnto(Union(acc, parts[0]), parts[1..])
  }

  /** `Shape(list_of_pairs)`: every pair placed in turn. */
  function FromTuples(ps: seq<Pos>): Shape
  {
    PlaceAll(Empty(), ps)
  }

  function PlaceAll(acc: Shape, ps: seq<Pos>): Shape
    decreases |ps|
  {
    if |ps| == 0 then acc else PlaceAll(Place(acc, ps[0]), ps[1..])
  }

  /** `list_tuples()`: the played strings, ascending, with their frets. */
  function ListTuples(s: Shape): seq<Pos>
  {
    TuplesFrom(s, 0)
  }

  function TuplesFrom(s: Shape, k: nat): (ps: seq<Pos>)
    requires k <= STRINGS
    ensures forall i :: 0 <= i < |ps| ==> k <= ps[i].str < STRINGS && s[ps[i].str] == Some(ps[i].fret)
    ensures forall i, j :: 0 <= i < j < |ps| ==> ps[i].str < ps[j].str
    ensures forall j :: k <= j < STRINGS && s[j].Some? ==> Pos(j, s[j].value) in ps
    decreases STRINGS - k
  {
    if k == STRINGS then []
    else match s[k]
      case None => TuplesFrom(s, k + 1)
      case Some(f) => [Pos(k, f)] + TuplesFrom(s, k + 1)
  }

  /** `len(shape)`: the number of played strings. */
  function Played(s: Shape): nat
  {
    |ListTuples(s)|
  }

  /** The frets above 0 (the stopped strings), by ascending string. */
  function Stopped(s: Shape): (fs: seq<int>)
    ensures forall f :: f in fs <==> exists k :: 0 <= k < STRINGS && s[k] == Some(f) && f > 0
  {
    StoppedFrom(s, 0)
  }

  function StoppedFrom(s: Shape, k: nat): (fs: seq<int>)
    requires k <= STRINGS
    ensures forall f :: f in fs <==> exists j :: k <= j < STRINGS && s[j] == Some(f) && f > 0
    decreases STRINGS - k
  {
    if k == STRINGS then []
    else if s[k].Some? && s[k].value > 0 then [s[k].value] + StoppedFrom(s, k + 1)
    else StoppedFrom(s, k + 1)
  }

  function SeqMax(xs: seq<int>): (m: int)
    requires |xs| > 0
    ensures m in xs && forall x :: x in xs ==> x <= m
  {
    if |xs| == 1 then xs[0]
    else
      assert forall x :: x in xs ==> x == xs[0] || x in xs[1..];
      Max(xs[0], SeqMax(xs[1..]))
  }

  function SeqMin(xs: seq<int>): (m: int)
    requires |xs| > 0
    ensures m in xs && forall x :: x in xs ==> m <= x
  {
    if |xs| == 1 then xs[0]
    else
      assert forall x :: x in xs ==> x == xs[0] || x in xs[1..];
      Min(xs[0], SeqMin(xs[1..]))
  }

  /** `shape.span`: the fret distance between the highest and the lowest stopped string. */
  function Span(s: Shape): nat
  {
    var fs := Stopped(s);
    if |fs| == 0 then 0 else SeqMax(fs) - SeqMin(fs)
  }

  /** Every played string of `s` appears in `ListTuples(s)` and nothing else does. */
  lemma ListTuplesExact(s: Shape, p: Pos)
    ensures p in ListTuples(s) <==> 0 <= p.str < STRINGS && s[p.str] == Some(p.fret)
  {
    if p in ListTuples(s) {
      var i :| 0 <= i < |ListTuples(s)| && ListTuples(s)[i] == p;
    }
  }

  /** A single-note shape lists just that note. */
  lemma ListTuplesSingle(p: Pos)
    requires 0 <= p.str < STRINGS
    ensures ListTuples(Single(p)) == [p]
  {
    TuplesFromSingle(p, 0);
  }

  lemma {:induction false} TuplesFromSingle(p: Pos, k: nat)
    requires 0 <= p.str < STRINGS && k <= STRINGS
    ensures TuplesFrom(Single(p), k) == if k <= p.str then [p] else []
    decreases STRINGS - k
  {
    if k < STRINGS {
      TuplesFromSingle(p, k + 1);
    }
  }

  /** A span bound is exactly a bound on every pair of stopped frets. */
  lemma {:induction false} SpanAtMost(s: Shape, d: int)
    ensures Span(s) <= d <==>
      (d >= 0 && forall i, j :: (0 <= i < STRINGS && 0 <= j < STRINGS && s[i].Some? && s[j].Some? &&
        s[i].value > 0 && s[j].value > 0) ==> s[i].value - s[j].value <= d)
  {
    var fs := Stopped(s);
    if |fs| > 0 {
      var hi, lo := SeqMax(fs), SeqMin(fs);
      var i :| 0 <= i < STRINGS && s[i] == Some(hi) && hi > 0;
      var j :| 0 <= j < STRINGS && s[j] == Some(lo) && lo > 0;
      forall a, b | 0 <= a < STRINGS && 0 <= b < STRINGS && s[a].Some? && s[b].Some? &&
        s[a].value > 0 && s[b].value > 0
        ensures s[a].value - s[b].value <= hi - lo
      {
        assert s[a].value in fs && s[b].value in fs;
      }
    }
  }

  /** `Shape(list_tuples())` rebuilds the shape: the pair list loses nothing. */
  lemma {:induction false} ListTuplesRoundTrip(s: Shape)
    ensures FromTuples(ListTuples(s)) == s
  {
    RoundTripFrom(s, Empty(), 0);
  }

  lemma {:induction false} RoundTripFrom(s: Shape, acc: Shape, k: nat)
    requires k <= STRINGS
    requires forall j :: 0 <= j < k ==> acc[j] == s[j]
    requires forall j :: k <= j < STRINGS ==> acc[j].None?
    ensures PlaceAll(acc, TuplesFrom(s, k)) == s
    decreases STRINGS - k, 1
  {
    if k == STRINGS {
      assert acc == s;
    } else if s[k].None? {
      assert TuplesFrom(s, k) == TuplesFrom(s, k + 1);
      RoundTripFrom(s, acc, k + 1);
    } else {
      RoundTripPlaced(s, acc, k);
    }
  }

  lemma {:induction false} RoundTripPlaced(s: Shape, acc: Shape, k: nat)
    requires k < STRINGS && s[k].Some?
    requires forall j :: 0 <= j < k ==> acc[j] == s[j]
    requires forall j :: k <= j < STRINGS ==> acc[j].None?
    ensures PlaceAll(acc, TuplesFrom(s, k)) == s
    decreases STRINGS - k, 0
  {
    var p := Pos(k, s[k].value);
    var rest := TuplesFrom(s, k + 1);
    assert TuplesFrom(s, k) == [p] + rest;
    assert ([p] + rest)[1..] == rest;
    PlacedUpTo(s, acc, k);
    RoundTripFrom(s, Place(acc, p), k + 1);
  }

  /** Placing string `k`'s note on a shape that agrees with `s` below `k`
      and is empty from `k` up agrees with `s` up to `k` and is empty above. */
  lemma PlacedUpTo(s: Shape, acc: Shape, k: nat)
    requires k < STRINGS && s[k].Some?
    requires forall j :: 0 <= j < k ==> acc[j] == s[j]
    requires forall j :: k <= j < STRINGS ==> acc[j].None?
    ensures forall j :: 0 <= j < k + 1 ==> Place(acc, Pos(k, s[k].value))[j] == s[j]
    ensures forall j :: k + 1 <= j < STRINGS ==> Place(acc, Pos(k, s[k].value))[j].None?
  {
  }

  /** The number of played strings from string `k` up. */
  function PlayedFrom(s: Shape, k: nat): nat
    requires k <= STRINGS
    decreases STRINGS - k
  {
    if k == STRINGS then 0 else (if s[k].Some? then 1 else 0) + PlayedFrom(s, k + 1)
  }

  /** `len(shape)` counts the played strings. */
  lemma {:induction false} PlayedCounts(s: Shape, k: nat)
    requires k <= STRINGS
    ensures |TuplesFrom(s, k)| == PlayedFrom(s, k)
    decreases STRINGS - k
  {
    if k < STRINGS {
      PlayedCounts(s, k + 1);
    }
  }

  /** Placing a note adds a played string exactly when its string was unplayed. */
  lemma {:induction false} PlaceCount(s: Shape, p: Pos, k: nat)
    requires 0 <= p.str < STRINGS && k <= STRINGS
    ensures PlayedFrom(Place(s, p), k) == PlayedFrom(s, k) + (if k <= p.str && s[p.str].None? then 1 else 0)
    decreases STRINGS - k
  {
    if k < STRINGS {
      PlaceCount(s, p, k + 1);
    }
  }

  /** The notes lie on distinct strings, none of them played in `acc`. */
  predicate FreshOn(acc: Shape, ps: seq<Pos>)
    requires forall i :: 0 <= i < |ps| ==> 0 <= ps[i].str < STRINGS
  {
    (forall i, j :: 0 <= i < j < |ps| ==> ps[i].str != ps[j].str) &&
    (forall i :: 0 <= i < |ps| ==> acc[ps[i].str].None?)
  }

  /** Placing notes one by one never adds more played strings than notes, and
      adds one per note exactly when the notes lie on distinct strings that
      were all unplayed. */
  lemma {:induction false} PlaceAllCount(acc: Shape, ps: seq<Pos>)
    requires forall i :: 0 <= i < |ps| ==> 0 <= ps[i].str < STRINGS
    ensures PlayedFrom(PlaceAll(acc, ps), 0) <= PlayedFrom(acc, 0) + |ps|
    ensures PlayedFrom(PlaceAll(acc, ps), 0) == PlayedFrom(acc, 0) + |ps| <==> FreshOn(acc, ps)
    decreases |ps|
  {
    if |ps| > 0 {
      var p := ps[0];
      var next := Place(acc, p);
      PlaceCount(acc, p, 0);
      assert forall i :: 0 <= i < |ps[1..]| ==> 0 <= ps[1..][i].str < STRINGS;
      PlaceAllCount(next, ps[1..]);
      FreshStrings(acc, ps);
    }
  }

  /** Notes lie on distinct unplayed strings exactly when the first one's
      string is unplayed and the others lie on distinct strings still
      unplayed once it is placed. */
  lemma FreshStrings(acc: Shape, ps: seq<Pos>)
    requires |ps| > 0 && forall i :: 0 <= i < |ps| ==> 0 <= ps[i].str < STRINGS
    ensures FreshOn(acc, ps) <==> acc[ps[0].str].None? && FreshOn(Place(acc, ps[0]), ps[1..])
  {
    var p, tail, next := ps[0], ps[1..], Place(acc, ps[0]);
    assert forall i :: 1 <= i < |ps| ==> ps[i] == tail[i - 1];
    if acc[p.str].None? {
      assert next[p.str].Some?;
    }
  }

  /** Placing notes on distinct strings of an empty shape plays exactly
      those notes. */
  lemma {:induction false} PlaceAllSlots(acc: Shape, ps: seq<Pos>, k: int)
    requires forall i :: 0 <= i < |ps| ==> 0 <= ps[i].str < STRINGS
    requires forall i, j :: 0 <= i < j < |ps| ==> ps[i].str != ps[j].str
    requires forall i :: 0 <= i < |ps| ==> acc[ps[i].str].None?
    requires 0 <= k < STRINGS
    ensures (exists i :: 0 <= i < |ps| && ps[i].str == k) ==>
      exists i :: 0 <= i < |ps| && ps[i].str == k && PlaceAll(acc, ps)[k] == Some(ps[i].fret)
    ensures (forall i :: 0 <= i < |ps| ==> ps[i].str != k) ==> PlaceAll(acc, ps)[k] == acc[k]
    decreases |ps|
  {
    if |ps| > 0 {
      var next := Place(acc, ps[0]);
      assert forall i :: 1 <= i < |ps| ==> ps[i] == ps[1..][i - 1];
      PlaceAllSlots(next, ps[1..], k);
      if ps[0].str == k {
        assert forall i :: 0 <= i < |ps[1..]| ==> ps[1..][i].str != k;
      } else if exists i :: 0 <= i < |ps| && ps[i].str == k {
        var i :| 0 <= i < |ps| && ps[i].str == k;
        assert ps[1..][i - 1].str == k;
      }
    }
  }

  /** Adding single-note shapes one at a time is placing their notes. */
  lemma {:induction false} UnionSingles(acc: Shape, ps: seq<Pos>, parts: seq<Shape>)
    requires forall i :: 0 <= i < |ps| ==> 0 <= ps[i].str < STRINGS
    requires |parts| == |ps| && forall i :: 0 <= i < |ps| ==> parts[i] == Single(ps[i])
    ensures UnionOnto(acc, parts) == PlaceAll(acc, ps)
    decreases |ps|
  {
    if |ps| > 0 {
      assert Union(acc, parts[0]) == Place(acc, ps[0]);
      UnionSingles(Place(acc, ps[0]), ps[1..], parts[1..]);
    }
  }

  lemma {:induction false} EmptyPlayed(k: nat)
    requires k <= STRINGS
    ensures PlayedFrom(Empty(), k) == 0
    decreases STRINGS - k
  {
    if k < STRINGS {
      EmptyPlayed(k + 1);
    }
  }
}

=== FILE: tablature.dfy ===
/** The tab text layout: a Bar is six text lines, one per string with the
    highest string on top, into which chords are written left to right as
    fret numbers followed by dashes for their duration; a Staff glues bars
    into one line per string; a Tab starts a new Staff once a line reaches
    the page width.
 */
module Tablature {

  import opened Base
  import opened Text

  const CHARS_PER_BAR := 32
  const MAX_WIDTH := 67
  const LINES := 6

  /** The six text lines of a bar; line 0 is the highest string. */
  type Lines = ls: seq<string> | |ls| == LINES witness ["", "", "", "", "", ""]

  /** `|` and 32 spaces and `|`: the line of an empty bar. */
  function BlankLine(): (l: string)
    ensures |l| == CHARS_PER_BAR + 2 && l[0] == '|' && l[|l| - 1] == '|'
    ensures forall j :: 1 <= j <= CHARS_PER_BAR ==> l[j] == ' '
  {
    "|" + Chars(' ', CHARS_PER_BAR) + "|"
  }

  /** The first space of an empty line follows its opening bar. */
  lemma BlankFirstSpace()
    ensures FirstSpace(BlankLine()) == Some(1)
  {
    assert BlankLine()[1] == ' ' && BlankLine()[..1] == "|";
  }

  /** `Bar()` */
  function NewBar(): (b: Lines)
    ensures forall i :: 0 <= i < LINES ==> b[i] == BlankLine()
  {
    seq(LINES, i => BlankLine())
  }

  /** `repr(bar)`: the lines joined by newlines, with a final newline. */
  function BarText(b: Lines): string {
    Join(b, "\n") + "\n"
  }

  /** The fret part of a `(string, fret)` pair: a number, or the empty
      placeholder `''` that pads an unplayed string. */
  datatype Label = Fret(n: int) | Blank

  datatype TabNote = TabNote(str: int, mark: Label)

  /** `str(fret)` */
  function LabelText(l: Label): string {
    match l
    case Fret(n) => IntToString(n)
    case Blank => ""
  }

  predicate OnString(notes: seq<TabNote>, s: int) {
    exists j :: 0 <= j < |notes| && notes[j].str == s
  }

  /** The placeholders `add_notes` appends: `(i, '')` for each string 0..5
      no note is on, in ascending order. */
  function Pad(notes: seq<TabNote>, i: nat): seq<TabNote>
    requires i <= LINES
    decreases LINES - i
  {
    if i == LINES then notes
    else Pad(if OnString(notes, i) then notes else notes + [TabNote(i, Blank)], i + 1)
  }

  function Placeholders(notes: seq<TabNote>): seq<TabNote> {
    Pad(notes, 0)
  }

  /** Padding keeps the notes as given, adds blank entries only, on strings
      from 0..5 that no note is on and in ascending order, and leaves every
      string 0..5 covered. */
  lemma {:induction false} PadSpec(notes: seq<TabNote>, i: nat)
    requires i <= LINES
    requires forall s :: 0 <= s < i ==> OnString(notes, s)
    ensures var r := Pad(notes, i);
      |r| >= |notes| && (forall j :: 0 <= j < |notes| ==> r[j] == notes[j]) &&
      (forall s :: 0 <= s < LINES ==> OnString(r, s)) &&
      (forall j :: |notes| <= j < |r| ==> r[j].mark == Blank && i <= r[j].str < LINES && !OnString(notes, r[j].str)) &&
      forall j, k :: |notes| <= j < k < |r| ==> r[j].str < r[k].str
    decreases LINES - i
  {
    if i < LINES {
      var next := if OnString(notes, i) then notes else notes + [TabNote(i, Blank)];
      assert forall j :: 0 <= j < |notes| ==> next[j] == notes[j];
      forall s | 0 <= s < i + 1 ensures OnString(next, s) {
        if s < i {
          assert OnString(notes, s);
          var j :| 0 <= j < |notes| && notes[j].str == s;
          assert next[j].str == s;
        } else if !OnString(notes, i) {
          assert next[|notes|].str == s;
        }
      }
      PadSpec(next, i + 1);
      var r := Pad(next, i + 1);
      forall j, k | |next| <= j < |r| && 0 <= k < |notes| ensures notes[k].str != r[j].str {
        assert next[k] == notes[k];
      }
      if !OnString(notes, i) {
        assert r[|notes|] == TabNote(i, Blank);
      }
    }
  }

  /** `5 - string` as a list index: a negative index counts from the end, and
      one outside -6..5 raises IndexError. */
  function LineIndex(s: int): (r: Result<nat>)
    ensures r.Success? <==> 0 <= s <= 11
    ensures r.Failure? ==> r.error == IndexError
    ensures 0 <= s < LINES ==> r == Success(5 - s)
    ensures LINES <= s <= 11 ==> r == Success(11 - s)
  {
    var n := 5 - s;
    if 0 <= n < LINES then Success(n)
    else if -LINES <= n < 0 then Success(n + LINES)
    else Failure(IndexError)
  }

  /** The position of the first space, if any. */
  function FirstSpace(line: string): (r: Option<nat>)
    ensures r.None? <==> ' ' !in line
    ensures r.Some? ==> r.value < |line| && line[r.value] == ' ' && ' ' !in line[..r.value]
  {
    FirstSpaceFrom(line, 0)
  }

  function FirstSpaceFrom(line: string, i: nat): (r: Option<nat>)
    requires i <= |line| && ' ' !in line[..i]
    ensures r.None? <==> ' ' !in line
    ensures r.Some? ==> i <= r.value < |line| && line[r.value] == ' ' && ' ' !in line[..r.value]
    decreases |line| - i
  {
    if i == |line| then
      assert line[..i] == line;
      None
    else if line[i] == ' ' then Some(i)
    else
      assert line[..i + 1] == line[..i] + [line[i]];
      FirstSpaceFrom(line, i + 1)
  }

  /** `int(32 * duration)`: the characters a note of this duration spans,
      the fraction truncated toward zero. */
  function Width(duration: real): int {
    Trunc(CHARS_PER_BAR as real * duration)
  }

  /** The number of dashes after a label: the note's width less the label's
      length, but never past the closing bar of the line. */
  function Dashes(prior: string, k: nat, text: string, width: int): nat {
    var spacing := width - |text|;
    var room := |prior| - 1 - (k + |text|);
    if spacing <= 0 || room <= 0 then 0 else Min(spacing, room)
  }

  /** The new text of a line whose first space is at `k`: the text before it,
      the label, the dashes, spaces up to the old length, and a bar. */
  function Entry(prior: string, k: nat, text: string, width: int): (e: string)
    requires k <= |prior|
    ensures |e| >= 1 && e[|e| - 1] == '|'
  {
    var line := prior[..k] + text + Chars('-', Dashes(prior, k, text, width));
    line + Chars(' ', Max(0, |prior| - 1 - |line|)) + "|"
  }

  /** The layout of one entry: the old text before the first space is kept,
      the label follows, then exactly the dashes, then spaces, then a closing
      bar; the line keeps its length when the label fits before the prior
      closing bar, and grows to hold the label otherwise. */
  lemma EntryLayout(prior: string, k: nat, text: string, width: int)
    requires k <= |prior|
    ensures var e := Entry(prior, k, text, width); var d := Dashes(prior, k, text, width);
      |e| == Max(|prior|, k + |text| + 1) &&
      e[..k] == prior[..k] && e[k..k + |text|] == text &&
      (forall j :: k + |text| <= j < k + |text| + d ==> e[j] == '-') &&
      (forall j :: k + |text| + d <= j < |e| - 1 ==> e[j] == ' ') &&
      e[|e| - 1] == '|'
  {
    var d := Dashes(prior, k, text, width);
    var line := prior[..k] + text + Chars('-', d);
    var e := Entry(prior, k, text, width);
    assert e == line + Chars(' ', Max(0, |prior| - 1 - |line|)) + "|";
    assert e[..k] == prior[..k] by {
      assert e[..k] == line[..k];
    }
    assert e[k..k + |text|] == text by {
      assert e[k..k + |text|] == line[k..k + |text|];
    }
  }

  /** A whole note written into an empty line fills it: no space is left. */
  lemma WholeNoteFills(text: string)
    requires |text| <= CHARS_PER_BAR && ' ' !in text
    ensures ' ' !in Entry(BlankLine(), 1, text, Width(1.0))
    ensures |Entry(BlankLine(), 1, text, Width(1.0))| == |BlankLine()|
  {
    var prior := BlankLine();
    assert Width(1.0) == CHARS_PER_BAR;
    assert Dashes(prior, 1, text, CHARS_PER_BAR) == CHARS_PER_BAR - |text|;
    EntryLayout(prior, 1, text, CHARS_PER_BAR);
    var e := Entry(prior, 1, text, CHARS_PER_BAR);
    assert e[..1] == "|";
    forall j | 0 <= j < |e| ensures e[j] != ' ' {
      if 1 <= j < 1 + |text| {
        assert e[j] == text[j - 1];
      }
    }
  }

  /** The `for note in notes` loop: each note rewrites its line from the
      first space on; a line with no space left ends the loop. */
  function Write(lines: Lines, notes: seq<TabNote>, width: int): Result<Lines>
    decreases |notes|
  {
    if |notes| == 0 then Success(lines)
    else
      var n :- LineIndex(notes[0].str);
      match FirstSpace(lines[n])
      case None => Success(lines)
      case Some(k) => Write(lines[n := Entry(lines[n], k, LabelText(notes[0].mark), width)], notes[1..], width)
  }

  /** `bar.add_notes(notes, duration)`; the caller's list also gains the
      placeholders, which this model does not return. */
  function AddNotes(lines: Lines, notes: seq<TabNote>, duration: real): Result<Lines> {
    Write(lines, Placeholders(notes), Width(duration))
  }

  /** Once a note's line has no space left, the loop stops and nothing
      further changes. */
  lemma WriteStopsWhenFull(lines: Lines, notes: seq<TabNote>, width: int)
    requires |notes| > 0 && LineIndex(notes[0].str).Success?
    requires ' ' !in lines[LineIndex(notes[0].str).value]
    ensures Write(lines, notes, width) == Success(lines)
  {
  }

  /** A note on a string outside 0..11 raises IndexError once reached. */
  lemma WriteBadString(lines: Lines, notes: seq<TabNote>, width: int)
    requires |notes| > 0 && !(0 <= notes[0].str <= 11)
    ensures Write(lines, notes, width) == Failure(IndexError)
  {
  }

  /** The notes lie on distinct strings 0..5. */
  predicate Distinct(notes: seq<TabNote>) {
    OnLines(notes) &&
    forall i, j :: 0 <= i < j < |notes| ==> notes[i].str != notes[j].str
  }

  /** A line that opens with a non-space followed by a space: its first space
      follows the opening bar. */
  predicate Opening(line: string) {
    |line| > 1 && line[0] != ' ' && line[1] == ' '
  }

  lemma OpeningSpace(line: string)
    requires Opening(line)
    ensures FirstSpace(line) == Some(1)
  {
    assert ' ' !in line[..1];
  }

  /** One turn of the loop on a note whose line is still open. */
  lemma WriteStep(lines: Lines, notes: seq<TabNote>, width: int)
    requires |notes| > 0 && 0 <= notes[0].str < LINES && Opening(lines[5 - notes[0].str])
    ensures var n := 5 - notes[0].str;
      Write(lines, notes, width) ==
      Write(lines[n := Entry(lines[n], 1, LabelText(notes[0].mark), width)], notes[1..], width)
  {
    var n := 5 - notes[0].str;
    assert LineIndex(notes[0].str) == Success(n);
    OpeningSpace(lines[n]);
  }

  /** The notes lie on strings 0..5. */
  predicate OnLines(notes: seq<TabNote>) {
    forall j :: 0 <= j < |notes| ==> 0 <= notes[j].str < LINES
  }

  /** Every line has at least its opening character. */
  predicate Framed(lines: Lines) {
    forall i :: 0 <= i < LINES ==> |lines[i]| >= 1
  }

  /** The bar with one note written after the opening bar of its line. */
  function Put(lines: Lines, note: TabNote, width: int): (r: Lines)
    requires 0 <= note.str < LINES && Framed(lines)
    ensures Framed(r)
  {
    var n := 5 - note.str;
    lines[n := Entry(lines[n], 1, LabelText(note.mark), width)]
  }

  /** Each note written after the opening bar of its line, in order. */
  function Fill(lines: Lines, notes: seq<TabNote>, width: int): Lines
    requires OnLines(notes) && Framed(lines)
    decreases |notes|
  {
    if |notes| == 0 then lines
    else Fill(Put(lines, notes[0], width), notes[1..], width)
  }

  /** Writing notes on distinct strings, each into a line still open, writes
      every one of them: the loop never stops early. */
  lemma {:induction false} WriteFills(lines: Lines, notes: seq<TabNote>, width: int)
    requires Distinct(notes) && Framed(lines)
    requires forall j :: 0 <= j < |notes| ==> Opening(lines[5 - notes[j].str])
    ensures Write(lines, notes, width) == Success(Fill(lines, notes, width))
    decreases |notes|
  {
    if |notes| > 0 {
      var next := Put(lines, notes[0], width);
      var rest := notes[1..];
      RestStillOpen(lines, notes, width, next, rest);
      WriteStep(lines, notes, width);
      WriteFills(next, rest, width);
    }
  }

  /** After the first note is written, the other notes still sit on
      distinct strings whose lines are open. */
  lemma RestStillOpen(lines: Lines, notes: seq<TabNote>, width: int, next: Lines, rest: seq<TabNote>)
    requires Distinct(notes) && Framed(lines) && |notes| > 0
    requires forall j :: 0 <= j < |notes| ==> Opening(lines[5 - notes[j].str])
    requires next == Put(lines, notes[0], width) && rest == notes[1..]
    ensures Distinct(rest) && forall j :: 0 <= j < |rest| ==> Opening(next[5 - rest[j].str])
  {
    forall j | 0 <= j < |rest| ensures rest[j] == notes[j + 1] && next[5 - rest[j].str] == lines[5 - rest[j].str] {
      assert rest[j] == notes[j + 1];
      assert rest[j].str != notes[0].str;
    }
  }

  /** A line no note is on is kept as it was. */
  lemma {:induction false} FillKeeps(lines: Lines, notes: seq<TabNote>, width: int, m: nat)
    requires OnLines(notes) && Framed(lines)
    requires m < LINES && !OnString(notes, 5 - m)
    ensures Fill(lines, notes, width)[m] == lines[m]
    decreases |notes|
  {
    if |notes| > 0 {
      var next := Put(lines, notes[0], width);
      var rest := notes[1..];
      assert OnLines(rest) && !OnString(rest, 5 - m) && next[m] == lines[m] by {
        assert notes[0].str != 5 - m;
        forall j | 0 <= j < |rest| ensures rest[j] == notes[j + 1] {
        }
      }
      FillKeeps(next, rest, width, m);
    }
  }

  /** The line of the note at `j` holds that note's entry, written after the
      opening bar of the line as it was. */
  lemma {:induction false} FillPlaces(lines: Lines, notes: seq<TabNote>, width: int, j: nat)
    requires Distinct(notes) && Framed(lines) && j < |notes|
    ensures var n := 5 - notes[j].str;
      Fill(lines, notes, width)[n] == Entry(lines[n], 1, LabelText(notes[j].mark), width)
    decreases |notes|, 1
  {
    if j == 0 {
      FillPlacesFirst(lines, notes, width);
    } else {
      FillPlacesLater(lines, notes, width, j);
    }
  }

  /** The first note's entry is not touched by the notes after it. */
  lemma FillPlacesFirst(lines: Lines, notes: seq<TabNote>, width: int)
    requires Distinct(notes) && Framed(lines) && 0 < |notes|
    ensures var n := 5 - notes[0].str;
      Fill(lines, notes, width)[n] == Entry(lines[n], 1, LabelText(notes[0].mark), width)
  {
    var next := Put(lines, notes[0], width);
    var rest := notes[1..];
    var n := 5 - notes[0].str;
    assert Fill(lines, notes, width) == Fill(next, rest, width);
    assert OnLines(rest) && !OnString(rest, notes[0].str) by {
      forall i | 0 <= i < |rest| ensures rest[i] == notes[i + 1] && rest[i].str != notes[0].str {
        assert rest[i] == notes[i + 1];
      }
    }
    FillKeeps(next, rest, width, n);
  }

  /** A later note's entry is placed by the rest of the notes, on a line the
      first note left alone. */
  lemma {:induction false} FillPlacesLater(lines: Lines, notes: seq<TabNote>, width: int, j: nat)
    requires Distinct(notes) && Framed(lines) && 0 < j < |notes|
    ensures var n := 5 - notes[j].str;
      Fill(lines, notes, width)[n] == Entry(lines[n], 1, LabelText(notes[j].mark), width)
    decreases |notes|, 0
  {
    var next := Put(lines, notes[0], width);
    var rest := notes[1..];
    var n := 5 - notes[j].str;
    assert Fill(lines, notes, width) == Fill(next, rest, width);
    assert Distinct(rest) by {
      assert forall i :: 0 <= i < |rest| ==> rest[i] == notes[i + 1];
    }
    assert notes[j] == rest[j - 1];
    assert next[n] == lines[n] by {
      assert notes[j].str != notes[0].str;
    }
    FillPlaces(next, rest, width, j - 1);
  }

  /** The notes `add_notes` writes: the given ones, then placeholders. */
  lemma Padded(notes: seq<TabNote>)
    requires Distinct(notes)
    ensures var padded := Placeholders(notes);
      Distinct(padded) && |padded| >= |notes| && padded[..|notes|] == notes &&
      (forall s :: 0 <= s < LINES ==> OnString(padded, s)) &&
      forall j :: |notes| <= j < |padded| ==> padded[j].mark == Blank
  {
    var padded := Placeholders(notes);
    PadSpec(notes, 0);
    PaddedDistinct(notes, padded);
  }

  /** `add_notes` on an empty bar with notes on distinct strings 0..5 writes
      every note and a placeholder on every other string. */
  lemma AddNotesFills(notes: seq<TabNote>, duration: real)
    requires Distinct(notes)
    ensures Distinct(Placeholders(notes))
    ensures AddNotes(NewBar(), notes, duration) == Success(Fill(NewBar(), Placeholders(notes), Width(duration)))
  {
    Padded(notes);
    var bar := NewBar();
    var padded := Placeholders(notes);
    assert forall j :: 0 <= j < |padded| ==> Opening(bar[5 - padded[j].str]);
    WriteFills(bar, padded, Width(duration));
  }

  /** After `add_notes` on an empty bar, the line of a given note holds its
      entry. */
  lemma AddNotesAt(notes: seq<TabNote>, duration: real, j: nat)
    requires Distinct(notes) && j < |notes|
    ensures AddNotes(NewBar(), notes, duration).Success?
    ensures AddNotes(NewBar(), notes, duration).value[5 - notes[j].str] ==
      Entry(BlankLine(), 1, LabelText(notes[j].mark), Width(duration))
  {
    AddNotesFills(notes, duration);
    Padded(notes);
    var padded := Placeholders(notes);
    var bar, w := NewBar(), Width(duration);
    var n := 5 - notes[j].str;
    assert padded[j] == notes[j] by {
      assert padded[..|notes|][j] == notes[j];
    }
    FillPlaces(bar, padded, w, j);
    var filled := Fill(bar, padded, w);
    assert filled[n] == Entry(bar[n], 1, LabelText(notes[j].mark), w);
    assert bar[n] == BlankLine();
    assert AddNotes(bar, notes, duration) == Success(filled);
  }

  /** After `add_notes` on an empty bar, the line of a string no note is on
      holds the empty entry of the placeholder. */
  lemma AddNotesBlank(notes: seq<TabNote>, duration: real, m: nat)
    requires Distinct(notes) && m < LINES && !OnString(notes, 5 - m)
    ensures AddNotes(NewBar(), notes, duration).Success?
    ensures AddNotes(NewBar(), notes, duration).value[m] == Entry(BlankLine(), 1, "", Width(duration))
  {
    var j := PlaceholderOn(notes, m);
    AddNotesPadAt(notes, duration, j, m);
  }

  /** The placeholder `add_notes` adds for a string no note is on. */
  lemma PlaceholderOn(notes: seq<TabNote>, m: nat) returns (j: nat)
    requires Distinct(notes) && m < LINES && !OnString(notes, 5 - m)
    ensures |notes| <= j < |Placeholders(notes)| && Placeholders(notes)[j].str == 5 - m
  {
    Padded(notes);
    var padded := Placeholders(notes);
    assert OnString(padded, 5 - m);
    forall i | 0 <= i < |notes| ensures padded[i].str != 5 - m {
      assert padded[..|notes|][i] == notes[i];
    }
    j :| 0 <= j < |padded| && padded[j].str == 5 - m;
  }

  /** A placeholder's line holds the empty entry. */
  lemma AddNotesPadAt(notes: seq<TabNote>, duration: real, j: nat, m: nat)
    requires Distinct(notes) && |notes| <= j < |Placeholders(notes)|
    requires m < LINES && Placeholders(notes)[j].str == 5 - m
    ensures AddNotes(NewBar(), notes, duration).Success?
    ensures AddNotes(NewBar(), notes, duration).value[m] == Entry(BlankLine(), 1, "", Width(duration))
  {
    AddNotesFills(notes, duration);
    Padded(notes);
    var padded := Placeholders(notes);
    var bar, w := NewBar(), Width(duration);
    assert padded[j].mark == Blank;
    FillPlaces(bar, padded, w, j);
    var filled := Fill(bar, padded, w);
    assert filled[m] == Entry(bar[m], 1, LabelText(Blank), w);
    assert bar[m] == BlankLine() && LabelText(Blank) == "";
    assert AddNotes(bar, notes, duration) == Success(filled);
  }

  /** `add_notes` on an empty bar with notes on distinct strings 0..5: each
      note's line is its entry, and every other line holds an empty entry,
      dashes alone. */
  lemma AddNotesFresh(notes: seq<TabNote>, duration: real)
    requires Distinct(notes)
    ensures AddNotes(NewBar(), notes, duration).Success?
    ensures forall j :: 0 <= j < |notes| ==>
      AddNotes(NewBar(), notes, duration).value[5 - notes[j].str] == Entry(BlankLine(), 1, LabelText(notes[j].mark), Width(duration))
    ensures forall m :: 0 <= m < LINES && !OnString(notes, 5 - m) ==>
      AddNotes(NewBar(), notes, duration).value[m] == Entry(BlankLine(), 1, "", Width(duration))
  {
    AddNotesFills(notes, duration);
    forall j | 0 <= j < |notes|
      ensures AddNotes(NewBar(), notes, duration).value[5 - notes[j].str] == Entry(BlankLine(), 1, LabelText(notes[j].mark), Width(duration))
    {
      AddNotesAt(notes, duration, j);
    }
    forall m | 0 <= m < LINES && !OnString(notes, 5 - m)
      ensures AddNotes(NewBar(), notes, duration).value[m] == Entry(BlankLine(), 1, "", Width(duration))
    {
      AddNotesBlank(notes, duration, m);
    }
  }

  /** Padding notes on distinct strings keeps them on distinct strings. */
  lemma PaddedDistinct(notes: seq<TabNote>, padded: seq<TabNote>)
    requires Distinct(notes)
    requires |padded| >= |notes| && forall j :: 0 <= j < |notes| ==> padded[j] == notes[j]
    requires forall j :: |notes| <= j < |padded| ==> 0 <= padded[j].str < LINES && !OnString(notes, padded[j].str)
    requires forall j, k :: |notes| <= j < k < |padded| ==> padded[j].str < padded[k].str
    ensures Distinct(padded)
  {
    forall j | 0 <= j < |padded| ensures 0 <= padded[j].str < LINES {
      if j < |notes| {
        assert padded[j] == notes[j];
      }
    }
    forall i, j | 0 <= i < j < |padded| ensures padded[i].str != padded[j].str {
      if j < |notes| {
        assert padded[i] == notes[i] && padded[j] == notes[j];
      } else if i < |notes| {
        assert padded[i] == notes[i];
      }
    }
  }

  /** Each part followed by a newline. */
  function Lined(parts: seq<string>): string {
    if |parts| == 0 then "" else parts[0] + "\n" + Lined(parts[1..])
  }

  /** Joining with newlines and adding a final one ends every part with a
      newline. */
  lemma {:induction false} JoinLined(parts: seq<string>)
    requires |parts| >= 1
    ensures Join(parts, "\n") + "\n" == Lined(parts)
    decreases |parts|
  {
    if |parts| == 1 {
      assert Lined(parts[1..]) == "";
    } else {
      JoinLined(parts[1..]);
      assert Join(parts, "\n") + "\n" == parts[0] + "\n" + (Join(parts[1..], "\n") + "\n");
    }
  }

  lemma {:induction false} LinedAppend(a: seq<string>, b: seq<string>)
    ensures Lined(a + b) == Lined(a) + Lined(b)
    decreases |a|
  {
    if |a| == 0 {
      assert a + b == b;
    } else {
      assert (a + b)[1..] == a[1..] + b;
      LinedAppend(a[1..], b);
    }
  }

  lemma {:induction false} LinedSame(parts: seq<string>, x: string)
    requires forall i :: 0 <= i < |parts| ==> parts[i] == x
    ensures Lined(parts) == Repeat(x + "\n", |parts|)
    decreases |parts|
  {
    if |parts| > 0 {
      LinedSame(parts[1..], x);
    }
  }

  /** `repr(Bar())`: six empty lines, each ended by a newline. */
  lemma NewBarText()
    ensures BarText(NewBar()) == Repeat(BlankLine() + "\n", LINES)
  {
    JoinLined(NewBar());
    LinedSame(NewBar(), BlankLine());
  }

  /** `line[1:]`: the line without its opening character. */
  function Rest(line: string): string {
    if |line| == 0 then "" else line[1..]
  }

  /** `staff.add_bar(bar)` on the staff's lines, from line `i` on: a line the
      staff already has gains the bar's line without its opening bar; a line
      it lacks is appended whole. */
  function AddFrom(lines: seq<string>, bar: Lines, i: nat): (r: seq<string>)
    requires i <= LINES && i <= |lines|
    ensures |r| == Max(|lines|, LINES)
    ensures forall j :: 0 <= j < |r| ==>
      r[j] == if j < i || LINES <= j then lines[j]
              else if j < |lines| then lines[j] + Rest(bar[j])
              else bar[j]
    decreases LINES - i
  {
    if i == LINES then lines
    else if i < |lines| then AddFrom(lines[i := lines[i] + Rest(bar[i])], bar, i + 1)
    else AddFrom(lines + [bar[i]], bar, i + 1)
  }

  function StaffAdd(lines: seq<string>, bar: Lines): (r: seq<string>)
    ensures |r| == Max(|lines|, LINES)
    ensures forall j :: 0 <= j < |r| ==>
      r[j] == if LINES <= j then lines[j]
              else if j < |lines| then lines[j] + Rest(bar[j])
              else bar[j]
  {
    AddFrom(lines, bar, 0)
  }

  /** `Staff(bar)`: a staff of no lines, with the bar added when one is given. */
  function NewStaff(bar: Option<Lines>): seq<string> {
    match bar
    case None => []
    case Some(b) => StaffAdd([], b)
  }

  /** `repr(staff)`: the lines with spaces shown as dashes, each ended by a
      newline. */
  function StaffText(lines: seq<string>): string {
    Join(seq(|lines|, i requires 0 <= i < |lines| => SpacesToDashes(lines[i])), "\n") + "\n"
  }

  /** A staff of no lines prints as a lone newline. */
  lemma NullStaffText()
    ensures StaffText([]) == "\n"
    ensures StaffText(NewStaff(None)) == "\n"
  {
  }

  /** The staff built from `k` copies of one bar. */
  function Staffed(bar: Lines, k: nat): seq<string> {
    if k == 0 then [] else StaffAdd(Staffed(bar, k - 1), bar)
  }

  /** Six lines, each `line`. */
  predicate AllLines(lines: seq<string>, line: string) {
    |lines| == LINES && forall i :: 0 <= i < LINES ==> lines[i] == line
  }

  /** `k` bars of columns `body` glued into one line: each bar's opening
      bar and columns, then one closing bar. */
  function Run(body: string, k: nat): string {
    Repeat("|" + body, k) + "|"
  }

  lemma {:induction false} RepeatSnoc(s: string, k: nat)
    ensures Repeat(s, k) + s == Repeat(s, k + 1)
    decreases k
  {
    if k > 0 {
      RepeatSnoc(s, k - 1);
      assert Repeat(s, k) + s == s + (Repeat(s, k - 1) + s);
    }
  }

  /** Gluing one more bar onto a line of glued bars. */
  lemma RunGrows(body: string, k: nat)
    ensures Run(body, k) + Rest("|" + body + "|") == Run(body, k + 1)
  {
    assert Rest("|" + body + "|") == body + "|" by {
      assert ("|" + body + "|")[1..] == body + "|";
    }
    calc {
      Run(body, k) + (body + "|");
      Repeat("|" + body, k) + ("|" + body) + "|";
      { RepeatSnoc("|" + body, k); }
      Run(body, k + 1);
    }
  }

  /** Each glued bar adds its columns and one bar line. */
  lemma {:induction false} RunWidth(body: string, k: nat)
    requires |body| == CHARS_PER_BAR
    ensures |Run(body, k)| == (CHARS_PER_BAR + 1) * k + 1
    decreases k
  {
    if k > 0 {
      RunWidth(body, k - 1);
      assert Run(body, k) == ("|" + body) + Run(body, k - 1);
    }
  }

  /** The first bar of a staff gives it the bar's lines. */
  lemma StaffedOne(bar: Lines, body: string, k: nat)
    requires k == 1 && AllLines(bar, "|" + body + "|")
    ensures AllLines(Staffed(bar, k), Run(body, k))
  {
    var r := StaffAdd([], bar);
    assert Staffed(bar, k) == r by {
      assert Staffed(bar, k - 1) == [];
    }
    assert Run(body, k) == "|" + body + "|" by {
      assert Repeat("|" + body, k) == ("|" + body) + Repeat("|" + body, k - 1);
    }
    forall i | 0 <= i < LINES ensures r[i] == bar[i] {
    }
  }

  /** A bar whose lines are all `piece` added to a staff whose lines are all
      `line`: every line grows by the piece after its opening bar. */
  lemma StaffStep(prev: seq<string>, bar: Lines, line: string, piece: string)
    requires AllLines(prev, line) && AllLines(bar, piece)
    ensures AllLines(StaffAdd(prev, bar), line + Rest(piece))
  {
    var r := StaffAdd(prev, bar);
    forall i | 0 <= i < LINES ensures r[i] == line + Rest(piece) {
      assert r[i] == prev[i] + Rest(bar[i]);
    }
  }

  /** `k >= 1` copies of a bar whose lines are all `|body|` glued into one
      staff: six lines, each `k` times an opening bar and `body`, then a
      closing bar. */
  lemma {:induction false} StaffedLines(bar: Lines, body: string, k: nat)
    requires k >= 1 && AllLines(bar, "|" + body + "|")
    ensures AllLines(Staffed(bar, k), Run(body, k))
    decreases k, 1
  {
    if k == 1 {
      StaffedOne(bar, body, k);
    } else {
      StaffedMore(bar, body, k);
    }
  }

  lemma {:induction false} StaffedMore(bar: Lines, body: string, k: nat)
    requires k >= 2 && AllLines(bar, "|" + body + "|")
    ensures AllLines(Staffed(bar, k), Run(body, k))
    decreases k, 0
  {
    var prev := Staffed(bar, k - 1);
    StaffedLines(bar, body, k - 1);
    StaffStep(prev, bar, Run(body, k - 1), "|" + body + "|");
    RunGrows(body, k - 1);
    assert Staffed(bar, k) == StaffAdd(prev, bar);
  }

  lemma {:induction false} DashesAppend(a: string, b: string)
    ensures SpacesToDashes(a + b) == SpacesToDashes(a) + SpacesToDashes(b)
  {
    assert forall i :: 0 <= i < |a| ==> (a + b)[i] == a[i];
    assert forall i :: |a| <= i < |a| + |b| ==> (a + b)[i] == b[i - |a|];
  }

  lemma {:induction false} DashesRepeat(s: string, k: nat)
    ensures SpacesToDashes(Repeat(s, k)) == Repeat(SpacesToDashes(s), k)
    decreases k
  {
    if k > 0 {
      var d := SpacesToDashes(s);
      assert SpacesToDashes(Repeat(s, k)) == d + SpacesToDashes(Repeat(s, k - 1)) by {
        DashesAppend(s, Repeat(s, k - 1));
      }
      DashesRepeat(s, k - 1);
    }
  }

  /** A line of glued bars printed with dashes for spaces. */
  lemma DashedRun(body: string, k: nat)
    ensures SpacesToDashes(Run(body, k)) == Run(SpacesToDashes(body), k)
  {
    assert SpacesToDashes("|" + body) == "|" + SpacesToDashes(body) by {
      DashesAppend("|", body);
    }
    DashesAppend(Repeat("|" + body, k), "|");
    DashesRepeat("|" + body, k);
  }

  /** The text of six equal lines. */
  lemma StaffTextSame(lines: seq<string>, line: string)
    requires AllLines(lines, line)
    ensures StaffText(lines) == Repeat(SpacesToDashes(line) + "\n", LINES)
  {
    var dashed := seq(|lines|, i requires 0 <= i < |lines| => SpacesToDashes(lines[i]));
    JoinLined(dashed);
    LinedSame(dashed, SpacesToDashes(line));
  }

  /** The text of a staff of `k >= 1` copies of a bar whose lines are all
      `|body|`: six lines of `k` dashed bars and a closing bar. */
  lemma StaffedText(bar: Lines, body: string, k: nat)
    requires k >= 1 && AllLines(bar, "|" + body + "|")
    ensures StaffText(Staffed(bar, k)) == Repeat(Run(SpacesToDashes(body), k) + "\n", LINES)
  {
    StaffedLines(bar, body, k);
    StaffTextSame(Staffed(bar, k), Run(body, k));
    DashedRun(body, k);
  }

  /** The lines of an empty bar, and their columns printed as dashes. */
  lemma NewBarLines()
    ensures AllLines(NewBar(), "|" + Chars(' ', CHARS_PER_BAR) + "|")
    ensures SpacesToDashes(Chars(' ', CHARS_PER_BAR)) == Chars('-', CHARS_PER_BAR)
  {
  }

  /** The text of a staff of `k >= 1` empty bars: six lines of `k` dashed
      bars and a closing bar. */
  lemma BlankStaffText(k: nat)
    requires k >= 1
    ensures StaffText(Staffed(NewBar(), k)) ==
      Repeat(Repeat("|" + Chars('-', CHARS_PER_BAR), k) + "|\n", LINES)
  {
    NewBarLines();
    StaffedText(NewBar(), Chars(' ', CHARS_PER_BAR), k);
    assert Run(Chars('-', CHARS_PER_BAR), k) + "\n" == Repeat("|" + Chars('-', CHARS_PER_BAR), k) + "|\n";
  }

  /** `tab.add_bar(bar)`: the bar goes onto the last staff, or onto a new one
      when there is no staff yet or the last one's first line has reached the
      page width; a last staff with no lines raises IndexError. */
  function TabAdd(staffs: seq<seq<string>>, bar: Lines): (r: Result<seq<seq<string>>>)
    ensures r.Failure? <==> |staffs| > 0 && |staffs[|staffs| - 1]| == 0
    ensures r.Failure? ==> r.error == IndexError
    ensures r.Success? ==> |r.value| >= 1 && |staffs| <= |r.value| <= |staffs| + 1
    ensures r.Success? ==>
      (|r.value| == |staffs| + 1 <==> |staffs| == 0 || |staffs[|staffs| - 1][0]| >= MAX_WIDTH)
    ensures r.Success? ==> forall i :: 0 <= i < |staffs| - 1 ==> r.value[i] == staffs[i]
    ensures r.Success? ==>
      if |staffs| == 0 || |staffs[|staffs| - 1][0]| >= MAX_WIDTH then
        r.value[|r.value| - 1] == StaffAdd([], bar) &&
        (|staffs| > 0 ==> r.value[|staffs| - 1] == staffs[|staffs| - 1])
      else
        r.value[|r.value| - 1] == StaffAdd(staffs[|staffs| - 1], bar)
  {
    if |staffs| == 0 then Success([StaffAdd([], bar)])
    else
      var last := staffs[|staffs| - 1];
      if |last| == 0 then Failure(IndexError)
      else if |last[0]| >= MAX_WIDTH then Success(staffs + [StaffAdd([], bar)])
      else Success(staffs[..|staffs| - 1] + [StaffAdd(last, bar)])
  }


  /** `repr(tab)`: the staffs' texts joined by newlines, with a final one. */
  function TabText(staffs: seq<seq<string>>): string {
    Join(StaffTexts(staffs), "\n") + "\n"
  }

  /** The text of each staff. */
  function StaffTexts(staffs: seq<seq<string>>): seq<string> {
    seq(|staffs|, i requires 0 <= i < |staffs| => StaffText(staffs[i]))
  }

  lemma StaffTextsAppend(a: seq<seq<string>>, b: seq<seq<string>>)
    ensures StaffTexts(a + b) == StaffTexts(a) + StaffTexts(b)
  {
    assert forall i :: 0 <= i < |a| ==> (a + b)[i] == a[i];
    assert forall i :: |a| <= i < |a| + |b| ==> (a + b)[i] == b[i - |a|];
  }

  /** The tab built from `k` copies of one bar. */
  function TabOf(bar: Lines, k: nat): Result<seq<seq<string>>> {
    if k == 0 then Success([])
    else
      var staffs :- TabOf(bar, k - 1);
      TabAdd(staffs, bar)
  }

  /** `n` staffs of two copies of the bar each. */
  function Twos(bar: Lines, n: nat): (r: seq<seq<string>>)
    ensures |r| == n
  {
    if n == 0 then [] else Twos(bar, n - 1) + [Staffed(bar, 2)]
  }

  /** Every staff of `Twos` holds two copies of the bar. */
  lemma {:induction false} TwoAt(bar: Lines, n: nat, i: nat)
    requires i < n
    ensures Twos(bar, n)[i] == Staffed(bar, 2)
    decreases n
  {
    var two := Staffed(bar, 2);
    var prev := Twos(bar, n - 1);
    assert Twos(bar, n) == prev + [two];
    if i < n - 1 {
      TwoAt(bar, n - 1, i);
      assert (prev + [two])[i] == prev[i];
    }
  }

  /** A bar of 32 columns, every line `|body|`. */
  predicate Even(bar: Lines, body: string) {
    |body| == CHARS_PER_BAR && AllLines(bar, "|" + body + "|")
  }

  /** A bar after full two-bar staffs starts a new staff. */
  lemma TabAfterTwos(bar: Lines, body: string, n: nat)
    requires Even(bar, body)
    ensures TabAdd(Twos(bar, n), bar) == Success(Twos(bar, n) + [Staffed(bar, 1)])
  {
    assert Staffed(bar, 1) == StaffAdd([], bar);
    if n > 0 {
      StaffedLines(bar, body, 2);
      RunWidth(body, 2);
      TwoAt(bar, n, n - 1);
    } else {
      assert Twos(bar, n) + [Staffed(bar, 1)] == [StaffAdd([], bar)];
    }
  }

  /** A bar after a one-bar staff joins it. */
  lemma TabAfterOne(bar: Lines, body: string, n: nat)
    requires Even(bar, body)
    ensures TabAdd(Twos(bar, n) + [Staffed(bar, 1)], bar) == Success(Twos(bar, n + 1))
  {
    StaffedLines(bar, body, 1);
    RunWidth(body, 1);
    var staffs := Twos(bar, n) + [Staffed(bar, 1)];
    assert staffs[|staffs| - 1] == Staffed(bar, 1);
    assert staffs[..|staffs| - 1] == Twos(bar, n);
    assert Staffed(bar, 2) == StaffAdd(Staffed(bar, 1), bar);
  }

  /** `2h` bars fill `h` staffs of two bars. */
  lemma {:induction false} TabOfEven(bar: Lines, body: string, h: nat)
    requires Even(bar, body)
    ensures TabOf(bar, 2 * h) == Success(Twos(bar, h))
    decreases h, 0
  {
    if h > 0 {
      var g := h - 1;
      TabOfOdd(bar, body, g);
      TabAfterOne(bar, body, g);
      TabOfStep(bar, 2 * g + 1, Twos(bar, g) + [Staffed(bar, 1)], Twos(bar, g + 1));
      assert 2 * g + 1 + 1 == 2 * h && g + 1 == h;
    }
  }

  /** One bar more than `2h` starts a staff of its own. */
  lemma {:induction false} TabOfOdd(bar: Lines, body: string, h: nat)
    requires Even(bar, body)
    ensures TabOf(bar, 2 * h + 1) == Success(Twos(bar, h) + [Staffed(bar, 1)])
    decreases h, 1
  {
    TabOfEven(bar, body, h);
    TabAfterTwos(bar, body, h);
    TabOfStep(bar, 2 * h, Twos(bar, h), Twos(bar, h) + [Staffed(bar, 1)]);
  }

  /** One more bar on a tab built without error. */
  lemma TabOfStep(bar: Lines, k: nat, prev: seq<seq<string>>, next: seq<seq<string>>)
    requires TabOf(bar, k) == Success(prev) && TabAdd(prev, bar) == Success(next)
    ensures TabOf(bar, k + 1) == Success(next)
  {
  }

  /** Each staff's text followed by an empty line. */
  lemma TabTextLined(staffs: seq<seq<string>>)
    requires |staffs| >= 1
    ensures TabText(staffs) == Lined(StaffTexts(staffs))
  {
    JoinLined(StaffTexts(staffs));
  }

  /** The texts of `h` two-bar staffs. */
  lemma TwosText(bar: Lines, body: string, h: nat)
    requires Even(bar, body)
    ensures Lined(StaffTexts(Twos(bar, h))) ==
      Repeat(Repeat(Run(SpacesToDashes(body), 2) + "\n", LINES) + "\n", h)
  {
    var texts := StaffTexts(Twos(bar, h));
    var t := StaffText(Staffed(bar, 2));
    forall i | 0 <= i < |texts| ensures texts[i] == t {
      TwoAt(bar, h, i);
    }
    LinedSame(texts, t);
    StaffedText(bar, body, 2);
  }

  /** The text of `h >= 1` two-bar staffs: each staff followed by an empty
      line. */
  lemma TwosTabText(bar: Lines, body: string, h: nat)
    requires Even(bar, body) && h >= 1
    ensures TabText(Twos(bar, h)) ==
      Repeat(Repeat(Run(SpacesToDashes(body), 2) + "\n", LINES) + "\n", h)
  {
    TwosText(bar, body, h);
    TabTextLined(Twos(bar, h));
  }

  /** The text of a one-bar staff followed by an empty line. */
  lemma OneText(bar: Lines, body: string)
    requires Even(bar, body)
    ensures Lined(StaffTexts([Staffed(bar, 1)])) ==
      Repeat(Run(SpacesToDashes(body), 1) + "\n", LINES) + "\n"
  {
    StaffedText(bar, body, 1);
    var texts := StaffTexts([Staffed(bar, 1)]);
    assert texts[1..] == [];
  }

  /** The text of `h` two-bar staffs and a one-bar staff after them. */
  lemma TwosOneTabText(bar: Lines, body: string, h: nat)
    requires Even(bar, body)
    ensures TabText(Twos(bar, h) + [Staffed(bar, 1)]) ==
      Repeat(Repeat(Run(SpacesToDashes(body), 2) + "\n", LINES) + "\n", h) +
      Repeat(Run(SpacesToDashes(body), 1) + "\n", LINES) + "\n"
  {
    var twos := Twos(bar, h);
    var one := [Staffed(bar, 1)];
    TabTextLined(twos + one);
    StaffTextsAppend(twos, one);
    LinedAppend(StaffTexts(twos), StaffTexts(one));
    TwosText(bar, body, h);
    OneText(bar, body);
  }

  /** The text of a tab of `2h` or `2h + 1` bars of 32 columns `body`: a
      two-bar staff for each pair, then a one-bar staff for the odd bar, each
      staff followed by an empty line. */
  lemma TabOfText(bar: Lines, body: string, h: nat)
    requires Even(bar, body)
    ensures TabOf(bar, 2 * h).Success? && TabOf(bar, 2 * h + 1).Success?
    ensures h >= 1 ==> (TabText(TabOf(bar, 2 * h).value) ==
      Repeat(Repeat(Run(SpacesToDashes(body), 2) + "\n", LINES) + "\n", h))
    ensures TabText(TabOf(bar, 2 * h + 1).value) ==
      Repeat(Repeat(Run(SpacesToDashes(body), 2) + "\n", LINES) + "\n", h) +
      Repeat(Run(SpacesToDashes(body), 1) + "\n", LINES) + "\n"
  {
    TabOfEven(bar, body, h);
    TabOfOdd(bar, body, h);
    if h >= 1 {
      TwosTabText(bar, body, h);
    }
    TwosOneTabText(bar, body, h);
  }

  /** The text of a tab of `2h` or `2h + 1` empty bars. */
  lemma BlankTabText(h: nat)
    ensures TabOf(NewBar(), 2 * h).Success? && TabOf(NewBar(), 2 * h + 1).Success?
    ensures h >= 1 ==> (TabText(TabOf(NewBar(), 2 * h).value) ==
      Repeat(Repeat(Run(Chars('-', CHARS_PER_BAR), 2) + "\n", LINES) + "\n", h))
    ensures TabText(TabOf(NewBar(), 2 * h + 1).value) ==
      Repeat(Repeat(Run(Chars('-', CHARS_PER_BAR), 2) + "\n", LINES) + "\n", h) +
      Repeat(Run(Chars('-', CHARS_PER_BAR), 1) + "\n", LINES) + "\n"
  {
    NewBarLines();
    TabOfText(NewBar(), Chars(' ', CHARS_PER_BAR), h);
  }

  // ---------------------------------------------------------------------
  // Any bars of full width

  /** A bar every line of which is 32 columns between two bar lines. */
  predicate Wide(bar: Lines) {
    forall i :: 0 <= i < LINES ==> |bar[i]| == CHARS_PER_BAR + 2
  }

  /** The staff the bars are added to in turn. */
  function StaffOf(bars: seq<Lines>): seq<string>
    decreases |bars|
  {
    if |bars| == 0 then [] else StaffAdd(StaffOf(bars[..|bars| - 1]), bars[|bars| - 1])
  }

  /** `k >= 1` bars of full width make six lines of `33k + 1` characters: each
      bar adds its columns and one bar line. */
  lemma {:induction false} StaffOfWidth(bars: seq<Lines>)
    requires |bars| >= 1 && forall b :: b in bars ==> Wide(b)
    ensures |StaffOf(bars)| == LINES
    ensures forall i :: 0 <= i < LINES ==> |StaffOf(bars)[i]| == (CHARS_PER_BAR + 1) * |bars| + 1
    decreases |bars|
  {
    var n := |bars|;
    var last := bars[n - 1];
    var prev := bars[..n - 1];
    assert last in bars;
    var r := StaffOf(bars);
    assert r == StaffAdd(StaffOf(prev), last);
    if n == 1 {
      assert StaffOf(prev) == [];
    } else {
      forall b | b in prev ensures Wide(b) {
        assert b in bars;
      }
      StaffOfWidth(prev);
      forall i | 0 <= i < LINES
        ensures |r[i]| == (CHARS_PER_BAR + 1) * n + 1
      {
        assert r[i] == StaffOf(prev)[i] + Rest(last[i]);
      }
    }
  }

  /** The tab the bars are added to in turn. */
  function TabOfBars(bars: seq<Lines>): Result<seq<seq<string>>>
    decreases |bars|
  {
    if |bars| == 0 then Success([])
    else
      var staffs :- TabOfBars(bars[..|bars| - 1]);
      TabAdd(staffs, bars[|bars| - 1])
  }

  /** `staffs` lays the bars out two to a staff, in order, the last staff
      holding one bar when their number is odd; `staff` makes a staff of its
      bars. */
  predicate Laid<T, S(==)>(staff: seq<T> -> S, bars: seq<T>, staffs: seq<S>) {
    |bars| <= 2 * |staffs| <= |bars| + 1 &&
    forall j :: 0 <= j < |staffs| ==> staffs[j] == staff(bars[2 * j..Min(2 * j + 2, |bars|)])
  }

  /** Bars of full width, added to a tab one by one, sit two to a staff, so
      `k` bars make `(k + 1) / 2` staffs: two bars make a line of 67
      characters, which reaches the page width, while one makes 34, which
      does not. */
  lemma {:induction false} TabOfBarsLaid(bars: seq<Lines>)
    requires forall b :: b in bars ==> Wide(b)
    ensures TabOfBars(bars).Success? && Laid(StaffOf, bars, TabOfBars(bars).value)
    decreases |bars|
  {
    var n := |bars|;
    if n > 0 {
      var prev := bars[..n - 1];
      forall b | b in prev ensures Wide(b) {
        assert b in bars;
      }
      TabOfBarsLaid(prev);
      var staffs := TabOfBars(prev).value;
      assert TabOfBars(bars) == TabAdd(staffs, bars[n - 1]);
      if n - 1 == 2 * |staffs| {
        OpensStaff(bars, staffs);
        LaidOpens(StaffOf, bars, staffs);
      } else {
        JoinsStaff(bars, staffs);
        LaidJoins(StaffOf, bars, staffs);
      }
    }
  }

  /** A slice of a prefix is the same slice of the whole. */
  lemma PrefixSlice<T>(s: seq<T>, m: nat, a: nat, b: nat)
    requires a <= b <= m <= |s|
    ensures s[..m][a..b] == s[a..b]
  {
  }

  /** A full pair laid out before the last bar stays where it is. */
  lemma LaidPair<T, S>(staff: seq<T> -> S, bars: seq<T>, staffs: seq<S>, j: nat)
    requires |bars| >= 1 && Laid(staff, bars[..|bars| - 1], staffs) && 2 * j + 2 < |bars|
    ensures j < |staffs| && staffs[j] == staff(bars[2 * j..2 * j + 2])
  {
    var prev := bars[..|bars| - 1];
    assert Min(2 * j + 2, |prev|) == 2 * j + 2;
    assert j < |staffs|;
    assert staffs[j] == staff(prev[2 * j..2 * j + 2]);
    PrefixSlice(bars, |prev|, 2 * j, 2 * j + 2);
  }

  /** The last staff's bars run to the end. */
  lemma LastSlice<T>(bars: seq<T>, j: nat, lo: nat)
    requires lo == 2 * j && |bars| - 2 <= lo < |bars|
    ensures bars[2 * j..Min(2 * j + 2, |bars|)] == bars[lo..]
  {
  }

  /** After an even number of bars a bar laid on a staff of its own keeps the
      layout. */
  lemma LaidOpens<T, S>(staff: seq<T> -> S, bars: seq<T>, staffs: seq<S>)
    requires |bars| >= 1 && Laid(staff, bars[..|bars| - 1], staffs) && |bars| - 1 == 2 * |staffs|
    ensures Laid(staff, bars, staffs + [staff(bars[|bars| - 1..])])
  {
    var n := |bars|;
    var r := staffs + [staff(bars[n - 1..])];
    forall j | 0 <= j < |r| ensures r[j] == staff(bars[2 * j..Min(2 * j + 2, n)]) {
      if j < |staffs| {
        LaidPair(staff, bars, staffs, j);
      } else {
        LastSlice(bars, j, n - 1);
      }
    }
  }

  /** After an odd number of bars a bar laid on the last staff, with the bar
      before it, keeps the layout. */
  lemma LaidJoins<T, S>(staff: seq<T> -> S, bars: seq<T>, staffs: seq<S>)
    requires |bars| >= 2 && Laid(staff, bars[..|bars| - 1], staffs) && |bars| == 2 * |staffs|
    ensures Laid(staff, bars, staffs[..|staffs| - 1] + [staff(bars[|bars| - 2..])])
  {
    var n := |bars|;
    var k := |staffs| - 1;
    var r := staffs[..k] + [staff(bars[n - 2..])];
    forall j | 0 <= j < |r| ensures r[j] == staff(bars[2 * j..Min(2 * j + 2, n)]) {
      if j < k {
        LaidPair(staff, bars, staffs, j);
      } else {
        LastSlice(bars, j, n - 2);
      }
    }
  }

  /** After an even number of bars the last staff is full, so the next bar
      opens a staff of its own. */
  lemma OpensStaff(bars: seq<Lines>, staffs: seq<seq<string>>)
    requires |bars| >= 1 && forall b :: b in bars ==> Wide(b)
    requires Laid(StaffOf, bars[..|bars| - 1], staffs) && |bars| - 1 == 2 * |staffs|
    ensures TabAdd(staffs, bars[|bars| - 1]) == Success(staffs + [StaffOf(bars[|bars| - 1..])])
  {
    var n := |bars|;
    var last := bars[n - 1];
    OneBarStaff(bars[n - 1..]);
    if |staffs| > 0 {
      LastStaffFull(bars, staffs);
    } else {
      assert staffs + [StaffAdd([], last)] == [StaffAdd([], last)];
    }
  }

  /** One bar makes the staff it opens. */
  lemma OneBarStaff(bars: seq<Lines>)
    requires |bars| == 1
    ensures StaffOf(bars) == StaffAdd([], bars[0])
  {
    assert bars[..0] == [];
  }

  /** Two full-width bars fill a staff to the page width. */
  lemma LastStaffFull(bars: seq<Lines>, staffs: seq<seq<string>>)
    requires |bars| >= 1 && forall b :: b in bars ==> Wide(b)
    requires Laid(StaffOf, bars[..|bars| - 1], staffs) && |bars| - 1 == 2 * |staffs| && |staffs| > 0
    ensures |staffs[|staffs| - 1]| == LINES && |staffs[|staffs| - 1][0]| == MAX_WIDTH
  {
    var prev := bars[..|bars| - 1];
    var k := |staffs| - 1;
    var pair := prev[2 * k..2 * k + 2];
    assert staffs[k] == StaffOf(pair);
    forall b | b in pair ensures Wide(b) {
      assert b in bars;
    }
    StaffOfWidth(pair);
  }

  /** After an odd number of bars the last staff holds one bar, 34
      characters wide, so the next bar joins it. */
  lemma JoinsStaff(bars: seq<Lines>, staffs: seq<seq<string>>)
    requires |bars| >= 2 && forall b :: b in bars ==> Wide(b)
    requires Laid(StaffOf, bars[..|bars| - 1], staffs) && |bars| == 2 * |staffs|
    ensures TabAdd(staffs, bars[|bars| - 1]) ==
      Success(staffs[..|staffs| - 1] + [StaffOf(bars[|bars| - 2..])])
  {
    var n := |bars|;
    LastStaffHalf(bars, staffs);
    TwoBarStaff(bars[n - 2..]);
  }

  /** Two bars make the staff of the first with the second added. */
  lemma TwoBarStaff(bars: seq<Lines>)
    requires |bars| == 2
    ensures StaffOf(bars) == StaffAdd(StaffOf(bars[..1]), bars[1])
  {
  }

  /** One full-width bar leaves a staff short of the page width. */
  lemma LastStaffHalf(bars: seq<Lines>, staffs: seq<seq<string>>)
    requires |bars| >= 2 && forall b :: b in bars ==> Wide(b)
    requires Laid(StaffOf, bars[..|bars| - 1], staffs) && |bars| == 2 * |staffs|
    ensures staffs[|staffs| - 1] == StaffOf(bars[|bars| - 2..][..1])
    ensures |staffs[|staffs| - 1]| == LINES && |staffs[|staffs| - 1][0]| == CHARS_PER_BAR + 2
  {
    var n := |bars|;
    var k := |staffs| - 1;
    var one := bars[..n - 1][2 * k..n - 1];
    assert staffs[k] == StaffOf(one);
    assert one == bars[n - 2..][..1] == [bars[n - 2]];
    assert bars[n - 2] in bars;
    StaffOfWidth(one);
  }


  /** A tab of full-width bars: staff `j` exists while `2j` is a bar, and
      its six lines are 67 characters wide, but 34 on the last staff of an
      odd number of bars. */
  lemma TabOfBarsWidth(bars: seq<Lines>, j: nat, i: nat)
    requires forall b :: b in bars ==> Wide(b)
    requires 2 * j < |bars| && i < LINES
    ensures TabOfBars(bars).Success? && j < |TabOfBars(bars).value|
    ensures |TabOfBars(bars).value[j]| == LINES
    ensures |TabOfBars(bars).value[j][i]| == if 2 * j + 1 == |bars| then CHARS_PER_BAR + 2 else 2 * CHARS_PER_BAR + 3
  {
    TabOfBarsLaid(bars);
    var staffs := TabOfBars(bars).value;
    var part := bars[2 * j..Min(2 * j + 2, |bars|)];
    assert staffs[j] == StaffOf(part);
    assert |part| == if 2 * j + 1 == |bars| then 1 else 2;
    forall b | b in part ensures Wide(b) {
      assert b in bars;
    }
    ShortStaffWidth(part, i);
  }

  /** One full-width bar makes lines of 34 characters, two make 67. */
  lemma ShortStaffWidth(part: seq<Lines>, i: nat)
    requires 1 <= |part| <= 2 && forall b :: b in part ==> Wide(b)
    requires i < LINES
    ensures |StaffOf(part)| == LINES
    ensures |StaffOf(part)[i]| == if |part| == 1 then CHARS_PER_BAR + 2 else 2 * CHARS_PER_BAR + 3
  {
    StaffOfWidth(part);
  }

}

=== FILE: text.dfy ===
/** Character and string helpers: decimal rendering of integers (`str(n)`),
    ASCII case mapping, single-digit parsing (`int(c)`), repetition and
    joining. Only ASCII is modelled.
 */
module Text {

  import opened Base

  predicate IsDigit(c: char) {
    '0' <= c <= '9'
  }

  /** `int(c)` for a one-character string that is a decimal digit. */
  function DigitValue(c: char): (d: int)
    requires IsDigit(c)
    ensures 0 <= d < 10
  {
    c as int - '0' as int
  }

  function DigitChar(d: int): (c: char)
    requires 0 <= d < 10
    ensures IsDigit(c) && DigitValue(c) == d
  {
    (d + '0' as int) as char
  }

  /** Decimal digits of a natural number, most significant first. */
  function NatToString(n: nat): (s: string)
    ensures |s| >= 1
    ensures forall i :: 0 <= i < |s| ==> IsDigit(s[i])
    ensures s[|s| - 1] == DigitChar(n % 10)
    ensures |s| == 1 <==> n < 10
  {
    if n < 10 then [DigitChar(n)] else NatToString(n / 10) + [DigitChar(n % 10)]
  }

  /** `str(n)` for an integer: a minus sign before the digits of a negative value. */
  function IntToString(n: int): (s: string)
    ensures |s| >= 1
    ensures IsDigit(s[|s| - 1]) && DigitValue(s[|s| - 1]) == Abs(n) % 10
    ensures |s| == 1 <==> 0 <= n < 10
    ensures s[0] == '-' || IsDigit(s[0])
    ensures ' ' !in s
  {
    if n < 0 then "-" + NatToString(-n) else NatToString(n)
  }

  function ToUpper(c: char): char {
    if 'a' <= c <= 'z' then (c as int - 32) as char else c
  }

  function ToLower(c: char): char {
    if 'A' <= c <= 'Z' then (c as int + 32) as char else c
  }

  /** `s.upper()` */
  function UpperAll(s: string): (r: string)
    ensures |r| == |s|
    ensures forall i :: 0 <= i < |s| ==> r[i] == ToUpper(s[i])
  {
    if s == [] then [] else [ToUpper(s[0])] + UpperAll(s[1..])
  }

  /** `c * k` for a single character `c`. */
  function Chars(c: char, k: nat): (r: string)
    ensures |r| == k
    ensures forall i :: 0 <= i < k ==> r[i] == c
  {
    if k == 0 then [] else [c] + Chars(c, k - 1)
  }

  /** `s * k` */
  function Repeat(s: string, k: nat): string {
    if k == 0 then [] else s + Repeat(s, k - 1)
  }

  /** `sep.join(parts)` */
  function Join(parts: seq<string>, sep: string): string {
    if |parts| == 0 then []
    else if |parts| == 1 then parts[0]
    else parts[0] + sep + Join(parts[1..], sep)
  }

  /** `s.replace(' ', '-')` */
  function SpacesToDashes(s: string): (r: string)
    ensures |r| == |s|
    ensures forall i :: 0 <= i < |s| ==> r[i] == (if s[i] == ' ' then '-' else s[i])
  {
    if s == [] then [] else [if s[0] == ' ' then '-' else s[0]] + SpacesToDashes(s[1..])
  }
}
